=== FILE: README.md ===
# nxc core in Dafny

A verified model of the core of `nxc`, a compiler for a small block language
with inline x86 assembly. The model covers these parts of the compiler:

- **Source text.** The lexer checks that the input is ASCII, normalises line
  endings, and saves and restores its state for backtracking (`try`, `look`).
- **Token tree.** Tokens record where they start and end. The model covers
  whitespace, comments, empty statements, regular blocks and whole programs,
  with their tokenizers and their renderings as text.
- **Two assembler grammars.** The first covers instructions, operations,
  labels and operands (`AssemblerArgument`). The second covers the statements
  of `asm` blocks (`AssemblerStatement`). Bracket expressions in both are
  turned into a base/index/scale/displacement record by `compileSib` and
  rendered back by `stringifySib`.
- **Scheme selection** against the static x86 mnemonic table.
- **Block layout.** One pass over an `asm` block records each label at its
  byte offset and queues patch callbacks. The callbacks run once the whole
  block is laid out, and the output is the chunks concatenated.
- **Binary output.** The ELF32 header is written through a little-endian
  cursor and the 16- and 32-bit boxed-offset writers. The integer-width table
  gives the ranges.
- **Utilities.** The option scan of `parseArgv`, and the logger's level
  filtering and `%`-directive substitution.

**Form of the model.** Each part follows the form of its source:

- Objects whose fields change are classes with `modifies` frames: the lexer,
  tokens, the cursor and writers, the ELF file, the whitespace/comment
  collection, and the logger and its sink.
- Loops are methods with invariants. Each is proved equal to a reference
  function, or proved to meet the property the source promises.
- Pure renderings, tables and selections are functions, with lemmas about
  them.

**Parse results.** A parser that can fail returns `Parsed<T>`: `NoMatch`,
`Match(value)` or `Fail(error)`. A `Fail` is not rolled back, because a `try`
in the source does not catch a throw.

**Abstract recognisers.** The lexer primitives whose rules live outside the
shown files are abstract `Matcher`s in a `Syntax` record the lexer carries:
`eatNum`, `eatDecNum`, the `eatIdentifier` variants, the spacing of
`eatSpecialCharacter` and `eatEnd`. Their only assumption is that a match
never reaches past the text. The literal primitives (`eat`, `eatOneOf`,
`eatTill`, `eatAll`, and `eatRegex` for the expressions the grammar spells
out) are modelled by their meaning.

**Encoder.** The instruction encoder `arch.toBuffer` is a parameter. It
returns the statement's chunks or the error it throws. Patch callbacks are
functions that return their chunk's bytes, of unchanged length, or the error
they throw. Either error is `InvalidLabelName` (a label missing from the
table), `InvalidLabelOffset` (a label offset the operand cannot hold) or any
other encoder error. Which operands and labels lead to which error is the
encoder's business, so that is not modelled.

In the places below, the code as written cannot run, or runs differently from
what its documentation and tests describe. The model follows the evident
intent, and each bullet says what the code actually does:

- `Lexer.move` is modelled as `move(n)`: it drops `n` characters and advances
  the position by `n`. As written (src/Lexer.js:29-31), `move()` takes no
  parameter, so reading `n` throws a `ReferenceError` on every call.
- Statements carry an optional label, which `AssemblerBlock.toBuffer` reads
  to register label offsets. As written (src/tokens/AssemblerBlock.js:49-50),
  no statement ever sets `label`: the test `statement.label !== null` is true
  for `undefined`, and `statement.label.name` then throws a `TypeError` for the
  first statement of every block.
- The operand sizes of `toBuffer` are a parameter, since the x86 `details`
  do not hold them.
- A `%r`, `%prefix` or `%message` directive applied to a string renders the
  string's first character. This is what the code does: the argument is
  destructured as an array, so a string's first character becomes the format.
- The error for a block without its `}` is an invalid token at the position
  reached. This is what the code does: it passes `{expected: '}'}` in a slot
  its error class does not use for the message.

## Model

| member | source | states |
|---|---|---|
| Types.Pow2 | src/types.js:1-47 | powers of two are positive; they give the bounds of every integer type |
| Types.Pow2Add | src/types.js:1-47 | `Pow2(a + b) == Pow2(a) * Pow2(b)`, by induction on `a` |
| Types.Pow2Values | src/types.js:1-47 | the numeric bounds written in the type table are the powers 2^7, 2^8, 2^15, 2^16, 2^31 and 2^32 |
| Types.UnsignedRanges | src/types.js:1-39 | `u8`, `u16` and `u32` run from 0 to 2^(8·size) − 1, with sizes 1, 2 and 4 |
| Types.SignedRanges | src/types.js:9-47 | `i8`, `i16` and `i32` run from −2^(8·size−1) to 2^(8·size−1) − 1, with sizes 1, 2 and 4 |
| Types.SameSizeSameSpan | src/types.js:1-47 | each signed type has the size of its unsigned partner, and both cover exactly 2^(8·size) values |
| Types.Nested | src/types.js:49-51 | `is` is monotone in width: a `u8` value is a `u16` value, which is a `u32` value, and likewise for the signed types |
| Types.IsMatchesBitWidth | src/types.js:49-51 | `is(v)` holds exactly when `v` fits the type's bit width, for both signed and unsigned types |
| LittleEndian.Zeros | src/Elf.js:25 | `Buffer.alloc(size, 0)`: `n` bytes, all zero |
| LittleEndian.Encode | src/utils/bufferCursor.js:10-19 | the `width` little-endian bytes of a value; the first byte is the value mod 256 |
| LittleEndian.DecodeBound | src/utils/bufferCursor.js:10-19 | decoding `n` bytes gives a value below 2^(8n) |
| LittleEndian.DecodeEncode | src/utils/bufferCursor.js:10-19 | encoding a value that fits, then decoding it, gives the value back |
| LittleEndian.EncodeDecode | src/utils/bufferCursor.js:10-19 | decoding bytes, then encoding the result at the same width, gives the bytes back |
| LittleEndian.Encode16Bytes | src/utils/bufferCursor.js:10-14 | `writeUInt16LE` writes the low byte, then the high byte |
| LittleEndian.Encode32Bytes | src/utils/bufferCursor.js:15-19 | `writeUInt32LE` writes the four bytes from least to most significant |
| LittleEndian.Write | src/utils/bufferCursor.js:5-19 | a write at an offset keeps the buffer length, puts the bytes at the offset and leaves every other byte alone |
| LittleEndian.AdjacentWrites | src/utils/bufferCursor.js:5-19 | two writes side by side equal one write of the two byte strings joined |
| BufferCursor.Cursor.constructor | src/utils/bufferCursor.js:1-4 | the cursor wraps the given buffer at offset 0 |
| BufferCursor.Cursor.U8 | src/utils/bufferCursor.js:5-9 | writes one byte at the offset, moves the offset by 1 and returns the same cursor |
| BufferCursor.Cursor.U16 | src/utils/bufferCursor.js:10-14 | writes two little-endian bytes at the offset, moves the offset by 2 and returns the same cursor |
| BufferCursor.Cursor.U32 | src/utils/bufferCursor.js:15-19 | writes four little-endian bytes at the offset, moves the offset by 4 and returns the same cursor |
| BufferCursor.Cursor.Move | src/utils/bufferCursor.js:20-23 | sets the offset and returns the same cursor |
| U16b.U16Writer.constructor | src/utils/u16b.js:1-2 | the writer closes over the given buffer and the one-slot offset array |
| U16b.U16Writer.Call | src/utils/u16b.js:2-6 | writes the value as 2 little-endian bytes at `off[0]`, advances `off[0]` by 2 and leaves the rest of `off` alone |
| U32b.U32Writer.constructor | src/utils/u32b.js:1-2 | the writer closes over the given buffer and the one-slot offset array |
| U32b.U32Writer.Call | src/utils/u32b.js:2-6 | writes the value as 4 little-endian bytes at `off[0]`, advances `off[0]` by 4 and leaves the rest of `off` alone |
| Elf.TotalLength | src/Elf.js:14 | the code size of no buffers is 0 |
| Elf.Concat | src/Elf.js:16 | the concatenation is as long as the summed code size |
| Elf.ConcatPush | src/Elf.js:9-17 | pushing a buffer appends it to the concatenation and adds its length to the code size |
| Elf.AppendWrite | src/Elf.js:25-59 | writing a field right after an already laid-out prefix of a zeroed buffer extends the prefix |
| Elf.SkipZeros | src/Elf.js:36 | skipping forward over zero bytes keeps the layout |
| Elf.LayU8 | src/Elf.js:28-34 | one `u8` on a laid-out buffer appends the byte to the layout |
| Elf.LayU16 | src/Elf.js:37-49 | one `u16` on a laid-out buffer appends its two little-endian bytes |
| Elf.LayU32 | src/Elf.js:39-43 | one `u32` on a laid-out buffer appends its four little-endian bytes |
| Elf.Skip | src/Elf.js:36 | a forward `move` over still-zero bytes makes them part of the layout |
| Elf.WriteIdent | src/Elf.js:28-34 | the identification bytes: 0x7f `ELF`, ELFCLASS32, little-endian, version 1 |
| Elf.WriteFileHeader | src/Elf.js:36-49 | the ELF header fields from offset 0x10, in order and with the widths and constants of the source |
| Elf.WriteProgramHeader | src/Elf.js:51-59 | the single PT_LOAD program header at 0x40: offset 0, addresses `entry`, file and memory size, flags r+x, alignment 0x1000 |
| Elf.FileHeader | src/Elf.js:28-49 | the 52-byte ELF header: it opens with the identification bytes and holds `entry`, little-endian, at e_entry (offset 0x18) |
| Elf.ProgramHeader | src/Elf.js:51-59 | the 32-byte program header: p_offset (offset 4) is 0 and p_filesz (offset 0x14) is the file size |
| Elf.Header | src/Elf.js:19-62 | the whole header is 0x60 bytes and opens with the magic 0x7f `E` `L` `F` |
| Elf.HeaderFields | src/Elf.js:40-56 | the fields a loader reads: e_entry is the load address just past the header, p_offset is 0, and p_filesz is header plus code |
| Elf.ImageLayout | src/Elf.js:13-17 | the image opens with the ELF magic, its code starts at 0x60 and is the pushed buffers in order, and its p_filesz is its own length |
| Elf.ElfFile.constructor | src/Elf.js:4-7 | a new writer holds no buffers |
| Elf.ElfFile.Push | src/Elf.js:9-11 | appends the buffer to the list |
| Elf.ElfFile.ToBuffer | src/Elf.js:13-17 | the header for the summed code size followed by the buffers in push order (laid out as `ImageLayout` states); fails when the file size does not fit in 32 bits |
| Elf.ElfFile.GetHeader | src/Elf.js:19-62 | the header equal to the reference layout `Header(codeSize)`: 0x60 bytes opening with the ELF magic, with the fields `HeaderFields` states; fails when `p_filesz` does not fit in 32 bits |
| Lexing.Validate | src/Lexer.js:50-57 | succeeds exactly when every byte is at most 0x7f; otherwise it reports the first byte above 0x7f and its index |
| Lexing.AsciiText | src/Lexer.js:6 | `buffer.toString()` on ASCII input: one character per byte, with the same code |
| Lexing.SplitCr | src/Lexer.js:60 | `split('\r')` gives at least one piece, and the first piece starts where the text does |
| Lexing.SplitCrJoins | src/Lexer.js:60 | joining the pieces with CR rebuilds the text, and no piece contains a CR |
| Lexing.ReplaceCrLfNormalizes | src/Lexer.js:59-67 | the split/map/join code equals character-level newline normalisation (CR LF and lone CR both become LF) |
| Lexing.ReplaceCrStep | src/Lexer.js:59-67 | a leading CR is dropped and turns into a newline unless a newline follows it, as in newline normalisation |
| Lexing.ReplaceCharStep | src/Lexer.js:59-67 | any other leading character stays in front, as in newline normalisation |
| Lexing.NormalizedHasNoCr | src/Lexer.js:59-67 | no CR survives normalisation |
| Lexing.NormalizeWithoutCr | src/Lexer.js:59-67 | text without CR is left unchanged |
| Lexing.ReplaceCrLfProperties | src/Lexer.js:59-67 | `replaceCrLf` removes every CR, is the identity on CR-free text, and is idempotent |
| Lexing.ReplaceCrLfExample | tests/Lexer.test.js:7 | test mirror: the mixed line endings `1\n2\r\n3\r4` become `1\n2\n3\n4` |
| Lexing.NormalizeCons | src/Lexer.js:59-67 | newline normalisation of a character in front of a text: CR LF becomes LF, a lone CR becomes LF, anything else stays |
| Lexing.Lexer.constructor | src/Lexer.js:4-11 | content is the normalised text, position is 0, and the backup is the content |
| Lexing.Lexer.GetState | src/Lexer.js:13-17 | the snapshot holds the current content and position; from a valid lexer it is a suffix of the backup at that position |
| Lexing.Lexer.Revert | src/Lexer.js:18-21 | restores both content and position from the snapshot |
| Lexing.Lexer.IsEndOfFile | src/Lexer.js:25-27 | true exactly when no content is left, which for a valid lexer means the position is at the end of the text |
| Lexing.Lexer.Move | src/Lexer.js:29-32 | drops `n` characters of content (or all that are left) and adds `n` to the position |
| Lexing.Lexer.Try | src/Lexer.js:34-41 | a successful attempt keeps what it consumed; a failed one leaves content and position exactly as they were |
| Lexing.Lexer.Look | src/Lexer.js:43-48 | returns the peek's result and always restores content and position |
| Lexing.Lexer.Eat | src/tokens/Comment.js:21 | consumes the literal exactly when the remaining text starts with it; otherwise nothing moves |
| Lexing.Lexer.EatOneOf | src/tokens/AssemblerOperation.js:27 | returns the first literal, in the given order, that the text starts with, and consumes it; without one, nothing moves |
| Lexing.Lexer.EatTill | src/tokens/Comment.js:25 | returns the text before the first occurrence of the delimiter and leaves the delimiter unconsumed; without one, nothing moves |
| Lexing.Lexer.EatAll | src/tokens/Comment.js:26 | returns the whole rest of the text and reaches the end of the file |
| Lexing.Lexer.EatMatch | src/tokens/Whitespace.js:13-15 | returns the prefix the recogniser accepts and consumes it; a zero-length match returns nothing and moves nothing |
| Lexing.Open | src/Lexer.js:4-11 | `new Lexer(buffer)` fails exactly when some byte is above 0x7f, and then with the first such byte and its index (src/Lexer.js:50-54); otherwise it gives a fresh, valid lexer at position 0 over the normalised ASCII text |
| LexerRules.Wcc | src/tokens/AssemblerInstruction.js:12-16 | skips all whitespace and comments: the skipped text is a sequence of whitespace runs and comments; the collection is empty exactly when nothing was skipped, holds a newline exactly when the skipped text does, and leaves the lexer at a token |
| LexerRules.NextPiece | src/tokens/AssemblerInstruction.js:12-16 | at a token nothing is consumed and no piece returned; otherwise exactly one whitespace run or comment is consumed, whose `gotNewline` says whether it holds a newline |
| LexerRules.SkippedAppend | src/tokens/AssemblerInstruction.js:12-16 | skipped text followed by one more whitespace run or comment is still skipped text |
| LexerRules.SkippedStart | src/tokens/AssemblerInstruction.js:12-16 | non-empty skipped text starts with a blank or a slash |
| LexerRules.SpecialLength | src/tokens/AssemblerArgument.js:150-154 | how much text a punctuation pattern with optional spacing covers, never more than the text |
| LexerRules.SpecialLengthLiteral | src/tokens/AssemblerArgument.js:150-154 | a pattern without spaces matches exactly when the text starts with it |
| LexerRules.SpecialLengthNoBlank | src/tokens/AssemblerArgument.js:150-154 | when the spacing recogniser matches nothing, a pattern behaves like its unspaced form |
| LexerRules.Unspaced | src/tokens/AssemblerArgument.js:171 | the pattern without spaces is no longer than the pattern |
| LexerRules.EatSpecialCharacter | src/tokens/AssemblerArgument.js:150-154 | consumes exactly what the pattern covers, or nothing when it does not match |
| LexerRules.EatEnd | src/tokens/AssemblerStatement.js:24 | consumes the statement terminator the recogniser finds, or nothing |
| LexerRules.Expect | src/tokens/AssemblerBlock.js:27 | consumes the literal, or fails with the literal and the current position and moves nothing |
| LexerRules.Indent | src/tokens/RegularBlock.js:33 | every line, in order, with four spaces in front |
| LexerRules.IndentAppend | src/tokens/AssemblerBlock.js:40 | indenting distributes over joining line lists |
| LexerRules.SignedNumber | src/tokens/AssemblerArgument.js:35-47 | an optional sign and a number cover a non-empty prefix of the text |
| Tokens.Token.constructor | src/tokens/Token.js:4-8 | a token starts and ends at the lexer's current position |
| Tokens.Token.Position | src/tokens/Token.js:10-12 | the `position` getter is the lexer's position |
| Tokens.Token.Finalize | src/tokens/Token.js:14-17 | sets `end` to the lexer's position, keeps `start` and returns the same token |
| Tokens.Token.FixStart | src/tokens/Token.js:23-25 | takes `start` from the other token and keeps `end` |
| Whitespace.BlankRun | src/tokens/Whitespace.js:13-15 | the length of the longest run of spaces, tabs and newlines at the front of the text |
| Whitespace.Eat | src/tokens/Whitespace.js:13-15 | `eatRegex(/^[ \t\n]+/)`: consumes the maximal blank run, or returns nothing and moves nothing when the text does not start with a blank |
| Whitespace.Tokenize | src/tokens/Whitespace.js:4-11 | null exactly when the text does not start with a blank; otherwise a fresh token whose content is the blank run, with `gotNewline` set from it |
| Comment.EatSingleline | src/tokens/Comment.js:20-29 | after `//`, the text up to the next newline (left unconsumed) or to the end of the file; nothing without `//` |
| Comment.EatMultiline | src/tokens/Comment.js:31-45 | after `/*`, the text before the first `*/`, with the `*/` consumed; nothing is consumed when either delimiter is missing |
| Comment.Tokenize | src/tokens/Comment.js:9-18 | a single-line comment first, then a multi-line one; `isSingleline` records which; the consumed text is exactly one comment; null and no movement when neither matches |
| Comment.EatComment | src/tokens/Comment.js:9-18 | `//` first, then `/*`: the text consumed is `//` and the content, or `/*`, the content and `*/`, and is one comment either way; nothing moves when neither matches |
| Comment.SinglelineText | src/tokens/Comment.js:20-29 | `//` followed by text without a newline is one comment |
| Comment.MultilineText | src/tokens/Comment.js:31-45 | `/*`, text without `*/`, then `*/` is one comment |
| WhitespaceComments.WhitespaceComment.constructor | src/tokens/WhitespaceComment.js:4-8 | a fresh token at the lexer's position, with empty content and no newline |
| WhitespaceComments.WhitespaceComment.Content | src/tokens/WhitespaceComment.js:10-12 | the content getter; `gotNewline` is true exactly when the content holds a newline |
| WhitespaceComments.WhitespaceComment.SetContent | src/tokens/WhitespaceComment.js:14-17 | the setter stores the content and sets `gotNewline` to whether it holds a newline |
| WhitespaceCommentCollections.WhitespaceCommentCollection.constructor | src/WhitespaceCommentCollection.js:2-4 | a new collection is empty |
| WhitespaceCommentCollections.WhitespaceCommentCollection.IsEmpty | src/WhitespaceCommentCollection.js:6-8 | true exactly when no token was collected; an empty collection holds no newline |
| WhitespaceCommentCollections.WhitespaceCommentCollection.Push | src/WhitespaceCommentCollection.js:16-18 | appends the token; the collection is then not empty and holds a newline exactly when it did before or the token does |
| EmptyStatements.Tokenize | src/tokens/EmptyStatement.js:4-9 | an empty statement is found exactly when the text left starts with `;`; it then spans that one character, and otherwise the position does not move |
| EmptyStatements.Stringify | src/tokens/EmptyStatement.js:11-14 | an empty statement renders as the single line `;` |
| RegularBlocks.AlternativeByFirst | src/tokens/RegularBlock.js:36-42 | a statement starting with `;` is an empty statement, one starting with `{` a block, and an assembler block needs a leading `a` |
| RegularBlocks.InOrderAppend | src/tokens/RegularBlock.js:14-21 | appending a statement that starts at or after the end of the previous ones keeps the statements in source order within the block |
| RegularBlocks.TokenizeStatement | src/tokens/RegularBlock.js:36-42 | the alternatives are tried in order; nothing is found exactly when no alternative starts the text, and then nothing is consumed; a failure comes only from an assembler block or a block that started |
| RegularBlocks.Tokenize | src/tokens/RegularBlock.js:8-26 | a block is found only at `{`; a found block spans from its `{` to its `}`, and between them lie its statements in source order with nothing but whitespace and comments before, between and after them, each statement of the alternative that applies where it starts |
| RegularBlocks.TokenizeBody | src/tokens/RegularBlock.js:13-24 | the statements, each of the alternative that applies where it starts, with only whitespace and comments around them, run up to the `}` at the returned position, which the block ends right after; a missing `}` is an invalid token |
| RegularBlocks.TokenizeChildren | src/tokens/RegularBlock.js:13-21 | statements are collected in source order, each of the alternative that applies where it starts, with only whitespace and comments before, between and after them, until the text left starts no statement |
| RegularBlocks.SeparatedInOrder | src/tokens/RegularBlock.js:13-21 | statements laid out with whitespace and comments between them are in source order |
| RegularBlocks.SeparatedStart | src/tokens/RegularBlock.js:13-21 | a non-empty stretch of such a layout starts with a blank, a slash or its first statement |
| RegularBlocks.SeparatedAppend | src/tokens/RegularBlock.js:13-21 | a statement right after the layout, followed by whitespace and comments, extends it |
| RegularBlocks.Stringify | src/tokens/RegularBlock.js:28-34 | a block renders as `{`, each line of its statements indented by four spaces, then `}` |
| Programs.Tokenize | src/tokens/Program.js:6-18 | a program that tokenizes consumes the whole input, spans from the start to the end of the text, and holds its statements in source order, each of the alternative that applies where it starts, with only whitespace and comments around them; a failure is located: the statements read before it lie in that layout up to a position where a token starts, and there either no statement starts (an invalid token at that position) or an assembler block or a block begins |
| Programs.Join | src/tokens/Program.js:29-30 | no lines join to the empty text |
| Programs.JoinTerminated | src/tokens/Program.js:29-30 | joining the lines with an empty last line appended ends every line with a newline |
| Programs.StringifyTerminated | src/tokens/Program.js:24-31 | a program renders as its statements' lines, each ended by a newline; no statements render as the empty text, and otherwise the text ends with a newline |
| Programs.TerminatedEnds | src/tokens/Program.js:29-30 | terminated lines end with a newline whenever there is at least one line |
| Programs.ExampleLines | tests/tokens/Program.test.js:6-24 | test mirror: an empty statement renders as `;` and a block holding one as `{`, indented `;`, `}` |
| Programs.LinesCons | src/tokens/Program.js:26-28 | the lines of a statement list are the first statement's lines followed by the lines of the rest |
| Programs.TerminatedAppend | src/tokens/Program.js:29-30 | terminating two line lists one after the other is terminating their concatenation |
| Programs.BlockText | tests/tokens/Program.test.js:6-24 | test mirror: the lines of such a block, terminated, are the text `{\n    ;\n}\n` |
| Programs.ExampleProgramLines | tests/tokens/Program.test.js:6-24 | test mirror: two empty statements and two such blocks give the lines of each in order |
| Programs.RenderingExample | tests/tokens/Program.test.js:6-24 | test mirror: the test's program (its comments are not part of the tree) renders as `;\n;\n{\n    ;\n}\n{\n    ;\n}\n` |
| Programs.ExampleText | tests/tokens/Program.test.js:6-24 | test mirror: those lines, terminated, are the text the test expects |
| AssemblerLabels.Eat | src/tokens/AssemblerLabel.js:15-20 | consumes the prefix the label-name recogniser accepts, or nothing |
| AssemblerLabels.LabelLength | src/tokens/AssemblerLabel.js:4-13 | a label definition covers a non-empty prefix of the text |
| AssemblerLabels.Tokenize | src/tokens/AssemblerLabel.js:4-13 | null, with nothing consumed, exactly when no name followed by `:` starts the text; otherwise the token spans the definition and its text renders back to that span |
| AssemblerLabels.Stringify | src/tokens/AssemblerLabel.js:22-24 | the name followed by one `:` |
| AssemblerInstructions.OperandSizeLength | src/tokens/AssemblerInstruction.js:30-40 | a size suffix covers a dot and at least one digit |
| AssemblerInstructions.HeadLength | src/tokens/AssemblerInstruction.js:7-11 | the mnemonic and its suffix never cover more than the text |
| AssemblerInstructions.EatInstruction | src/tokens/AssemblerInstruction.js:26-28 | consumes the prefix the dotted-name recogniser accepts, or nothing |
| AssemblerInstructions.EatOperandSize | src/tokens/AssemblerInstruction.js:30-40 | consumes a dot and a decimal number only together; otherwise nothing moves |
| AssemblerInstructions.Tokenize | src/tokens/AssemblerInstruction.js:5-20 | no match exactly when no mnemonic starts the text, and then nothing moves; a match is the mnemonic at the front and its suffix, which together are the text up to the head end, then the operands the list parser reads past the whitespace and comments after it (operands need at least one such character before them), and the token spans to where they end; a failure is the list parser's own, or operands right after the head, an invalid token where they end; without operands it renders back to the text it read |
| AssemblerInstructions.EatHead | src/tokens/AssemblerInstruction.js:7-11 | reads the mnemonic and the suffix, and the two together are the head of the text |
| AssemblerInstructions.HeadText | src/tokens/AssemblerInstruction.js:7-11 | the mnemonic followed by its written suffix is exactly the head of the text |
| AssemblerInstructions.OptionalSize | src/tokens/AssemblerInstruction.js:47 | the suffix is empty exactly when there is no operand size |
| AssemblerInstructions.Stringify | src/tokens/AssemblerInstruction.js:42-51 | the mnemonic, the `.size` suffix, and a space before the operands only when there are operands |
| AssemblerOperations.EatOperation | src/tokens/AssemblerOperation.js:23-35 | an operator is found exactly when, past whitespace and comments, a listed symbol starts the text (`OperatorAt`); it is the first listed one, and the lexer ends past the whitespace and comments after it (`OperationAfter`); otherwise nothing is consumed |
| AssemblerOperations.EatSymbol | src/tokens/AssemblerOperation.js:27 | the symbol is the first listed one that starts the text, and exactly it is consumed; with none, nothing moves |
| AssemblerOperations.Tokenize | src/tokens/AssemblerOperation.js:6-21 | the first operand is what the operand tokenizer reads (its kind, its span, its text or, for a bracket, the record `SibAt` reads and its `SibLaid` layout); no match, with nothing consumed, exactly when there is no operand or no operator after it; otherwise the operator is the one `OperationAfter` finds after the operand, the further operands are what the list parser reads right after it, the token spans to where they end, and a failure is the operand's or the list parser's own |
| AssemblerOperations.TokenizeOperation | src/tokens/AssemblerOperation.js:12-20 | once the first operand is read: no match, with the lexer back where the token started, exactly when no operator follows it; otherwise the operator `OperationAfter` finds, then the operands the list parser reads from where it ends, with its failure passed on |
| AssemblerOperations.Stringify | src/tokens/AssemblerOperation.js:45-53 | the first operand and the operator, with single spaces around the operator only when more operands follow |
| AssemblerArguments.SignedNumberAfterSign | src/tokens/AssemblerArgument.js:35-47 | the length of a signed integer is the sign's length plus the number's, and there is no integer when no number follows the sign |
| AssemblerArguments.EatInteger | src/tokens/AssemblerArgument.js:35-47 | consumes an optional sign and a number together; with no number after the sign, nothing is consumed |
| AssemblerArguments.EatSign | src/tokens/AssemblerArgument.js:38 | consumes a leading `+` or `-` when there is one, and only then |
| AssemblerArguments.EatRegister | src/tokens/AssemblerArgument.js:66-68 | consumes the prefix the identifier recogniser accepts, or nothing |
| AssemblerArguments.SegmentLength | src/tokens/AssemblerArgument.js:52 | the segment of an address is a register, else an integer, else empty, and never longer than the text |
| AssemblerArguments.OffsetLength | src/tokens/AssemblerArgument.js:53-59 | the `:offset` part covers the colon and a non-empty integer |
| AssemblerArguments.AddressLength | src/tokens/AssemblerArgument.js:49-64 | an address covers a non-empty prefix of the text |
| AssemblerArguments.EatSegment | src/tokens/AssemblerArgument.js:52 | consumes exactly the segment: a register, else an integer, else nothing |
| AssemblerArguments.EatAddress | src/tokens/AssemblerArgument.js:49-64 | null, with nothing consumed, exactly when no `segment:offset` starts the text; otherwise the parts rebuild the text consumed |
| AssemblerArguments.EatOffset | src/tokens/AssemblerArgument.js:53-59 | consumes the colon and the integer offset only together |
| AssemblerArguments.OffsetOfColon | src/tokens/AssemblerArgument.js:53-59 | a colon followed by a signed number is an offset one character longer than the number, and the colon and the number text rebuild the front of the text |
| AssemblerArguments.AddressOfParts | src/tokens/AssemblerArgument.js:49-64 | a segment and an offset read one after the other are the address at the front of the text |
| AssemblerArguments.AddressLengthOfParts | src/tokens/AssemblerArgument.js:49-64 | an address is as long as its segment plus its colon-and-offset |
| AssemblerArguments.FrontOfParts | src/tokens/AssemblerArgument.js:43 | a sign read at the front and the number read right after it are together the front of the text |
| AssemblerArguments.PrefixConcat | src/tokens/AssemblerArgument.js:49-64 | two consecutive pieces of the front of a text make one longer front |
| AssemblerArguments.EatPlusMinus | src/tokens/AssemblerArgument.js:97-109 | a `+` or `-` with the whitespace and comments around it is read exactly as `PlusMinusAt` reads it, and the value says which sign; otherwise nothing is consumed |
| AssemblerArguments.EatSibScale | src/tokens/AssemblerArgument.js:170-179 | reads what `ScaleAt` reads: no scale, with nothing consumed, when ` * ` does not follow; ` * ` without a decimal number is an invalid token at the position reached; otherwise both are consumed |
| AssemblerArguments.EatSibPart | src/tokens/AssemblerArgument.js:157-168 | reads what `PartAt` reads: an integer first, else a register with its optional scale; no match, with nothing consumed, when neither starts the text; a bad scale is an invalid token |
| AssemblerArguments.EatSibParts | src/tokens/AssemblerArgument.js:75-93 | reads exactly the parts `PartsAt` reads from the position, ending where it ends; every failure is `PartsAt` throwing, as an invalid token |
| AssemblerArguments.EatSibItem | src/tokens/AssemblerArgument.js:76-90 | reads the pass `ItemAt` reads; a missing separator, a missing part and a `-` before a register each make it fail with an invalid token |
| AssemblerArguments.EatSib | src/tokens/AssemblerArgument.js:70-95 | no match exactly when `[ ` does not start the text, and then nothing moves; a match is the record `SibAt` reads, well formed, whose parts lie between `[ ` and ` ]` with their separators as `SibLaid` says and compile to it; every failure is `SibAt` throwing, as an invalid token |
| AssemblerArguments.PlusMinusAt | src/tokens/AssemblerArgument.js:97-109 | a sign found lies after the position and within the text; reading a sign never throws |
| AssemblerArguments.Signed | src/tokens/AssemblerArgument.js:87 | the part keeps its kind; an integer records the `-` separator, a register is left as it is |
| AssemblerArguments.StarLength | src/tokens/AssemblerArgument.js:171 | ` * ` never reaches past the text |
| AssemblerArguments.CloseLength | src/tokens/AssemblerArgument.js:153-155 | ` ]` never reaches past the text |
| AssemblerArguments.Opening | src/tokens/AssemblerArgument.js:149-151 | `[ ` never reaches past the text |
| AssemblerArguments.OpenLength | src/tokens/AssemblerArgument.js:149-151 | `[ ` at a position never reaches past the text |
| AssemblerArguments.PartsStart | src/tokens/AssemblerArgument.js:149-151 | the parts start after `[ `, strictly after the bracket's start and within the text |
| AssemblerArguments.ScaleAt | src/tokens/AssemblerArgument.js:170-179 | a scale read is non-empty digits and ends after the position, within the text |
| AssemblerArguments.ScaleStart | src/tokens/AssemblerArgument.js:171-175 | the digits of a scale start after ` * `, within the text |
| AssemblerArguments.PartAt | src/tokens/AssemblerArgument.js:157-168 | a part read covers non-empty text and is never negated |
| AssemblerArguments.IdentifierEnd | src/tokens/AssemblerArgument.js:162 | the identifier ends at or after its start, within the text |
| AssemblerArguments.WithScale | src/tokens/AssemblerArgument.js:162-167 | a register part built from a scale reading holds that register |
| AssemblerArguments.ItemSign | src/tokens/AssemblerArgument.js:76-82 | a separator read ends at or after the position, within the text |
| AssemblerArguments.ItemAt | src/tokens/AssemblerArgument.js:76-90 | a pass never reads nothing: it reads non-empty text or throws |
| AssemblerArguments.Prefixed | src/tokens/AssemblerArgument.js:91-92 | the parts read so far go in front of a successful rest and keep its end; an error stays the same error |
| AssemblerArguments.PartsAt | src/tokens/AssemblerArgument.js:75-93 | the loop never reads nothing; from the first pass it reads a non-empty list whose first part is not negated, ending within the text |
| AssemblerArguments.SibAt | src/tokens/AssemblerArgument.js:70-95 | nothing is read exactly when `[ ` does not open the text; a record read is well formed and ends after the start, within the text |
| AssemblerArguments.EatSibRegister | src/tokens/AssemblerArgument.js:162-167 | the register branch reads what `PartAt` reads; a bad scale is `PartAt` throwing, as an invalid token |
| AssemblerArguments.EatSibPass | src/tokens/AssemblerArgument.js:75-93 | one turn of the loop: a close gives the end `PartsAt` reads; a part read is the first of what `PartsAt` reads and the rest is read from the new position; a failure is `PartsAt` throwing |
| AssemblerArguments.PartsStep | src/tokens/AssemblerArgument.js:75-93 | when the bracket does not close, the loop reads one pass and then the rest after it, and throws when the pass does |
| AssemblerArguments.PrefixedAll | src/tokens/AssemblerArgument.js:91-92 | a bracket that closes with no more parts keeps the parts read so far |
| AssemblerArguments.PrefixedNothing | src/tokens/AssemblerArgument.js:91-92 | nothing put in front changes nothing |
| AssemblerArguments.PrefixedAppend | src/tokens/AssemblerArgument.js:91-92 | putting parts in front one at a time is putting them in front all at once |
| AssemblerArguments.EatSibBody | src/tokens/AssemblerArgument.js:74-94 | once `[ ` is read: the record `SibAt` reads, laid out as `SibLaid` says; a failure is `SibAt` throwing, as an invalid token |
| AssemblerArguments.SibStep | src/tokens/AssemblerArgument.js:70-95 | once `[ ` is read, the bracket is the compiled parts `PartsAt` reads, and throws when they throw or do not compile |
| AssemblerArguments.PartIsInteger | src/tokens/AssemblerArgument.js:158-161 | a signed integer at the position is the part read there |
| AssemblerArguments.PartIsRegister | src/tokens/AssemblerArgument.js:162-167 | with no integer there, the identifier is the register of the part and the scale read after it follows |
| AssemblerArguments.PartLaid | src/tokens/AssemblerArgument.js:157-168 | a part read lies in the text as `PartRead` says: the signed integer, or the identifier and its scale |
| AssemblerArguments.ScaleOfPart | src/tokens/AssemblerArgument.js:162-167 | the scale reading is recovered from the register part built from it |
| AssemblerArguments.RegisterScale | src/tokens/AssemblerArgument.js:162-167 | a register part read is the identifier at the position, followed by what `ScaleAt` reads after it |
| AssemblerArguments.UnscaledLaid | src/tokens/AssemblerArgument.js:162-167 | a register with no scale after it lies in the text as `PartRead` says |
| AssemblerArguments.ScaledLaid | src/tokens/AssemblerArgument.js:162-167 | a register and the scale read after it lie in the text as `PartRead` says |
| AssemblerArguments.ScaleLaid | src/tokens/AssemblerArgument.js:170-179 | a scale read lies in the text as ` * ` then its digits |
| AssemblerArguments.ItemLaid | src/tokens/AssemblerArgument.js:76-90 | a pass read lies in the text as its separator (`-` exactly for a negated integer) followed by its part |
| AssemblerArguments.PartsLaid | src/tokens/AssemblerArgument.js:75-93 | the parts read lie in the text in order, each after its separator and before ` ]`, with the bracket not closing before any of them |
| AssemblerArguments.SibLayout | src/tokens/AssemblerArgument.js:70-95 | a bracket read is laid out as `SibLaid` says: `[ `, parts that compile to the record read, ` ]` |
| AssemblerArguments.SibParts | src/tokens/AssemblerArgument.js:70-95 | a bracket read opens with `[ ` and is the parts `PartsAt` reads after it, compiled |
| AssemblerArguments.LaidSib | src/tokens/AssemblerArgument.js:70-95 | parts laid out after `[ ` that compile to a record make the bracket `SibLaid` describes |
| AssemblerArguments.PartsBracket | src/tokens/AssemblerArgument.js:70-95 | the parts read after `[ ` lie in the text as `Laid` says |
| AssemblerArguments.EmptyBracketThrows | src/tokens/AssemblerArgument.js:75-86 | `]` right after `[ `, with recognisers that accept nothing starting with `]`, throws: a bracket holds at least one part |
| AssemblerArguments.Tokenize | src/tokens/AssemblerArgument.js:6-9 | the alternative found is the first of address, integer, bracket, register, label that applies; the token spans what it read; a non-bracket operand renders back to that text, a bracket is the record `SibAt` reads there and is laid out as `SibLaid` says; a failure is exactly a begun bracket that throws |
| AssemblerArguments.TokenizeAlternatives | src/tokens/AssemblerArgument.js:11-33 | the alternatives in source order: no match, with nothing consumed, exactly when none applies; a failure exactly when the bracket alternative applies and `SibAt` throws; a match is of the kind that applies and is tied to its text as `Tokenize` states |
| AssemblerArguments.TokenizeLater | src/tokens/AssemblerArgument.js:20-32 | the bracket, register and label alternatives in that order, with the guarantees of `TokenizeAlternatives` for the kind `LaterAlternative` chooses |
| AssemblerArguments.TokenizeBracket | src/tokens/AssemblerArgument.js:20-23 | no match exactly when `[ ` does not start the text, and then the register or label alternative decides; otherwise the record `SibAt` reads, laid out as `SibLaid` says, or an invalid token exactly when it throws |
| AssemblerArguments.LaterCases | src/tokens/AssemblerArgument.js:20-32 | the bracket alternative applies exactly when `[ ` opens the text; otherwise the register and label alternatives decide |
| AssemblerArguments.TokenizeName | src/tokens/AssemblerArgument.js:24-32 | the register alternative, then the label alternative; no match, with nothing consumed, exactly when neither applies; a match has the kind of the alternative that applies and renders as the text it consumed |
| AssemblerArguments.TokenizeArguments | src/tokens/AssemblerOperation.js:41-43 | runs the operand-list parser on the remaining text and consumes exactly what it took; on failure nothing moves |
| AssemblerArguments.Stringify | src/tokens/AssemblerArgument.js:115-132 | an address is rendered with its colon, and a bracket operand between `[` and `]` |
| Sibs.AssignAllAppend | src/tokens/AssemblerArgument.js:192-222 | assigning one more part after a successful prefix is one more step of the loop |
| Sibs.StopsAt | src/tokens/AssemblerStatement.js:172-215 | once assigning the parts up to one of them fails, compiling the whole list gives that same failure |
| Sibs.CompileSib | src/tokens/AssemblerArgument.js:181-224 | the loop over the parts computes the reference definition `Compile` |
| Sibs.Registers | src/tokens/AssemblerArgument.js:201-220 | the register parts, in order |
| Sibs.Integers | src/tokens/AssemblerArgument.js:193-199 | the integer parts, in order |
| Sibs.AssignStep | src/tokens/AssemblerArgument.js:192-222 | one part succeeds exactly when its kind still has a free role (one integer, two registers), and moves the record to the roles of all parts so far |
| Sibs.AssignAllRoles | src/tokens/AssemblerArgument.js:192-222 | assigning all parts succeeds exactly when there is at most one integer and at most two registers, and then gives the roles of those integers and registers |
| Sibs.AssignRolesLast | src/tokens/AssemblerArgument.js:192-222 | one more part keeps assignment successful exactly while there is at most one integer and at most two registers, with the roles of the parts in order |
| Sibs.SplitLast | src/tokens/AssemblerArgument.js:192-222 | the registers and integers of a list with one more part |
| Sibs.FailureSticks | src/tokens/AssemblerArgument.js:202-221 | once a part throws, later parts do not change the outcome |
| Sibs.CompileMeaning | src/tokens/AssemblerArgument.js:181-224 | `compileSib` throws exactly when there are more than three parts, more than one integer or more than two registers; otherwise it gives the roles of its integers and registers |
| Sibs.JoinPartsSnoc | src/tokens/AssemblerArgument.js:134-147 | rendering one more part adds its separator and its text |
| Sibs.JoinIndex | src/tokens/AssemblerArgument.js:137-141 | the rendered base and index are the join of their parts |
| Sibs.JoinDisp | src/tokens/AssemblerArgument.js:142-145 | adding the displacement adds its signed separator and its text |
| Sibs.StringifyRendersParts | src/tokens/AssemblerArgument.js:134-147 | the bracket text is the rendering of the canonical parts, in order |
| Sibs.CompileCanonical | src/tokens/AssemblerArgument.js:134-147 | compiling the canonical parts of a well-formed record gives that record back |
| Sibs.CanonicalKinds | src/tokens/AssemblerArgument.js:134-147 | the canonical parts hold the base and index registers and the displacement integer |
| Sibs.KindsSingle | src/tokens/AssemblerArgument.js:192-222 | a single part is either a register or an integer |
| Sibs.KindsAppend | src/tokens/AssemblerArgument.js:192-222 | registers and integers distribute over joining part lists |
| Sibs.CompiledIsWellFormed | src/tokens/AssemblerArgument.js:181-224 | every record compiled from parser-shaped parts (a leading integer never negated) is well formed |
| Sibs.CompiledRoundTrip | src/tokens/AssemblerArgument.js:134-147 | a record compiled from parser-shaped parts renders to canonical parts that compile back to the same record |
| Sibs.IntegerAfterRegister | src/tokens/AssemblerArgument.js:87-90 | a negated integer that is not the first part has a register before it |
| Sibs.CompileExamples | tests/tokens/AssemblerArgument.test.js:17-31 | test mirror: the records `compileSib` builds for the bracket operands of the test |
| Sibs.StringifyExamples | tests/tokens/AssemblerArgument.test.js:17-31 | test mirror: the bracket cases of the operand test: parts as read, the record compiled, and the text rendered |
| Sibs.SecondScaleDropped | src/tokens/AssemblerArgument.js:204-215 | of two scaled registers, the first is the index and the second becomes the base with its scale dropped |
| AssemblerStatements.AlnumRun | src/tokens/AssemblerStatement.js:63 | the `[a-zA-Z0-9]*` run: everything counted is a letter or digit and the character after it is neither |
| AssemblerStatements.DigitRun | src/tokens/AssemblerStatement.js:63 | the `\d+` run: everything counted is a digit and the character after it is not |
| AssemblerStatements.WordLength | src/tokens/AssemblerStatement.js:63 | a word starts with a letter and holds only letters and digits |
| AssemblerStatements.SegmentsLength | src/tokens/AssemblerStatement.js:63 | the `.word` groups never reach past the text |
| AssemblerStatements.SizeGroupLength | src/tokens/AssemblerStatement.js:63 | a matched `.\d+` group is a dot and at least one digit, and no digit follows it |
| AssemblerStatements.MnemoLength | src/tokens/AssemblerStatement.js:63 | the mnemonic never reaches past the text |
| AssemblerStatements.EatMnemo | src/tokens/AssemblerStatement.js:62-64 | reads the mnemonic pattern at the front of the text and moves past it; when there is none it gives nothing and the position stays |
| AssemblerStatements.SignLength | src/tokens/AssemblerStatement.js:73 | the `[+-]` sign recogniser never reaches past the text |
| AssemblerStatements.EatInteger | src/tokens/AssemblerStatement.js:70-82 | an optional sign and a number are read together, as the exact text consumed; without a number nothing is consumed, not even the sign |
| AssemblerStatements.EatSign | src/tokens/AssemblerStatement.js:73 | the sign is `+`, `-` or absent; it is the text consumed, and it is absent only when the text does not start with a sign |
| AssemblerStatements.EatRegister | src/tokens/AssemblerStatement.js:66-68 | a register is the identifier at the front of the text, consumed; without one nothing moves |
| AssemblerStatements.AddressLength | src/tokens/AssemblerStatement.js:84-102 | a recognised address is never empty and never reaches past the text |
| AssemblerStatements.EatAddress | src/tokens/AssemblerStatement.js:84-102 | an address is an integer segment, a colon and an integer offset, all or nothing; what is read is exactly the text consumed |
| AssemblerStatements.EatOffset | src/tokens/AssemblerStatement.js:91-97 | the colon and the integer offset after a segment, consumed only together |
| AssemblerStatements.AddressOfParts | src/tokens/AssemblerStatement.js:84-102 | a segment followed by a colon and an offset makes up the address at the front of the text, and rejoined they give that text |
| AssemblerStatements.EatSibScale | src/tokens/AssemblerStatement.js:160-170 | reads what `ScaleAt` reads: ` * ` followed by a decimal number, consumed only together; either missing gives no scale and leaves the position |
| AssemblerStatements.EatSibPart | src/tokens/AssemblerStatement.js:147-158 | reads what `PartAt` reads: an integer, else a register with an optional scale; none exactly when neither an integer nor an identifier starts the text, and then nothing moves |
| AssemblerStatements.EatSibItem | src/tokens/AssemblerStatement.js:111-128 | reads the pass `ItemAt` reads: a separator (none before the first part), then a part; a ` - ` before anything but an integer, a missing separator or a missing part is an invalid-token error |
| AssemblerStatements.EatSibParts | src/tokens/AssemblerStatement.js:110-131 | reads exactly the parts `PartsAt` reads, at least one and the first never negated; every failure is `PartsAt` throwing, as an invalid token |
| AssemblerStatements.EatSib | src/tokens/AssemblerStatement.js:104-137 | without `[ ` nothing is consumed and there is no bracket; a bracket read is the record `SibAt` reads, well formed, laid out as `SibLaid` says; a failure is `SibAt` throwing, and it is the untyped role conflict of `compileSib` exactly when the parts were read |
| AssemblerStatements.ScaleAt | src/tokens/AssemblerStatement.js:160-170 | reading a scale never throws; a scale read is non-empty digits ending after the position, within the text |
| AssemblerStatements.PartAt | src/tokens/AssemblerStatement.js:147-158 | reading a part never throws; a part read covers non-empty text and is never negated |
| AssemblerStatements.PlusLength | src/tokens/AssemblerStatement.js:114 | ` + ` never reaches past the text |
| AssemblerStatements.MinusLength | src/tokens/AssemblerStatement.js:115 | ` - ` never reaches past the text |
| AssemblerStatements.ItemSign | src/tokens/AssemblerStatement.js:112-119 | reading a separator never throws; one read ends at or after the position, within the text |
| AssemblerStatements.ItemAt | src/tokens/AssemblerStatement.js:111-128 | a pass never reads nothing: it reads non-empty text or throws |
| AssemblerStatements.PartsAt | src/tokens/AssemblerStatement.js:110-131 | the loop never reads nothing; from the first pass it reads a non-empty list whose first part is not negated, ending within the text |
| AssemblerStatements.SibAt | src/tokens/AssemblerStatement.js:104-137 | nothing is read exactly when `[ ` does not open the text; a record read is well formed and ends after the start, within the text |
| AssemblerStatements.EatSibRegister | src/tokens/AssemblerStatement.js:152-157 | the register branch reads what `PartAt` reads; with no identifier nothing moves |
| AssemblerStatements.EatPlusMinus | src/tokens/AssemblerStatement.js:113-119 | ` + `, else ` - `, read as `ItemSign` reads a separator between parts; with neither nothing moves |
| AssemblerStatements.EatSibPass | src/tokens/AssemblerStatement.js:111-129 | one turn of the loop: a close gives the end `PartsAt` reads; a part read is the first of what `PartsAt` reads and the rest is read from the new position; a failure is `PartsAt` throwing |
| AssemblerStatements.PartsStep | src/tokens/AssemblerStatement.js:111-129 | when the bracket does not close, the loop reads one pass and then the rest after it, and throws when the pass does |
| AssemblerStatements.EatSibBody | src/tokens/AssemblerStatement.js:110-136 | once `[ ` is read: the record `SibAt` reads, laid out as `SibLaid` says; a failure is `SibAt` throwing, untyped exactly when the parts were read |
| AssemblerStatements.SibStep | src/tokens/AssemblerStatement.js:104-137 | once `[ ` is read, the bracket is the compiled parts `PartsAt` reads, and throws when they throw or do not compile |
| AssemblerStatements.PartIsInteger | src/tokens/AssemblerStatement.js:148-151 | a signed integer at the position is the part read there |
| AssemblerStatements.PartIsRegister | src/tokens/AssemblerStatement.js:152-157 | with no integer there, the identifier is the register of the part and the scale read after it follows |
| AssemblerStatements.PartLaid | src/tokens/AssemblerStatement.js:147-158 | a part read lies in the text as `PartRead` says: the signed integer, or the identifier and its scale |
| AssemblerStatements.RegisterScale | src/tokens/AssemblerStatement.js:152-157 | a register part read is the identifier at the position, followed by what `ScaleAt` reads after it |
| AssemblerStatements.UnscaledLaid | src/tokens/AssemblerStatement.js:152-157 | a register with no scale after it lies in the text as `PartRead` says |
| AssemblerStatements.ScaledLaid | src/tokens/AssemblerStatement.js:152-157 | a register and the scale read after it lie in the text as `PartRead` says |
| AssemblerStatements.ScaleLaid | src/tokens/AssemblerStatement.js:160-170 | a scale read lies in the text as ` * ` then its digits |
| AssemblerStatements.SignLaid | src/tokens/AssemblerStatement.js:113-119 | a separator read between parts lies in the text as ` + ` or ` - `, the value saying which |
| AssemblerStatements.ItemLaid | src/tokens/AssemblerStatement.js:111-128 | a pass read lies in the text as its separator (` - ` exactly for a negated integer) followed by its part |
| AssemblerStatements.PartsLaid | src/tokens/AssemblerStatement.js:110-131 | the parts read lie in the text in order, each after its separator and before ` ]`, with the bracket not closing before any of them |
| AssemblerStatements.SibLayout | src/tokens/AssemblerStatement.js:104-137 | a bracket read is laid out as `SibLaid` says: `[ `, parts that compile to the record read, ` ]` |
| AssemblerStatements.SibParts | src/tokens/AssemblerStatement.js:104-137 | a bracket read opens with `[ ` and is the parts `PartsAt` reads after it, compiled |
| AssemblerStatements.LaidSib | src/tokens/AssemblerStatement.js:104-137 | parts laid out after `[ ` that compile to a record make the bracket `SibLaid` describes |
| AssemblerStatements.PartsBracket | src/tokens/AssemblerStatement.js:104-137 | the parts read after `[ ` lie in the text as `Laid` says |
| AssemblerStatements.EmptyBracketThrows | src/tokens/AssemblerStatement.js:110-123 | `]` right after `[ `, with recognisers that accept nothing starting with `]`, throws: a bracket holds at least one part |
| AssemblerStatements.TokenizeArgument | src/tokens/AssemblerStatement.js:42-60 | the operand is the first of address, integer, bracket and register that applies; none applies exactly when nothing moves; a failure exactly when a begun bracket throws; an operand other than a bracket renders back as the exact text consumed, a bracket is the record `SibAt` reads there, laid out as `SibLaid` says |
| AssemblerStatements.TokenizeNumber | src/tokens/AssemblerStatement.js:47-59 | once no address applies: the integer, bracket and register alternatives in that order, with the guarantees of `TokenizeArgument` |
| AssemblerStatements.TokenizeLater | src/tokens/AssemblerStatement.js:51-59 | once neither address nor integer applies: the bracket, then the register alternative, with the guarantees of `TokenizeArgument` |
| AssemblerStatements.TokenizeRegister | src/tokens/AssemblerStatement.js:55-59 | no operand, with nothing consumed, exactly when no identifier starts the text; otherwise a register operand that renders as the text it consumed |
| AssemblerStatements.TokenizeBracket | src/tokens/AssemblerStatement.js:51-54 | no operand exactly when `[ ` does not start the text, and then the register alternative decides; otherwise the record `SibAt` reads, laid out as `SibLaid` says, or an error exactly when it throws |
| AssemblerStatements.LaterCases | src/tokens/AssemblerStatement.js:51-59 | a bracket is the later alternative exactly where `[ ` opens one; elsewhere the register alternative decides |
| AssemblerStatements.Laidout | src/tokens/AssemblerStatement.js:18-40 | a mnemonic at the start, operands, separators and kinds laid out after it, and the statement end after the last operand make the layout `StatementLaid` describes |
| AssemblerStatements.Tokenize | src/tokens/AssemblerStatement.js:7-40 | no statement exactly when no mnemonic starts the text, and then nothing moves; a statement spans from its mnemonic to where it ends and is laid out as `StatementLaid` says: the mnemonic, then its operands at the returned cuts with their separators and kinds, each read back from its text, then the statement end; missing separators or operands are errors |
| AssemblerStatements.Operands | src/tokens/AssemblerStatement.js:23-38 | the operands in order: each after its separator (whitespace and comments before the first, `,` with optional blanks before the others), each read back from the text it spans (a bracket: the record `SibAt` reads there, laid out as `SibLaid` says), each of the alternative that applies where it starts, and the statement end right after the last; with no operands, exactly the statement end; errors are invalid tokens or the operand's own |
| AssemblerStatements.NextOperand | src/tokens/AssemblerStatement.js:25-37 | the separator, then one operand that joins the recorded layout: the separator lies between the previous end and the operand, which spans non-empty text it is read back from (`ReadAs`, which ties a bracket to `SibAt` and `SibLaid`) and is of the alternative that applies there; a missing separator or operand is an error, never a "no match" |
| AssemblerStatements.EatSeparator | src/tokens/AssemblerStatement.js:25-32 | whitespace and comments (at least one) before the first operand, `,` with optional blanks before the others; without it nothing moves |
| AssemblerStatements.CommaLength | src/tokens/AssemblerStatement.js:31 | the ` , ` pattern matches optional blanks, a comma and optional blanks, and nothing else |
| AssemblerStatements.OperandsAtAppend | src/tokens/AssemblerStatement.js:33-37 | an operand read after the last one extends the operands' layout and becomes its end |
| AssemblerStatements.SeparatorsAtAppend | src/tokens/AssemblerStatement.js:25-32 | a separator after the last operand extends the separators' layout |
| AssemblerStatements.KindsAtAppend | src/tokens/AssemblerStatement.js:33-37 | an operand of the alternative that applies where it starts keeps every recorded kind |
| AssemblerStatements.StringifyArgument | src/tokens/AssemblerStatement.js:224-249 | an address renders with a colon and a bracket within `[` and `]` |
| AssemblerStatements.JoinArguments | src/tokens/AssemblerStatement.js:220 | no operands join to the empty text |
| AssemblerStatements.Stringify | src/tokens/AssemblerStatement.js:217-222 | one line: the mnemonic alone without operands, else the mnemonic, a space and the operands joined by `, ` |
| AssemblerStatements.TrailingDigits | src/tokens/AssemblerStatement.js:253 | the digits counted at the end are all digits and the character before them is not |
| AssemblerStatements.CandidateKeys | src/tokens/AssemblerStatement.js:252-257 | the mnemonic comes first; with a size suffix it is the only key, otherwise the mnemonic joined to each operand size by a dot follows, in the order of the sizes |
| AssemblerStatements.FindScheme | src/tokens/AssemblerStatement.js:270-282 | a scheme found is in the list and fits the operands; none is found exactly when no scheme fits |
| AssemblerStatements.FindSchemeFirst | src/tokens/AssemblerStatement.js:270-282 | the scheme found is the first one that fits |
| AssemblerStatements.GetScheme | src/tokens/AssemblerStatement.js:267-283 | a missing key fits nothing; a scheme found is listed under the key and fits; under a present key nothing is found exactly when no listed scheme fits |
| AssemblerStatements.Found | src/tokens/AssemblerStatement.js:258-259 | the filtered list is never longer than the keys, and is empty exactly when no key yields a scheme |
| AssemblerStatements.FoundOnly | src/tokens/AssemblerStatement.js:258-259 | when exactly one key yields a scheme, the filtered list is that scheme alone |
| AssemblerStatements.FoundSingle | src/tokens/AssemblerStatement.js:258-263 | a filtered list of one scheme comes from exactly one key, and that key yields it |
| AssemblerStatements.SelectScheme | src/tokens/AssemblerStatement.js:252-263 | a scheme is selected exactly when one candidate key yields a scheme, and it is that key's scheme; no key or several keys are an error |
| AssemblerStatements.ToBufferSelects | src/tokens/AssemblerStatement.js:251-265 | the error is "no scheme" exactly when no candidate key yields a scheme; otherwise the result is the encoder's chunks or error for a scheme that accepts the operands |
| AssemblerStatements.SegmentDots | src/tokens/AssemblerStatement.js:63 | inside the `.word` groups every dot is followed by a letter |
| AssemblerStatements.MnemoSizeSuffix | src/tokens/AssemblerStatement.js:253 | on a mnemonic as it is read, the `/\.\d+$/` test holds exactly when the optional `.digits` group was matched |
| AssemblerStatements.MnemoParts | src/tokens/AssemblerStatement.js:63 | a mnemonic is its word, its dotted groups and its optional size group, in that order |
| AssemblerStatements.GroupAt | src/tokens/AssemblerStatement.js:253 | text cut right after a `.digits` group passes the `/\.\d+$/` test |
| AssemblerStatements.DigitsTrail | src/tokens/AssemblerStatement.js:253 | digits after a non-digit are exactly the trailing digits |
| AssemblerStatements.SuffixAt | src/tokens/AssemblerStatement.js:253 | text ending in a dot and one or more digits passes the `/\.\d+$/` test |
| AssemblerStatements.SegmentDotsAt | src/tokens/AssemblerStatement.js:63 | the same, for `.word` groups that start inside the text |
| AssemblerStatements.DotsAfter | src/tokens/AssemblerStatement.js:63 | a word followed by `.word` groups has every dot followed by a letter |
| AssemblerStatements.NoSizeSuffix | src/tokens/AssemblerStatement.js:253 | text whose every dot is followed by a letter fails the `/\.\d+$/` test |
| AssemblerStatements.IntThreeSelectsBreakpoint | src/tokens/AssemblerStatement.js:251-283 | `int 3` selects the CC form whenever the literal-3 resolver accepts the operand |
| AssemblerStatements.IntImmediateSelectsInterrupt | src/tokens/AssemblerStatement.js:251-283 | an operand the literal-3 resolver refuses and `imm8` accepts selects the CD form |
| AssemblerStatements.IntOnlyUnsizedKey | src/tokens/AssemblerStatement.js:252-259 | under the x86 table no sized `int` key yields a scheme, whatever the operand sizes |
| X86.RegisterClasses | src/arch/x86.js:1-6 | the 32-, 16- and 8-bit register classes each list 8 distinct names and the segment registers 6 |
| X86.PushRegisterOpcodes | src/arch/x86.js:209-238 | `push.32` of the i-th 32-bit register is opcode 50+i; `push.16` of the i-th 16-bit register is 66 then 50+i |
| X86.AddExtension | src/arch/x86.js:14-33 | in every `add` list exactly the immediate forms 80/81/83 carry an extension digit, and it is /0 |
| X86.OrExtension | src/arch/x86.js:92-111 | in every `or` list exactly the immediate forms 80/81/83 carry an extension digit, and it is /1 |
| X86.AndExtension | src/arch/x86.js:34-53 | in every `and` list exactly the immediate forms 80/81/83 carry an extension digit, and it is /4 |
| X86.SubExtension | src/arch/x86.js:119-138 | in every `sub` list exactly the immediate forms 80/81/83 carry an extension digit, and it is /5 |
| X86.XorExtension | src/arch/x86.js:139-158 | in every `xor` list exactly the immediate forms 80/81/83 carry an extension digit, and it is /6 |
| X86.CmpExtension | src/arch/x86.js:54-73 | in every `cmp` list exactly the immediate forms 80/81/83 carry an extension digit, and it is /7 |
| X86.GroupThreeExtensions | src/arch/x86.js:74-91 | `not` and `neg` each have one form per size, F6 for 8 bits and F7 otherwise, with extension /2 and /3 |
| X86.AddOperandSize | src/arch/x86.js:20-33 | each `add.16` form is the `add.32` form behind the operand-size prefix 66, with the same digit and operand count |
| X86.AndOperandSize | src/arch/x86.js:40-53 | each `and.16` form is the `and.32` form behind the prefix 66, with the same digit and operand count |
| X86.CmpOperandSize | src/arch/x86.js:60-73 | each `cmp.16` form is the `cmp.32` form behind the prefix 66, with the same digit and operand count |
| X86.OrOperandSize | src/arch/x86.js:98-111 | each `or.16` form is the `or.32` form behind the prefix 66, with the same digit and operand count |
| X86.SubOperandSize | src/arch/x86.js:125-138 | each `sub.16` form is the `sub.32` form behind the prefix 66, with the same digit and operand count |
| X86.XorOperandSize | src/arch/x86.js:145-158 | each `xor.16` form is the `xor.32` form behind the prefix 66, with the same digit and operand count |
| X86.NegOperandSize | src/arch/x86.js:77-82 | the `neg.16` form is the `neg.32` form behind the prefix 66 |
| X86.NotOperandSize | src/arch/x86.js:86-91 | the `not.16` form is the `not.32` form behind the prefix 66 |
| X86.OperandCounts1 | src/arch/x86.js:14-82 | every `add`, `and`, `cmp` and `neg` form takes one or two operands |
| X86.OperandCounts2 | src/arch/x86.js:74-138 | every `neg.32`, `not`, `or`, `int` and `sub` form takes one or two operands, and `iret` none |
| X86.OperandCounts3 | src/arch/x86.js:119-185 | every `sub.32`, `xor`, `call`, `callf` and `jmp` form takes one or two operands |
| X86.OperandCounts4 | src/arch/x86.js:186-238 | every `jmpf` and `push` form takes one or two operands, and the `pushf` and `popf` forms none |
| X86.IntEntry | src/arch/x86.js:112-115 | `int` lists the form for the literal 3 (CC) before the imm8 form (CD) |
| X86.NoSizedInt | src/arch/x86.js:112-115 | `int` has no sized variant: no `int.8`, `int.16` or `int.32` key exists |
| X86.NoInt8 | src/arch/x86.js:112-115 | there is no `int.8` key |
| X86.NoInt16 | src/arch/x86.js:112-115 | there is no `int.16` key |
| X86.NoInt32 | src/arch/x86.js:112-115 | there is no `int.32` key |
| AssemblerBlocks.HeadLength | src/tokens/AssemblerBlock.js:8-13 | the head exists exactly when the text starts with `asm` and ` {` follows; it then ends in the brace |
| AssemblerBlocks.SpecialBrace | src/tokens/AssemblerBlock.js:11 | ` {` as recognised always ends in the brace |
| AssemblerBlocks.EatHead | src/tokens/AssemblerBlock.js:8-16 | `asm` and ` {` are consumed together or not at all |
| AssemblerBlocks.Tokenize | src/tokens/AssemblerBlock.js:7-29 | no block exactly when the head is missing, and then nothing moves; a block spans from `asm` to its closing `}`, and between the head and that `}` lie its statements in order, each laid out as `StatementLaid` says (mnemonic, separators, operands and end), with only whitespace and comments around them; a missing `}` is an "expected `}`" error at the first text that starts no statement |
| AssemblerBlocks.TokenizeStatements | src/tokens/AssemblerBlock.js:17-27 | statements are read for as long as a mnemonic starts, each laid out as `StatementLaid` says with only whitespace and comments around them, up to a `}` at which no mnemonic starts; otherwise the error expects `}` where the statements stopped, or is the failing statement's own |
| AssemblerBlocks.StatementList | src/tokens/AssemblerBlock.js:17-24 | the statement loop: on success the statements lie in order from the start to where the loop stopped, each laid out as `StatementLaid` says, with only whitespace and comments around them, and no mnemonic starts the text left; a failure is an invalid token or an untyped error |
| AssemblerBlocks.SeparatedAppend | src/tokens/AssemblerBlock.js:18-23 | a statement laid out right after the layout, followed by whitespace and comments, extends it |
| AssemblerBlocks.Lines | src/tokens/AssemblerBlock.js:36-39 | one line per statement, each the statement's own line, in order |
| AssemblerBlocks.Stringify | src/tokens/AssemblerBlock.js:35-41 | the block renders as `asm {`, every statement's line indented by four spaces, then `}` |
| AssemblerBlocks.Contents | src/tokens/AssemblerBlock.js:66 | the bytes of each chunk as emitted, chunk for chunk |
| AssemblerBlocks.ToBuffer | src/tokens/AssemblerBlock.js:43-74 | the loops compute exactly `Assemble`: the one-pass layout, then the queued callbacks, then the concatenation |
| AssemblerBlocks.EmitChunks | src/tokens/AssemblerBlock.js:56-68 | the `forEach` over one statement's chunks is the fold `Emit`: each chunk appended, the offset advanced by its length, its callback queued |
| AssemblerBlocks.RunQueue | src/tokens/AssemblerBlock.js:70-72 | the final loop runs the queued callbacks in order and stops at the first that throws, as `RunCallbacks` does |
| AssemblerBlocks.PushConsistent | src/tokens/AssemblerBlock.js:56-68 | emitting one chunk keeps the pass consistent: the offset stays the length so far and the queue holds exactly the chunks with a callback, in order, with their start offsets |
| AssemblerBlocks.EmitConsistent | src/tokens/AssemblerBlock.js:56-68 | emitting a statement's chunks keeps the pass consistent, appends them and leaves the labels |
| AssemblerBlocks.LayOutConsistent | src/tokens/AssemblerBlock.js:48-69 | a successful pass ends consistent, with every queued callback naming an existing chunk |
| AssemblerBlocks.TotalLengthAppend | src/tokens/AssemblerBlock.js:67 | lengths add up over concatenation |
| AssemblerBlocks.EncodesTail | src/tokens/AssemblerBlock.js:56 | every statement has a scheme exactly when the first does and every later one does |
| AssemblerBlocks.EncodesRest | src/tokens/AssemblerBlock.js:56 | when every statement has a scheme, so do the first and every later one |
| AssemblerBlocks.EncodesFront | src/tokens/AssemblerBlock.js:56 | when the first statement and every later one have a scheme, every statement has one |
| AssemblerBlocks.DistinctTail | src/tokens/AssemblerBlock.js:49-55 | no label is defined twice exactly when none is among the later statements and the first statement's label is not defined again |
| AssemblerBlocks.FreshTail | src/tokens/AssemblerBlock.js:49-55 | no statement redefines a label of the table exactly when the first does not and no later one does |
| AssemblerBlocks.FreshInsert | src/tokens/AssemblerBlock.js:54 | after a label is added, statements are fresh exactly when they were fresh before and none defines that label |
| AssemblerBlocks.LayOutSucceeds | src/tokens/AssemblerBlock.js:48-69 | the pass succeeds exactly when every statement is encoded (it has a scheme and the encoder does not throw on it), no label is defined twice and none is already in the table |
| AssemblerBlocks.EmitLabels | src/tokens/AssemblerBlock.js:56-68 | emitting chunks leaves the label table alone, appends the chunks and advances the offset by their length |
| AssemblerBlocks.LayOutFirst | src/tokens/AssemblerBlock.js:48-69 | a successful pass is the first statement's step, defining its label at the current offset and emitting its chunks, then the pass over the rest |
| AssemblerBlocks.ChunksFirst | src/tokens/AssemblerBlock.js:48-68 | the chunks of the statements are the first statement's chunks, then those of the rest |
| AssemblerBlocks.ChunksPrefix | src/tokens/AssemblerBlock.js:48-68 | the same, for a prefix of the statements |
| AssemblerBlocks.LayOutChunks | src/tokens/AssemblerBlock.js:48-69 | on success the chunks are every statement's chunks, in statement order, after those already emitted |
| AssemblerBlocks.LayOutLabels | src/tokens/AssemblerBlock.js:48-69 | on success earlier labels keep their values, and each defined label is the starting offset plus the length of all chunks of the statements before it |
| AssemblerBlocks.PatchedChunk | src/tokens/AssemblerBlock.js:58-65 | a chunk without a callback is output as it is, and a callback that does not throw keeps its chunk's length |
| AssemblerBlocks.Patched | src/tokens/AssemblerBlock.js:56-72 | when no callback throws, there is one patched chunk per chunk, each as long as the chunk |
| AssemblerBlocks.PatchesPrefix | src/tokens/AssemblerBlock.js:56-72 | when no callback of the chunks throws, none of a prefix of them throws |
| AssemblerBlocks.AppliedRest | src/tokens/AssemblerBlock.js:70-72 | once the first queued callback has patched its chunk, the other callbacks, all on different chunks, see the bytes they saw before |
| AssemblerBlocks.RunCallbacksThrows | src/tokens/AssemblerBlock.js:70-72 | callbacks on different chunks throw exactly when one of them throws on its chunk's bytes, and then with the error of the first one that does |
| AssemblerBlocks.RunCallbacksEffect | src/tokens/AssemblerBlock.js:70-72 | when no callback throws, callbacks on different chunks patch each of their chunks once, from the bytes it had, and leave every other chunk unchanged |
| AssemblerBlocks.CallbacksPatch | src/tokens/AssemblerBlock.js:56-72 | once the pass is complete, running the queue throws exactly when some chunk's callback throws, given its start offset, its length and the complete label table; otherwise it turns every chunk into that patched form |
| AssemblerBlocks.PatchedByQueue | src/tokens/AssemblerBlock.js:56-72 | a successful run of the complete queue leaves every chunk in its patched form |
| AssemblerBlocks.AssembleSucceeds | src/tokens/AssemblerBlock.js:43-74 | `toBuffer` succeeds exactly when every statement is encoded (a scheme is selected and the encoder does not throw), no label is defined twice in the block, and no patch callback throws with the complete label table |
| AssemblerBlocks.AssembleOutput | src/tokens/AssemblerBlock.js:43-74 | on success no callback throws and the output is every statement's chunks in order, each patched with the complete label table, in which each label is the byte length of all chunks before its statement |
| AssemblerBlocks.PatchedLast | src/tokens/AssemblerBlock.js:73 | the output of all chunks is the output of all but the last, then the last one patched |
| AssemblerBlocks.OutputLength | src/tokens/AssemblerBlock.js:73 | the output is exactly as long as all chunks together |
| AssemblerBlocks.OutputPlacement | src/tokens/AssemblerBlock.js:59-73 | chunk `j` sits in the output at its start offset, the length of the chunks before it, in its patched form |
| AssemblerBlocks.ConcatPlacement | src/tokens/AssemblerBlock.js:73 | in a concatenation each buffer sits right after the buffers before it, at the sum of their lengths |
| AssemblerBlocks.PatchedPrefix | src/tokens/AssemblerBlock.js:59-73 | the patched buffers of the first `j` chunks are the first `j` patched buffers: a chunk's patch depends only on the chunks before it |
| ParseArgv.Parse | src/utils/parseArgv.js:1-17 | the loop returns the arguments left after the options, `Rest(argv, cb, 0)`, and makes the callback calls `Calls(argv, cb, 0)`, each option paired with the argument after it |
| ParseArgv.RestIsSuffix | src/utils/parseArgv.js:16 | what is returned is always a suffix of the argument list |
| ParseArgv.OptionsWithoutValues | src/utils/parseArgv.js:3-15 | options whose callback consumes no following value are skipped one by one and do not change what is returned |
| ParseArgv.DoubleDash | src/utils/parseArgv.js:6-9 | at `--` the scan stops: `--` is dropped, everything after it is returned verbatim, and no further callback is made |
| ParseArgv.FirstPlain | src/utils/parseArgv.js:10-14 | the first argument not starting with `-` stops the scan and is returned with everything after it, with no further callback |
| ParseArgv.CallsAreOptions | src/utils/parseArgv.js:10-12 | every callback call receives an option other than `--` together with the argument that follows it |
| ParseArgv.Examples | tests/utils/parseArgv.test.js:5-19 | test mirror: with a callback that takes one value after `-a`: the empty list, plain arguments, `-b foo`, `-- foo`, `-- -a` and `-a val -b 1` leave exactly the arguments the tests expect |
| Logging.SizeBelow | src/Logger.js:150-153 | an argument is never larger than the list holding it, so rendering a nested list always ends |
| Logging.LetterRun | src/Logger.js:113 | the `[a-zA-Z]+` run never reaches past the text |
| Logging.LetterRunMaximal | src/Logger.js:113 | the run is all letters and no letter follows it, as the greedy `+` takes it |
| Logging.DirectiveAt | src/Logger.js:113 | a directive found never reaches past the text and covers at least one character |
| Logging.DirectiveShape | src/Logger.js:113-120 | after `%` a directive is `%%` exactly when the next character is `%`; otherwise there is none exactly when no letter follows the optional `_`, and a name is the whole letter run, with a leading `_` and a trailing `_` marked |
| Logging.Pad | src/Logger.js:123-126 | an empty substitution stays empty; any other gets a space before it for a leading `_` and after it for a trailing `_` |
| Logging.PrependPrepend | src/Logger.js:113-127 | putting text in front of a result twice is putting the joined text in front once |
| Logging.PrependEmpty | src/Logger.js:113-127 | the empty text in front changes nothing |
| Logging.RenderText | src/Logger.js:113 | a character other than `%` is copied to the output |
| Logging.RenderUnmatched | src/Logger.js:113 | a `%` that starts no directive is copied as it is |
| Logging.RenderPercent | src/Logger.js:114-116 | `%%` becomes one `%` and does not use an argument |
| Logging.RenderNamed | src/Logger.js:117-126 | a name directive is replaced by its argument's substitution, padded as its `_` marks ask, and moves to the next argument; a failing substitution fails the whole rendering |
| Logging.RenderNamedHere | src/Logger.js:117-126 | a name directive at the front of the format renders as its padded substitution and then the rest with the next argument; a failing substitution fails the rendering |
| Logging.FormatLogPass | src/Logger.js:110-128 | `formatLog` as a pass over the format equals the reference rendering `FormatLog` |
| Logging.RenderPass | src/Logger.js:112-127 | the left-to-right replacement, with the argument pointer starting at 1, equals the reference rendering `Render` |
| Logging.Advance | src/Logger.js:113-127 | one match of the pass consumes at least one character, never moves the pointer back, and its piece followed by the rest's rendering is the rendering from here |
| Logging.KeepPercent | src/Logger.js:113-116 | at a `%` that starts no name directive the pass keeps one `%` and moves past `%` or `%%` without using an argument |
| Logging.Replace | src/Logger.js:117-126 | the piece a directive contributes is its padded substitution, or the substitution's error |
| Logging.SubstitutePass | src/Logger.js:121-122 | one substitution, with nested lists rendered by a nested pass, equals the reference `Substitute` |
| Logging.FormatFor | src/Logger.js:105-108 | with no prefixes the format is `%message`; with some it is eight characters per prefix plus eight |
| Logging.MorePrefixes | src/Logger.js:107 | each further ` %prefix` adds eight characters |
| Logging.Line | src/Logger.js:102 | the line holds the format, one list per prefix and the message's list |
| Logging.SpacedJoined | src/Logger.js:107 | prefixes each after a space are a space before the prefixes joined by spaces |
| Logging.LetterRunOf | src/Logger.js:113 | a word of letters followed by a non-letter is exactly the letter run |
| Logging.PrefixStep | src/Logger.js:154-156 | `%prefix` followed by a space, a `%` or nothing renders its argument list as it is |
| Logging.SpaceStep | src/Logger.js:107 | a leading space is copied to the output |
| Logging.NamedDirective | src/Logger.js:113-120 | a letter run after an optional `_` and before an optional `_`, followed by no letter, is that name directive with those marks |
| Logging.NamedLayout | src/Logger.js:113 | where the `_`, the letters and the trailing `_` sit in the text after the `%` |
| Logging.NamedHead | src/Logger.js:113 | after the `%`, an optional `_` then a word of letters sit where the directive expects them |
| Logging.NamedTrail | src/Logger.js:113 | the trailing `_` of a directive is there exactly when the character after the word is `_` |
| Logging.DirectiveAtNamed | src/Logger.js:113-120 | the directive of a text whose lead, letter run and trail are known |
| Logging.DirectiveStep | src/Logger.js:113-126 | the rendering at a name directive with its optional `_` marks: its padded substitution, then the rest with the next argument |
| Logging.TextStep | src/Logger.js:113 | text without `%` in front of a format is copied to the output unchanged |
| Logging.TextOnly | src/Logger.js:113 | a format without `%` renders as itself |
| Logging.OneDirective | src/Logger.js:113-126 | plain text, one name directive and plain text render as the first text, the padded substitution, the second text |
| Logging.PercentText | src/Logger.js:114-116 | `%%` between plain texts renders as one `%` between them |
| Logging.FinalDirective | src/Logger.js:113-126 | a format that is one name directive renders as that directive's substitution |
| Logging.MessageStep | src/Logger.js:157-159 | `%message` and `%_message` render the whole message list, the latter after a space when it is not empty |
| Logging.MorePrefixesSplit | src/Logger.js:107 | the repeated ` %prefix` splits into one ` %prefix` and the rest |
| Logging.MorePrefixesStep | src/Logger.js:107 | one ` %prefix` renders as a space and its prefix in front of the rest's rendering |
| Logging.PrefixTextsOf | src/Logger.js:102-107 | prefix texts given index by index are the prefix texts pointer by pointer |
| Logging.MorePrefixesRender | src/Logger.js:102-107 | the repeated ` %prefix` and `%_message` render as each prefix after a space, then the message |
| Logging.MessageAfterPrefixes | src/Logger.js:107-108 | with no prefixes left the rest of the format is `%_message`, which renders as the message after a space when it is not empty |
| Logging.PrefixTextsTail | src/Logger.js:102-107 | after the first prefix, the other prefixes take their lists from the next pointer on |
| Logging.LineArguments | src/Logger.js:102 | prefix `k`'s list sits at index `k + 1` of the line and the message's list last |
| Logging.LineFormat | src/Logger.js:102 | rendering the line is rendering the logger's format with the line's arguments from index 1 |
| Logging.FormatForSpaced | src/Logger.js:105-108 | with prefixes, a space before the format is the repeated ` %prefix` followed by `%_message` |
| Logging.PrependCancel | src/Logger.js:113-127 | the same text in front of two results makes them equal only when they are equal |
| Logging.SpaceCancel | src/Logger.js:107 | a leading space of the format and of the output cancel |
| Logging.PrefixedFormat | src/Logger.js:102-108 | a format with prefixes renders as the prefixes joined by spaces, then the message |
| Logging.SpacedFormat | src/Logger.js:102-108 | the same with a space before the format and before the output |
| Logging.LineLayout | src/Logger.js:98-108 | a logger's line is its prefixes rendered and joined by spaces, then the message, after a space when there are prefixes and it is not empty; the message's failure is the line's |
| Logging.Sink.constructor | src/Logger.js:60-61 | the sink starts with no lines |
| Logging.Logger.constructor | src/Logger.js:60-66 | a new logger is at Debug, without colour and without prefixes, on the given sink |
| Logging.Logger.Prefix | src/Logger.js:68-80 | an absent or empty format gives this logger back; otherwise a new logger on the same sink with the same level and colour and the arguments added to a copy of the prefixes |
| Logging.Logger.LogBackend | src/Logger.js:98-103 | a message below the threshold is dropped; otherwise exactly the rendered line is sent to the sink, and a rendering error sends nothing |
| Logging.Thresholds | tests/Logger.test.js:5-48 | test mirror: at Debug everything is passed on; at Warn `debug` and `log` are dropped and `warn` and `error` passed on; passing on is monotone in the level |
| Logging.UnprefixedLine | src/Logger.js:102-108 | a logger without prefixes sends exactly its message's rendering, failures included |
| Logging.NoArguments | tests/Logger.test.js:54-57 | test mirror: `log()` logs the empty line |
| Logging.PlainText | tests/Logger.test.js:58-61 | test mirror: `log('hi')` logs `hi` |
| Logging.PercentSign | tests/Logger.test.js:62-65 | test mirror: `log('hi %%')` logs `hi %` |
| Logging.StringArgument | tests/Logger.test.js:66-69 | test mirror: `log('hi %s', 'bob')` logs `hi bob` |
| Logging.AaaIsNotAFormatter | src/Logger.js:133-194 | `aaa` is not one of the formatters |
| Logging.UnknownName | tests/Logger.test.js:83 | test mirror: `log('%aaa')` is an unknown-directive error |
| Logging.MissingString | tests/Logger.test.js:84-85 | test mirror: `log('%s')` and `log('%s', undefined)` are missing-argument errors |
| Logging.SpaceBefore | tests/Logger.test.js:92-93 | test mirror: `log('1%_s', 'a')` logs `1 a` |
| Logging.NoSpaceBeforeEmpty | tests/Logger.test.js:94-95 | test mirror: `log('2%_s', '')` logs `2` |
| Logging.SpaceAfter | tests/Logger.test.js:96-97 | test mirror: `log('%s_3', 'b')` logs `b 3` |
| Logging.NoSpaceAfterEmpty | tests/Logger.test.js:98-99 | test mirror: `log('%s_4', '')` logs `4` |

## Left out

- **Process and I/O.** Command dispatch, the runner, file and stream I/O,
  child processes, temporary files and build scripts are not part of this
  model.
- **`src/Compiler.js`.** It only logs and returns its input, so there is no
  pipeline to model.
- **Error messages.** The coloured line context of `InvalidTokenError` and
  `LexerError` is left out. Errors are a tagged datatype (`NonAscii`,
  `InvalidToken`, `Expected`, `Untyped`, `DuplicateLabel`, ...).
- **`src/utils/u8b.js`.** It writes to an undeclared `buffer` and so always
  throws. It is not modelled as a writer.
- **Encoder and its support.** The instruction encoder `arch.toBuffer`, the
  operand resolvers' internals, ModRM/SIB byte building and relocation
  arithmetic are not part of this model. `toBuffer` takes the encoder as a
  parameter, and a resolver is the accepting predicate of its first entry.
  The encoder and the patch callbacks may throw; which operands and label
  tables make them throw `InvalidLabelNameError`, `InvalidLabelOffsetError`
  or another error is not modelled.
  `src/arch/operations.js` is not part of this model either: its symbols are
  the lexer's `operators` list. Nor is `src/constants.js`: the keyword `asm`
  is written out. Objdump comparisons of compiled output need the missing
  encoder and an external disassembler.
- **Recognisers without a shown definition.** `eatNum`, `eatDecNum`, the
  identifier recognisers, the spacing of `eatSpecialCharacter` and `eatEnd`
  are abstract `Matcher`s. Properties that depend on their exact character
  classes (for example, that `Label` and `_label` are label names) are stated
  for any recogniser that accepts them.
- **Undefined helpers.** `wcc().notEmpty()`, which is undefined in the shown
  files, is modelled as "the collection is not empty". `Token.throw` is
  modelled as an invalid token at the current position.
- **Operand lists of the first grammar.** `AssemblerArgument.tokenizeArguments`
  and `stringifyArguments` are parameters. The printer is assumed to render
  no operands as the empty text.
- **Logger formatters.** The colour formatters (`llc`, `color` and one per
  colour) and the `i`/`j` formatters rely on ANSI codes,
  `Number.prototype.toFixed` and `JSON.stringify`. They render as a
  `NotModelled` error. A custom formatter table passed to the constructor is
  not modelled; the default table is.
- **Logger names and values.** A directive name that the formatter table
  only inherits from `Object.prototype` (such as `toString`) is treated as
  unknown. Values are strings, nested lists or `undefined`; other JavaScript
  values (numbers, objects, `null`) are not modelled. `null` in particular
  behaves unlike `undefined`: `log(null)` makes the format `null`, so the
  call to `replace` on it throws, and `prefix(null)` returns a new logger. `logTo` is a `Sink` that
  records the lines it receives.
- **`parseArgv` callbacks.** The callback returns a natural skip count or
  nothing. A negative count is not modelled: it moves the scan backwards.
  With -1 the same argument is read again forever; larger negative counts
  re-scan earlier arguments, and one that moves the index below 0 reads
  `argv[-1]`, which is `undefined`, so `startsWith` throws a TypeError.
- **`withSelf`.** The self-reference it adds to each operand record carries
  no information and is dropped.
- **Grammar-level `tokenizeOperation`.** In `AssemblerStatement` it always
  returns null and is modelled as such inside `Tokenize`.
- AssemblerStatements.Operands: a bracket operand is tied to its text
  through the parts read there (`SibAt`, `SibLaid`), not through its
  rendering. Rendering normalises spacing and the order of the parts, so a
  bracket does not render back to the text it spans. The same holds for
  the bracket operands of `AssemblerArguments.Tokenize`.
- Programs.Join: its own contract covers the empty list only. Its meaning
  for other lists is stated by `JoinTerminated` and `StringifyTerminated`.

=== FILE: assembler_argument.dfy ===
/**
 * src/tokens/AssemblerArgument.js: one operand of the first assembler
 * grammar, tried as an address, an integer, a bracket expression, a register
 * and a label, in that order. A bracket expression reads its parts and gives
 * them roles with `compileSib` (module `Sibs`).
 */
module AssemblerArguments {
  import opened Wrappers
  import opened Lexing
  import opened Tokens
  import opened LexerRules
  import opened Sibs
  import AssemblerLabels

  /** The operand: exactly one of the token's `address`, `integer`, `sib`, `register`, `label` fields. */
  datatype Argument =
    | Address(segment: Option<string>, offset: string)
    | Integer(integer: string)
    | Bracket(sib: Sib)
    | Register(register: string)
    | LabelRef(name: string)

  datatype ArgumentToken = ArgumentToken(argument: Argument, span: Span)

  /** How a leading sign splits `SignedNumber`: the sign, then the number recogniser on the rest. */
  lemma SignedNumberAfterSign(s: string, number: Matcher, sign: string)
    requires sign == "" || sign == "+" || sign == "-"
    requires sign <= s
    requires sign == "" ==> s == [] || (s[0] != '+' && s[0] != '-')
    ensures SignedNumber(s, number) ==
      if number(s[|sign|..]) == 0 then None else Some(|sign| + number(s[|sign|..]))
  {
    if sign != "" {
      assert s[0] == sign[0];
    }
  }

  /** `eatInteger`: an optional sign and a number, or nothing at all when no number follows. */
  method EatInteger(lexer: Lexer) returns (r: Option<string>)
    requires lexer.Valid()
    modifies lexer
    ensures lexer.Valid()
    ensures r.None? <==> SignedNumber(old(lexer.content), lexer.syntax.number).None?
    ensures r.None? ==> lexer.position == old(lexer.position)
    ensures r.Some? ==> (
      r.value == old(lexer.content)[..SignedNumber(old(lexer.content), lexer.syntax.number).value] &&
      lexer.position == old(lexer.position) + |r.value|)
  {
    var state := lexer.GetState();
    var text := EatSign(lexer);
    assert lexer.content == state.content[|text|..];
    SignedNumberAfterSign(state.content, lexer.syntax.number, text);
    var num := lexer.EatMatch(lexer.syntax.number);
    if num.None? {
      assert SignedNumber(state.content, lexer.syntax.number).None?;
      lexer.Revert(state);
      return None;
    }
    assert SignedNumber(state.content, lexer.syntax.number).value == |text| + |num.value|;
    FrontOfParts(state.content, text, num.value);
    return Some(text + num.value);
  }

  /** The `eatOneOf('+', '-')` of `eatInteger`, an absent sign read as the empty text. */
  method EatSign(lexer: Lexer) returns (text: string)
    requires lexer.Valid()
    modifies lexer
    ensures lexer.Valid()
    ensures text == "" || text == "+" || text == "-"
    ensures text <= old(lexer.content) && lexer.position == old(lexer.position) + |text|
    ensures text == "" ==> old(lexer.content) == [] || (old(lexer.content)[0] != '+' && old(lexer.content)[0] != '-')
  {
    var signs := ["+", "-"];
    var sign := lexer.EatOneOf(signs);
    if sign.Some? {
      return sign.value;
    }
    if old(lexer.content) != [] {
      assert !(signs[0] <= old(lexer.content)) && !(signs[1] <= old(lexer.content));
      assert [old(lexer.content)[0]] <= old(lexer.content);
    }
    return "";
  }

  /** `eatRegister`: a plain identifier. */
  method EatRegister(lexer: Lexer) returns (r: Option<string>)
    requires lexer.Valid()
    modifies lexer
    ensures lexer.Valid()
    ensures r.None? <==> lexer.syntax.identifier(old(lexer.content)) == 0
    ensures r.None? ==> lexer.position == old(lexer.position)
    ensures r.Some? ==> (r.value == old(lexer.content)[..lexer.syntax.identifier(old(lexer.content))] &&
      lexer.position == old(lexer.position) + |r.value|)
  {
    r := lexer.EatMatch(lexer.syntax.identifier);
  }

  /** The length of the optional segment of an address: a register, else an integer, else nothing. */
  function SegmentLength(s: string, syntax: Syntax): (n: nat)
    ensures n <= |s|
  {
    if syntax.identifier(s) > 0 then syntax.identifier(s)
    else match SignedNumber(s, syntax.number)
      case Some(n) => n
      case None => 0
  }

  /** The length of the `:offset` part of an address at the front of the text. */
  function OffsetLength(s: string, syntax: Syntax): (r: Option<nat>)
    ensures r.Some? ==> 1 < r.value <= |s|
  {
    if ":" <= s then
      match SignedNumber(s[1..], syntax.number)
      case Some(n) => Some(1 + n)
      case None => None
    else None
  }

  /** The length of an address `segment:offset` at the front of the text, the segment optional. */
  function AddressLength(s: string, syntax: Syntax): (r: Option<nat>)
    ensures r.Some? ==> 0 < r.value <= |s|
  {
    var seg := SegmentLength(s, syntax);
    match OffsetLength(s[seg..], syntax)
    case Some(n) => Some(seg + n)
    case None => None
  }

  /** The segment of `eatAddress`: a register, else an integer, else nothing consumed. */
  method EatSegment(lexer: Lexer) returns (r: Option<string>)
    requires lexer.Valid()
    modifies lexer
    ensures lexer.Valid()
    ensures r.None? <==> SegmentLength(old(lexer.content), lexer.syntax) == 0
    ensures r.Some? ==> r.value == old(lexer.content)[..SegmentLength(old(lexer.content), lexer.syntax)]
    ensures lexer.position == old(lexer.position) + SegmentLength(old(lexer.content), lexer.syntax)
  {
    r := EatRegister(lexer);
    if r.None? {
      r := EatInteger(lexer);
    }
  }

  /** The text of an address: the segment (empty when absent), a colon and the offset. */
  function AddressText(segment: Option<string>, offset: string): string {
    (if segment.Some? then segment.value else "") + (":" + offset)
  }

  /**
   * `eatAddress`: an optional register-or-integer segment, a colon and an
   * integer offset, or nothing consumed. What is read renders back as itself.
   */
  method EatAddress(lexer: Lexer) returns (r: Option<(Option<string>, string)>)
    requires lexer.Valid()
    modifies lexer
    ensures lexer.Valid()
    ensures r.None? <==> AddressLength(old(lexer.content), lexer.syntax).None?
    ensures r.None? ==> lexer.position == old(lexer.position)
    ensures r.Some? ==> (
      lexer.position == old(lexer.position) + AddressLength(old(lexer.content), lexer.syntax).value &&
      AddressText(r.value.0, r.value.1) ==
        old(lexer.content)[..AddressLength(old(lexer.content), lexer.syntax).value])
  {
    var state := lexer.GetState();
    ghost var n := SegmentLength(state.content, lexer.syntax);
    var seg := EatSegment(lexer);
    assert lexer.content == state.content[n..];
    var off := EatOffset(lexer);
    if off.None? {
      lexer.Revert(state);
      return None;
    }
    AddressOfParts(state.content, lexer.syntax, seg, off.value, n);
    return Some((seg, off.value));
  }

  /** The colon and the integer offset of `eatAddress`, consumed only together. */
  method EatOffset(lexer: Lexer) returns (r: Option<string>)
    requires lexer.Valid()
    modifies lexer
    ensures lexer.Valid()
    ensures r.None? <==> OffsetLength(old(lexer.content), lexer.syntax).None?
    ensures r.None? ==> lexer.position == old(lexer.position)
    ensures r.Some? ==> (
      OffsetLength(old(lexer.content), lexer.syntax).value == 1 + |r.value| &&
      lexer.position == old(lexer.position) + 1 + |r.value| &&
      ":" + r.value == old(lexer.content)[..1 + |r.value|])
  {
    var state := lexer.GetState();
    var colon := lexer.Eat(":");
    if !colon {
      return None;
    }
    assert lexer.content == state.content[1..];
    var off := EatInteger(lexer);
    if off.None? {
      lexer.Revert(state);
      return None;
    }
    OffsetOfColon(state.content, lexer.syntax, off.value);
    return off;
  }

  /** A colon and the signed number read after it make up the offset at the front of the text. */
  lemma OffsetOfColon(s: string, syntax: Syntax, off: string)
    requires ":" <= s
    requires SignedNumber(s[1..], syntax.number) == Some(|off|) && off == s[1..][..|off|]
    ensures OffsetLength(s, syntax) == Some(1 + |off|)
    ensures ":" + off == s[..1 + |off|]
  {
    assert s[..1 + |off|] == s[..1] + s[1..][..|off|];
  }

  /** A segment and an offset read one after the other make up the address at the front of the text. */
  lemma AddressOfParts(s: string, syntax: Syntax, seg: Option<string>, off: string, n: nat)
    requires n == SegmentLength(s, syntax)
    requires seg.None? ==> n == 0
    requires seg.Some? ==> seg.value == s[..n]
    requires OffsetLength(s[n..], syntax) == Some(1 + |off|)
    requires ":" + off == s[n..][..1 + |off|]
    ensures AddressLength(s, syntax) == Some(n + 1 + |off|)
    ensures AddressText(seg, off) == s[..n + 1 + |off|]
  {
    AddressLengthOfParts(s, syntax, n, 1 + |off|);
    PrefixConcat(s, n, 1 + |off|);
  }

  /** The address length is the segment's length plus the offset's. */
  lemma AddressLengthOfParts(s: string, syntax: Syntax, n: nat, m: nat)
    requires n == SegmentLength(s, syntax) && OffsetLength(s[n..], syntax) == Some(m)
    ensures AddressLength(s, syntax) == Some(n + m)
  {
  }

  /** A piece at the front of a text and the piece right after it make up a longer front. */
  lemma FrontOfParts(s: string, first: string, second: string)
    requires first <= s && |first| + |second| <= |s| && second == s[|first|..][..|second|]
    ensures s[..|first| + |second|] == first + second
  {
    PrefixConcat(s, |first|, |second|);
  }

  /** Two consecutive pieces of the front of a text make one longer front. */
  lemma PrefixConcat(t: string, n: nat, m: nat)
    requires n + m <= |t|
    ensures t[..n] + t[n..][..m] == t[..n + m]
  {
  }

  /**
   * What `eatPlusMinus` finds at `a`: past whitespace and comments a `+` or
   * `-` (the value says whether it is `-`), ending past the whitespace and
   * comments after it; absent otherwise.
   */
  function PlusMinusAt(text: string, a: nat): (r: Reading<bool>)
    requires a <= |text|
    ensures r.Got? ==> a < r.end <= |text|
    ensures !r.Throws?
  {
    var i := SkipEnd(text, a);
    if i < |text| && (text[i] == '+' || text[i] == '-') then Got(text[i] == '-', SkipEnd(text, i + 1))
    else Absent
  }

  /** `eatPlusMinus`: a `+` or `-` with whitespace and comments around it, or nothing consumed. */
  method EatPlusMinus(lexer: Lexer) returns (r: Option<string>)
    requires lexer.Valid()
    modifies lexer
    ensures lexer.Valid()
    ensures r.None? ==> (
      PlusMinusAt(lexer.backup, old(lexer.position)) == Absent && lexer.position == old(lexer.position))
    ensures r.Some? ==> (
      (r.value == "+" || r.value == "-") &&
      PlusMinusAt(lexer.backup, old(lexer.position)) == Got(r.value == "-", lexer.position))
  {
    var state := lexer.GetState();
    SkipWcc(lexer);
    ghost var at := lexer.position;
    var signs := ["+", "-"];
    var sign := lexer.EatOneOf(signs);
    if sign.None? {
      if at < |lexer.backup| {
        assert [lexer.backup[at]] <= lexer.content;
        assert !(signs[0] <= lexer.content) && !(signs[1] <= lexer.content);
      }
      lexer.Revert(state);
      return None;
    }
    assert sign.value[0] == lexer.backup[at];
    SkipWcc(lexer);
    return sign;
  }

  /** A part that is a negated integer: one read after a `-` separator. */
  predicate Negated(part: Part) {
    part.IntegerPart? && part.minus
  }

  /** The part as the loop keeps it: `minus` records a `-` separator, and only an integer has the field. */
  function Signed(part: Part, minus: bool): (r: Part)
    ensures r.IntegerPart? == part.IntegerPart?
    ensures r.IntegerPart? ==> r.integer == part.integer && r.minus == minus
    ensures r.RegisterPart? ==> r == part
  {
    if part.IntegerPart? then part.(minus := minus) else part
  }

  /** How much ` * ` covers at `p`, if it is there. */
  function StarLength(text: string, syntax: Syntax, p: nat): (r: Option<nat>)
    requires p <= |text|
    ensures r.Some? ==> p + r.value <= |text|
  {
    SpecialLength(" * ", text[p..], syntax.blank)
  }

  /** How much ` ]`, which closes a bracket, covers at `a`, if it is there. */
  function CloseLength(text: string, syntax: Syntax, a: nat): (r: Option<nat>)
    requires a <= |text|
    ensures r.Some? ==> a + r.value <= |text|
  {
    SpecialLength(" ]", text[a..], syntax.blank)
  }

  /** How much `[ `, which opens a bracket, covers at the start of `s`, if it is there. */
  function Opening(s: string, syntax: Syntax): (r: Option<nat>)
    ensures r.Some? ==> r.value <= |s|
  {
    SpecialLength("[ ", s, syntax.blank)
  }

  /** How much `[ `, which opens a bracket, covers at `open`, if it is there. */
  function OpenLength(text: string, syntax: Syntax, open: nat): (r: Option<nat>)
    requires open <= |text|
    ensures r.Some? ==> open + r.value <= |text|
  {
    Opening(text[open..], syntax)
  }

  /** Where the first part of a bracket that opens at `open` may start: right after `[ `. */
  function PartsStart(text: string, syntax: Syntax, open: nat): (r: nat)
    requires open <= |text| && OpenLength(text, syntax, open).Some?
    ensures open < r <= |text|
  {
    open + OpenLength(text, syntax, open).value
  }

  /**
   * What `eatSibScale` reads at `p`: nothing when ` * ` is absent, else
   * the decimal digits after ` * `; ` * ` without digits throws.
   */
  function ScaleAt(text: string, syntax: Syntax, p: nat): (r: Reading<string>)
    requires p <= |text|
    ensures r.Got? ==> p < r.end <= |text| && r.value != []
  {
    if StarLength(text, syntax, p).None? then Absent
    else
      var digits := syntax.decNumber(text[ScaleStart(text, syntax, p)..]);
      if digits == 0 then Throws
      else Got(text[ScaleStart(text, syntax, p)..][..digits], ScaleStart(text, syntax, p) + digits)
  }

  /** Where the digits of a scale may start: right after ` * `. */
  function ScaleStart(text: string, syntax: Syntax, p: nat): (r: nat)
    requires p <= |text| && StarLength(text, syntax, p).Some?
    ensures p < r <= |text|
  {
    p + StarLength(text, syntax, p).value
  }

  /**
   * What `eatSibPart` reads at `from`: a signed integer, else a register and
   * its optional scale, else nothing; a register whose scale throws throws.
   */
  function PartAt(text: string, syntax: Syntax, from: nat): (r: Reading<Part>)
    requires from <= |text|
    ensures r.Got? ==> from < r.end <= |text| && !Negated(r.value)
  {
    var s := text[from..];
    match SignedNumber(s, syntax.number)
    case Some(n) => Got(IntegerPart(s[..n], false), from + n)
    case None =>
      var id := syntax.identifier(s);
      if id == 0 then Absent
      else WithScale(s[..id], ScaleAt(text, syntax, IdentifierEnd(text, syntax, from)), IdentifierEnd(text, syntax, from))
  }

  /** Where the identifier at `from` ends. */
  function IdentifierEnd(text: string, syntax: Syntax, from: nat): (r: nat)
    requires from <= |text|
    ensures from <= r <= |text|
  {
    from + syntax.identifier(text[from..])
  }

  /** The register part whose register ends at `at`, given what `eatSibScale` read there. */
  function WithScale(register: string, scale: Reading<string>, at: nat): (r: Reading<Part>)
    ensures r.Got? ==> r.value.RegisterPart? && r.value.register == register
  {
    match scale
    case Absent => Got(RegisterPart(register, None), at)
    case Got(digits, to) => Got(RegisterPart(register, Some(digits)), to)
    case Throws => Throws
  }

  /** A signed integer at `from` is the part read there. */
  lemma PartIsInteger(text: string, syntax: Syntax, from: nat, integer: string)
    requires from <= |text| && SignedNumber(text[from..], syntax.number) == Some(|integer|)
    requires integer == text[from..][..|integer|]
    ensures PartAt(text, syntax, from) == Got(IntegerPart(integer, false), from + |integer|)
  {
  }

  /** With no signed integer at `from`, the identifier there is the register of the part, and the scale follows it. */
  lemma PartIsRegister(text: string, syntax: Syntax, from: nat, register: string, at: nat)
    requires from <= |text| && SignedNumber(text[from..], syntax.number).None?
    requires register != [] && syntax.identifier(text[from..]) == |register|
    requires register == text[from..][..|register|] && at == IdentifierEnd(text, syntax, from)
    ensures PartAt(text, syntax, from) == WithScale(register, ScaleAt(text, syntax, at), at)
  {
  }

  /** The separator of a pass of the `eatSib` loop: `+` before the first part, else what `eatPlusMinus` finds. */
  function ItemSign(text: string, first: bool, a: nat): (r: Reading<bool>)
    requires a <= |text|
    ensures r.Got? ==> a <= r.end <= |text|
  {
    if first then Got(false, a) else PlusMinusAt(text, a)
  }

  /**
   * What one pass of the `eatSib` loop reads at `a`, after the closing check:
   * the separator, then the part, which a `-` separator negates. A missing
   * separator, a missing part and a `-` before a register all throw.
   */
  function ItemAt(text: string, syntax: Syntax, first: bool, a: nat): (r: Reading<Part>)
    requires a <= |text|
    ensures !r.Absent?
    ensures r.Got? ==> a < r.end <= |text|
  {
    var sign := ItemSign(text, first, a);
    if !sign.Got? then Throws
    else match PartAt(text, syntax, sign.end)
      case Got(part, to) => if sign.value && !part.IntegerPart? then Throws else Got(Signed(part, sign.value), to)
      case _ => Throws
  }

  /** The parts read before `rest`, put in front of what `rest` read; an error stays one. */
  function Prefixed(parts: seq<Part>, rest: Reading<seq<Part>>): (r: Reading<seq<Part>>)
    ensures r.Got? <==> rest.Got?
    ensures r.Got? ==> r.value == parts + rest.value && r.end == rest.end
    ensures !r.Got? ==> r == rest
  {
    match rest
    case Got(more, end) => Got(parts + more, end)
    case _ => rest
  }

  /**
   * What the rest of the `eatSib` loop reads from `a`: passes until ` ]`
   * closes the bracket, the first pass (`first`) without a closing check, so
   * that a bracket holds at least one part.
   */
  function PartsAt(text: string, syntax: Syntax, first: bool, a: nat): (r: Reading<seq<Part>>)
    requires a <= |text|
    ensures !r.Absent?
    ensures r.Got? ==> a <= r.end <= |text|
    ensures r.Got? && first ==> r.value != [] && !Negated(r.value[0])
    decreases |text| - a
  {
    if !first && CloseLength(text, syntax, a).Some? then
      Got([], a + CloseLength(text, syntax, a).value)
    else match ItemAt(text, syntax, first, a)
      case Got(part, to) => Prefixed([part], PartsAt(text, syntax, false, to))
      case _ => Throws
  }

  /** What `eatSib` reads at `open`: nothing without `[ `, else the bracket's parts compiled. */
  function SibAt(text: string, syntax: Syntax, open: nat): (r: Reading<Sib>)
    requires open <= |text|
    ensures r.Absent? <==> OpenLength(text, syntax, open).None?
    ensures r.Got? ==> open < r.end <= |text| && WellFormed(r.value)
  {
    if OpenLength(text, syntax, open).None? then Absent
    else
      match PartsAt(text, syntax, true, PartsStart(text, syntax, open))
      case Got(parts, end) =>
        (match Compile(parts)
         case Success(sib) => CompiledIsWellFormed(parts); Got(sib, end)
         case Failure(_) => Throws)
      case _ => Throws
  }

  /** `eatSibScale`: ` * ` and a decimal number; ` * ` without one is an error. */
  method EatSibScale(lexer: Lexer) returns (r: Result<Option<string>, SyntaxError>)
    requires lexer.Valid()
    modifies lexer
    ensures lexer.Valid()
    ensures r.Success? && r.value.None? ==> (
      ScaleAt(lexer.backup, lexer.syntax, old(lexer.position)) == Absent && lexer.position == old(lexer.position))
    ensures r.Success? && r.value.Some? ==>
      ScaleAt(lexer.backup, lexer.syntax, old(lexer.position)) == Got(r.value.value, lexer.position)
    ensures r.Failure? ==> (
      ScaleAt(lexer.backup, lexer.syntax, old(lexer.position)) == Throws && r.error == InvalidToken(lexer.position))
  {
    ghost var text, p := lexer.backup, lexer.position;
    assert lexer.content == text[p..];
    var star := EatSpecialCharacter(lexer, " * ");
    if !star {
      return Success(None);
    }
    ghost var q := ScaleStart(text, lexer.syntax, p);
    assert lexer.position == q && lexer.content == text[q..];
    var scale := lexer.EatMatch(lexer.syntax.decNumber);
    if scale.None? {
      return Failure(InvalidToken(lexer.position));
    }
    return Success(scale);
  }

  /** `eatSibPart`: an integer, else a register with an optional scale. */
  method EatSibPart(lexer: Lexer) returns (r: Parsed<Part>)
    requires lexer.Valid()
    modifies lexer
    ensures lexer.Valid()
    ensures r.NoMatch? ==> (
      PartAt(lexer.backup, lexer.syntax, old(lexer.position)) == Absent && lexer.position == old(lexer.position))
    ensures r.Match? ==> PartAt(lexer.backup, lexer.syntax, old(lexer.position)) == Got(r.value, lexer.position)
    ensures r.Fail? ==> (PartAt(lexer.backup, lexer.syntax, old(lexer.position)) == Throws && r.error.InvalidToken?)
  {
    ghost var text, from := lexer.backup, lexer.position;
    assert text[from..] == lexer.content;
    var integer := EatInteger(lexer);
    if integer.Some? {
      PartIsInteger(text, lexer.syntax, from, integer.value);
      assert PartAt(text, lexer.syntax, from) == Got(IntegerPart(integer.value, false), lexer.position);
      return Match(IntegerPart(integer.value, false));
    }
    r := EatSibRegister(lexer);
  }

  /** The register branch of `eatSibPart`, once no integer starts the text. */
  method EatSibRegister(lexer: Lexer) returns (r: Parsed<Part>)
    requires lexer.Valid() && SignedNumber(lexer.content, lexer.syntax.number).None?
    modifies lexer
    ensures lexer.Valid()
    ensures r.NoMatch? ==> (
      PartAt(lexer.backup, lexer.syntax, old(lexer.position)) == Absent && lexer.position == old(lexer.position))
    ensures r.Match? ==> PartAt(lexer.backup, lexer.syntax, old(lexer.position)) == Got(r.value, lexer.position)
    ensures r.Fail? ==> (PartAt(lexer.backup, lexer.syntax, old(lexer.position)) == Throws && r.error.InvalidToken?)
  {
    ghost var text, from := lexer.backup, lexer.position;
    assert text[from..] == lexer.content;
    var register := EatRegister(lexer);
    if register.None? {
      return NoMatch;
    }
    ghost var at := lexer.position;
    PartIsRegister(text, lexer.syntax, from, register.value, at);
    var scale := EatSibScale(lexer);
    if scale.Failure? {
      return Fail(scale.error);
    }
    if scale.value.None? {
      assert ScaleAt(text, lexer.syntax, at) == Absent && lexer.position == at;
    } else {
      assert ScaleAt(text, lexer.syntax, at) == Got(scale.value.value, lexer.position);
    }
    assert WithScale(register.value, ScaleAt(text, lexer.syntax, at), at) ==
      Got(RegisterPart(register.value, scale.value), lexer.position);
    return Match(RegisterPart(register.value, scale.value));
  }

  /**
   * One pass of the `eatSib` loop after the closing check: the separator
   * (none before the first part), then the part, whose `minus` records a
   * `-` separator. It throws when the separator is missing, when no integer
   * or register follows it, and when `-` comes before a register.
   */
  method EatSibItem(lexer: Lexer, first: bool) returns (r: Result<Part, SyntaxError>)
    requires lexer.Valid()
    modifies lexer
    ensures lexer.Valid()
    ensures r.Success? ==> ItemAt(lexer.backup, lexer.syntax, first, old(lexer.position)) == Got(r.value, lexer.position)
    ensures r.Failure? ==> (ItemAt(lexer.backup, lexer.syntax, first, old(lexer.position)) == Throws && r.error.InvalidToken?)
    ensures !ItemSign(lexer.backup, first, old(lexer.position)).Got? ==> r.Failure?
    ensures (
      ItemSign(lexer.backup, first, old(lexer.position)).Got? &&
      PartAt(lexer.backup, lexer.syntax, ItemSign(lexer.backup, first, old(lexer.position)).end).Absent?) ==> r.Failure?
    ensures (
      ItemSign(lexer.backup, first, old(lexer.position)).Got? &&
      ItemSign(lexer.backup, first, old(lexer.position)).value &&
      PartAt(lexer.backup, lexer.syntax, ItemSign(lexer.backup, first, old(lexer.position)).end).Got? &&
      PartAt(lexer.backup, lexer.syntax, ItemSign(lexer.backup, first, old(lexer.position)).end).value.RegisterPart?) ==> r.Failure?
  {
    var minus := false;
    if !first {
      var plusMinus := EatPlusMinus(lexer);
      if plusMinus.None? {
        return Failure(InvalidToken(lexer.position));
      }
      minus := plusMinus.value == "-";
    }
    var part := EatSibPart(lexer);
    if part.NoMatch? {
      return Failure(InvalidToken(lexer.position));
    }
    if part.Fail? {
      return Failure(part.error);
    }
    if minus && !part.value.IntegerPart? {
      return Failure(InvalidToken(lexer.position));
    }
    return Success(Signed(part.value, minus));
  }

  /** The loop of `eatSib` after `[`: parts separated by `+` or `-` up to ` ]`; every malformation throws. */
  method EatSibParts(lexer: Lexer) returns (r: Result<seq<Part>, SyntaxError>)
    requires lexer.Valid()
    modifies lexer
    ensures lexer.Valid()
    ensures r.Success? ==> PartsAt(lexer.backup, lexer.syntax, true, old(lexer.position)) == Got(r.value, lexer.position)
    ensures r.Failure? ==> (PartsAt(lexer.backup, lexer.syntax, true, old(lexer.position)) == Throws && r.error.InvalidToken?)
  {
    ghost var start := lexer.position;
    var parts: seq<Part> := [];
    PrefixedNothing(PartsAt(lexer.backup, lexer.syntax, true, start));
    while true
      invariant lexer.Valid()
      invariant PartsAt(lexer.backup, lexer.syntax, true, start) ==
        Prefixed(parts, PartsAt(lexer.backup, lexer.syntax, parts == [], lexer.position))
      decreases |lexer.backup| - lexer.position
    {
      ghost var a := lexer.position;
      var next := EatSibPass(lexer, parts == []);
      if next.Failure? {
        return Failure(next.error);
      }
      if next.value.None? {
        PrefixedAll(parts, lexer.position);
        return Success(parts);
      }
      PrefixedAppend(parts, next.value.value, PartsAt(lexer.backup, lexer.syntax, false, lexer.position));
      parts := parts + [next.value.value];
    }
  }

  /**
   * One turn of the `eatSib` loop: the closing check (not before the first
   * part), then a pass. `None` is the bracket closed, `Some` the part read.
   */
  method EatSibPass(lexer: Lexer, first: bool) returns (r: Result<Option<Part>, SyntaxError>)
    requires lexer.Valid()
    modifies lexer
    ensures lexer.Valid()
    ensures r.Success? && r.value.None? ==> PartsAt(lexer.backup, lexer.syntax, first, old(lexer.position)) == Got([], lexer.position)
    ensures r.Success? && r.value.Some? ==> (
      old(lexer.position) < lexer.position &&
      PartsAt(lexer.backup, lexer.syntax, first, old(lexer.position)) ==
        Prefixed([r.value.value], PartsAt(lexer.backup, lexer.syntax, false, lexer.position)))
    ensures r.Failure? ==> (PartsAt(lexer.backup, lexer.syntax, first, old(lexer.position)) == Throws && r.error.InvalidToken?)
  {
    ghost var a := lexer.position;
    if !first {
      assert lexer.content == lexer.backup[a..];
      var close := EatSpecialCharacter(lexer, " ]");
      if close {
        return Success(None);
      }
    }
    PartsStep(lexer.backup, lexer.syntax, first, a);
    var item := EatSibItem(lexer, first);
    if item.Failure? {
      return Failure(item.error);
    }
    return Success(Some(item.value));
  }

  /** How `PartsAt` goes on when the bracket does not close: the pass, then the passes after it. */
  lemma PartsStep(text: string, syntax: Syntax, first: bool, a: nat)
    requires a <= |text| && (first || CloseLength(text, syntax, a).None?)
    ensures ItemAt(text, syntax, first, a).Got? ==>
      PartsAt(text, syntax, first, a) ==
        Prefixed([ItemAt(text, syntax, first, a).value], PartsAt(text, syntax, false, ItemAt(text, syntax, first, a).end))
    ensures ItemAt(text, syntax, first, a).Throws? ==> PartsAt(text, syntax, first, a) == Throws
  {
  }

  /** A bracket that closes at `end` with no more parts keeps the parts read so far. */
  lemma PrefixedAll(parts: seq<Part>, end: nat)
    ensures Prefixed(parts, Got([], end)) == Got(parts, end)
  {
    assert parts + [] == parts;
  }

  /** Nothing put in front changes nothing. */
  lemma PrefixedNothing(rest: Reading<seq<Part>>)
    ensures Prefixed([], rest) == rest
  {
    if rest.Got? {
      assert [] + rest.value == rest.value;
    }
  }

  /** Putting the parts in front one batch at a time is putting them all in front at once. */
  lemma PrefixedAppend(parts: seq<Part>, part: Part, rest: Reading<seq<Part>>)
    ensures Prefixed(parts, Prefixed([part], rest)) == Prefixed(parts + [part], rest)
  {
    if rest.Got? {
      assert parts + ([part] + rest.value) == (parts + [part]) + rest.value;
    }
  }

  /**
   * `eatSib`: `[`, the parts, then `compileSib`. Without `[` nothing is
   * consumed; once `[` is read, a malformed bracket is an error. A bracket
   * that is read renders stably (its record is well formed) and is laid
   * out in the text as `BracketLayout` says.
   */
  method EatSib(lexer: Lexer) returns (r: Parsed<Sib>)
    requires lexer.Valid()
    modifies lexer
    ensures lexer.Valid()
    ensures r.NoMatch? <==> Opening(old(lexer.content), lexer.syntax).None?
    ensures r.NoMatch? ==> (
      SibAt(lexer.backup, lexer.syntax, old(lexer.position)) == Absent && lexer.position == old(lexer.position))
    ensures r.Match? ==> (
      SibAt(lexer.backup, lexer.syntax, old(lexer.position)) == Got(r.value, lexer.position) &&
      WellFormed(r.value) && SibLaid(lexer.backup, lexer.syntax, old(lexer.position), r.value, lexer.position))
    ensures r.Match? ==> old(lexer.position) < lexer.position
    ensures r.Fail? ==> (SibAt(lexer.backup, lexer.syntax, old(lexer.position)) == Throws && r.error.InvalidToken?)
  {
    ghost var text, open := lexer.backup, lexer.position;
    assert text[open..] == lexer.content;
    var begun := EatSpecialCharacter(lexer, "[ ");
    if !begun {
      return NoMatch;
    }
    var sib := EatSibBody(lexer, open);
    return if sib.Success? then Match(sib.value) else Fail(sib.error);
  }

  /** `eatSib` once `[ ` is read (from `open`): the parts, then `compileSib`, whose failure is an error here. */
  method EatSibBody(lexer: Lexer, ghost open: nat) returns (r: Result<Sib, SyntaxError>)
    requires lexer.Valid() && open <= |lexer.backup| && OpenLength(lexer.backup, lexer.syntax, open).Some?
    requires lexer.position == PartsStart(lexer.backup, lexer.syntax, open)
    modifies lexer
    ensures lexer.Valid()
    ensures r.Success? ==> (
      SibAt(lexer.backup, lexer.syntax, open) == Got(r.value, lexer.position) &&
      WellFormed(r.value) && SibLaid(lexer.backup, lexer.syntax, open, r.value, lexer.position))
    ensures r.Failure? ==> (SibAt(lexer.backup, lexer.syntax, open) == Throws && r.error.InvalidToken?)
  {
    SibStep(lexer.backup, lexer.syntax, open);
    var list := EatSibParts(lexer);
    if list.Failure? {
      return Failure(list.error);
    }
    var sib := CompileSib(list.value);
    if sib.Failure? {
      return Failure(InvalidToken(lexer.position));
    }
    assert SibAt(lexer.backup, lexer.syntax, open) == Got(sib.value, lexer.position);
    SibLayout(lexer.backup, lexer.syntax, open, sib.value, lexer.position);
    return Success(sib.value);
  }

  /** How `SibAt` goes on once `[ ` is read: the parts, then `compileSib`. */
  lemma SibStep(text: string, syntax: Syntax, open: nat)
    requires open <= |text| && OpenLength(text, syntax, open).Some?
    ensures var parts := PartsAt(text, syntax, true, PartsStart(text, syntax, open));
      SibAt(text, syntax, open) ==
        if parts.Got? && Compile(parts.value).Success? then Got(Compile(parts.value).value, parts.end) else Throws
  {
  }

  /**
   * After whitespace and comments from `a` comes `+`, or `-` when `minus`;
   * the part after it starts past the whitespace and comments that follow.
   */
  ghost predicate SignAt(text: string, a: nat, minus: bool, from: nat) {
    a <= |text| && SkipEnd(text, a) < |text| && text[SkipEnd(text, a)] == (if minus then '-' else '+') &&
    from == SkipEnd(text, SkipEnd(text, a) + 1)
  }

  /** ` * ` at `p`, then the digits of `scale` up to `to`, or no ` * ` at all and `to == p`. */
  ghost predicate ScaleRead(text: string, syntax: Syntax, p: nat, scale: Option<string>, to: nat) {
    match scale
    case None => p <= |text| && StarLength(text, syntax, p).None? && to == p
    case Some(digits) =>
      p <= |text| && StarLength(text, syntax, p).Some? &&
      var star := ScaleStart(text, syntax, p);
      digits != [] && syntax.decNumber(text[star..]) == |digits| && digits <= text[star..] && to == star + |digits|
  }

  /**
   * The text from `from` to `to` is `part`: the signed number there, or (no
   * number there) the identifier there and its scale.
   */
  ghost predicate PartRead(text: string, syntax: Syntax, part: Part, from: nat, to: nat) {
    match part
    case IntegerPart(integer, _) =>
      from <= |text| && SignedNumber(text[from..], syntax.number) == Some(|integer|) && integer <= text[from..] &&
      to == from + |integer|
    case RegisterPart(register, scale) =>
      from <= |text| && SignedNumber(text[from..], syntax.number).None? && register != [] &&
      syntax.identifier(text[from..]) == |register| && register <= text[from..] &&
      ScaleRead(text, syntax, IdentifierEnd(text, syntax, from), scale, to)
  }

  /**
   * One part of a bracket, from `a`: its separator (none for the first
   * part, `-` exactly for a negated integer), then its text from `from` to
   * `to`.
   */
  ghost predicate ItemRead(text: string, syntax: Syntax, first: bool, a: nat, part: Part, from: nat, to: nat) {
    (if first then from == a && !Negated(part) else SignAt(text, a, Negated(part), from)) &&
    PartRead(text, syntax, part, from, to)
  }

  /**
   * From `a` on, the parts lie in the text where `cuts` says, each after
   * its separator, and ` ]` follows the last one, ending at `end`. The
   * bracket does not close before a part (`first` marks the first part).
   */
  ghost predicate Laid(text: string, syntax: Syntax, first: bool, a: nat, parts: seq<Part>, cuts: seq<(nat, nat)>, end: nat)
    decreases |parts|
  {
    a <= |text| && |cuts| == |parts| &&
    if parts == [] then
      !first && a <= end && CloseLength(text, syntax, a) == Some(end - a)
    else
      (!first ==> CloseLength(text, syntax, a).None?) &&
      ItemRead(text, syntax, first, a, parts[0], cuts[0].0, cuts[0].1) &&
      Laid(text, syntax, false, cuts[0].1, parts[1..], cuts[1..], end)
  }

  /** The text from `open` to `end` is a bracket: `[ `, then the parts laid out as `cuts` says, then ` ]`. */
  ghost predicate BracketLayout(text: string, syntax: Syntax, open: nat, parts: seq<Part>, cuts: seq<(nat, nat)>, end: nat) {
    open <= |text| && OpenLength(text, syntax, open).Some? &&
    Laid(text, syntax, true, PartsStart(text, syntax, open), parts, cuts, end)
  }

  /** The text from `open` to `end` is a bracket whose parts compile to `sib`. */
  ghost predicate SibLaid(text: string, syntax: Syntax, open: nat, sib: Sib, end: nat) {
    exists parts, cuts :: BracketLayout(text, syntax, open, parts, cuts, end) && Compile(parts) == Success(sib)
  }

  /** A part that `PartAt` reads lies in the text as `PartRead` says. */
  lemma PartLaid(text: string, syntax: Syntax, from: nat, part: Part, to: nat)
    requires from <= |text| && PartAt(text, syntax, from) == Got(part, to)
    ensures PartRead(text, syntax, part, from, to)
  {
    match part {
      case IntegerPart(_, _) =>
      case RegisterPart(register, scale) =>
        RegisterScale(text, syntax, from, part, to);
        if scale.None? {
          UnscaledLaid(text, syntax, from, register);
        } else {
          ScaledLaid(text, syntax, from, register, scale.value, to);
        }
    }
  }

  /** What `eatSibScale` read, given the register part that `WithScale` built from it. */
  lemma ScaleOfPart(register: string, scale: Reading<string>, at: nat, part: Part, to: nat)
    requires WithScale(register, scale, at) == Got(part, to)
    ensures part.RegisterPart?
    ensures part.scale.None? ==> scale == Absent && to == at
    ensures part.scale.Some? ==> scale == Got(part.scale.value, to)
  {
  }

  /** A register part that `PartAt` reads: the identifier at `from`, and what `ScaleAt` reads after it. */
  lemma RegisterScale(text: string, syntax: Syntax, from: nat, part: Part, to: nat)
    requires from <= |text| && PartAt(text, syntax, from) == Got(part, to) && part.RegisterPart?
    ensures SignedNumber(text[from..], syntax.number).None? && part.register != []
    ensures syntax.identifier(text[from..]) == |part.register| && part.register == text[from..][..|part.register|]
    ensures var at := IdentifierEnd(text, syntax, from);
      part.scale.None? ==> ScaleAt(text, syntax, at) == Absent && to == at
    ensures part.scale.Some? ==> ScaleAt(text, syntax, IdentifierEnd(text, syntax, from)) == Got(part.scale.value, to)
  {
    var s := text[from..];
    var at := IdentifierEnd(text, syntax, from);
    ScaleOfPart(s[..syntax.identifier(s)], ScaleAt(text, syntax, at), at, part, to);
  }

  /** A register with no ` * ` after it lies in the text as `PartRead` says. */
  lemma UnscaledLaid(text: string, syntax: Syntax, from: nat, register: string)
    requires from <= |text| && SignedNumber(text[from..], syntax.number).None?
    requires register != [] && syntax.identifier(text[from..]) == |register| && register == text[from..][..|register|]
    requires ScaleAt(text, syntax, IdentifierEnd(text, syntax, from)) == Absent
    ensures PartRead(text, syntax, RegisterPart(register, None), from, IdentifierEnd(text, syntax, from))
  {
    assert register <= text[from..];
  }

  /** A register and the scale `ScaleAt` reads after it lie in the text as `PartRead` says. */
  lemma ScaledLaid(text: string, syntax: Syntax, from: nat, register: string, digits: string, to: nat)
    requires from <= |text| && SignedNumber(text[from..], syntax.number).None?
    requires register != [] && syntax.identifier(text[from..]) == |register| && register == text[from..][..|register|]
    requires ScaleAt(text, syntax, IdentifierEnd(text, syntax, from)) == Got(digits, to)
    ensures PartRead(text, syntax, RegisterPart(register, Some(digits)), from, to)
  {
    assert register <= text[from..];
    ScaleLaid(text, syntax, IdentifierEnd(text, syntax, from), digits, to);
  }

  /** A scale that `ScaleAt` reads lies in the text as `ScaleRead` says. */
  lemma ScaleLaid(text: string, syntax: Syntax, p: nat, digits: string, to: nat)
    requires p <= |text| && ScaleAt(text, syntax, p) == Got(digits, to)
    ensures ScaleRead(text, syntax, p, Some(digits), to)
  {
    assert digits == text[ScaleStart(text, syntax, p)..][..|digits|];
  }

  /** A pass that `ItemAt` reads lies in the text as `ItemRead` says, the part starting at `from`. */
  lemma ItemLaid(text: string, syntax: Syntax, first: bool, a: nat) returns (from: nat)
    requires a <= |text| && ItemAt(text, syntax, first, a).Got?
    ensures ItemRead(text, syntax, first, a, ItemAt(text, syntax, first, a).value, from, ItemAt(text, syntax, first, a).end)
  {
    from := ItemSign(text, first, a).end;
    var part := PartAt(text, syntax, from);
    PartLaid(text, syntax, from, part.value, part.end);
  }

  /** The parts that `PartsAt` reads lie in the text as `Laid` says. */
  lemma {:induction false} PartsLaid(text: string, syntax: Syntax, first: bool, a: nat) returns (cuts: seq<(nat, nat)>)
    requires a <= |text| && PartsAt(text, syntax, first, a).Got?
    ensures Laid(text, syntax, first, a, PartsAt(text, syntax, first, a).value, cuts, PartsAt(text, syntax, first, a).end)
    decreases |text| - a
  {
    if !first && CloseLength(text, syntax, a).Some? {
      cuts := [];
    } else {
      var item := ItemAt(text, syntax, first, a);
      var from := ItemLaid(text, syntax, first, a);
      var rest := PartsLaid(text, syntax, false, item.end);
      cuts := [(from, item.end)] + rest;
      assert cuts[1..] == rest;
      assert PartsAt(text, syntax, first, a).value[1..] == PartsAt(text, syntax, false, item.end).value;
    }
  }

  /** A bracket that `SibAt` reads is laid out as `BracketLayout` says, and its parts compile to the record read. */
  lemma SibLayout(text: string, syntax: Syntax, open: nat, sib: Sib, end: nat)
    requires open <= |text| && SibAt(text, syntax, open) == Got(sib, end)
    ensures SibLaid(text, syntax, open, sib, end)
  {
    SibParts(text, syntax, open, sib, end);
    PartsBracket(text, syntax, open);
    LaidSib(text, syntax, open, PartsAt(text, syntax, true, PartsStart(text, syntax, open)).value, sib, end);
  }

  /** A bracket that `SibAt` reads: `[ `, then parts that `PartsAt` reads up to `end` and that compile to the record. */
  lemma SibParts(text: string, syntax: Syntax, open: nat, sib: Sib, end: nat)
    requires open <= |text| && SibAt(text, syntax, open) == Got(sib, end)
    ensures OpenLength(text, syntax, open).Some?
    ensures var parts := PartsAt(text, syntax, true, PartsStart(text, syntax, open));
      parts.Got? && parts.end == end && Compile(parts.value) == Success(sib)
  {
  }

  /** Parts laid out after `[ ` that compile to `sib` make the bracket that `SibLaid` describes. */
  lemma LaidSib(text: string, syntax: Syntax, open: nat, parts: seq<Part>, sib: Sib, end: nat)
    requires open <= |text| && OpenLength(text, syntax, open).Some?
    requires exists cuts :: Laid(text, syntax, true, PartsStart(text, syntax, open), parts, cuts, end)
    requires Compile(parts) == Success(sib)
    ensures SibLaid(text, syntax, open, sib, end)
  {
    var cuts :| Laid(text, syntax, true, PartsStart(text, syntax, open), parts, cuts, end);
    assert BracketLayout(text, syntax, open, parts, cuts, end);
  }

  /** The parts that `PartsAt` reads after `[ ` lie in the text as `Laid` says. */
  lemma PartsBracket(text: string, syntax: Syntax, open: nat)
    requires open <= |text| && OpenLength(text, syntax, open).Some?
    requires PartsAt(text, syntax, true, PartsStart(text, syntax, open)).Got?
    ensures var parts := PartsAt(text, syntax, true, PartsStart(text, syntax, open));
      exists cuts :: Laid(text, syntax, true, PartsStart(text, syntax, open), parts.value, cuts, parts.end)
  {
    var cuts := PartsLaid(text, syntax, true, PartsStart(text, syntax, open));
  }

  /**
   * `]` right after `[`: when neither the number nor the identifier
   * recogniser accepts a text that starts with `]`, a bracket with no part
   * in it throws.
   */
  lemma EmptyBracketThrows(text: string, syntax: Syntax, open: nat)
    requires open <= |text| && OpenLength(text, syntax, open).Some?
    requires PartsStart(text, syntax, open) < |text|
    requires text[PartsStart(text, syntax, open)] == ']'
    requires forall s: string :: "]" <= s ==> syntax.number(s) == 0 && syntax.identifier(s) == 0
    ensures SibAt(text, syntax, open) == Throws
  {
    var from := PartsStart(text, syntax, open);
    assert "]" <= text[from..];
    assert PartAt(text, syntax, from) == Absent;
    assert ItemAt(text, syntax, true, from) == Throws;
    PartsStep(text, syntax, true, from);
    SibStep(text, syntax, open);
  }

  /** Which alternative of `#tokenize` applies to a text, in the order they are tried. */
  datatype Kind = AddressKind | IntegerKind | BracketKind | RegisterKind | LabelKind | NoKind

  function Alternative(s: string, syntax: Syntax): Kind {
    if AddressLength(s, syntax).Some? then AddressKind
    else if SignedNumber(s, syntax.number).Some? then IntegerKind
    else LaterAlternative(s, syntax)
  }

  /** The alternatives tried once neither an address nor an integer applies. */
  function LaterAlternative(s: string, syntax: Syntax): Kind {
    if Opening(s, syntax).Some? then BracketKind
    else NameAlternative(s, syntax)
  }

  /** The bracket alternative applies exactly when `[ ` opens the text; otherwise a register or a label is tried. */
  lemma LaterCases(s: string, syntax: Syntax)
    ensures LaterAlternative(s, syntax) == BracketKind <==> Opening(s, syntax).Some?
    ensures Opening(s, syntax).None? ==> LaterAlternative(s, syntax) == NameAlternative(s, syntax)
  {
  }

  /** The alternatives tried once no bracket applies either: a register, else a label. */
  function NameAlternative(s: string, syntax: Syntax): Kind {
    if syntax.identifier(s) > 0 then RegisterKind
    else if syntax.labelName(s) > 0 then LabelKind
    else NoKind
  }

  function KindOf(argument: Argument): Kind {
    match argument
    case Address(_, _) => AddressKind
    case Integer(_) => IntegerKind
    case Bracket(_) => BracketKind
    case Register(_) => RegisterKind
    case LabelRef(_) => LabelKind
  }

  /**
   * `tokenize`: the first alternative that applies, finalized, or null with
   * nothing consumed. A bracket that is begun but malformed is an error. Any
   * operand other than a bracket renders back as exactly the text it was read
   * from; a bracket renders canonically.
   */
  method Tokenize(lexer: Lexer) returns (r: Parsed<ArgumentToken>)
    requires lexer.Valid()
    modifies lexer
    ensures lexer.Valid()
    ensures r.NoMatch? <==> Alternative(old(lexer.content), lexer.syntax) == NoKind
    ensures r.NoMatch? ==> lexer.position == old(lexer.position)
    ensures r.Fail? <==> (
      Alternative(old(lexer.content), lexer.syntax) == BracketKind &&
      SibAt(lexer.backup, lexer.syntax, old(lexer.position)) == Throws)
    ensures r.Fail? ==> r.error.InvalidToken?
    ensures r.Match? ==> (
      KindOf(r.value.argument) == Alternative(old(lexer.content), lexer.syntax) &&
      r.value.span == Span(old(lexer.position), lexer.position) &&
      old(lexer.position) < lexer.position)
    ensures r.Match? && !r.value.argument.Bracket? ==>
      Stringify(r.value.argument) == old(lexer.content)[..lexer.position - old(lexer.position)]
    ensures r.Match? && r.value.argument.Bracket? ==> (
      SibAt(lexer.backup, lexer.syntax, old(lexer.position)) == Got(r.value.argument.sib, lexer.position) &&
      WellFormed(r.value.argument.sib) &&
      SibLaid(lexer.backup, lexer.syntax, old(lexer.position), r.value.argument.sib, lexer.position))
  {
    var token := new Token(lexer);
    var argument := TokenizeAlternatives(lexer);
    if !argument.Match? {
      return if argument.NoMatch? then NoMatch else Fail(argument.error);
    }
    var finalized := token.Finalize();
    return Match(ArgumentToken(argument.value, Span(finalized.start, finalized.end)));
  }

  /** `#tokenize`: the alternatives in order, before the token is finalized. */
  method TokenizeAlternatives(lexer: Lexer) returns (r: Parsed<Argument>)
    requires lexer.Valid()
    modifies lexer
    ensures lexer.Valid()
    ensures r.NoMatch? <==> Alternative(old(lexer.content), lexer.syntax) == NoKind
    ensures r.NoMatch? ==> lexer.position == old(lexer.position)
    ensures r.Fail? <==> (
      Alternative(old(lexer.content), lexer.syntax) == BracketKind &&
      SibAt(lexer.backup, lexer.syntax, old(lexer.position)) == Throws)
    ensures r.Fail? ==> r.error.InvalidToken?
    ensures r.Match? ==> (
      KindOf(r.value) == Alternative(old(lexer.content), lexer.syntax) &&
      old(lexer.position) < lexer.position)
    ensures r.Match? && !r.value.Bracket? ==>
      Stringify(r.value) == old(lexer.content)[..lexer.position - old(lexer.position)]
    ensures r.Match? && r.value.Bracket? ==> (
      SibAt(lexer.backup, lexer.syntax, old(lexer.position)) == Got(r.value.sib, lexer.position) &&
      WellFormed(r.value.sib) && SibLaid(lexer.backup, lexer.syntax, old(lexer.position), r.value.sib, lexer.position))
  {
    var address := EatAddress(lexer);
    if address.Some? {
      return Match(Address(address.value.0, address.value.1));
    }
    var integer := EatInteger(lexer);
    if integer.Some? {
      return Match(Integer(integer.value));
    }
    r := TokenizeLater(lexer);
  }

  /** The bracket, register and label alternatives of `#tokenize`. */
  method TokenizeLater(lexer: Lexer) returns (r: Parsed<Argument>)
    requires lexer.Valid()
    modifies lexer
    ensures lexer.Valid()
    ensures r.NoMatch? <==> LaterAlternative(old(lexer.content), lexer.syntax) == NoKind
    ensures r.NoMatch? ==> lexer.position == old(lexer.position)
    ensures r.Fail? <==> (
      LaterAlternative(old(lexer.content), lexer.syntax) == BracketKind &&
      SibAt(lexer.backup, lexer.syntax, old(lexer.position)) == Throws)
    ensures r.Fail? ==> r.error.InvalidToken?
    ensures r.Match? ==> (
      KindOf(r.value) == LaterAlternative(old(lexer.content), lexer.syntax) &&
      old(lexer.position) < lexer.position)
    ensures r.Match? && !r.value.Bracket? ==>
      Stringify(r.value) == old(lexer.content)[..lexer.position - old(lexer.position)]
    ensures r.Match? && r.value.Bracket? ==> (
      SibAt(lexer.backup, lexer.syntax, old(lexer.position)) == Got(r.value.sib, lexer.position) &&
      WellFormed(r.value.sib) && SibLaid(lexer.backup, lexer.syntax, old(lexer.position), r.value.sib, lexer.position))
  {
    r := TokenizeBracket(lexer);
    if r.NoMatch? {
      assert lexer.content == old(lexer.content);
      r := TokenizeName(lexer);
    }
  }

  /** The bracket alternative of `#tokenize`: `eatSib`, its record wrapped as an operand. */
  method TokenizeBracket(lexer: Lexer) returns (r: Parsed<Argument>)
    requires lexer.Valid()
    modifies lexer
    ensures lexer.Valid()
    ensures r.NoMatch? <==> LaterAlternative(old(lexer.content), lexer.syntax) != BracketKind
    ensures r.NoMatch? ==> (
      LaterAlternative(old(lexer.content), lexer.syntax) == NameAlternative(old(lexer.content), lexer.syntax) &&
      SibAt(lexer.backup, lexer.syntax, old(lexer.position)) == Absent && lexer.position == old(lexer.position))
    ensures r.Fail? <==> (
      LaterAlternative(old(lexer.content), lexer.syntax) == BracketKind &&
      SibAt(lexer.backup, lexer.syntax, old(lexer.position)) == Throws)
    ensures r.Fail? ==> r.error.InvalidToken?
    ensures r.Match? ==> (
      KindOf(r.value) == LaterAlternative(old(lexer.content), lexer.syntax) &&
      r.value.Bracket? && old(lexer.position) < lexer.position)
    ensures r.Match? ==> (
      SibAt(lexer.backup, lexer.syntax, old(lexer.position)) == Got(r.value.sib, lexer.position) &&
      WellFormed(r.value.sib) && SibLaid(lexer.backup, lexer.syntax, old(lexer.position), r.value.sib, lexer.position))
  {
    LaterCases(lexer.content, lexer.syntax);
    var sib := EatSib(lexer);
    if sib.NoMatch? {
      return NoMatch;
    } else if sib.Fail? {
      return Fail(sib.error);
    }
    return Match(Bracket(sib.value));
  }

  /** The register and label alternatives of `#tokenize`. */
  method TokenizeName(lexer: Lexer) returns (r: Parsed<Argument>)
    requires lexer.Valid()
    modifies lexer
    ensures lexer.Valid()
    ensures !r.Fail?
    ensures r.Match? ==> !r.value.Bracket?
    ensures r.NoMatch? <==> NameAlternative(old(lexer.content), lexer.syntax) == NoKind
    ensures r.NoMatch? ==> lexer.position == old(lexer.position)
    ensures r.Match? ==> (
      KindOf(r.value) == NameAlternative(old(lexer.content), lexer.syntax) &&
      old(lexer.position) < lexer.position &&
      Stringify(r.value) == old(lexer.content)[..lexer.position - old(lexer.position)])
  {
    var register := EatRegister(lexer);
    if register.Some? {
      return Match(Register(register.value));
    }
    var name := AssemblerLabels.Eat(lexer);
    if name.Some? {
      return Match(LabelRef(name.value));
    }
    return NoMatch;
  }

  /** What `AssemblerArgument.tokenizeArguments` yields: the operands and how much text they took. */
  datatype ArgumentList = ArgumentList(arguments: seq<ArgumentToken>, consumed: nat)

  /**
   * `AssemblerArgument.tokenizeArguments`, which is not part of this model:
   * any function of the remaining text that takes no more text than there is.
   */
  type ArgumentsParser = f: string -> Result<ArgumentList, SyntaxError>
    | forall s :: f(s).Success? ==> f(s).value.consumed <= |s|
    witness (s: string) => Success(ArgumentList([], 0))

  /**
   * `AssemblerArgument.stringifyArguments`, which is not part of this model:
   * any rendering that renders no operands as no text.
   */
  type ArgumentsPrinter = f: seq<ArgumentToken> -> string | f([]) == []
    witness (arguments: seq<ArgumentToken>) => []

  /** Runs the operand-list parser on the remaining text and consumes what it took. */
  method TokenizeArguments(lexer: Lexer, parse: ArgumentsParser) returns (r: Result<seq<ArgumentToken>, SyntaxError>)
    requires lexer.Valid()
    modifies lexer
    ensures lexer.Valid()
    ensures r.Success? <==> parse(old(lexer.content)).Success?
    ensures r.Success? ==> (r.value == parse(old(lexer.content)).value.arguments &&
      lexer.position == old(lexer.position) + parse(old(lexer.content)).value.consumed)
    ensures r.Failure? ==> r.error == parse(old(lexer.content)).error && lexer.position == old(lexer.position)
  {
    var list := parse(lexer.content);
    if list.Failure? {
      return Failure(list.error);
    }
    lexer.Move(list.value.consumed);
    return Success(list.value.arguments);
  }

  /** `stringify`: the operand as source text; an absent segment leaves the colon alone. */
  function Stringify(argument: Argument): (s: string)
    ensures argument.Address? ==> ':' in s
    ensures argument.Bracket? ==> |s| >= 2 && s[0] == '[' && s[|s| - 1] == ']'
  {
    match argument
    case Address(segment, offset) => AddressText(segment, offset)
    case Integer(integer) => integer
    case Bracket(sib) => StringifySib(sib)
    case Register(register) => register
    case LabelRef(name) => name
  }
}

=== FILE: assembler_block.dfy ===
/**
 * src/tokens/AssemblerBlock.js: an `asm { ... }` block of assembler
 * statements, its rendering, and its layout into bytes. Layout is one pass
 * over the statements that records each label at the running byte offset,
 * queues the patch callbacks of the emitted chunks, and runs the callbacks
 * only once every statement is laid out, so that each sees the complete
 * label table.
 */
module AssemblerBlocks {
  import opened Wrappers
  import opened Lexing
  import opened Tokens
  import opened LexerRules
  import opened LittleEndian
  import S = AssemblerStatements

  /** The keyword `kw.ASM` (`src/constants.js` is not part of this model). */
  const Asm: string := "asm"

  datatype AssemblerBlock = AssemblerBlock(statements: seq<S.Statement>, span: Span)

  // Tokenizing

  /** How much of the text `asm` and ` {` cover together, if both are there. */
  function HeadLength(s: string, blank: Matcher): (r: Option<nat>)
    ensures r.Some? ==> |Asm| < r.value <= |s| && s[..|Asm|] == Asm && s[r.value - 1] == '{'
    ensures r.None? <==> !(Asm <= s) || SpecialLength(" {", s[|Asm|..], blank).None?
  {
    if Asm <= s then
      match SpecialLength(" {", s[|Asm|..], blank)
      case Some(n) => SpecialBrace(s[|Asm|..], blank); Some(|Asm| + n)
      case None => None
    else None
  }

  /** ` {` always ends in the brace. */
  lemma SpecialBrace(s: string, blank: Matcher)
    requires SpecialLength(" {", s, blank).Some?
    ensures var n := SpecialLength(" {", s, blank).value; 0 < n && s[n - 1] == '{'
  {
    var b := blank(s);
    assert SpecialLength("{", s[b..], blank).Some?;
    assert SpecialLength(" {", s, blank).value == b + 1;
  }

  /** The callback `tokenize` hands to `try`: it succeeds when the head is there. */
  function HeadAttempt(blank: Matcher): Attempt {
    (s: string) => if HeadLength(s, blank).Some? then (true, HeadLength(s, blank).value) else (false, 0)
  }

  /** The `try` of `tokenize`: `asm` and ` {`, both consumed or neither. */
  method EatHead(lexer: Lexer) returns (ok: bool)
    requires lexer.Valid()
    modifies lexer
    ensures lexer.Valid()
    ensures ok <==> HeadLength(old(lexer.content), lexer.syntax.blank).Some?
    ensures lexer.position == old(lexer.position) +
      (if ok then HeadLength(old(lexer.content), lexer.syntax.blank).value else 0)
  {
    ok := lexer.Try(HeadAttempt(lexer.syntax.blank));
  }

  /**
   * The statements lie in order in `text[start..end]`, each read from its
   * span as `S.StatementLaid` says, and the text before, between and after
   * them is whitespace and comments only. Read from the end: the last
   * statement is followed by skipped text, and the others are separated in
   * the text before it.
   */
  ghost predicate Separated(text: string, syntax: Syntax, statements: seq<S.Statement>, start: nat, end: nat)
    decreases |statements|
  {
    start <= end <= |text| &&
    if statements == [] then Skipped(text[start..end])
    else
      var last := statements[|statements| - 1];
      start <= last.span.start < last.span.end <= end &&
      (exists cuts :: S.StatementLaid(text, syntax, last, cuts)) &&
      Separated(text, syntax, statements[..|statements| - 1], start, last.span.start) &&
      Skipped(text[last.span.end..end])
  }

  /**
   * A statement read where the trailing gap ends, followed by more skipped
   * text, extends the separated statements.
   */
  lemma SeparatedAppend(text: string, syntax: Syntax, statements: seq<S.Statement>, start: nat, middle: nat,
                        statement: S.Statement, cuts: seq<(nat, nat)>, end: nat)
    requires Separated(text, syntax, statements, start, middle)
    requires middle == statement.span.start < statement.span.end <= end <= |text|
    requires S.StatementLaid(text, syntax, statement, cuts)
    requires Skipped(text[statement.span.end..end])
    ensures Separated(text, syntax, statements + [statement], start, end)
  {
    assert (statements + [statement])[..|statements|] == statements;
  }

  /**
   * `tokenize`: `asm` and ` {`, or nothing with the lexer restored; then
   * statements separated by whitespace and comments for as long as one
   * starts; then `}` is required.
   */
  method Tokenize(lexer: Lexer) returns (r: Parsed<AssemblerBlock>, ghost body: nat, ghost close: nat)
    requires lexer.Valid()
    modifies lexer
    ensures lexer.Valid() && old(lexer.position) <= lexer.position
    ensures r.NoMatch? <==> HeadLength(old(lexer.content), lexer.syntax.blank).None?
    ensures r.NoMatch? ==> lexer.position == old(lexer.position)
    ensures r.Match? ==> (
      r.value.span == Span(old(lexer.position), lexer.position) &&
      body == old(lexer.position) + HeadLength(old(lexer.content), lexer.syntax.blank).value &&
      body <= close && close + 1 == lexer.position && lexer.backup[close] == '}' &&
      Separated(lexer.backup, lexer.syntax, r.value.statements, body, close))
    ensures r.Fail? ==> HeadLength(old(lexer.content), lexer.syntax.blank).Some?
    ensures r.Fail? && r.error.Expected? ==> (
      r.error.expected == "}" && r.error.position == lexer.position &&
      S.MnemoLength(lexer.content) == 0 && !("}" <= lexer.content))
  {
    ghost var head := HeadLength(lexer.content, lexer.syntax.blank);
    var token := new Token(lexer);
    var ok := EatHead(lexer);
    if !ok {
      return NoMatch, lexer.position, lexer.position;
    }
    body := lexer.position;
    assert body == token.start + head.value;
    var statements;
    statements, close := TokenizeStatements(lexer);
    if statements.Failure? {
      return Fail(statements.error), body, close;
    }
    var finalized := token.Finalize();
    return Match(AssemblerBlock(statements.value, Span(finalized.start, finalized.end))), body, close;
  }

  /**
   * The statements of the block and its closing `}`: statements separated
   * by whitespace and comments up to where no mnemonic starts, which must
   * be the `}`, at `close`.
   */
  method TokenizeStatements(lexer: Lexer) returns (r: Result<seq<S.Statement>, SyntaxError>, ghost close: nat)
    requires lexer.Valid()
    modifies lexer
    ensures lexer.Valid() && old(lexer.position) <= lexer.position
    ensures r.Success? ==> (
      old(lexer.position) <= close && close + 1 == lexer.position && lexer.backup[close] == '}' &&
      Separated(lexer.backup, lexer.syntax, r.value, old(lexer.position), close) &&
      S.MnemoLength(lexer.backup[close..]) == 0)
    ensures r.Failure? && r.error.Expected? ==> (
      r.error.expected == "}" && r.error.position == lexer.position &&
      S.MnemoLength(lexer.content) == 0 && !("}" <= lexer.content))
  {
    r := StatementList(lexer);
    close := lexer.position;
    if r.Failure? {
      return;
    }
    var closing := Expect(lexer, "}");
    if closing.Failure? {
      return Failure(closing.error), close;
    }
    assert lexer.backup[close] == lexer.backup[close..][0];
  }

  /**
   * The statement loop of `tokenize`: statements separated by whitespace
   * and comments for as long as a mnemonic starts; the first statement
   * that fails ends it.
   */
  method StatementList(lexer: Lexer) returns (r: Result<seq<S.Statement>, SyntaxError>)
    requires lexer.Valid()
    modifies lexer
    ensures lexer.Valid() && old(lexer.position) <= lexer.position
    ensures r.Success? ==> (
      Separated(lexer.backup, lexer.syntax, r.value, old(lexer.position), lexer.position) &&
      S.MnemoLength(lexer.content) == 0)
    ensures r.Failure? ==> r.error.InvalidToken? || r.error.Untyped?
  {
    ghost var start := lexer.position;
    var statements: seq<S.Statement> := [];
    var wcc := Wcc(lexer);
    while true
      invariant lexer.Valid() && start <= lexer.position
      invariant Separated(lexer.backup, lexer.syntax, statements, start, lexer.position)
      decreases |lexer.content|
    {
      ghost var before := lexer.position;
      var statement;
      ghost var operandsStart, layout;
      statement, operandsStart, layout := S.Tokenize(lexer);
      if statement.NoMatch? {
        break;
      }
      if statement.Fail? {
        return Failure(statement.error);
      }
      wcc := Wcc(lexer);
      SeparatedAppend(lexer.backup, lexer.syntax, statements, start, before, statement.value, layout, lexer.position);
      statements := statements + [statement.value];
    }
    return Success(statements);
  }

  // Rendering

  /** The statements' lines, one per statement, in order. */
  function Lines(statements: seq<S.Statement>): (lines: seq<string>)
    ensures |lines| == |statements|
    ensures forall i :: 0 <= i < |statements| ==> lines[i] == S.Stringify(statements[i])[0]
  {
    if statements == [] then [] else S.Stringify(statements[0]) + Lines(statements[1..])
  }

  /** `stringify`: `asm {`, every statement's line indented, then `}`. */
  function Stringify(block: AssemblerBlock): (lines: seq<string>)
    ensures |lines| == |block.statements| + 2
    ensures lines[0] == Asm + " {" && lines[|lines| - 1] == "}"
    ensures forall i :: 0 <= i < |block.statements| ==>
      lines[i + 1] == "    " + S.Stringify(block.statements[i])[0]
  {
    [Asm + " {"] + Indent(Lines(block.statements)) + ["}"]
  }

  // Layout

  /** Why `toBuffer` throws: a label defined twice, a statement that is not encoded, or a patch callback that throws. */
  datatype LayoutError = DuplicateLabel(name: string) | NotEncoded(reason: S.BufferError) | PatchFailed(thrown: S.EncodeError)

  /** A queued callback: which chunk it completes, where that chunk starts, its length, the patch. */
  datatype Pending = Pending(index: nat, offset: nat, length: nat, patch: S.Patch)

  /** The state of the pass: the label table, the chunks so far, the running offset, the queue. */
  datatype Layout = Layout(labels: map<string, nat>, chunks: seq<S.Chunk>, offset: nat, callbacks: seq<Pending>)

  const Initial: Layout := Layout(map[], [], 0, [])

  /** The total byte length of the chunks. */
  function TotalLength(chunks: seq<S.Chunk>): nat {
    if chunks == [] then 0 else TotalLength(chunks[..|chunks| - 1]) + |chunks[|chunks| - 1].bytes|
  }

  /** Emitting one chunk: it is appended, the offset grows by its length, its callback is queued. */
  function Push(layout: Layout, chunk: S.Chunk): Layout {
    var queued := if chunk.patch.Some? then
      [Pending(|layout.chunks|, layout.offset, |chunk.bytes|, chunk.patch.value)]
    else [];
    Layout(layout.labels, layout.chunks + [chunk], layout.offset + |chunk.bytes|, layout.callbacks + queued)
  }

  /** The `forEach` over one statement's chunks. */
  function Emit(layout: Layout, chunks: seq<S.Chunk>): Layout
    decreases |chunks|
  {
    if chunks == [] then layout else Emit(Push(layout, chunks[0]), chunks[1..])
  }

  /** The statement loop of `toBuffer`, as a fold from the given state. */
  function LayOut(statements: seq<S.Statement>, arch: S.Arch, encode: S.Encoder, layout: Layout): Result<Layout, LayoutError>
    decreases |statements|
  {
    if statements == [] then Success(layout)
    else
      var statement := statements[0];
      if statement.labelName.Some? && statement.labelName.value in layout.labels then
        Failure(DuplicateLabel(statement.labelName.value))
      else
        var labels := if statement.labelName.Some? then
          layout.labels[statement.labelName.value := layout.offset]
        else layout.labels;
        match S.ToBuffer(statement, arch, encode)
        case Failure(error) => Failure(NotEncoded(error))
        case Success(chunks) =>
          LayOut(statements[1..], arch, encode, Emit(Layout(labels, layout.chunks, layout.offset, layout.callbacks), chunks))
  }

  /** Every queued callback refers to an existing chunk. */
  predicate InRange(callbacks: seq<Pending>, count: nat) {
    forall p :: 0 <= p < |callbacks| ==> callbacks[p].index < count
  }

  /** What one callback does: its patch rewrites its chunk, given the complete label table, or throws. */
  function Apply(callback: Pending, bytes: seq<Byte>, labels: map<string, nat>): Result<seq<Byte>, S.EncodeError> {
    callback.patch(S.PatchContext(callback.offset, callback.length, labels), bytes)
  }

  /** The callbacks run in queue order, each on the current bytes of its chunk; the first that throws ends the run. */
  function RunCallbacks(buffers: seq<seq<Byte>>, callbacks: seq<Pending>, labels: map<string, nat>): Result<seq<seq<Byte>>, S.EncodeError>
    requires InRange(callbacks, |buffers|)
    decreases |callbacks|
  {
    if callbacks == [] then Success(buffers)
    else
      var c := callbacks[0];
      match Apply(c, buffers[c.index], labels)
      case Failure(error) => Failure(error)
      case Success(bytes) => RunCallbacks(buffers[c.index := bytes], callbacks[1..], labels)
  }

  /** The bytes of each chunk as emitted. */
  function Contents(chunks: seq<S.Chunk>): (buffers: seq<seq<Byte>>)
    ensures |buffers| == |chunks|
    ensures forall j :: 0 <= j < |chunks| ==> buffers[j] == chunks[j].bytes
  {
    seq(|chunks|, j requires 0 <= j < |chunks| => chunks[j].bytes)
  }

  /** `Buffer.concat`: the buffers one after the other. */
  function Concat(buffers: seq<seq<Byte>>): seq<Byte> {
    if buffers == [] then [] else Concat(buffers[..|buffers| - 1]) + buffers[|buffers| - 1]
  }

  /** The block's bytes, or the first error of the pass, or the first error of the callbacks. */
  function Assemble(statements: seq<S.Statement>, arch: S.Arch, encode: S.Encoder): Result<seq<Byte>, LayoutError> {
    match LayOut(statements, arch, encode, Initial)
    case Failure(error) => Failure(error)
    case Success(layout) =>
      LayOutConsistent(statements, arch, encode, Initial);
      match RunCallbacks(Contents(layout.chunks), layout.callbacks, layout.labels)
      case Failure(error) => Failure(PatchFailed(error))
      case Success(buffers) => Success(Concat(buffers))
  }

  /**
   * `toBuffer`: lays the statements out in one pass, then runs the queued
   * callbacks, then concatenates the chunks.
   */
  method ToBuffer(statements: seq<S.Statement>, arch: S.Arch, encode: S.Encoder) returns (r: Result<seq<Byte>, LayoutError>)
    ensures r == Assemble(statements, arch, encode)
  {
    var labels: map<string, nat> := map[];
    var chunks: seq<S.Chunk> := [];
    var offset: nat := 0;
    var callbacks: seq<Pending> := [];
    for i := 0 to |statements|
      invariant LayOut(statements[i..], arch, encode, Layout(labels, chunks, offset, callbacks)) ==
        LayOut(statements, arch, encode, Initial)
    {
      var statement := statements[i];
      assert statements[i..][1..] == statements[i + 1..];
      if statement.labelName.Some? {
        if statement.labelName.value in labels {
          return Failure(DuplicateLabel(statement.labelName.value));
        }
        labels := labels[statement.labelName.value := offset];
      }
      var encoded := S.ToBuffer(statement, arch, encode);
      if encoded.Failure? {
        return Failure(NotEncoded(encoded.error));
      }
      chunks, offset, callbacks := EmitChunks(labels, chunks, offset, callbacks, encoded.value);
    }
    LayOutConsistent(statements, arch, encode, Initial);
    var buffers := RunQueue(Contents(chunks), callbacks, labels);
    if buffers.Failure? {
      return Failure(PatchFailed(buffers.error));
    }
    return Success(Concat(buffers.value));
  }

  /** The `forEach` over one statement's chunks: append each, advance the offset, queue its callback. */
  method EmitChunks(labels: map<string, nat>, chunks: seq<S.Chunk>, offset: nat, callbacks: seq<Pending>, emitted: seq<S.Chunk>)
    returns (chunks': seq<S.Chunk>, offset': nat, callbacks': seq<Pending>)
    ensures Layout(labels, chunks', offset', callbacks') == Emit(Layout(labels, chunks, offset, callbacks), emitted)
  {
    chunks', offset', callbacks' := chunks, offset, callbacks;
    for k := 0 to |emitted|
      invariant Emit(Layout(labels, chunks', offset', callbacks'), emitted[k..]) ==
        Emit(Layout(labels, chunks, offset, callbacks), emitted)
    {
      var chunk := emitted[k];
      assert emitted[k..][1..] == emitted[k + 1..];
      ghost var before := Layout(labels, chunks', offset', callbacks');
      if chunk.patch.Some? {
        callbacks' := callbacks' + [Pending(|chunks'|, offset', |chunk.bytes|, chunk.patch.value)];
      }
      chunks' := chunks' + [chunk];
      offset' := offset' + |chunk.bytes|;
      assert Layout(labels, chunks', offset', callbacks') == Push(before, chunk);
    }
  }

  /** The final `forEach`: every queued callback, in order, rewrites its chunk; one that throws ends it. */
  method RunQueue(buffers: seq<seq<Byte>>, callbacks: seq<Pending>, labels: map<string, nat>)
    returns (r: Result<seq<seq<Byte>>, S.EncodeError>)
    requires InRange(callbacks, |buffers|)
    ensures r == RunCallbacks(buffers, callbacks, labels)
  {
    var current := buffers;
    for q := 0 to |callbacks|
      invariant |current| == |buffers|
      invariant RunCallbacks(current, callbacks[q..], labels) == RunCallbacks(buffers, callbacks, labels)
    {
      var callback := callbacks[q];
      assert callbacks[q..][1..] == callbacks[q + 1..];
      var patched := Apply(callback, current[callback.index], labels);
      if patched.Failure? {
        return Failure(patched.error);
      }
      current := current[callback.index := patched.value];
    }
    return Success(current);
  }

  // Properties of the pass

  /** A queued callback matches its chunk: same patch, the chunk's start offset and length. */
  ghost predicate Queued(layout: Layout, p: nat)
    requires p < |layout.callbacks|
  {
    var c := layout.callbacks[p];
    c.index < |layout.chunks| && layout.chunks[c.index].patch == Some(c.patch) &&
    c.offset == TotalLength(layout.chunks[..c.index]) && c.length == |layout.chunks[c.index].bytes|
  }

  /**
   * What every state of the pass satisfies: the offset is the length so far,
   * the queue holds exactly the chunks with a callback, in emission order,
   * each with its start offset.
   */
  ghost predicate Consistent(layout: Layout) {
    layout.offset == TotalLength(layout.chunks) &&
    (forall p :: 0 <= p < |layout.callbacks| ==> Queued(layout, p)) &&
    Ascending(layout.callbacks) &&
    (forall j :: 0 <= j < |layout.chunks| && layout.chunks[j].patch.Some? ==>
      exists p :: 0 <= p < |layout.callbacks| && layout.callbacks[p].index == j)
  }

  lemma PushConsistent(layout: Layout, chunk: S.Chunk)
    requires Consistent(layout)
    ensures Consistent(Push(layout, chunk))
    ensures Push(layout, chunk).chunks == layout.chunks + [chunk]
    ensures Push(layout, chunk).labels == layout.labels
  {
    var next := Push(layout, chunk);
    var n := |layout.chunks|;
    assert next.chunks[..n] == layout.chunks;
    assert next.chunks[..|next.chunks| - 1] == layout.chunks;
    forall p | 0 <= p < |next.callbacks| ensures Queued(next, p) {
      if p < |layout.callbacks| {
        assert Queued(layout, p);
        var c := layout.callbacks[p];
        assert next.chunks[..c.index] == layout.chunks[..c.index];
      }
    }
    forall j | 0 <= j < |next.chunks| && next.chunks[j].patch.Some?
      ensures exists p :: 0 <= p < |next.callbacks| && next.callbacks[p].index == j
    {
      if j < n {
        var p :| 0 <= p < |layout.callbacks| && layout.callbacks[p].index == j;
        assert next.callbacks[p] == layout.callbacks[p];
      } else {
        assert next.callbacks[|layout.callbacks|].index == j;
      }
    }
    forall p, q | 0 <= p < q < |next.callbacks| ensures next.callbacks[p].index < next.callbacks[q].index {
      if q == |layout.callbacks| {
        assert Queued(layout, p);
      }
    }
  }

  lemma {:induction false} EmitConsistent(layout: Layout, chunks: seq<S.Chunk>)
    requires Consistent(layout)
    ensures Consistent(Emit(layout, chunks))
    ensures Emit(layout, chunks).chunks == layout.chunks + chunks
    ensures Emit(layout, chunks).labels == layout.labels
    decreases |chunks|
  {
    if chunks != [] {
      var next := Push(layout, chunks[0]);
      PushConsistent(layout, chunks[0]);
      EmitConsistent(next, chunks[1..]);
      assert Emit(layout, chunks) == Emit(next, chunks[1..]);
      assert next.chunks + chunks[1..] == layout.chunks + chunks;
    }
  }

  lemma {:induction false} LayOutConsistent(statements: seq<S.Statement>, arch: S.Arch, encode: S.Encoder, layout: Layout)
    requires Consistent(layout)
    ensures LayOut(statements, arch, encode, layout).Success? ==>
      Consistent(LayOut(statements, arch, encode, layout).value) &&
      InRange(LayOut(statements, arch, encode, layout).value.callbacks,
        |LayOut(statements, arch, encode, layout).value.chunks|)
    decreases |statements|
  {
    if statements == [] {
      forall p | 0 <= p < |layout.callbacks| ensures layout.callbacks[p].index < |layout.chunks| {
        assert Queued(layout, p);
      }
    } else {
      var statement := statements[0];
      var labels := if statement.labelName.Some? then
        layout.labels[statement.labelName.value := layout.offset]
      else layout.labels;
      var relabelled := Layout(labels, layout.chunks, layout.offset, layout.callbacks);
      assert forall p :: 0 <= p < |layout.callbacks| ==> Queued(layout, p) == Queued(relabelled, p);
      match S.ToBuffer(statement, arch, encode)
      case Failure(_) =>
      case Success(chunks) =>
        EmitConsistent(relabelled, chunks);
        LayOutConsistent(statements[1..], arch, encode, Emit(relabelled, chunks));
    }
  }

  /** Lengths add up over concatenation. */
  lemma {:induction false} TotalLengthAppend(a: seq<S.Chunk>, b: seq<S.Chunk>)
    ensures TotalLength(a + b) == TotalLength(a) + TotalLength(b)
    decreases |b|
  {
    if b != [] {
      var last := |b| - 1;
      assert (a + b)[..|a + b| - 1] == a + b[..last];
      TotalLengthAppend(a, b[..last]);
    } else {
      assert a + b == a;
    }
  }

  // The pass, described per statement

  /** The chunks of the statements, in statement order (a statement that cannot be encoded gives none). */
  function Chunks(statements: seq<S.Statement>, arch: S.Arch, encode: S.Encoder): seq<S.Chunk> {
    if statements == [] then []
    else
      var own := match S.ToBuffer(statements[0], arch, encode)
        case Success(chunks) => chunks
        case Failure(_) => [];
      own + Chunks(statements[1..], arch, encode)
  }

  /** Every statement is encoded: it has a scheme and the encoder does not throw on it. */
  predicate Encodes(statements: seq<S.Statement>, arch: S.Arch, encode: S.Encoder) {
    forall i :: 0 <= i < |statements| ==> S.ToBuffer(statements[i], arch, encode).Success?
  }

  /** No two statements define the same label. */
  predicate DistinctLabels(statements: seq<S.Statement>) {
    forall i, j :: 0 <= i < j < |statements| && statements[i].labelName.Some? && statements[j].labelName.Some? ==>
      statements[i].labelName.value != statements[j].labelName.value
  }

  /** No statement defines a label that is already in the table. */
  predicate FreshLabels(statements: seq<S.Statement>, labels: map<string, nat>) {
    forall i :: 0 <= i < |statements| && statements[i].labelName.Some? ==> statements[i].labelName.value !in labels
  }

  /** Some statement defines the label `name`. */
  predicate Defines(statements: seq<S.Statement>, name: string) {
    exists i :: 0 <= i < |statements| && statements[i].labelName == Some(name)
  }

  lemma EncodesTail(statements: seq<S.Statement>, arch: S.Arch, encode: S.Encoder)
    requires statements != []
    ensures Encodes(statements, arch, encode) <==>
      S.ToBuffer(statements[0], arch, encode).Success? && Encodes(statements[1..], arch, encode)
  {
    if Encodes(statements, arch, encode) {
      EncodesRest(statements, arch, encode);
    }
    if S.ToBuffer(statements[0], arch, encode).Success? && Encodes(statements[1..], arch, encode) {
      EncodesFront(statements, arch, encode);
    }
  }

  lemma EncodesRest(statements: seq<S.Statement>, arch: S.Arch, encode: S.Encoder)
    requires statements != [] && Encodes(statements, arch, encode)
    ensures S.ToBuffer(statements[0], arch, encode).Success? && Encodes(statements[1..], arch, encode)
  {
    var rest := statements[1..];
    forall j | 0 <= j < |rest| ensures S.ToBuffer(rest[j], arch, encode).Success? {
      assert rest[j] == statements[j + 1];
    }
  }

  lemma EncodesFront(statements: seq<S.Statement>, arch: S.Arch, encode: S.Encoder)
    requires statements != []
    requires S.ToBuffer(statements[0], arch, encode).Success? && Encodes(statements[1..], arch, encode)
    ensures Encodes(statements, arch, encode)
  {
    var rest := statements[1..];
    forall i | 0 <= i < |statements| ensures S.ToBuffer(statements[i], arch, encode).Success? {
      if i > 0 {
        assert statements[i] == rest[i - 1];
      }
    }
  }

  lemma DistinctTail(statements: seq<S.Statement>)
    requires statements != []
    ensures DistinctLabels(statements) <==>
      DistinctLabels(statements[1..]) &&
      (statements[0].labelName.Some? ==> !Defines(statements[1..], statements[0].labelName.value))
  {
    var rest := statements[1..];
    if DistinctLabels(statements) {
      forall i, j | 0 <= i < j < |rest| && rest[i].labelName.Some? && rest[j].labelName.Some?
        ensures rest[i].labelName.value != rest[j].labelName.value
      {
        assert rest[i] == statements[i + 1] && rest[j] == statements[j + 1];
      }
      if statements[0].labelName.Some? {
        forall i | 0 <= i < |rest| ensures rest[i].labelName != statements[0].labelName {
          assert rest[i] == statements[i + 1];
        }
      }
    }
    if DistinctLabels(rest) && (statements[0].labelName.Some? ==> !Defines(rest, statements[0].labelName.value)) {
      forall i, j | 0 <= i < j < |statements| && statements[i].labelName.Some? && statements[j].labelName.Some?
        ensures statements[i].labelName.value != statements[j].labelName.value
      {
        assert statements[j] == rest[j - 1];
        if i > 0 {
          assert statements[i] == rest[i - 1];
        }
      }
    }
  }

  lemma FreshTail(statements: seq<S.Statement>, labels: map<string, nat>)
    requires statements != []
    ensures FreshLabels(statements, labels) <==>
      (statements[0].labelName.Some? ==> statements[0].labelName.value !in labels) &&
      FreshLabels(statements[1..], labels)
  {
    if (statements[0].labelName.Some? ==> statements[0].labelName.value !in labels) && FreshLabels(statements[1..], labels) {
      forall i | 0 <= i < |statements| && statements[i].labelName.Some?
        ensures statements[i].labelName.value !in labels
      {
        if i > 0 {
          assert statements[i] == statements[1..][i - 1];
        }
      }
    }
  }

  lemma FreshInsert(statements: seq<S.Statement>, labels: map<string, nat>, name: string, offset: nat)
    ensures FreshLabels(statements, labels[name := offset]) <==> FreshLabels(statements, labels) && !Defines(statements, name)
  {
  }

  /** The pass succeeds exactly when every statement is encoded and no label is defined twice. */
  lemma {:induction false} LayOutSucceeds(statements: seq<S.Statement>, arch: S.Arch, encode: S.Encoder, layout: Layout)
    ensures LayOut(statements, arch, encode, layout).Success? <==>
      Encodes(statements, arch, encode) && DistinctLabels(statements) && FreshLabels(statements, layout.labels)
    decreases |statements|
  {
    if statements != [] {
      var statement := statements[0];
      var rest := statements[1..];
      EncodesTail(statements, arch, encode);
      DistinctTail(statements);
      FreshTail(statements, layout.labels);
      if !(statement.labelName.Some? && statement.labelName.value in layout.labels) {
        var labels := if statement.labelName.Some? then
          layout.labels[statement.labelName.value := layout.offset]
        else layout.labels;
        if statement.labelName.Some? {
          FreshInsert(rest, layout.labels, statement.labelName.value, layout.offset);
        }
        match S.ToBuffer(statement, arch, encode)
        case Failure(_) =>
        case Success(chunks) =>
          var next := Emit(Layout(labels, layout.chunks, layout.offset, layout.callbacks), chunks);
          EmitLabels(Layout(labels, layout.chunks, layout.offset, layout.callbacks), chunks);
          LayOutSucceeds(rest, arch, encode, next);
      }
    }
  }

  /** Emitting chunks leaves the label table alone. */
  lemma {:induction false} EmitLabels(layout: Layout, chunks: seq<S.Chunk>)
    ensures Emit(layout, chunks).labels == layout.labels
    ensures Emit(layout, chunks).chunks == layout.chunks + chunks
    ensures Emit(layout, chunks).offset == layout.offset + TotalLength(chunks)
    decreases |chunks|
  {
    if chunks != [] {
      EmitLabels(Push(layout, chunks[0]), chunks[1..]);
      assert layout.chunks + [chunks[0]] + chunks[1..] == layout.chunks + chunks;
      TotalLengthAppend([chunks[0]], chunks[1..]);
      assert [chunks[0]] + chunks[1..] == chunks;
      assert TotalLength([chunks[0]]) == |chunks[0].bytes| by {
        assert [chunks[0]][..0] == [];
      }
    }
  }

  /** The label table after defining the optional label `name` at `offset`. */
  function Define(labels: map<string, nat>, name: Option<string>, offset: nat): map<string, nat> {
    if name.Some? then labels[name.value := offset] else labels
  }

  /** A successful pass is its first statement's step followed by the pass over the rest. */
  lemma LayOutFirst(statements: seq<S.Statement>, arch: S.Arch, encode: S.Encoder, layout: Layout)
    requires statements != [] && LayOut(statements, arch, encode, layout).Success?
    ensures statements[0].labelName.Some? ==> statements[0].labelName.value !in layout.labels
    ensures S.ToBuffer(statements[0], arch, encode).Success?
    ensures var chunks := S.ToBuffer(statements[0], arch, encode).value;
      var next := Emit(Layout(Define(layout.labels, statements[0].labelName, layout.offset), layout.chunks, layout.offset, layout.callbacks), chunks);
      LayOut(statements[1..], arch, encode, next) == LayOut(statements, arch, encode, layout) &&
      next.labels == Define(layout.labels, statements[0].labelName, layout.offset) &&
      next.chunks == layout.chunks + chunks &&
      next.offset == layout.offset + TotalLength(chunks)
  {
    var chunks := S.ToBuffer(statements[0], arch, encode).value;
    EmitLabels(Layout(Define(layout.labels, statements[0].labelName, layout.offset), layout.chunks, layout.offset, layout.callbacks), chunks);
  }

  lemma ChunksFirst(statements: seq<S.Statement>, arch: S.Arch, encode: S.Encoder)
    requires statements != [] && S.ToBuffer(statements[0], arch, encode).Success?
    ensures Chunks(statements, arch, encode) == S.ToBuffer(statements[0], arch, encode).value + Chunks(statements[1..], arch, encode)
  {
  }

  /** The chunks of a prefix: the first statement's chunks, then the chunks of the rest of the prefix. */
  lemma ChunksPrefix(statements: seq<S.Statement>, arch: S.Arch, encode: S.Encoder, i: nat)
    requires 0 < i <= |statements| && S.ToBuffer(statements[0], arch, encode).Success?
    ensures Chunks(statements[..i], arch, encode) ==
      S.ToBuffer(statements[0], arch, encode).value + Chunks(statements[1..][..i - 1], arch, encode)
  {
    var prefix := statements[..i];
    assert prefix[0] == statements[0] && prefix[1..] == statements[1..][..i - 1];
    assert Chunks(prefix, arch, encode) == S.ToBuffer(prefix[0], arch, encode).value + Chunks(prefix[1..], arch, encode);
  }

  lemma AppendEmpty(a: seq<S.Chunk>)
    ensures [] + a == a
  {
  }

  lemma AppendAssociates(a: seq<S.Chunk>, b: seq<S.Chunk>, c: seq<S.Chunk>)
    ensures (a + b) + c == a + (b + c)
  {
  }

  /** On success, the chunks are every statement's chunks in order, after those already emitted. */
  lemma {:induction false} LayOutChunks(statements: seq<S.Statement>, arch: S.Arch, encode: S.Encoder, layout: Layout)
    requires LayOut(statements, arch, encode, layout).Success?
    ensures var result := LayOut(statements, arch, encode, layout).value;
      result.chunks == layout.chunks + Chunks(statements, arch, encode)
    decreases |statements|
  {
    if statements == [] {
      assert layout.chunks + [] == layout.chunks;
    } else {
      LayOutFirst(statements, arch, encode, layout);
      var chunks := S.ToBuffer(statements[0], arch, encode).value;
      var next := Emit(Layout(Define(layout.labels, statements[0].labelName, layout.offset), layout.chunks, layout.offset, layout.callbacks), chunks);
      var rest := statements[1..];
      LayOutChunks(rest, arch, encode, next);
      ChunksFirst(statements, arch, encode);
      AppendAssociates(layout.chunks, chunks, Chunks(rest, arch, encode));
    }
  }

  /**
   * On success, earlier labels keep their values, and each label defined by
   * a statement is the offset of the pass plus the length of all chunks of
   * the statements before it.
   */
  lemma {:induction false} LayOutLabels(statements: seq<S.Statement>, arch: S.Arch, encode: S.Encoder, layout: Layout)
    requires LayOut(statements, arch, encode, layout).Success?
    ensures var result := LayOut(statements, arch, encode, layout).value;
      (forall name :: name in layout.labels ==> name in result.labels && result.labels[name] == layout.labels[name]) &&
      (forall i :: 0 <= i < |statements| && statements[i].labelName.Some? ==>
        statements[i].labelName.value in result.labels &&
        result.labels[statements[i].labelName.value] == layout.offset + TotalLength(Chunks(statements[..i], arch, encode)))
    decreases |statements|
  {
    if statements != [] {
      var result := LayOut(statements, arch, encode, layout).value;
      LayOutFirst(statements, arch, encode, layout);
      var chunks := S.ToBuffer(statements[0], arch, encode).value;
      var next := Emit(Layout(Define(layout.labels, statements[0].labelName, layout.offset), layout.chunks, layout.offset, layout.callbacks), chunks);
      var rest := statements[1..];
      LayOutLabels(rest, arch, encode, next);
      forall i | 0 <= i < |statements| && statements[i].labelName.Some?
        ensures statements[i].labelName.value in result.labels &&
          result.labels[statements[i].labelName.value] == layout.offset + TotalLength(Chunks(statements[..i], arch, encode))
      {
        if i == 0 {
          assert statements[..0] == [];
        } else {
          assert statements[i] == rest[i - 1];
          ChunksPrefix(statements, arch, encode, i);
          TotalLengthAppend(chunks, Chunks(rest[..i - 1], arch, encode));
        }
      }
    }
  }

  // The callbacks and the output

  /**
   * A chunk as it ends up in the output: patched with its start offset and
   * the label table, if it has a callback, or the error that callback throws.
   */
  function PatchedChunk(chunk: S.Chunk, offset: nat, labels: map<string, nat>): (r: Result<seq<Byte>, S.EncodeError>)
    ensures chunk.patch.None? ==> r == Success(chunk.bytes)
    ensures r.Success? ==> |r.value| == |chunk.bytes|
  {
    match chunk.patch
    case None => Success(chunk.bytes)
    case Some(patch) => patch(S.PatchContext(offset, |chunk.bytes|, labels), chunk.bytes)
  }

  /** No callback of the chunks throws, each given its chunk's start offset and the label table. */
  predicate Patches(chunks: seq<S.Chunk>, labels: map<string, nat>) {
    forall j :: 0 <= j < |chunks| ==> PatchedChunk(chunks[j], TotalLength(chunks[..j]), labels).Success?
  }

  /** Every chunk as it ends up in the output. */
  function Patched(chunks: seq<S.Chunk>, labels: map<string, nat>): (buffers: seq<seq<Byte>>)
    requires Patches(chunks, labels)
    ensures |buffers| == |chunks|
    ensures forall j :: 0 <= j < |chunks| ==> |buffers[j]| == |chunks[j].bytes|
  {
    seq(|chunks|, j requires 0 <= j < |chunks| => PatchedChunk(chunks[j], TotalLength(chunks[..j]), labels).value)
  }

  /** A prefix of chunks whose callbacks do not throw has none that throws. */
  lemma PatchesPrefix(chunks: seq<S.Chunk>, labels: map<string, nat>, j: nat)
    requires j <= |chunks| && Patches(chunks, labels)
    ensures Patches(chunks[..j], labels)
  {
    var prefix := chunks[..j];
    forall k | 0 <= k < j ensures PatchedChunk(prefix[k], TotalLength(prefix[..k]), labels).Success? {
      assert prefix[..k] == chunks[..k] && prefix[k] == chunks[k];
    }
  }

  /** The callback at position `p` of the queue, run on the bytes its chunk has in `buffers`. */
  function Applied(buffers: seq<seq<Byte>>, callbacks: seq<Pending>, labels: map<string, nat>, p: nat): Result<seq<Byte>, S.EncodeError>
    requires InRange(callbacks, |buffers|) && p < |callbacks|
  {
    Apply(callbacks[p], buffers[callbacks[p].index], labels)
  }

  /** The queue holds each chunk at most once, in increasing order. */
  predicate Ascending(callbacks: seq<Pending>) {
    forall p, q :: 0 <= p < q < |callbacks| ==> callbacks[p].index < callbacks[q].index
  }

  /** No callback of the queue throws on its chunk's bytes. */
  predicate AllApply(buffers: seq<seq<Byte>>, callbacks: seq<Pending>, labels: map<string, nat>)
    requires InRange(callbacks, |buffers|)
  {
    forall p :: 0 <= p < |callbacks| ==> Applied(buffers, callbacks, labels, p).Success?
  }

  /** Once the first callback has patched its chunk, the others see the bytes they saw before. */
  lemma AppliedRest(buffers: seq<seq<Byte>>, callbacks: seq<Pending>, labels: map<string, nat>, next: seq<seq<Byte>>, rest: seq<Pending>)
    requires InRange(callbacks, |buffers|) && callbacks != [] && Ascending(callbacks)
    requires rest == callbacks[1..] && |next| == |buffers|
    requires forall j :: 0 <= j < |buffers| && j != callbacks[0].index ==> next[j] == buffers[j]
    ensures InRange(rest, |next|) && Ascending(rest)
    ensures forall p :: 0 <= p < |rest| ==> Applied(next, rest, labels, p) == Applied(buffers, callbacks, labels, p + 1)
  {
    assert forall p :: 0 <= p < |rest| ==> rest[p] == callbacks[p + 1];
  }

  /**
   * Running callbacks whose chunks are all different throws exactly when
   * one of them throws on its chunk's bytes, and then with the error of the
   * first one that does.
   */
  lemma {:induction false} RunCallbacksThrows(buffers: seq<seq<Byte>>, callbacks: seq<Pending>, labels: map<string, nat>)
    requires InRange(callbacks, |buffers|) && Ascending(callbacks)
    ensures RunCallbacks(buffers, callbacks, labels).Success? <==> AllApply(buffers, callbacks, labels)
    ensures RunCallbacks(buffers, callbacks, labels).Failure? ==>
      exists p :: 0 <= p < |callbacks| &&
        Applied(buffers, callbacks, labels, p) == Failure(RunCallbacks(buffers, callbacks, labels).error) &&
        forall q :: 0 <= q < p ==> Applied(buffers, callbacks, labels, q).Success?
    decreases |callbacks|
  {
    if callbacks != [] {
      var first := Applied(buffers, callbacks, labels, 0);
      if first.Failure? {
        assert Applied(buffers, callbacks, labels, 0) == Failure(RunCallbacks(buffers, callbacks, labels).error);
      } else {
        var rest := callbacks[1..];
        var next := buffers[callbacks[0].index := first.value];
        AppliedRest(buffers, callbacks, labels, next, rest);
        RunCallbacksThrows(next, rest, labels);
        assert RunCallbacks(buffers, callbacks, labels) == RunCallbacks(next, rest, labels);
        if RunCallbacks(next, rest, labels).Failure? {
          var p' :| 0 <= p' < |rest| &&
            Applied(next, rest, labels, p') == Failure(RunCallbacks(next, rest, labels).error) &&
            forall q :: 0 <= q < p' ==> Applied(next, rest, labels, q).Success?;
          assert Applied(buffers, callbacks, labels, p' + 1) == Failure(RunCallbacks(buffers, callbacks, labels).error);
          forall q | 0 <= q < p' + 1 ensures Applied(buffers, callbacks, labels, q).Success? {
            if q > 0 {
              assert Applied(next, rest, labels, q - 1).Success?;
            }
          }
        } else {
          forall p | 0 <= p < |callbacks| ensures Applied(buffers, callbacks, labels, p).Success? {
            if p > 0 {
              assert Applied(next, rest, labels, p - 1).Success?;
            }
          }
        }
      }
    }
  }

  /**
   * When running callbacks whose chunks are all different succeeds, each
   * callback's chunk ends up patched once, from the bytes it had before, and
   * every other chunk is unchanged.
   */
  lemma {:induction false} RunCallbacksEffect(buffers: seq<seq<Byte>>, callbacks: seq<Pending>, labels: map<string, nat>)
    requires InRange(callbacks, |buffers|) && Ascending(callbacks)
    requires RunCallbacks(buffers, callbacks, labels).Success?
    ensures var result := RunCallbacks(buffers, callbacks, labels).value;
      |result| == |buffers| &&
      (forall p :: 0 <= p < |callbacks| ==> Success(result[callbacks[p].index]) == Applied(buffers, callbacks, labels, p)) &&
      (forall j :: 0 <= j < |buffers| && (forall p :: 0 <= p < |callbacks| ==> callbacks[p].index != j) ==>
        result[j] == buffers[j])
    decreases |callbacks|
  {
    if callbacks != [] {
      var first := Applied(buffers, callbacks, labels, 0);
      var rest := callbacks[1..];
      var next := buffers[callbacks[0].index := first.value];
      AppliedRest(buffers, callbacks, labels, next, rest);
      assert RunCallbacks(buffers, callbacks, labels) == RunCallbacks(next, rest, labels);
      RunCallbacksEffect(next, rest, labels);
      var result := RunCallbacks(buffers, callbacks, labels).value;
      forall p | 0 <= p < |callbacks| ensures Success(result[callbacks[p].index]) == Applied(buffers, callbacks, labels, p) {
        if p > 0 {
          assert rest[p - 1] == callbacks[p];
        }
      }
      forall j | 0 <= j < |buffers| && (forall p :: 0 <= p < |callbacks| ==> callbacks[p].index != j)
        ensures result[j] == buffers[j]
      {
        forall p | 0 <= p < |rest| ensures rest[p].index != j {
          assert rest[p] == callbacks[p + 1];
        }
      }
    }
  }

  /**
   * Once the pass is complete, running the queue throws exactly when some
   * chunk's callback throws, and otherwise turns every chunk into its
   * patched form.
   */
  lemma CallbacksPatch(layout: Layout, labels: map<string, nat>)
    requires Consistent(layout)
    requires InRange(layout.callbacks, |layout.chunks|)
    ensures RunCallbacks(Contents(layout.chunks), layout.callbacks, labels).Success? <==> Patches(layout.chunks, labels)
    ensures Patches(layout.chunks, labels) ==>
      RunCallbacks(Contents(layout.chunks), layout.callbacks, labels) == Success(Patched(layout.chunks, labels))
  {
    var chunks := layout.chunks;
    var buffers := Contents(chunks);
    RunCallbacksThrows(buffers, layout.callbacks, labels);
    forall p | 0 <= p < |layout.callbacks|
      ensures Applied(buffers, layout.callbacks, labels, p) ==
        PatchedChunk(chunks[layout.callbacks[p].index], TotalLength(chunks[..layout.callbacks[p].index]), labels)
    {
      assert Queued(layout, p);
    }
    if Patches(chunks, labels) {
      assert AllApply(buffers, layout.callbacks, labels);
      RunCallbacksEffect(buffers, layout.callbacks, labels);
      PatchedByQueue(layout, labels);
    } else {
      var j :| 0 <= j < |chunks| && !PatchedChunk(chunks[j], TotalLength(chunks[..j]), labels).Success?;
      var p :| 0 <= p < |layout.callbacks| && layout.callbacks[p].index == j;
      assert !Applied(buffers, layout.callbacks, labels, p).Success?;
    }
  }

  /** What a successful run of the queue leaves is every chunk in its patched form. */
  lemma PatchedByQueue(layout: Layout, labels: map<string, nat>)
    requires Consistent(layout)
    requires InRange(layout.callbacks, |layout.chunks|)
    requires Patches(layout.chunks, labels)
    requires RunCallbacks(Contents(layout.chunks), layout.callbacks, labels).Success?
    ensures RunCallbacks(Contents(layout.chunks), layout.callbacks, labels) == Success(Patched(layout.chunks, labels))
  {
    var chunks := layout.chunks;
    var buffers := Contents(chunks);
    RunCallbacksEffect(buffers, layout.callbacks, labels);
    var result := RunCallbacks(buffers, layout.callbacks, labels).value;
    var patched := Patched(chunks, labels);
    forall j | 0 <= j < |chunks| ensures result[j] == patched[j] {
      var patchedJ := PatchedChunk(chunks[j], TotalLength(chunks[..j]), labels);
      assert patched[j] == patchedJ.value;
      if chunks[j].patch.Some? {
        var p :| 0 <= p < |layout.callbacks| && layout.callbacks[p].index == j;
        assert Queued(layout, p);
        assert Success(result[j]) == Applied(buffers, layout.callbacks, labels, p) == patchedJ;
      } else {
        forall p | 0 <= p < |layout.callbacks| ensures layout.callbacks[p].index != j {
          assert Queued(layout, p);
        }
        assert result[j] == buffers[j] == chunks[j].bytes;
      }
    }
    assert result == patched;
  }

  /**
   * `toBuffer` succeeds exactly when every statement is encoded (a scheme is
   * selected and the encoder does not throw), no label is defined twice in
   * the block, and no patch callback throws once the label table is complete.
   */
  lemma AssembleSucceeds(statements: seq<S.Statement>, arch: S.Arch, encode: S.Encoder)
    ensures Assemble(statements, arch, encode).Success? <==>
      Encodes(statements, arch, encode) && DistinctLabels(statements) &&
      var layout := LayOut(statements, arch, encode, Initial);
      layout.Success? && Patches(Chunks(statements, arch, encode), layout.value.labels)
  {
    LayOutSucceeds(statements, arch, encode, Initial);
    var layout := LayOut(statements, arch, encode, Initial);
    if layout.Success? {
      LayOutChunks(statements, arch, encode, Initial);
      AppendEmpty(Chunks(statements, arch, encode));
      LayOutConsistent(statements, arch, encode, Initial);
      CallbacksPatch(layout.value, layout.value.labels);
    }
  }

  /**
   * On success, the output is every statement's chunks in order, each chunk
   * patched with its own start offset, its length and the complete label
   * table, in which each label is the byte length of all chunks before its
   * statement.
   */
  lemma AssembleOutput(statements: seq<S.Statement>, arch: S.Arch, encode: S.Encoder)
    requires Assemble(statements, arch, encode).Success?
    ensures var layout := LayOut(statements, arch, encode, Initial).value;
      layout.chunks == Chunks(statements, arch, encode) &&
      Patches(layout.chunks, layout.labels) &&
      Assemble(statements, arch, encode).value == Concat(Patched(layout.chunks, layout.labels)) &&
      forall i :: 0 <= i < |statements| && statements[i].labelName.Some? ==>
        statements[i].labelName.value in layout.labels &&
        layout.labels[statements[i].labelName.value] == TotalLength(Chunks(statements[..i], arch, encode))
  {
    var layout := LayOut(statements, arch, encode, Initial).value;
    LayOutChunks(statements, arch, encode, Initial);
    LayOutLabels(statements, arch, encode, Initial);
    LayOutConsistent(statements, arch, encode, Initial);
    CallbacksPatch(layout, layout.labels);
    AppendEmpty(Chunks(statements, arch, encode));
  }

  /** The output of all chunks is the output of all but the last, then the last one patched. */
  lemma PatchedLast(chunks: seq<S.Chunk>, labels: map<string, nat>)
    requires chunks != [] && Patches(chunks, labels)
    ensures Patches(chunks[..|chunks| - 1], labels)
    ensures Concat(Patched(chunks, labels)) ==
      Concat(Patched(chunks[..|chunks| - 1], labels)) +
      PatchedChunk(chunks[|chunks| - 1], TotalLength(chunks[..|chunks| - 1]), labels).value
  {
    var last := |chunks| - 1;
    var buffers := Patched(chunks, labels);
    PatchesPrefix(chunks, labels, last);
    PatchedPrefix(chunks, labels, last);
    assert Concat(buffers) == Concat(buffers[..last]) + buffers[last];
    assert buffers[last] == PatchedChunk(chunks[last], TotalLength(chunks[..last]), labels).value;
  }

  /** The output is as long as all chunks together. */
  lemma {:induction false} OutputLength(chunks: seq<S.Chunk>, labels: map<string, nat>)
    requires Patches(chunks, labels)
    ensures |Concat(Patched(chunks, labels))| == TotalLength(chunks)
    decreases |chunks|
  {
    if chunks != [] {
      PatchedLast(chunks, labels);
      OutputLength(chunks[..|chunks| - 1], labels);
    }
  }

  /** A slice that reaches the end is the suffix from its start. */
  lemma SliceToEnd(out: seq<Byte>, start: nat, end: nat, piece: seq<Byte>)
    requires start <= end == |out| && out[start..] == piece
    ensures out[start..end] == piece
  {
    assert out[start..end] == out[start..];
  }

  /** A slice inside the front part of a concatenation is a slice of that part. */
  lemma SliceInFront(out: seq<Byte>, head: seq<Byte>, tail: seq<Byte>, start: nat, end: nat, piece: seq<Byte>)
    requires out == head + tail && start <= end <= |head| && head[start..end] == piece
    ensures end <= |out| && out[start..end] == piece
  {
    assert out[start..end] == head[start..end];
  }

  /** Chunk `j` of the output sits at its start offset, in its patched form. */
  lemma OutputPlacement(chunks: seq<S.Chunk>, labels: map<string, nat>, j: nat)
    requires j < |chunks| && Patches(chunks, labels)
    ensures TotalLength(chunks[..j]) + |chunks[j].bytes| <= |Concat(Patched(chunks, labels))|
    ensures Concat(Patched(chunks, labels))[TotalLength(chunks[..j])..TotalLength(chunks[..j]) + |chunks[j].bytes|] ==
      PatchedChunk(chunks[j], TotalLength(chunks[..j]), labels).value
  {
    var buffers := Patched(chunks, labels);
    ConcatPlacement(buffers, j);
    PatchesPrefix(chunks, labels, j);
    PatchedPrefix(chunks, labels, j);
    OutputLength(chunks[..j], labels);
    assert buffers[j] == PatchedChunk(chunks[j], TotalLength(chunks[..j]), labels).value;
  }

  /** Buffer `j` sits in the concatenation right after the buffers before it. */
  lemma {:induction false} ConcatPlacement(buffers: seq<seq<Byte>>, j: nat)
    requires j < |buffers|
    ensures |Concat(buffers[..j])| + |buffers[j]| <= |Concat(buffers)|
    ensures Concat(buffers)[|Concat(buffers[..j])|..|Concat(buffers[..j])| + |buffers[j]|] == buffers[j]
    decreases |buffers|
  {
    var last := |buffers| - 1;
    var front := buffers[..last];
    assert Concat(buffers) == Concat(front) + buffers[last];
    if j == last {
      assert buffers[..j] == front;
      assert Concat(buffers)[|Concat(front)|..] == buffers[last];
      SliceToEnd(Concat(buffers), |Concat(front)|, |Concat(front)| + |buffers[j]|, buffers[j]);
    } else {
      ConcatPlacement(front, j);
      assert front[..j] == buffers[..j] && front[j] == buffers[j];
      var start := |Concat(buffers[..j])|;
      SliceInFront(Concat(buffers), Concat(front), buffers[last], start, start + |buffers[j]|, buffers[j]);
    }
  }

  /** The buffers of a prefix of the chunks are the prefix of the buffers. */
  lemma PatchedPrefix(chunks: seq<S.Chunk>, labels: map<string, nat>, j: nat)
    requires j <= |chunks| && Patches(chunks, labels)
    ensures Patches(chunks[..j], labels)
    ensures Patched(chunks, labels)[..j] == Patched(chunks[..j], labels)
  {
    PatchesPrefix(chunks, labels, j);
    var prefix := chunks[..j];
    forall k | 0 <= k < j ensures Patched(chunks, labels)[k] == Patched(prefix, labels)[k] {
      assert prefix[..k] == chunks[..k] && prefix[k] == chunks[k];
    }
  }
}

=== FILE: assembler_instruction.dfy ===
/**
 * src/tokens/AssemblerInstruction.js: a mnemonic of the first assembler
 * grammar, an optional `.size` suffix and a list of operands that must be
 * set off from the mnemonic by whitespace or a comment.
 */
module AssemblerInstructions {
  import opened Wrappers
  import opened Lexing
  import opened Tokens
  import opened LexerRules
  import opened AssemblerArguments

  datatype Instruction = Instruction(
    instruction: string,
    opsize: Option<string>,
    arguments: seq<ArgumentToken>,
    span: Span)

  /** The length of a `.size` suffix (a dot and a decimal number) at the front of the text. */
  function OperandSizeLength(s: string, syntax: Syntax): (r: Option<nat>)
    ensures r.Some? ==> 1 < r.value <= |s|
  {
    if "." <= s && syntax.decNumber(s[1..]) > 0 then Some(1 + syntax.decNumber(s[1..])) else None
  }

  /** The mnemonic and its suffix: how much text they cover at the front of the text. */
  function HeadLength(s: string, syntax: Syntax): (n: nat)
    ensures n <= |s|
  {
    var name := syntax.dottedName(s);
    match OperandSizeLength(s[name..], syntax)
    case Some(size) => name + size
    case None => name
  }

  /** `eatInstruction`: an identifier that may use upper case and dots (the `dottedName` recogniser). */
  method EatInstruction(lexer: Lexer) returns (r: Option<string>)
    requires lexer.Valid()
    modifies lexer
    ensures lexer.Valid()
    ensures r.None? <==> lexer.syntax.dottedName(old(lexer.content)) == 0
    ensures r.None? ==> lexer.position == old(lexer.position)
    ensures r.Some? ==> (r.value == old(lexer.content)[..lexer.syntax.dottedName(old(lexer.content))] &&
      lexer.position == old(lexer.position) + |r.value|)
  {
    r := lexer.EatMatch(lexer.syntax.dottedName);
  }

  /** `eatOperandSize`: a dot and a decimal number, consumed only together. */
  method EatOperandSize(lexer: Lexer) returns (r: Option<string>)
    requires lexer.Valid()
    modifies lexer
    ensures lexer.Valid()
    ensures r.None? <==> OperandSizeLength(old(lexer.content), lexer.syntax).None?
    ensures r.None? ==> lexer.position == old(lexer.position)
    ensures r.Some? ==> (
      OperandSizeLength(old(lexer.content), lexer.syntax).value == 1 + |r.value| &&
      lexer.position == old(lexer.position) + 1 + |r.value| &&
      "." + r.value == old(lexer.content)[..1 + |r.value|])
  {
    var state := lexer.GetState();
    var dot := lexer.Eat(".");
    if !dot {
      return None;
    }
    assert lexer.content == state.content[1..];
    r := lexer.EatMatch(lexer.syntax.decNumber);
    if r.None? {
      lexer.Revert(state);
      return None;
    }
    assert state.content[1..][..|r.value|] == r.value;
  }

  /**
   * `tokenize`: the mnemonic (else null, nothing consumed), the optional
   * suffix, whitespace and comments, then the operands; operands that follow
   * the mnemonic directly are an error, and so is an operand list that does
   * not parse. `headEnd` is where the mnemonic and its suffix end, `next`
   * where the operand list starts.
   */
  method Tokenize(lexer: Lexer, parse: ArgumentsParser, render: ArgumentsPrinter)
    returns (r: Parsed<Instruction>, ghost headEnd: nat, ghost next: nat)
    requires lexer.Valid()
    modifies lexer
    ensures lexer.Valid()
    ensures r.NoMatch? <==> lexer.syntax.dottedName(old(lexer.content)) == 0
    ensures r.NoMatch? ==> lexer.position == old(lexer.position)
    ensures !r.NoMatch? ==> (
      headEnd == old(lexer.position) + HeadLength(old(lexer.content), lexer.syntax) &&
      next == SkipEnd(lexer.backup, headEnd))
    ensures r.Fail? ==> (
      if parse(lexer.backup[next..]).Failure? then r.error == parse(lexer.backup[next..]).error
      else (parse(lexer.backup[next..]).value.arguments != [] && next == headEnd &&
        r.error == InvalidToken(next + parse(lexer.backup[next..]).value.consumed)))
    ensures r.Match? ==> (
      lexer.backup[old(lexer.position)..headEnd] == r.value.instruction + OptionalSize(r.value.opsize) &&
      r.value.instruction == old(lexer.content)[..lexer.syntax.dottedName(old(lexer.content))] &&
      parse(lexer.backup[next..]).Success? &&
      r.value.arguments == parse(lexer.backup[next..]).value.arguments &&
      (r.value.arguments != [] ==> headEnd < next) &&
      lexer.position == next + parse(lexer.backup[next..]).value.consumed &&
      r.value.span == Span(old(lexer.position), lexer.position))
    ensures r.Match? && r.value.arguments == [] ==>
      Stringify(r.value, render) == lexer.backup[old(lexer.position)..headEnd]
  {
    var token := new Token(lexer);
    var instruction, opsize := EatHead(lexer);
    headEnd, next := lexer.position, lexer.position;
    if instruction.None? {
      return NoMatch, headEnd, next;
    }
    var wcc := Wcc(lexer);
    next := lexer.position;
    var arguments := TokenizeArguments(lexer, parse);
    if arguments.Failure? {
      return Fail(arguments.error), headEnd, next;
    }
    if arguments.value != [] && wcc.IsEmpty() {
      return Fail(InvalidToken(lexer.position)), headEnd, next;
    }
    var finalized := token.Finalize();
    r := Match(Instruction(instruction.value, opsize, arguments.value, Span(finalized.start, finalized.end)));
  }

  /** The mnemonic and its suffix, as the start of `tokenize`. */
  method EatHead(lexer: Lexer) returns (instruction: Option<string>, opsize: Option<string>)
    requires lexer.Valid()
    modifies lexer
    ensures lexer.Valid()
    ensures instruction.None? <==> lexer.syntax.dottedName(old(lexer.content)) == 0
    ensures instruction.None? ==> lexer.position == old(lexer.position)
    ensures instruction.Some? ==> (
      instruction.value == old(lexer.content)[..lexer.syntax.dottedName(old(lexer.content))] &&
      lexer.position == old(lexer.position) + HeadLength(old(lexer.content), lexer.syntax) &&
      instruction.value + OptionalSize(opsize) == lexer.backup[old(lexer.position)..lexer.position])
  {
    var state := lexer.GetState();
    instruction := EatInstruction(lexer);
    if instruction.None? {
      return None, None;
    }
    assert lexer.content == state.content[|instruction.value|..];
    opsize := EatOperandSize(lexer);
    HeadText(state.content, lexer.syntax, instruction.value, opsize);
    assert state.content[..HeadLength(state.content, lexer.syntax)] == lexer.backup[state.position..lexer.position];
  }

  /** The mnemonic and the suffix read one after the other are the head of the text. */
  lemma HeadText(s: string, syntax: Syntax, instruction: string, opsize: Option<string>)
    requires instruction == s[..syntax.dottedName(s)]
    requires opsize.None? <==> OperandSizeLength(s[|instruction|..], syntax).None?
    requires opsize.Some? ==> (
      OperandSizeLength(s[|instruction|..], syntax).value == 1 + |opsize.value| &&
      "." + opsize.value == s[|instruction|..][..1 + |opsize.value|])
    ensures HeadLength(s, syntax) == |instruction| + |OptionalSize(opsize)|
    ensures instruction + OptionalSize(opsize) == s[..HeadLength(s, syntax)]
  {
    if opsize.Some? {
      assert s[..|instruction| + 1 + |opsize.value|] == s[..|instruction|] + s[|instruction|..][..1 + |opsize.value|];
    }
  }

  /** The suffix as written: a dot and the size, or nothing. */
  function OptionalSize(opsize: Option<string>): (s: string)
    ensures opsize.None? <==> s == []
  {
    if opsize.Some? then "." + opsize.value else ""
  }

  /** `stringify`: the mnemonic, the suffix and, after one space, the rendered operands. */
  function Stringify(instruction: Instruction, render: ArgumentsPrinter): (s: string)
    ensures |s| >= |instruction.instruction| + |OptionalSize(instruction.opsize)|
    ensures s[..|instruction.instruction|] == instruction.instruction
    ensures instruction.arguments == [] ==> s == instruction.instruction + OptionalSize(instruction.opsize)
    ensures instruction.arguments != [] ==> (|s| > |instruction.instruction| + |OptionalSize(instruction.opsize)| &&
      s[|instruction.instruction| + |OptionalSize(instruction.opsize)|] == ' ')
  {
    var head := instruction.instruction + OptionalSize(instruction.opsize);
    var space := if instruction.arguments != [] then " " else "";
    assert (head + space + render(instruction.arguments))[..|instruction.instruction|] == instruction.instruction;
    assert space != "" ==> (head + space + render(instruction.arguments))[|head|] == ' ';
    head + space + render(instruction.arguments)
  }
}

=== FILE: assembler_label.dfy ===
/** src/tokens/AssemblerLabel.js: a label definition, an identifier followed by `:`. */
module AssemblerLabels {
  import opened Wrappers
  import opened Lexing
  import opened Tokens

  datatype Label = Label(name: string, span: Span)

  /** `eat`: an identifier that may use upper case and underscores (the `labelName` recogniser). */
  method Eat(lexer: Lexer) returns (r: Option<string>)
    requires lexer.Valid()
    modifies lexer
    ensures lexer.Valid()
    ensures r.None? <==> lexer.syntax.labelName(old(lexer.content)) == 0
    ensures r.None? ==> lexer.position == old(lexer.position)
    ensures r.Some? ==> (r.value == old(lexer.content)[..lexer.syntax.labelName(old(lexer.content))] &&
      lexer.position == old(lexer.position) + |r.value|)
  {
    r := lexer.EatMatch(lexer.syntax.labelName);
  }

  /** The length of a label definition at the front of the text. */
  function LabelLength(s: string, syntax: Syntax): (r: Option<nat>)
    ensures r.Some? ==> 0 < r.value <= |s|
  {
    var n := syntax.labelName(s);
    if n > 0 && ":" <= s[n..] then Some(n + 1) else None
  }

  /**
   * `tokenize`: the name and the colon, or null with the lexer restored. The
   * rendering of the label is exactly the text it was read from.
   */
  method Tokenize(lexer: Lexer) returns (r: Option<Label>)
    requires lexer.Valid()
    modifies lexer
    ensures lexer.Valid()
    ensures r.None? <==> LabelLength(old(lexer.content), lexer.syntax).None?
    ensures r.None? ==> lexer.position == old(lexer.position)
    ensures r.Some? ==> (
      lexer.position == old(lexer.position) + LabelLength(old(lexer.content), lexer.syntax).value &&
      r.value.span == Span(old(lexer.position), lexer.position) &&
      Stringify(r.value) == lexer.backup[old(lexer.position)..lexer.position])
  {
    var token := new Token(lexer);
    var state := lexer.GetState();
    var name := Eat(lexer);
    if name.Some? {
      var colon := lexer.Eat(":");
      if colon {
        var finalized := token.Finalize();
        assert lexer.backup[state.position..lexer.position] == state.content[..|name.value| + 1];
        return Some(Label(name.value, Span(finalized.start, finalized.end)));
      }
    }
    lexer.Revert(state);
    return None;
  }

  /** `stringify`: the name and the colon. */
  function Stringify(definition: Label): (s: string)
    ensures |s| == |definition.name| + 1 && s[..|definition.name|] == definition.name && s[|definition.name|] == ':'
  {
    definition.name + ":"
  }
}

=== FILE: assembler_operation.dfy ===
/**
 * src/tokens/AssemblerOperation.js: a pseudo-operation of the first assembler
 * grammar, an operand followed by an operation symbol (`=`, `++`, ...) and
 * further operands. The symbol list of `src/arch/operations.js` is not part
 * of this model; it is the lexer's `operators`.
 */
module AssemblerOperations {
  import opened Wrappers
  import opened Lexing
  import opened Tokens
  import opened LexerRules
  import opened AssemblerArguments
  import opened Sibs

  datatype Operation = Operation(
    first: ArgumentToken,
    operation: string,
    rest: seq<ArgumentToken>,
    span: Span)

  /**
   * The symbol `eatOperation` finds from position `i`: the first listed one
   * after the whitespace and comments there.
   */
  function OperatorAt(text: string, i: nat, syntax: Syntax): Option<string>
    requires i <= |text|
  {
    FirstOf(syntax.operators, text[SkipEnd(text, i)..])
  }

  /** The symbol itself: the first listed one that starts the text, or nothing consumed. */
  method EatSymbol(lexer: Lexer) returns (r: Option<string>)
    requires lexer.Valid()
    modifies lexer
    ensures lexer.Valid()
    ensures r == FirstOf(lexer.syntax.operators, lexer.backup[old(lexer.position)..])
    ensures r.None? ==> lexer.position == old(lexer.position)
    ensures r.Some? ==> (r.value <= lexer.backup[old(lexer.position)..] &&
      lexer.position == old(lexer.position) + |r.value|)
  {
    r := lexer.EatOneOf(lexer.syntax.operators);
    FirstOfMeaning(lexer.syntax.operators, old(lexer.content));
    if r.Some? {
      FirstOfListed(lexer.syntax.operators, old(lexer.content), r.value);
    }
  }

  /**
   * `eatOperation`: whitespace and comments, the first listed symbol that
   * starts the text there, and whitespace and comments after it; without a
   * symbol nothing is consumed.
   */
  method EatOperation(lexer: Lexer) returns (r: Option<string>)
    requires lexer.Valid()
    modifies lexer
    ensures lexer.Valid()
    ensures r.None? <==> OperatorAt(lexer.backup, old(lexer.position), lexer.syntax).None?
    ensures r.None? ==> lexer.position == old(lexer.position)
    ensures r.Some? ==> OperationAfter(lexer.backup, lexer.syntax, old(lexer.position), r.value, lexer.position)
  {
    var state := lexer.GetState();
    SkipWcc(lexer);
    ghost var at := lexer.position;
    var operation := EatSymbol(lexer);
    if operation.None? {
      lexer.Revert(state);
      return None;
    }
    SkipWcc(lexer);
    Found(lexer.backup, lexer.syntax, state.position, at, operation.value, lexer.position);
    return operation;
  }

  /**
   * From `end`, `eatOperation` finds `operation` after the whitespace and
   * comments, and the whitespace and comments after it end at `next`.
   */
  ghost predicate OperationAfter(text: string, syntax: Syntax, end: nat, operation: string, next: nat) {
    end <= |text| && OperatorAt(text, end, syntax) == Some(operation) &&
    operation <= text[SkipEnd(text, end)..] && next == SkipEnd(text, SkipEnd(text, end) + |operation|)
  }

  /** The steps of `eatOperation`, put together. */
  lemma Found(text: string, syntax: Syntax, end: nat, at: nat, operation: string, next: nat)
    requires end <= |text| && at == SkipEnd(text, end)
    requires FirstOf(syntax.operators, text[at..]) == Some(operation) && operation <= text[at..]
    requires next == SkipEnd(text, at + |operation|)
    ensures OperationAfter(text, syntax, end, operation, next)
  {
  }

  /**
   * `tokenize`: an operand (else null), then an operation symbol (else null
   * with nothing consumed), then the further operands. A bracket that is
   * begun but malformed, or a failing operand list, is an error. `first` is
   * what the operand tokenizer gave at the start, and `next` is where the
   * further operands start once a symbol was found.
   */
  method Tokenize(lexer: Lexer, parse: ArgumentsParser)
    returns (r: Parsed<Operation>, ghost first: Parsed<ArgumentToken>, ghost next: nat)
    requires lexer.Valid()
    modifies lexer
    ensures lexer.Valid()
    ensures first.NoMatch? <==> Alternative(old(lexer.content), lexer.syntax) == NoKind
    ensures first.Fail? <==> (
      Alternative(old(lexer.content), lexer.syntax) == BracketKind &&
      SibAt(lexer.backup, lexer.syntax, old(lexer.position)) == Throws)
    ensures first.Match? ==> (
      KindOf(first.value.argument) == Alternative(old(lexer.content), lexer.syntax) &&
      first.value.span.start == old(lexer.position) < first.value.span.end <= |lexer.backup|)
    ensures first.Match? && !first.value.argument.Bracket? ==>
      AssemblerArguments.Stringify(first.value.argument) ==
        lexer.backup[first.value.span.start..first.value.span.end]
    ensures first.Match? && first.value.argument.Bracket? ==> (
      SibAt(lexer.backup, lexer.syntax, old(lexer.position)) == Got(first.value.argument.sib, first.value.span.end) &&
      WellFormed(first.value.argument.sib) &&
      SibLaid(lexer.backup, lexer.syntax, old(lexer.position), first.value.argument.sib, first.value.span.end))
    ensures r.NoMatch? ==> lexer.position == old(lexer.position)
    ensures r.NoMatch? <==>
      first.NoMatch? || (first.Match? && OperatorAt(lexer.backup, first.value.span.end, lexer.syntax).None?)
    ensures first.Fail? ==> r.Fail? && r.error == first.error
    ensures r.Fail? && !first.Fail? ==> (
      first.Match? && OperatorAt(lexer.backup, first.value.span.end, lexer.syntax).Some? &&
      OperationAfter(lexer.backup, lexer.syntax, first.value.span.end,
        OperatorAt(lexer.backup, first.value.span.end, lexer.syntax).value, next) &&
      next <= |lexer.backup| && parse(lexer.backup[next..]).Failure? && r.error == parse(lexer.backup[next..]).error)
    ensures r.Match? ==> (
      first.Match? && r.value.first == first.value &&
      OperationAfter(lexer.backup, lexer.syntax, first.value.span.end, r.value.operation, next) &&
      next <= |lexer.backup| && parse(lexer.backup[next..]).Success? &&
      r.value.rest == parse(lexer.backup[next..]).value.arguments &&
      lexer.position == next + parse(lexer.backup[next..]).value.consumed &&
      r.value.span == Span(old(lexer.position), lexer.position))
  {
    var token := new Token(lexer);
    var state := lexer.GetState();
    var argument := AssemblerArguments.Tokenize(lexer);
    first, next := argument, 0;
    if argument.Match? {
      r, next := TokenizeOperation(lexer, parse, token, state, argument.value);
    } else {
      r := if argument.NoMatch? then NoMatch else Fail(argument.error);
    }
  }

  /**
   * The rest of `tokenize` once the first operand `first` is read: the
   * operation symbol (else null, and the lexer goes back to `state`, where
   * the token started), then the further operands.
   */
  method TokenizeOperation(lexer: Lexer, parse: ArgumentsParser, token: Token, state: State, first: ArgumentToken)
    returns (r: Parsed<Operation>, ghost next: nat)
    requires lexer.Valid() && token.lexer == lexer && token.start == state.position == first.span.start
    requires state.position <= |lexer.backup| && state.content == lexer.backup[state.position..]
    requires first.span.end == lexer.position
    modifies lexer, token
    ensures lexer.Valid()
    ensures r.NoMatch? <==> OperatorAt(lexer.backup, first.span.end, lexer.syntax).None?
    ensures r.NoMatch? ==> lexer.position == state.position
    ensures r.Fail? ==> (
      OperatorAt(lexer.backup, first.span.end, lexer.syntax).Some? &&
      OperationAfter(lexer.backup, lexer.syntax, first.span.end,
        OperatorAt(lexer.backup, first.span.end, lexer.syntax).value, next) &&
      next <= |lexer.backup| && parse(lexer.backup[next..]).Failure? && r.error == parse(lexer.backup[next..]).error)
    ensures r.Match? ==> (
      r.value.first == first &&
      OperationAfter(lexer.backup, lexer.syntax, first.span.end, r.value.operation, next) &&
      next <= |lexer.backup| && parse(lexer.backup[next..]).Success? &&
      r.value.rest == parse(lexer.backup[next..]).value.arguments &&
      lexer.position == next + parse(lexer.backup[next..]).value.consumed &&
      r.value.span == Span(state.position, lexer.position))
  {
    next := 0;
    var operation := EatOperation(lexer);
    if operation.None? {
      lexer.Revert(state);
      return NoMatch, next;
    }
    next := lexer.position;
    var arguments := TokenizeArguments(lexer, parse);
    if arguments.Failure? {
      return Fail(arguments.error), next;
    }
    var finalized := token.Finalize();
    r := Match(Operation(first, operation.value, arguments.value, Span(finalized.start, finalized.end)));
  }

  /**
   * `stringify`: the first operand, the symbol and the further operands,
   * with one space on each side of the symbol only when further operands follow.
   */
  function Stringify(operation: Operation, render: ArgumentsPrinter): (s: string)
    ensures operation.rest == [] ==>
      s == AssemblerArguments.Stringify(operation.first.argument) + operation.operation
    ensures operation.rest != [] ==>
      s == AssemblerArguments.Stringify(operation.first.argument) + " " + operation.operation + " " +
        render(operation.rest)
  {
    var space := if operation.rest != [] then " " else "";
    AssemblerArguments.Stringify(operation.first.argument) + space + operation.operation + space +
      render(operation.rest)
  }
}

=== FILE: assembler_statement.dfy ===
/**
 * src/tokens/AssemblerStatement.js: one statement of the second assembler
 * grammar, a mnemonic followed by operands. An operand is an address
 * `segment:offset` with an integer segment, an integer, a bracket expression
 * or a register, tried in that order. Bracket expressions share their role
 * rules and rendering with the first grammar (module `Sibs`).
 */
module AssemblerStatements {
  import opened Wrappers
  import opened Lexing
  import opened Tokens
  import opened LexerRules
  import opened Sibs
  import AssemblerArguments
  import X86
  import LittleEndian

  /** An operand: the `{type, ...}` records of `tokenizeAssemblerArgument`. */
  datatype StatementArgument =
    | AddressArg(segment: string, offset: string)
    | IntegerArg(integer: string)
    | SibArg(sib: Sib)
    | RegisterArg(register: string)

  /**
   * A statement. `labelName` is the `label` field the block layout reads;
   * this tokenizer never sets it, so it is absent here.
   */
  datatype Statement = Statement(
    mnemo: string,
    arguments: seq<StatementArgument>,
    labelName: Option<string>,
    span: Span)

  // The mnemonic pattern: a word, `.word` groups, then an optional `.digits` group.

  predicate IsLetter(c: char) {
    'a' <= c <= 'z' || 'A' <= c <= 'Z'
  }

  predicate IsDigit(c: char) {
    '0' <= c <= '9'
  }

  /** The longest run of letters and digits at the front of the text. */
  function AlnumRun(s: string): (n: nat)
    ensures n <= |s|
    ensures forall i :: 0 <= i < n ==> IsLetter(s[i]) || IsDigit(s[i])
    ensures n < |s| ==> !IsLetter(s[n]) && !IsDigit(s[n])
  {
    if s != [] && (IsLetter(s[0]) || IsDigit(s[0])) then 1 + AlnumRun(s[1..]) else 0
  }

  /** The longest run of digits at the front of the text. */
  function DigitRun(s: string): (n: nat)
    ensures n <= |s|
    ensures forall i :: 0 <= i < n ==> IsDigit(s[i])
    ensures n < |s| ==> !IsDigit(s[n])
  {
    if s != [] && IsDigit(s[0]) then 1 + DigitRun(s[1..]) else 0
  }

  /** `[a-zA-Z][a-zA-Z0-9]*` at the front of the text, or 0. */
  function WordLength(s: string): (n: nat)
    ensures n <= |s|
    ensures n > 0 ==> IsLetter(s[0])
    ensures forall i :: 0 <= i < n ==> IsLetter(s[i]) || IsDigit(s[i])
  {
    if s != [] && IsLetter(s[0]) then 1 + AlnumRun(s[1..]) else 0
  }

  /** `(\.[a-zA-Z][a-zA-Z0-9]*)*`, taken greedily, at the front of the text. */
  function SegmentsLength(s: string): (n: nat)
    ensures n <= |s|
    decreases |s|
  {
    if s != [] && s[0] == '.' && WordLength(s[1..]) > 0 then
      1 + WordLength(s[1..]) + SegmentsLength(s[1 + WordLength(s[1..])..])
    else 0
  }

  /** `(\.\d+)?` at the front of the text. */
  function SizeGroupLength(s: string): (n: nat)
    ensures n <= |s|
    ensures n > 0 ==> s[0] == '.' && n >= 2 && forall i :: 1 <= i < n ==> IsDigit(s[i])
    ensures n > 0 && n < |s| ==> !IsDigit(s[n])
  {
    if s != [] && s[0] == '.' && DigitRun(s[1..]) > 0 then 1 + DigitRun(s[1..]) else 0
  }

  /** The length of the mnemonic at the front of the text, 0 when there is none. */
  function MnemoLength(s: string): (n: nat)
    ensures n <= |s|
  {
    var w := WordLength(s);
    if w == 0 then 0
    else
      var g := SegmentsLength(s[w..]);
      w + g + SizeGroupLength(s[w + g..])
  }

  /** `eatMnemo`: the mnemonic pattern at the front of the text, or nothing consumed. */
  method EatMnemo(lexer: Lexer) returns (r: Option<string>)
    requires lexer.Valid()
    modifies lexer
    ensures lexer.Valid()
    ensures r.None? <==> MnemoLength(old(lexer.content)) == 0
    ensures r.None? ==> lexer.position == old(lexer.position)
    ensures r.Some? ==> (r.value == old(lexer.content)[..MnemoLength(old(lexer.content))] &&
      lexer.position == old(lexer.position) + |r.value|)
  {
    var n := MnemoLength(lexer.content);
    if n == 0 {
      return None;
    }
    r := Some(lexer.content[..n]);
    lexer.Move(n);
  }

  /** The sign recogniser of `eatRegex(/^[+-]/)`. */
  function SignLength(s: string): (n: nat)
    ensures n <= |s|
  {
    if s != [] && (s[0] == '+' || s[0] == '-') then 1 else 0
  }

  /** `eatInteger`: an optional sign and a number, or nothing at all when no number follows. */
  method EatInteger(lexer: Lexer) returns (r: Option<string>)
    requires lexer.Valid()
    modifies lexer
    ensures lexer.Valid()
    ensures r.None? <==> SignedNumber(old(lexer.content), lexer.syntax.number).None?
    ensures r.None? ==> lexer.position == old(lexer.position)
    ensures r.Some? ==> (
      r.value == old(lexer.content)[..SignedNumber(old(lexer.content), lexer.syntax.number).value] &&
      lexer.position == old(lexer.position) + |r.value|)
  {
    var state := lexer.GetState();
    var text := EatSign(lexer);
    assert lexer.content == state.content[|text|..];
    AssemblerArguments.SignedNumberAfterSign(state.content, lexer.syntax.number, text);
    var num := lexer.EatMatch(lexer.syntax.number);
    if num.None? {
      assert SignedNumber(state.content, lexer.syntax.number).None?;
      lexer.Revert(state);
      return None;
    }
    assert SignedNumber(state.content, lexer.syntax.number).value == |text| + |num.value|;
    AssemblerArguments.FrontOfParts(state.content, text, num.value);
    return Some(text + num.value);
  }

  /** The `eatRegex(/^[+-]/)` of `eatInteger`, an absent sign read as the empty text. */
  method EatSign(lexer: Lexer) returns (text: string)
    requires lexer.Valid()
    modifies lexer
    ensures lexer.Valid()
    ensures text == "" || text == "+" || text == "-"
    ensures text <= old(lexer.content) && lexer.position == old(lexer.position) + |text|
    ensures text == "" ==> old(lexer.content) == [] || (old(lexer.content)[0] != '+' && old(lexer.content)[0] != '-')
  {
    var sign := lexer.EatMatch(SignLength);
    text := if sign.Some? then sign.value else "";
  }

  /** `eatRegister`: a plain identifier. */
  method EatRegister(lexer: Lexer) returns (r: Option<string>)
    requires lexer.Valid()
    modifies lexer
    ensures lexer.Valid()
    ensures r.None? <==> lexer.syntax.identifier(old(lexer.content)) == 0
    ensures r.None? ==> lexer.position == old(lexer.position)
    ensures r.Some? ==> (r.value == old(lexer.content)[..lexer.syntax.identifier(old(lexer.content))] &&
      lexer.position == old(lexer.position) + |r.value|)
  {
    r := lexer.EatMatch(lexer.syntax.identifier);
  }

  /** The length of an address `segment:offset` with a required integer segment. */
  function AddressLength(s: string, syntax: Syntax): (r: Option<nat>)
    ensures r.Some? ==> 0 < r.value <= |s|
  {
    match SignedNumber(s, syntax.number)
    case None => None
    case Some(seg) =>
      match AssemblerArguments.OffsetLength(s[seg..], syntax)
      case Some(n) => Some(seg + n)
      case None => None
  }

  /**
   * `eatAddress`: an integer segment, a colon and an integer offset, or
   * nothing consumed. What is read renders back as itself.
   */
  method EatAddress(lexer: Lexer) returns (r: Option<(string, string)>)
    requires lexer.Valid()
    modifies lexer
    ensures lexer.Valid()
    ensures r.None? <==> AddressLength(old(lexer.content), lexer.syntax).None?
    ensures r.None? ==> lexer.position == old(lexer.position)
    ensures r.Some? ==> (
      lexer.position == old(lexer.position) + AddressLength(old(lexer.content), lexer.syntax).value &&
      r.value.0 + ":" + r.value.1 == old(lexer.content)[..AddressLength(old(lexer.content), lexer.syntax).value])
  {
    var state := lexer.GetState();
    var seg := EatInteger(lexer);
    if seg.None? {
      return None;
    }
    assert lexer.content == state.content[|seg.value|..];
    var off := EatOffset(lexer);
    if off.None? {
      lexer.Revert(state);
      return None;
    }
    AddressOfParts(state.content, lexer.syntax, seg.value, off.value);
    return Some((seg.value, off.value));
  }

  /** The colon and the integer offset of `eatAddress`. */
  method EatOffset(lexer: Lexer) returns (r: Option<string>)
    requires lexer.Valid()
    modifies lexer
    ensures lexer.Valid()
    ensures r.None? <==> AssemblerArguments.OffsetLength(old(lexer.content), lexer.syntax).None?
    ensures r.None? ==> lexer.position == old(lexer.position)
    ensures r.Some? ==> (
      AssemblerArguments.OffsetLength(old(lexer.content), lexer.syntax).value == 1 + |r.value| &&
      lexer.position == old(lexer.position) + 1 + |r.value| &&
      ":" + r.value == old(lexer.content)[..1 + |r.value|])
  {
    var state := lexer.GetState();
    var colon := lexer.Eat(":");
    if !colon {
      return None;
    }
    assert lexer.content == state.content[1..];
    var off := EatInteger(lexer);
    if off.None? {
      lexer.Revert(state);
      return None;
    }
    AssemblerArguments.OffsetOfColon(state.content, lexer.syntax, off.value);
    return off;
  }

  /** A segment and an offset read one after the other make up the address at the front of the text. */
  lemma AddressOfParts(s: string, syntax: Syntax, seg: string, off: string)
    requires SignedNumber(s, syntax.number) == Some(|seg|) && seg == s[..|seg|]
    requires AssemblerArguments.OffsetLength(s[|seg|..], syntax) == Some(1 + |off|)
    requires ":" + off == s[|seg|..][..1 + |off|]
    ensures AddressLength(s, syntax) == Some(|seg| + 1 + |off|)
    ensures seg + ":" + off == s[..|seg| + 1 + |off|]
  {
    assert s[..|seg| + 1 + |off|] == s[..|seg|] + s[|seg|..][..1 + |off|];
  }

  // Bracket expressions. The functions below say what `eatSib` and its
  // helpers read from a position of the whole text, and the methods are
  // proved to read just that. The brackets, the parts and their rendering
  // are those of the first grammar; the separators and the scale are read
  // differently.

  /**
   * What `eatSibScale` reads at `p`: the decimal digits after ` * `. When
   * ` * ` or the digits are missing the attempt is undone and nothing is read.
   */
  function ScaleAt(text: string, syntax: Syntax, p: nat): (r: Reading<string>)
    requires p <= |text|
    ensures !r.Throws?
    ensures r.Got? ==> p < r.end <= |text| && r.value != []
  {
    if AssemblerArguments.StarLength(text, syntax, p).None? then Absent
    else
      var star := AssemblerArguments.ScaleStart(text, syntax, p);
      var digits := syntax.decNumber(text[star..]);
      if digits == 0 then Absent else Got(text[star..][..digits], star + digits)
  }

  /**
   * What `eatSibPart` reads at `from`: a signed integer, else a register and
   * its optional scale, else nothing.
   */
  function PartAt(text: string, syntax: Syntax, from: nat): (r: Reading<Part>)
    requires from <= |text|
    ensures !r.Throws?
    ensures r.Got? ==> from < r.end <= |text| && !AssemblerArguments.Negated(r.value)
  {
    var s := text[from..];
    match SignedNumber(s, syntax.number)
    case Some(n) => Got(IntegerPart(s[..n], false), from + n)
    case None =>
      var id := syntax.identifier(s);
      if id == 0 then Absent
      else
        var at := AssemblerArguments.IdentifierEnd(text, syntax, from);
        AssemblerArguments.WithScale(s[..id], ScaleAt(text, syntax, at), at)
  }

  /** A signed integer at `from` is the part read there. */
  lemma PartIsInteger(text: string, syntax: Syntax, from: nat, integer: string)
    requires from <= |text| && SignedNumber(text[from..], syntax.number) == Some(|integer|)
    requires integer == text[from..][..|integer|]
    ensures PartAt(text, syntax, from) == Got(IntegerPart(integer, false), from + |integer|)
  {
  }

  /** With no signed integer at `from`, the identifier there is the register of the part, and the scale follows it. */
  lemma PartIsRegister(text: string, syntax: Syntax, from: nat, register: string, at: nat)
    requires from <= |text| && SignedNumber(text[from..], syntax.number).None?
    requires register != [] && syntax.identifier(text[from..]) == |register|
    requires register == text[from..][..|register|] && at == AssemblerArguments.IdentifierEnd(text, syntax, from)
    ensures PartAt(text, syntax, from) == AssemblerArguments.WithScale(register, ScaleAt(text, syntax, at), at)
  {
  }

  /** How much ` + ` covers at `a`, if it is there. */
  function PlusLength(text: string, syntax: Syntax, a: nat): (r: Option<nat>)
    requires a <= |text|
    ensures r.Some? ==> a + r.value <= |text|
  {
    SpecialLength(" + ", text[a..], syntax.blank)
  }

  /** How much ` - ` covers at `a`, if it is there. */
  function MinusLength(text: string, syntax: Syntax, a: nat): (r: Option<nat>)
    requires a <= |text|
    ensures r.Some? ==> a + r.value <= |text|
  {
    SpecialLength(" - ", text[a..], syntax.blank)
  }

  /**
   * The separator of a pass of the `eatSib` loop at `a`: none before the
   * first part, else ` + `, else ` - ` (the value says whether it is `-`);
   * absent when neither is there.
   */
  function ItemSign(text: string, syntax: Syntax, first: bool, a: nat): (r: Reading<bool>)
    requires a <= |text|
    ensures !r.Throws?
    ensures r.Got? ==> a <= r.end <= |text|
  {
    if first then Got(false, a)
    else if PlusLength(text, syntax, a).Some? then Got(false, a + PlusLength(text, syntax, a).value)
    else if MinusLength(text, syntax, a).Some? then Got(true, a + MinusLength(text, syntax, a).value)
    else Absent
  }

  /**
   * What one pass of the `eatSib` loop reads at `a`, after the closing check:
   * the separator, then the part, which a ` - ` separator negates. A missing
   * separator, a missing part and a ` - ` before a register all throw.
   */
  function ItemAt(text: string, syntax: Syntax, first: bool, a: nat): (r: Reading<Part>)
    requires a <= |text|
    ensures !r.Absent?
    ensures r.Got? ==> a < r.end <= |text|
  {
    var sign := ItemSign(text, syntax, first, a);
    if !sign.Got? then Throws
    else match PartAt(text, syntax, sign.end)
      case Got(part, to) =>
        if sign.value && !part.IntegerPart? then Throws else Got(AssemblerArguments.Signed(part, sign.value), to)
      case _ => Throws
  }

  /**
   * What the rest of the `eatSib` loop reads from `a`: passes until ` ]`
   * closes the bracket, the first pass (`first`) without a closing check, so
   * that a bracket holds at least one part.
   */
  function PartsAt(text: string, syntax: Syntax, first: bool, a: nat): (r: Reading<seq<Part>>)
    requires a <= |text|
    ensures !r.Absent?
    ensures r.Got? ==> a <= r.end <= |text|
    ensures r.Got? && first ==> r.value != [] && !AssemblerArguments.Negated(r.value[0])
    decreases |text| - a
  {
    if !first && AssemblerArguments.CloseLength(text, syntax, a).Some? then
      Got([], a + AssemblerArguments.CloseLength(text, syntax, a).value)
    else match ItemAt(text, syntax, first, a)
      case Got(part, to) => AssemblerArguments.Prefixed([part], PartsAt(text, syntax, false, to))
      case _ => Throws
  }

  /**
   * What `eatSib` reads at `open`: nothing without `[ `, else the bracket's
   * parts compiled; a malformed bracket and a role conflict both throw.
   */
  function SibAt(text: string, syntax: Syntax, open: nat): (r: Reading<Sib>)
    requires open <= |text|
    ensures r.Absent? <==> AssemblerArguments.OpenLength(text, syntax, open).None?
    ensures r.Got? ==> open < r.end <= |text| && WellFormed(r.value)
  {
    if AssemblerArguments.OpenLength(text, syntax, open).None? then Absent
    else
      match PartsAt(text, syntax, true, AssemblerArguments.PartsStart(text, syntax, open))
      case Got(parts, end) =>
        (match Compile(parts)
         case Success(sib) => CompiledIsWellFormed(parts); Got(sib, end)
         case Failure(_) => Throws)
      case _ => Throws
  }

  /** `eatSibScale`: ` * ` and a decimal number, consumed only together. */
  method EatSibScale(lexer: Lexer) returns (r: Option<string>)
    requires lexer.Valid()
    modifies lexer
    ensures lexer.Valid() && old(lexer.position) <= lexer.position
    ensures r.None? ==> (
      ScaleAt(lexer.backup, lexer.syntax, old(lexer.position)) == Absent && lexer.position == old(lexer.position))
    ensures r.Some? ==> ScaleAt(lexer.backup, lexer.syntax, old(lexer.position)) == Got(r.value, lexer.position)
  {
    ghost var text, p := lexer.backup, lexer.position;
    assert lexer.content == text[p..];
    var state := lexer.GetState();
    var star := EatSpecialCharacter(lexer, " * ");
    if !star {
      return None;
    }
    ghost var q := AssemblerArguments.ScaleStart(text, lexer.syntax, p);
    assert lexer.position == q && lexer.content == text[q..];
    r := lexer.EatMatch(lexer.syntax.decNumber);
    if r.None? {
      lexer.Revert(state);
    }
  }

  /** `eatSibPart`: an integer, else a register with an optional scale, else nothing consumed. */
  method EatSibPart(lexer: Lexer) returns (r: Option<Part>)
    requires lexer.Valid()
    modifies lexer
    ensures lexer.Valid() && old(lexer.position) <= lexer.position
    ensures r.None? ==> (
      PartAt(lexer.backup, lexer.syntax, old(lexer.position)) == Absent && lexer.position == old(lexer.position))
    ensures r.Some? ==> PartAt(lexer.backup, lexer.syntax, old(lexer.position)) == Got(r.value, lexer.position)
  {
    ghost var text, from := lexer.backup, lexer.position;
    assert text[from..] == lexer.content;
    var integer := EatInteger(lexer);
    if integer.Some? {
      PartIsInteger(text, lexer.syntax, from, integer.value);
      return Some(IntegerPart(integer.value, false));
    }
    r := EatSibRegister(lexer);
  }

  /** The register branch of `eatSibPart`, once no integer starts the text. */
  method EatSibRegister(lexer: Lexer) returns (r: Option<Part>)
    requires lexer.Valid() && SignedNumber(lexer.content, lexer.syntax.number).None?
    modifies lexer
    ensures lexer.Valid() && old(lexer.position) <= lexer.position
    ensures r.None? ==> (
      PartAt(lexer.backup, lexer.syntax, old(lexer.position)) == Absent && lexer.position == old(lexer.position))
    ensures r.Some? ==> PartAt(lexer.backup, lexer.syntax, old(lexer.position)) == Got(r.value, lexer.position)
  {
    ghost var text, from := lexer.backup, lexer.position;
    assert text[from..] == lexer.content;
    var register := EatRegister(lexer);
    if register.None? {
      return None;
    }
    ghost var at := lexer.position;
    PartIsRegister(text, lexer.syntax, from, register.value, at);
    var scale := EatSibScale(lexer);
    if scale.None? {
      assert ScaleAt(text, lexer.syntax, at) == Absent && lexer.position == at;
    } else {
      assert ScaleAt(text, lexer.syntax, at) == Got(scale.value, lexer.position);
    }
    assert AssemblerArguments.WithScale(register.value, ScaleAt(text, lexer.syntax, at), at) ==
      Got(RegisterPart(register.value, scale), lexer.position);
    return Some(RegisterPart(register.value, scale));
  }

  /** The separator between parts: ` + `, else ` - ` (`true`); with neither, nothing is consumed. */
  method EatPlusMinus(lexer: Lexer) returns (r: Option<bool>)
    requires lexer.Valid()
    modifies lexer
    ensures lexer.Valid() && old(lexer.position) <= lexer.position
    ensures r.None? ==> (
      ItemSign(lexer.backup, lexer.syntax, false, old(lexer.position)) == Absent && lexer.position == old(lexer.position))
    ensures r.Some? ==> ItemSign(lexer.backup, lexer.syntax, false, old(lexer.position)) == Got(r.value, lexer.position)
  {
    ghost var text, a := lexer.backup, lexer.position;
    assert lexer.content == text[a..];
    var plus := EatSpecialCharacter(lexer, " + ");
    if plus {
      return Some(false);
    }
    var minus := EatSpecialCharacter(lexer, " - ");
    r := if minus then Some(true) else None;
  }

  /**
   * One pass of the `eatSib` loop after the closing check: the separator
   * (none before the first part), then the part, whose `minus` records a
   * ` - ` separator. It throws when the separator is missing, when no
   * integer or register follows it, and when ` - ` comes before a register.
   */
  method EatSibItem(lexer: Lexer, first: bool) returns (r: Result<Part, SyntaxError>)
    requires lexer.Valid()
    modifies lexer
    ensures lexer.Valid() && old(lexer.position) <= lexer.position
    ensures r.Success? ==> ItemAt(lexer.backup, lexer.syntax, first, old(lexer.position)) == Got(r.value, lexer.position)
    ensures r.Failure? ==> (ItemAt(lexer.backup, lexer.syntax, first, old(lexer.position)) == Throws && r.error.InvalidToken?)
    ensures ItemSign(lexer.backup, lexer.syntax, first, old(lexer.position)).Absent? ==> r.Failure?
    ensures (
      ItemSign(lexer.backup, lexer.syntax, first, old(lexer.position)).Got? &&
      PartAt(lexer.backup, lexer.syntax, ItemSign(lexer.backup, lexer.syntax, first, old(lexer.position)).end).Absent?) ==>
      r.Failure?
    ensures (
      ItemSign(lexer.backup, lexer.syntax, first, old(lexer.position)).Got? &&
      ItemSign(lexer.backup, lexer.syntax, first, old(lexer.position)).value &&
      PartAt(lexer.backup, lexer.syntax, ItemSign(lexer.backup, lexer.syntax, first, old(lexer.position)).end).Got? &&
      PartAt(lexer.backup, lexer.syntax, ItemSign(lexer.backup, lexer.syntax, first, old(lexer.position)).end).value.RegisterPart?) ==>
      r.Failure?
  {
    var minus := false;
    if !first {
      var sign := EatPlusMinus(lexer);
      if sign.None? {
        return Failure(InvalidToken(lexer.position));
      }
      minus := sign.value;
    }
    var part := EatSibPart(lexer);
    if part.None? {
      return Failure(InvalidToken(lexer.position));
    }
    if minus && !part.value.IntegerPart? {
      return Failure(InvalidToken(lexer.position));
    }
    return Success(AssemblerArguments.Signed(part.value, minus));
  }

  /** The loop of `eatSib` after `[`: parts separated by ` + ` or ` - ` up to ` ]`; every malformation throws. */
  method EatSibParts(lexer: Lexer) returns (r: Result<seq<Part>, SyntaxError>)
    requires lexer.Valid()
    modifies lexer
    ensures lexer.Valid() && old(lexer.position) <= lexer.position
    ensures r.Success? ==> PartsAt(lexer.backup, lexer.syntax, true, old(lexer.position)) == Got(r.value, lexer.position)
    ensures r.Failure? ==> (PartsAt(lexer.backup, lexer.syntax, true, old(lexer.position)) == Throws && r.error.InvalidToken?)
  {
    ghost var start := lexer.position;
    var parts: seq<Part> := [];
    AssemblerArguments.PrefixedNothing(PartsAt(lexer.backup, lexer.syntax, true, start));
    while true
      invariant lexer.Valid() && start <= lexer.position
      invariant PartsAt(lexer.backup, lexer.syntax, true, start) ==
        AssemblerArguments.Prefixed(parts, PartsAt(lexer.backup, lexer.syntax, parts == [], lexer.position))
      decreases |lexer.backup| - lexer.position
    {
      var next := EatSibPass(lexer, parts == []);
      if next.Failure? {
        return Failure(next.error);
      }
      if next.value.None? {
        AssemblerArguments.PrefixedAll(parts, lexer.position);
        return Success(parts);
      }
      AssemblerArguments.PrefixedAppend(parts, next.value.value, PartsAt(lexer.backup, lexer.syntax, false, lexer.position));
      parts := parts + [next.value.value];
    }
  }

  /**
   * One turn of the `eatSib` loop: the closing check (not before the first
   * part), then a pass. `None` is the bracket closed, `Some` the part read.
   */
  method EatSibPass(lexer: Lexer, first: bool) returns (r: Result<Option<Part>, SyntaxError>)
    requires lexer.Valid()
    modifies lexer
    ensures lexer.Valid() && old(lexer.position) <= lexer.position
    ensures r.Success? && r.value.None? ==> PartsAt(lexer.backup, lexer.syntax, first, old(lexer.position)) == Got([], lexer.position)
    ensures r.Success? && r.value.Some? ==> (
      old(lexer.position) < lexer.position &&
      PartsAt(lexer.backup, lexer.syntax, first, old(lexer.position)) ==
        AssemblerArguments.Prefixed([r.value.value], PartsAt(lexer.backup, lexer.syntax, false, lexer.position)))
    ensures r.Failure? ==> (PartsAt(lexer.backup, lexer.syntax, first, old(lexer.position)) == Throws && r.error.InvalidToken?)
  {
    ghost var a := lexer.position;
    if !first {
      assert lexer.content == lexer.backup[a..];
      var close := EatSpecialCharacter(lexer, " ]");
      if close {
        return Success(None);
      }
    }
    PartsStep(lexer.backup, lexer.syntax, first, a);
    var item := EatSibItem(lexer, first);
    if item.Failure? {
      return Failure(item.error);
    }
    return Success(Some(item.value));
  }

  /** How `PartsAt` goes on when the bracket does not close: the pass, then the passes after it. */
  lemma PartsStep(text: string, syntax: Syntax, first: bool, a: nat)
    requires a <= |text| && (first || AssemblerArguments.CloseLength(text, syntax, a).None?)
    ensures ItemAt(text, syntax, first, a).Got? ==>
      PartsAt(text, syntax, first, a) ==
        AssemblerArguments.Prefixed([ItemAt(text, syntax, first, a).value], PartsAt(text, syntax, false, ItemAt(text, syntax, first, a).end))
    ensures ItemAt(text, syntax, first, a).Throws? ==> PartsAt(text, syntax, first, a) == Throws
  {
  }

  /**
   * `eatSib`: `[`, the parts, then `compileSib`. Without `[` nothing is
   * consumed. Once `[` is read, a malformed bracket is an invalid-token
   * error and a role conflict the untyped error `compileSib` throws. A
   * bracket that is read renders stably (its record is well formed) and is
   * laid out in the text as `BracketLayout` says.
   */
  method EatSib(lexer: Lexer) returns (r: Parsed<Sib>)
    requires lexer.Valid()
    modifies lexer
    ensures lexer.Valid() && old(lexer.position) <= lexer.position
    ensures r.NoMatch? <==> AssemblerArguments.Opening(old(lexer.content), lexer.syntax).None?
    ensures r.NoMatch? ==> (
      SibAt(lexer.backup, lexer.syntax, old(lexer.position)) == Absent && lexer.position == old(lexer.position))
    ensures r.Match? ==> (
      SibAt(lexer.backup, lexer.syntax, old(lexer.position)) == Got(r.value, lexer.position) &&
      WellFormed(r.value) && SibLaid(lexer.backup, lexer.syntax, old(lexer.position), r.value, lexer.position))
    ensures r.Match? ==> old(lexer.position) < lexer.position
    ensures r.Fail? ==> (
      SibAt(lexer.backup, lexer.syntax, old(lexer.position)) == Throws && (r.error.InvalidToken? || r.error.Untyped?))
    ensures r.Fail? ==> (
      AssemblerArguments.OpenLength(lexer.backup, lexer.syntax, old(lexer.position)).Some? &&
      (r.error.Untyped? <==>
        PartsAt(lexer.backup, lexer.syntax, true, AssemblerArguments.PartsStart(lexer.backup, lexer.syntax, old(lexer.position))).Got?))
  {
    ghost var text, open := lexer.backup, lexer.position;
    assert text[open..] == lexer.content;
    var begun := EatSpecialCharacter(lexer, "[ ");
    if !begun {
      return NoMatch;
    }
    var sib := EatSibBody(lexer, open);
    return if sib.Success? then Match(sib.value) else Fail(sib.error);
  }

  /**
   * `eatSib` once `[ ` is read (from `open`): the parts, then `compileSib`,
   * whose failure is the untyped error.
   */
  method EatSibBody(lexer: Lexer, ghost open: nat) returns (r: Result<Sib, SyntaxError>)
    requires lexer.Valid() && open <= |lexer.backup| && AssemblerArguments.OpenLength(lexer.backup, lexer.syntax, open).Some?
    requires lexer.position == AssemblerArguments.PartsStart(lexer.backup, lexer.syntax, open)
    modifies lexer
    ensures lexer.Valid() && old(lexer.position) <= lexer.position
    ensures r.Success? ==> (
      SibAt(lexer.backup, lexer.syntax, open) == Got(r.value, lexer.position) &&
      WellFormed(r.value) && SibLaid(lexer.backup, lexer.syntax, open, r.value, lexer.position))
    ensures r.Failure? ==> (
      SibAt(lexer.backup, lexer.syntax, open) == Throws && (r.error.InvalidToken? || r.error.Untyped?) &&
      (r.error.Untyped? <==>
        PartsAt(lexer.backup, lexer.syntax, true, AssemblerArguments.PartsStart(lexer.backup, lexer.syntax, open)).Got?))
  {
    SibStep(lexer.backup, lexer.syntax, open);
    var list := EatSibParts(lexer);
    if list.Failure? {
      return Failure(list.error);
    }
    var sib := CompileSib(list.value);
    if sib.Failure? {
      return Failure(Untyped);
    }
    assert SibAt(lexer.backup, lexer.syntax, open) == Got(sib.value, lexer.position);
    SibLayout(lexer.backup, lexer.syntax, open, sib.value, lexer.position);
    return Success(sib.value);
  }

  /** How `SibAt` goes on once `[ ` is read: the parts, then `compileSib`. */
  lemma SibStep(text: string, syntax: Syntax, open: nat)
    requires open <= |text| && AssemblerArguments.OpenLength(text, syntax, open).Some?
    ensures var parts := PartsAt(text, syntax, true, AssemblerArguments.PartsStart(text, syntax, open));
      SibAt(text, syntax, open) ==
        if parts.Got? && Compile(parts.value).Success? then Got(Compile(parts.value).value, parts.end) else Throws
  {
  }

  /**
   * From `a` comes ` + `, or, when `minus`, ` - ` where no ` + ` is; the
   * part after it starts at `from`.
   */
  ghost predicate SignAt(text: string, syntax: Syntax, a: nat, minus: bool, from: nat) {
    a <= from <= |text| &&
    if minus then PlusLength(text, syntax, a).None? && MinusLength(text, syntax, a) == Some(from - a)
    else PlusLength(text, syntax, a) == Some(from - a)
  }

  /**
   * ` * ` at `p`, then the digits of `scale` up to `to`; or no scale and
   * `to == p`, where ` * ` is absent or no digits follow it.
   */
  ghost predicate ScaleRead(text: string, syntax: Syntax, p: nat, scale: Option<string>, to: nat) {
    p <= |text| &&
    match scale
    case None =>
      to == p &&
      (AssemblerArguments.StarLength(text, syntax, p).Some? ==>
        syntax.decNumber(text[AssemblerArguments.ScaleStart(text, syntax, p)..]) == 0)
    case Some(digits) =>
      AssemblerArguments.StarLength(text, syntax, p).Some? &&
      var star := AssemblerArguments.ScaleStart(text, syntax, p);
      digits != [] && syntax.decNumber(text[star..]) == |digits| && digits <= text[star..] && to == star + |digits|
  }

  /**
   * The text from `from` to `to` is `part`: the signed number there, or (no
   * number there) the identifier there and its scale.
   */
  ghost predicate PartRead(text: string, syntax: Syntax, part: Part, from: nat, to: nat) {
    match part
    case IntegerPart(integer, _) =>
      from <= |text| && SignedNumber(text[from..], syntax.number) == Some(|integer|) && integer <= text[from..] &&
      to == from + |integer|
    case RegisterPart(register, scale) =>
      from <= |text| && SignedNumber(text[from..], syntax.number).None? && register != [] &&
      syntax.identifier(text[from..]) == |register| && register <= text[from..] &&
      ScaleRead(text, syntax, AssemblerArguments.IdentifierEnd(text, syntax, from), scale, to)
  }

  /**
   * One part of a bracket, from `a`: its separator (none for the first
   * part, ` - ` exactly for a negated integer), then its text from `from`
   * to `to`.
   */
  ghost predicate ItemRead(text: string, syntax: Syntax, first: bool, a: nat, part: Part, from: nat, to: nat) {
    (if first then from == a && !AssemblerArguments.Negated(part)
     else SignAt(text, syntax, a, AssemblerArguments.Negated(part), from)) &&
    PartRead(text, syntax, part, from, to)
  }

  /**
   * From `a` on, the parts lie in the text where `cuts` says, each after
   * its separator, and ` ]` follows the last one, ending at `end`. The
   * bracket does not close before a part (`first` marks the first part).
   */
  ghost predicate Laid(text: string, syntax: Syntax, first: bool, a: nat, parts: seq<Part>, cuts: seq<(nat, nat)>, end: nat)
    decreases |parts|
  {
    a <= |text| && |cuts| == |parts| &&
    if parts == [] then
      !first && a <= end && AssemblerArguments.CloseLength(text, syntax, a) == Some(end - a)
    else
      (!first ==> AssemblerArguments.CloseLength(text, syntax, a).None?) &&
      ItemRead(text, syntax, first, a, parts[0], cuts[0].0, cuts[0].1) &&
      Laid(text, syntax, false, cuts[0].1, parts[1..], cuts[1..], end)
  }

  /** The text from `open` to `end` is a bracket: `[ `, then the parts laid out as `cuts` says, then ` ]`. */
  ghost predicate BracketLayout(text: string, syntax: Syntax, open: nat, parts: seq<Part>, cuts: seq<(nat, nat)>, end: nat) {
    open <= |text| && AssemblerArguments.OpenLength(text, syntax, open).Some? &&
    Laid(text, syntax, true, AssemblerArguments.PartsStart(text, syntax, open), parts, cuts, end)
  }

  /** The text from `open` to `end` is a bracket whose parts compile to `sib`. */
  ghost predicate SibLaid(text: string, syntax: Syntax, open: nat, sib: Sib, end: nat) {
    exists parts, cuts :: BracketLayout(text, syntax, open, parts, cuts, end) && Compile(parts) == Success(sib)
  }

  /** A part that `PartAt` reads lies in the text as `PartRead` says. */
  lemma PartLaid(text: string, syntax: Syntax, from: nat, part: Part, to: nat)
    requires from <= |text| && PartAt(text, syntax, from) == Got(part, to)
    ensures PartRead(text, syntax, part, from, to)
  {
    match part {
      case IntegerPart(_, _) =>
      case RegisterPart(register, scale) =>
        RegisterScale(text, syntax, from, part, to);
        if scale.None? {
          UnscaledLaid(text, syntax, from, register);
        } else {
          ScaledLaid(text, syntax, from, register, scale.value, to);
        }
    }
  }

  /** A register part that `PartAt` reads: the identifier at `from`, and what `ScaleAt` reads after it. */
  lemma RegisterScale(text: string, syntax: Syntax, from: nat, part: Part, to: nat)
    requires from <= |text| && PartAt(text, syntax, from) == Got(part, to) && part.RegisterPart?
    ensures SignedNumber(text[from..], syntax.number).None? && part.register != []
    ensures syntax.identifier(text[from..]) == |part.register| && part.register == text[from..][..|part.register|]
    ensures var at := AssemblerArguments.IdentifierEnd(text, syntax, from);
      part.scale.None? ==> ScaleAt(text, syntax, at) == Absent && to == at
    ensures part.scale.Some? ==>
      ScaleAt(text, syntax, AssemblerArguments.IdentifierEnd(text, syntax, from)) == Got(part.scale.value, to)
  {
    var s := text[from..];
    var at := AssemblerArguments.IdentifierEnd(text, syntax, from);
    AssemblerArguments.ScaleOfPart(s[..syntax.identifier(s)], ScaleAt(text, syntax, at), at, part, to);
  }

  /** A register with no scale read after it lies in the text as `PartRead` says. */
  lemma UnscaledLaid(text: string, syntax: Syntax, from: nat, register: string)
    requires from <= |text| && SignedNumber(text[from..], syntax.number).None?
    requires register != [] && syntax.identifier(text[from..]) == |register| && register == text[from..][..|register|]
    requires ScaleAt(text, syntax, AssemblerArguments.IdentifierEnd(text, syntax, from)) == Absent
    ensures PartRead(text, syntax, RegisterPart(register, None), from, AssemblerArguments.IdentifierEnd(text, syntax, from))
  {
    assert register <= text[from..];
  }

  /** A register and the scale `ScaleAt` reads after it lie in the text as `PartRead` says. */
  lemma ScaledLaid(text: string, syntax: Syntax, from: nat, register: string, digits: string, to: nat)
    requires from <= |text| && SignedNumber(text[from..], syntax.number).None?
    requires register != [] && syntax.identifier(text[from..]) == |register| && register == text[from..][..|register|]
    requires ScaleAt(text, syntax, AssemblerArguments.IdentifierEnd(text, syntax, from)) == Got(digits, to)
    ensures PartRead(text, syntax, RegisterPart(register, Some(digits)), from, to)
  {
    assert register <= text[from..];
    ScaleLaid(text, syntax, AssemblerArguments.IdentifierEnd(text, syntax, from), digits, to);
  }

  /** A scale that `ScaleAt` reads lies in the text as `ScaleRead` says. */
  lemma ScaleLaid(text: string, syntax: Syntax, p: nat, digits: string, to: nat)
    requires p <= |text| && ScaleAt(text, syntax, p) == Got(digits, to)
    ensures ScaleRead(text, syntax, p, Some(digits), to)
  {
    assert digits == text[AssemblerArguments.ScaleStart(text, syntax, p)..][..|digits|];
  }

  /** A pass that `ItemAt` reads lies in the text as `ItemRead` says, the part starting at `from`. */
  lemma ItemLaid(text: string, syntax: Syntax, first: bool, a: nat) returns (from: nat)
    requires a <= |text| && ItemAt(text, syntax, first, a).Got?
    ensures ItemRead(text, syntax, first, a, ItemAt(text, syntax, first, a).value, from, ItemAt(text, syntax, first, a).end)
  {
    var sign := ItemSign(text, syntax, first, a);
    from := sign.end;
    if !first {
      SignLaid(text, syntax, a, sign.value, from);
    }
    var part := PartAt(text, syntax, from);
    PartLaid(text, syntax, from, part.value, part.end);
    assert ItemAt(text, syntax, first, a) == Got(AssemblerArguments.Signed(part.value, sign.value), part.end);
  }

  /** A separator that `ItemSign` reads between parts lies in the text as `SignAt` says. */
  lemma SignLaid(text: string, syntax: Syntax, a: nat, minus: bool, from: nat)
    requires a <= |text| && ItemSign(text, syntax, false, a) == Got(minus, from)
    ensures SignAt(text, syntax, a, minus, from)
  {
    var plus, minusLength := PlusLength(text, syntax, a), MinusLength(text, syntax, a);
    if plus.Some? {
      assert !minus && from == a + plus.value;
    } else {
      assert minusLength.Some? && minus && from == a + minusLength.value;
    }
  }

  /** The parts that `PartsAt` reads lie in the text as `Laid` says. */
  lemma {:induction false} PartsLaid(text: string, syntax: Syntax, first: bool, a: nat) returns (cuts: seq<(nat, nat)>)
    requires a <= |text| && PartsAt(text, syntax, first, a).Got?
    ensures Laid(text, syntax, first, a, PartsAt(text, syntax, first, a).value, cuts, PartsAt(text, syntax, first, a).end)
    decreases |text| - a
  {
    if !first && AssemblerArguments.CloseLength(text, syntax, a).Some? {
      cuts := [];
    } else {
      var item := ItemAt(text, syntax, first, a);
      var from := ItemLaid(text, syntax, first, a);
      var rest := PartsLaid(text, syntax, false, item.end);
      cuts := [(from, item.end)] + rest;
      assert cuts[1..] == rest;
      assert PartsAt(text, syntax, first, a).value[1..] == PartsAt(text, syntax, false, item.end).value;
    }
  }

  /** A bracket that `SibAt` reads is laid out as `BracketLayout` says, and its parts compile to the record read. */
  lemma SibLayout(text: string, syntax: Syntax, open: nat, sib: Sib, end: nat)
    requires open <= |text| && SibAt(text, syntax, open) == Got(sib, end)
    ensures SibLaid(text, syntax, open, sib, end)
  {
    SibParts(text, syntax, open, sib, end);
    PartsBracket(text, syntax, open);
    LaidSib(text, syntax, open, PartsAt(text, syntax, true, AssemblerArguments.PartsStart(text, syntax, open)).value, sib, end);
  }

  /** A bracket that `SibAt` reads: `[ `, then parts that `PartsAt` reads up to `end` and that compile to the record. */
  lemma SibParts(text: string, syntax: Syntax, open: nat, sib: Sib, end: nat)
    requires open <= |text| && SibAt(text, syntax, open) == Got(sib, end)
    ensures AssemblerArguments.OpenLength(text, syntax, open).Some?
    ensures var parts := PartsAt(text, syntax, true, AssemblerArguments.PartsStart(text, syntax, open));
      parts.Got? && parts.end == end && Compile(parts.value) == Success(sib)
  {
  }

  /** Parts laid out after `[ ` that compile to `sib` make the bracket that `SibLaid` describes. */
  lemma LaidSib(text: string, syntax: Syntax, open: nat, parts: seq<Part>, sib: Sib, end: nat)
    requires open <= |text| && AssemblerArguments.OpenLength(text, syntax, open).Some?
    requires exists cuts :: Laid(text, syntax, true, AssemblerArguments.PartsStart(text, syntax, open), parts, cuts, end)
    requires Compile(parts) == Success(sib)
    ensures SibLaid(text, syntax, open, sib, end)
  {
    var cuts :| Laid(text, syntax, true, AssemblerArguments.PartsStart(text, syntax, open), parts, cuts, end);
    assert BracketLayout(text, syntax, open, parts, cuts, end);
  }

  /** The parts that `PartsAt` reads after `[ ` lie in the text as `Laid` says. */
  lemma PartsBracket(text: string, syntax: Syntax, open: nat)
    requires open <= |text| && AssemblerArguments.OpenLength(text, syntax, open).Some?
    requires PartsAt(text, syntax, true, AssemblerArguments.PartsStart(text, syntax, open)).Got?
    ensures var parts := PartsAt(text, syntax, true, AssemblerArguments.PartsStart(text, syntax, open));
      exists cuts :: Laid(text, syntax, true, AssemblerArguments.PartsStart(text, syntax, open), parts.value, cuts, parts.end)
  {
    var cuts := PartsLaid(text, syntax, true, AssemblerArguments.PartsStart(text, syntax, open));
  }

  /**
   * `]` right after `[`: when neither the number nor the identifier
   * recogniser accepts a text that starts with `]`, a bracket with no part
   * in it throws.
   */
  lemma EmptyBracketThrows(text: string, syntax: Syntax, open: nat)
    requires open <= |text| && AssemblerArguments.OpenLength(text, syntax, open).Some?
    requires AssemblerArguments.PartsStart(text, syntax, open) < |text|
    requires text[AssemblerArguments.PartsStart(text, syntax, open)] == ']'
    requires forall s: string :: "]" <= s ==> syntax.number(s) == 0 && syntax.identifier(s) == 0
    ensures SibAt(text, syntax, open) == Throws
  {
    var from := AssemblerArguments.PartsStart(text, syntax, open);
    assert "]" <= text[from..];
    assert PartAt(text, syntax, from) == Absent;
    assert ItemAt(text, syntax, true, from) == Throws;
    PartsStep(text, syntax, true, from);
    SibStep(text, syntax, open);
  }

  /** Which alternative of `tokenizeAssemblerArgument` applies to a text, in the order they are tried. */
  datatype Kind = AddressKind | IntegerKind | SibKind | RegisterKind | NoKind

  function Alternative(s: string, syntax: Syntax): Kind {
    if AddressLength(s, syntax).Some? then AddressKind
    else NumberAlternative(s, syntax)
  }

  /** The alternatives tried once an address does not apply. */
  function NumberAlternative(s: string, syntax: Syntax): Kind {
    if SignedNumber(s, syntax.number).Some? then IntegerKind
    else LaterAlternative(s, syntax)
  }

  /** The alternatives tried once neither an address nor an integer applies. */
  function LaterAlternative(s: string, syntax: Syntax): Kind {
    if AssemblerArguments.Opening(s, syntax).Some? then SibKind
    else NameAlternative(s, syntax)
  }

  /** A bracket is the later alternative exactly where `[ ` opens one; elsewhere the register alternative decides. */
  lemma LaterCases(s: string, syntax: Syntax)
    ensures LaterAlternative(s, syntax) == SibKind <==> AssemblerArguments.Opening(s, syntax).Some?
    ensures AssemblerArguments.Opening(s, syntax).None? ==> LaterAlternative(s, syntax) == NameAlternative(s, syntax)
  {
  }

  /** The register alternative, the last one tried. */
  function NameAlternative(s: string, syntax: Syntax): Kind {
    if syntax.identifier(s) > 0 then RegisterKind else NoKind
  }

  function KindOf(argument: StatementArgument): Kind {
    match argument
    case AddressArg(_, _) => AddressKind
    case IntegerArg(_) => IntegerKind
    case SibArg(_) => SibKind
    case RegisterArg(_) => RegisterKind
  }

  /**
   * `tokenizeAssemblerArgument`: the first alternative that applies, or null
   * with nothing consumed. A bracket that is begun but malformed is an
   * error. An operand other than a bracket renders back as exactly the text
   * it was read from; a bracket is the one `SibAt` reads there.
   */
  method TokenizeArgument(lexer: Lexer) returns (r: Parsed<StatementArgument>)
    requires lexer.Valid()
    modifies lexer
    ensures lexer.Valid() && lexer.position >= old(lexer.position)
    ensures r.NoMatch? <==> Alternative(old(lexer.content), lexer.syntax) == NoKind
    ensures r.NoMatch? ==> lexer.position == old(lexer.position)
    ensures r.Fail? <==> (
      Alternative(old(lexer.content), lexer.syntax) == SibKind &&
      SibAt(lexer.backup, lexer.syntax, old(lexer.position)) == Throws)
    ensures r.Fail? ==> r.error.InvalidToken? || r.error.Untyped?
    ensures r.Match? ==> (
      KindOf(r.value) == Alternative(old(lexer.content), lexer.syntax) &&
      old(lexer.position) < lexer.position)
    ensures r.Match? && !r.value.SibArg? ==>
      StringifyArgument(r.value) == old(lexer.content)[..lexer.position - old(lexer.position)]
    ensures r.Match? && r.value.SibArg? ==> (
      SibAt(lexer.backup, lexer.syntax, old(lexer.position)) == Got(r.value.sib, lexer.position) &&
      WellFormed(r.value.sib) && SibLaid(lexer.backup, lexer.syntax, old(lexer.position), r.value.sib, lexer.position))
  {
    var address := EatAddress(lexer);
    if address.Some? {
      return Match(AddressArg(address.value.0, address.value.1));
    }
    r := TokenizeNumber(lexer);
  }

  /** The integer, bracket and register alternatives of `tokenizeAssemblerArgument`. */
  method TokenizeNumber(lexer: Lexer) returns (r: Parsed<StatementArgument>)
    requires lexer.Valid()
    modifies lexer
    ensures lexer.Valid() && lexer.position >= old(lexer.position)
    ensures r.NoMatch? <==> NumberAlternative(old(lexer.content), lexer.syntax) == NoKind
    ensures r.NoMatch? ==> lexer.position == old(lexer.position)
    ensures r.Fail? <==> (
      NumberAlternative(old(lexer.content), lexer.syntax) == SibKind &&
      SibAt(lexer.backup, lexer.syntax, old(lexer.position)) == Throws)
    ensures r.Fail? ==> r.error.InvalidToken? || r.error.Untyped?
    ensures r.Match? ==> (
      KindOf(r.value) == NumberAlternative(old(lexer.content), lexer.syntax) &&
      old(lexer.position) < lexer.position)
    ensures r.Match? && !r.value.SibArg? ==>
      StringifyArgument(r.value) == old(lexer.content)[..lexer.position - old(lexer.position)]
    ensures r.Match? && r.value.SibArg? ==> (
      SibAt(lexer.backup, lexer.syntax, old(lexer.position)) == Got(r.value.sib, lexer.position) &&
      WellFormed(r.value.sib) && SibLaid(lexer.backup, lexer.syntax, old(lexer.position), r.value.sib, lexer.position))
  {
    ghost var text := lexer.content;
    var integer := EatInteger(lexer);
    if integer.Some? {
      assert NumberAlternative(text, lexer.syntax) == IntegerKind;
      return Match(IntegerArg(integer.value));
    }
    assert lexer.content == text;
    r := TokenizeLater(lexer);
  }

  /** The bracket and register alternatives of `tokenizeAssemblerArgument`. */
  method TokenizeLater(lexer: Lexer) returns (r: Parsed<StatementArgument>)
    requires lexer.Valid()
    modifies lexer
    ensures lexer.Valid() && lexer.position >= old(lexer.position)
    ensures r.NoMatch? <==> LaterAlternative(old(lexer.content), lexer.syntax) == NoKind
    ensures r.NoMatch? ==> lexer.position == old(lexer.position)
    ensures r.Fail? <==> (
      LaterAlternative(old(lexer.content), lexer.syntax) == SibKind &&
      SibAt(lexer.backup, lexer.syntax, old(lexer.position)) == Throws)
    ensures r.Fail? ==> r.error.InvalidToken? || r.error.Untyped?
    ensures r.Match? ==> (
      KindOf(r.value) == LaterAlternative(old(lexer.content), lexer.syntax) &&
      old(lexer.position) < lexer.position)
    ensures r.Match? && !r.value.SibArg? ==>
      StringifyArgument(r.value) == old(lexer.content)[..lexer.position - old(lexer.position)]
    ensures r.Match? && r.value.SibArg? ==> (
      SibAt(lexer.backup, lexer.syntax, old(lexer.position)) == Got(r.value.sib, lexer.position) &&
      WellFormed(r.value.sib) && SibLaid(lexer.backup, lexer.syntax, old(lexer.position), r.value.sib, lexer.position))
  {
    r := TokenizeBracket(lexer);
    if r.NoMatch? {
      assert lexer.content == old(lexer.content);
      r := TokenizeRegister(lexer);
    }
  }

  /** The bracket alternative of `tokenizeAssemblerArgument`: `eatSib`, its record wrapped as an operand. */
  method TokenizeBracket(lexer: Lexer) returns (r: Parsed<StatementArgument>)
    requires lexer.Valid()
    modifies lexer
    ensures lexer.Valid() && lexer.position >= old(lexer.position)
    ensures r.NoMatch? <==> LaterAlternative(old(lexer.content), lexer.syntax) != SibKind
    ensures r.NoMatch? ==> (
      LaterAlternative(old(lexer.content), lexer.syntax) == NameAlternative(old(lexer.content), lexer.syntax) &&
      SibAt(lexer.backup, lexer.syntax, old(lexer.position)) == Absent && lexer.position == old(lexer.position))
    ensures r.Fail? <==> (
      LaterAlternative(old(lexer.content), lexer.syntax) == SibKind &&
      SibAt(lexer.backup, lexer.syntax, old(lexer.position)) == Throws)
    ensures r.Fail? ==> r.error.InvalidToken? || r.error.Untyped?
    ensures r.Match? ==> (
      KindOf(r.value) == LaterAlternative(old(lexer.content), lexer.syntax) &&
      r.value.SibArg? && old(lexer.position) < lexer.position)
    ensures r.Match? ==> (
      SibAt(lexer.backup, lexer.syntax, old(lexer.position)) == Got(r.value.sib, lexer.position) &&
      WellFormed(r.value.sib) && SibLaid(lexer.backup, lexer.syntax, old(lexer.position), r.value.sib, lexer.position))
  {
    LaterCases(lexer.content, lexer.syntax);
    var sib := EatSib(lexer);
    if sib.NoMatch? {
      return NoMatch;
    } else if sib.Fail? {
      return Fail(sib.error);
    }
    return Match(SibArg(sib.value));
  }

  /** The register alternative of `tokenizeAssemblerArgument`. */
  method TokenizeRegister(lexer: Lexer) returns (r: Parsed<StatementArgument>)
    requires lexer.Valid()
    modifies lexer
    ensures lexer.Valid() && lexer.position >= old(lexer.position)
    ensures r.Match? || r.NoMatch?
    ensures r.NoMatch? <==> NameAlternative(old(lexer.content), lexer.syntax) == NoKind
    ensures r.NoMatch? ==> lexer.position == old(lexer.position)
    ensures r.Match? ==> (
      r.value.RegisterArg? && KindOf(r.value) == NameAlternative(old(lexer.content), lexer.syntax) &&
      old(lexer.position) < lexer.position &&
      StringifyArgument(r.value) == old(lexer.content)[..lexer.position - old(lexer.position)])
  {
    var register := EatRegister(lexer);
    if register.Some? {
      return Match(RegisterArg(register.value));
    }
    return NoMatch;
  }

  /**
   * The operand `argument` was read from `text[from..to]`: it renders back
   * as exactly that text, or, for a bracket expression, it is the well-formed
   * record `SibAt` reads there, laid out as `SibLaid` says.
   */
  ghost predicate ReadAs(argument: StatementArgument, text: string, syntax: Syntax, from: nat, to: nat) {
    from < to <= |text| &&
    if argument.SibArg? then
      SibAt(text, syntax, from) == Got(argument.sib, to) && WellFormed(argument.sib) &&
      SibLaid(text, syntax, from, argument.sib, to)
    else StringifyArgument(argument) == text[from..to]
  }

  /** Each operand is of the alternative that applies where it starts. */
  ghost predicate KindsAt(text: string, syntax: Syntax, arguments: seq<StatementArgument>, cuts: seq<(nat, nat)>) {
    |cuts| == |arguments| &&
    forall i :: 0 <= i < |arguments| ==>
      cuts[i].0 <= |text| && KindOf(arguments[i]) == Alternative(text[cuts[i].0..], syntax)
  }

  /**
   * `text[from..to]` is what precedes an operand: whitespace and comments
   * (at least one) before the first, `,` with its optional spacing before
   * the others.
   */
  ghost predicate SeparatorAt(text: string, syntax: Syntax, first: bool, from: nat, to: nat) {
    from <= to <= |text| &&
    if first then from < to && Skipped(text[from..to])
    else
      var comma := from + syntax.blank(text[from..]);
      comma < |text| && text[comma] == ',' && to == comma + 1 + syntax.blank(text[comma + 1..])
  }

  /** The ` , ` pattern: optional blanks, a comma, optional blanks. */
  lemma CommaLength(s: string, blank: Matcher)
    ensures SpecialLength(" , ", s, blank).Some? <==> blank(s) < |s| && s[blank(s)] == ','
    ensures SpecialLength(" , ", s, blank).Some? ==>
      SpecialLength(" , ", s, blank).value == blank(s) + 1 + blank(s[blank(s) + 1..])
  {
    var n := blank(s);
    assert " , "[1..] == ", " && ", "[1..] == " " && " "[1..] == [];
    if n < |s| && s[n] == ',' {
      assert s[n..][1..] == s[n + 1..];
    }
  }

  /**
   * The operands were read in order from `start` on, each after the end of
   * the one before; `cuts[i]` is where operand `i` starts and ends. Read from
   * the last operand back.
   */
  ghost predicate OperandsAt(text: string, syntax: Syntax, arguments: seq<StatementArgument>, cuts: seq<(nat, nat)>, start: nat)
    decreases |arguments|
  {
    |cuts| == |arguments| &&
    (arguments != [] ==>
      var n := |arguments| - 1;
      OperandsAt(text, syntax, arguments[..n], cuts[..n], start) &&
      LastEnd(cuts[..n], start) <= cuts[n].0 &&
      ReadAs(arguments[n], text, syntax, cuts[n].0, cuts[n].1))
  }

  /** Between the end of each operand (or `start`) and the next operand lies its separator. */
  ghost predicate SeparatorsAt(text: string, syntax: Syntax, cuts: seq<(nat, nat)>, start: nat) {
    forall i :: 0 <= i < |cuts| ==> SeparatorAt(text, syntax, i == 0, LastEnd(cuts[..i], start), cuts[i].0)
  }

  /** One more operand after its text extends the layout. */
  lemma OperandsAtAppend(text: string, syntax: Syntax, arguments: seq<StatementArgument>, cuts: seq<(nat, nat)>,
                         start: nat, argument: StatementArgument, from: nat, to: nat)
    requires OperandsAt(text, syntax, arguments, cuts, start)
    requires LastEnd(cuts, start) <= from && ReadAs(argument, text, syntax, from, to)
    ensures OperandsAt(text, syntax, arguments + [argument], cuts + [(from, to)], start)
    ensures LastEnd(cuts + [(from, to)], start) == to
  {
    assert (arguments + [argument])[..|arguments|] == arguments;
    assert (cuts + [(from, to)])[..|cuts|] == cuts;
  }

  /** One more separator, after the last operand, keeps every separator recorded. */
  lemma SeparatorsAtAppend(text: string, syntax: Syntax, cuts: seq<(nat, nat)>, start: nat, from: nat, to: nat)
    requires SeparatorsAt(text, syntax, cuts, start)
    requires SeparatorAt(text, syntax, |cuts| == 0, LastEnd(cuts, start), from)
    ensures SeparatorsAt(text, syntax, cuts + [(from, to)], start)
  {
    var cuts' := cuts + [(from, to)];
    forall i | 0 <= i < |cuts'|
      ensures SeparatorAt(text, syntax, i == 0, LastEnd(cuts'[..i], start), cuts'[i].0)
    {
      if i < |cuts| {
        assert cuts'[..i] == cuts[..i] && cuts'[i] == cuts[i];
      } else {
        assert cuts'[..i] == cuts;
      }
    }
  }

  /** One more operand, of the kind its text starts with, keeps every kind recorded. */
  lemma KindsAtAppend(text: string, syntax: Syntax, arguments: seq<StatementArgument>,
                      cuts: seq<(nat, nat)>, argument: StatementArgument, from: nat, to: nat)
    requires KindsAt(text, syntax, arguments, cuts)
    requires from <= |text| && KindOf(argument) == Alternative(text[from..], syntax)
    ensures KindsAt(text, syntax, arguments + [argument], cuts + [(from, to)])
  {
    var arguments', cuts' := arguments + [argument], cuts + [(from, to)];
    forall i | 0 <= i < |arguments'|
      ensures cuts'[i].0 <= |text| && KindOf(arguments'[i]) == Alternative(text[cuts'[i].0..], syntax)
    {
      if i < |arguments| {
        assert arguments'[i] == arguments[i] && cuts'[i] == cuts[i];
      }
    }
  }

  /** Where the operands of `statement` start: right after its mnemonic. */
  function OperandsStart(statement: Statement): nat {
    statement.span.start + |statement.mnemo|
  }

  /**
   * `statement` was read from its span of `text`: the mnemonic at its
   * start, then its operands laid out as `cuts` says (each after its
   * separator, each of the kind that applies where it starts), then the
   * statement end, with which the span ends.
   */
  ghost predicate StatementLaid(text: string, syntax: Syntax, statement: Statement, cuts: seq<(nat, nat)>) {
    var start := statement.span.start;
    var operandsStart := OperandsStart(statement);
    start <= |text| && MnemoLength(text[start..]) > 0 &&
    statement.mnemo == text[start..][..MnemoLength(text[start..])] && statement.labelName.None? &&
    OperandsAt(text, syntax, statement.arguments, cuts, operandsStart) &&
    SeparatorsAt(text, syntax, cuts, operandsStart) &&
    KindsAt(text, syntax, statement.arguments, cuts) &&
    LastEnd(cuts, operandsStart) <= |text| &&
    var end := syntax.statementEnd(text[LastEnd(cuts, operandsStart)..]);
    end.Some? && LastEnd(cuts, operandsStart) + end.value == statement.span.end
  }

  /** A statement whose mnemonic, operands and end lie in the text as `Tokenize` reads them is laid out as `StatementLaid` says. */
  lemma Laidout(text: string, syntax: Syntax, mnemo: string, arguments: seq<StatementArgument>, span: Span,
                cuts: seq<(nat, nat)>, operandsStart: nat)
    requires span.start <= |text| && MnemoLength(text[span.start..]) > 0
    requires mnemo == text[span.start..][..MnemoLength(text[span.start..])]
    requires operandsStart == span.start + |mnemo|
    requires OperandsAt(text, syntax, arguments, cuts, operandsStart)
    requires SeparatorsAt(text, syntax, cuts, operandsStart)
    requires KindsAt(text, syntax, arguments, cuts)
    requires LastEnd(cuts, operandsStart) <= |text|
    requires syntax.statementEnd(text[LastEnd(cuts, operandsStart)..]).Some?
    requires LastEnd(cuts, operandsStart) + syntax.statementEnd(text[LastEnd(cuts, operandsStart)..]).value == span.end
    ensures StatementLaid(text, syntax, Statement(mnemo, arguments, None, span), cuts)
  {
    assert OperandsStart(Statement(mnemo, arguments, None, span)) == operandsStart;
  }

  /**
   * `tokenize`, which tries `tokenizeOperation` first; in this grammar
   * version that always returns null, so this is `tokenizeInstruction`:
   * the mnemonic (else null, nothing consumed), then
   * operands until the statement end: the first set off by whitespace or a
   * comment, the others by `,`. A missing separator or operand is an error.
   * Without operands the end follows the mnemonic directly.
   */
  method Tokenize(lexer: Lexer) returns (r: Parsed<Statement>, ghost operandsStart: nat, ghost cuts: seq<(nat, nat)>)
    requires lexer.Valid()
    modifies lexer
    ensures lexer.Valid() && old(lexer.position) <= lexer.position
    ensures r.NoMatch? <==> MnemoLength(old(lexer.content)) == 0
    ensures r.NoMatch? ==> lexer.position == old(lexer.position)
    ensures r.Match? ==> (
      r.value.mnemo == old(lexer.content)[..MnemoLength(old(lexer.content))] &&
      r.value.labelName.None? &&
      r.value.span == Span(old(lexer.position), lexer.position) &&
      old(lexer.position) + MnemoLength(old(lexer.content)) <= lexer.position)
    ensures r.Match? && r.value.arguments == [] ==> (
      lexer.syntax.statementEnd(old(lexer.content)[MnemoLength(old(lexer.content))..]).Some? &&
      lexer.position == old(lexer.position) + MnemoLength(old(lexer.content)) +
        lexer.syntax.statementEnd(old(lexer.content)[MnemoLength(old(lexer.content))..]).value)
    ensures r.Match? ==> (
      operandsStart == old(lexer.position) + |r.value.mnemo| &&
      StatementLaid(lexer.backup, lexer.syntax, r.value, cuts))
    ensures r.Fail? ==> MnemoLength(old(lexer.content)) > 0 && (r.error.InvalidToken? || r.error.Untyped?)
  {
    var token := new Token(lexer);
    var mnemo := EatMnemo(lexer);
    if mnemo.None? {
      return NoMatch, lexer.position, [];
    }
    assert lexer.content == old(lexer.content)[|mnemo.value|..];
    operandsStart := lexer.position;
    var operands;
    operands, cuts := Operands(lexer, operandsStart);
    if operands.Fail? {
      return Fail(operands.error), operandsStart, cuts;
    }
    ghost var start := old(lexer.position);
    var finalized := token.Finalize();
    var span := Span(finalized.start, finalized.end);
    assert span == Span(start, lexer.position);
    assert lexer.backup[start..] == old(lexer.content);
    Laidout(lexer.backup, lexer.syntax, mnemo.value, operands.value, span, cuts, operandsStart);
    return Match(Statement(mnemo.value, operands.value, None, span)), operandsStart, cuts;
  }

  /**
   * The operand loop of `tokenizeInstruction`: operands until the statement
   * end, the first error ending it. Without operands, the end is what follows.
   */
  method Operands(lexer: Lexer, ghost start: nat)
    returns (r: Parsed<seq<StatementArgument>>, ghost cuts: seq<(nat, nat)>)
    requires lexer.Valid() && lexer.position == start
    modifies lexer
    ensures lexer.Valid() && start <= lexer.position
    ensures !r.NoMatch?
    ensures r.Match? ==> (
      OperandsAt(lexer.backup, lexer.syntax, r.value, cuts, start) &&
      SeparatorsAt(lexer.backup, lexer.syntax, cuts, start) &&
      KindsAt(lexer.backup, lexer.syntax, r.value, cuts) &&
      var end := lexer.syntax.statementEnd(lexer.backup[LastEnd(cuts, start)..]);
      end.Some? && LastEnd(cuts, start) + end.value == lexer.position)
    ensures r.Match? && r.value == [] ==> (
      lexer.syntax.statementEnd(old(lexer.content)).Some? &&
      lexer.position == start + lexer.syntax.statementEnd(old(lexer.content)).value)
    ensures r.Fail? ==> r.error.InvalidToken? || r.error.Untyped?
  {
    var arguments: seq<StatementArgument> := [];
    cuts := [];
    while true
      invariant lexer.Valid() && lexer.position >= start
      invariant arguments == [] ==> lexer.position == start && lexer.content == old(lexer.content)
      invariant OperandsAt(lexer.backup, lexer.syntax, arguments, cuts, start)
      invariant SeparatorsAt(lexer.backup, lexer.syntax, cuts, start)
      invariant KindsAt(lexer.backup, lexer.syntax, arguments, cuts)
      invariant lexer.position == LastEnd(cuts, start)
      decreases |lexer.backup| - lexer.position
    {
      ghost var at, content := lexer.position, lexer.content;
      var end := EatEnd(lexer);
      if end {
        assert content == lexer.backup[at..];
        return Match(arguments), cuts;
      }
      var operand, from := NextOperand(lexer, |arguments| == 0, cuts, start);
      if operand.Fail? {
        return Fail(operand.error), cuts;
      }
      OperandsAtAppend(lexer.backup, lexer.syntax, arguments, cuts, start, operand.value, from, lexer.position);
      KindsAtAppend(lexer.backup, lexer.syntax, arguments, cuts, operand.value, from, lexer.position);
      arguments := arguments + [operand.value];
      cuts := cuts + [(from, lexer.position)];
    }
  }

  /**
   * One operand of `tokenizeInstruction` after its separator: whitespace or
   * a comment before the first, `,` before the others. A missing separator
   * or operand is an invalid token at the position reached. `cuts` is where
   * the operands so far lie, read from `start` on; the new one joins them.
   */
  method NextOperand(lexer: Lexer, first: bool, ghost cuts: seq<(nat, nat)>, ghost start: nat)
    returns (r: Parsed<StatementArgument>, ghost from: nat)
    requires lexer.Valid()
    requires first == (|cuts| == 0) && lexer.position == LastEnd(cuts, start)
    requires SeparatorsAt(lexer.backup, lexer.syntax, cuts, start)
    modifies lexer
    ensures lexer.Valid() && old(lexer.position) <= lexer.position
    ensures !r.NoMatch?
    ensures r.Match? ==> (
      old(lexer.position) <= from < lexer.position &&
      SeparatorsAt(lexer.backup, lexer.syntax, cuts + [(from, lexer.position)], start) &&
      ReadAs(r.value, lexer.backup, lexer.syntax, from, lexer.position) &&
      KindOf(r.value) == Alternative(lexer.backup[from..], lexer.syntax))
    ensures r.Fail? ==> r.error.InvalidToken? || r.error.Untyped?
  {
    var separated := EatSeparator(lexer, first);
    if !separated {
      return Fail(InvalidToken(lexer.position)), lexer.position;
    }
    from := lexer.position;
    var argument := TokenizeArgument(lexer);
    if argument.NoMatch? {
      return Fail(InvalidToken(lexer.position)), from;
    }
    r := argument;
    SeparatorsAtAppend(lexer.backup, lexer.syntax, cuts, start, from, lexer.position);
    PrefixOfSuffix(lexer.backup, from, lexer.position);
  }

  lemma PrefixOfSuffix(s: string, from: nat, to: nat)
    requires from <= to <= |s|
    ensures s[from..][..to - from] == s[from..to]
  {
  }

  /**
   * The separator before an operand: non-empty whitespace and comments
   * before the first, `,` before the others. Without it nothing is consumed.
   */
  method EatSeparator(lexer: Lexer, first: bool) returns (ok: bool)
    requires lexer.Valid()
    modifies lexer
    ensures lexer.Valid() && old(lexer.position) <= lexer.position
    ensures ok ==> SeparatorAt(lexer.backup, lexer.syntax, first, old(lexer.position), lexer.position)
    ensures !ok ==> lexer.position == old(lexer.position)
  {
    if first {
      var wcc := Wcc(lexer);
      ok := !wcc.IsEmpty();
    } else {
      CommaLength(lexer.content, lexer.syntax.blank);
      ok := EatSpecialCharacter(lexer, " , ");
    }
  }

  /** `stringifyArgument`: the operand as source text; an address is its two integers around a colon. */
  function StringifyArgument(argument: StatementArgument): (s: string)
    ensures argument.AddressArg? ==> ':' in s
    ensures argument.SibArg? ==> |s| >= 2 && s[0] == '[' && s[|s| - 1] == ']'
  {
    match argument
    case AddressArg(segment, offset) => segment + ":" + offset
    case IntegerArg(integer) => integer
    case SibArg(sib) => StringifySib(sib)
    case RegisterArg(register) => register
  }

  /** The operands rendered and joined by `, `. */
  function JoinArguments(arguments: seq<StatementArgument>): (s: string)
    ensures arguments == [] ==> s == []
    decreases |arguments|
  {
    if arguments == [] then []
    else if |arguments| == 1 then StringifyArgument(arguments[0])
    else StringifyArgument(arguments[0]) + ", " + JoinArguments(arguments[1..])
  }

  /** `stringify`: one line, the mnemonic, then a space and the operands only when there are any. */
  function Stringify(statement: Statement): (lines: seq<string>)
    ensures |lines| == 1
    ensures statement.arguments == [] ==> lines[0] == statement.mnemo
    ensures statement.arguments != [] ==>
      lines[0] == statement.mnemo + " " + JoinArguments(statement.arguments)
  {
    var space := if statement.arguments != [] then " " else "";
    [statement.mnemo + space + JoinArguments(statement.arguments)]
  }

  // Scheme selection: `toBuffer` picks one scheme from the architecture's table.

  /**
   * What `toBuffer` reads from the architecture: the mnemonic table, the
   * operand resolvers by kind (the first element of each resolver entry) and
   * the operand sizes that complete a bare mnemonic.
   */
  datatype Arch = Arch(
    mnemo: map<string, seq<X86.Scheme>>,
    resolver: map<string, StatementArgument -> bool>,
    opsizes: seq<string>)

  /** The number of digits at the end of the text. */
  function TrailingDigits(s: string): (n: nat)
    ensures n <= |s|
    ensures forall i :: |s| - n <= i < |s| ==> IsDigit(s[i])
    ensures n < |s| ==> !IsDigit(s[|s| - n - 1])
  {
    if s != [] && IsDigit(s[|s| - 1]) then
      var n := TrailingDigits(s[..|s| - 1]);
      assert forall i :: |s| - 1 - n <= i < |s| - 1 ==> s[i] == s[..|s| - 1][i];
      1 + n
    else 0
  }

  /** The test `/\.\d+$/`: the mnemonic ends in a dot and one or more digits. */
  predicate HasSizeSuffix(mnemo: string) {
    var d := TrailingDigits(mnemo);
    0 < d < |mnemo| && mnemo[|mnemo| - d - 1] == '.'
  }

  /**
   * The candidate keys of `toBuffer`: the mnemonic itself and, unless it
   * already ends in an operand size, the mnemonic joined to each operand size
   * by a dot, in the order of the sizes.
   */
  function CandidateKeys(mnemo: string, opsizes: seq<string>): (keys: seq<string>)
    ensures |keys| > 0 && keys[0] == mnemo
    ensures HasSizeSuffix(mnemo) ==> |keys| == 1
    ensures !HasSizeSuffix(mnemo) ==> (|keys| == 1 + |opsizes| &&
      forall i :: 0 <= i < |opsizes| ==> keys[i + 1] == mnemo + "." + opsizes[i])
  {
    if HasSizeSuffix(mnemo) then [mnemo]
    else [mnemo] + seq(|opsizes|, i requires 0 <= i < |opsizes| => mnemo + "." + opsizes[i])
  }

  /** A scheme fits the operands: same arity, and each kind has a resolver that accepts its operand. */
  predicate Accepts(arch: Arch, scheme: X86.Scheme, arguments: seq<StatementArgument>) {
    |scheme.args| == |arguments| &&
    forall i :: 0 <= i < |arguments| ==>
      scheme.args[i] in arch.resolver && arch.resolver[scheme.args[i]](arguments[i])
  }

  /** The `find` of `getScheme`: the first scheme that fits the operands. */
  function FindScheme(schemes: seq<X86.Scheme>, arch: Arch, arguments: seq<StatementArgument>): (r: Option<X86.Scheme>)
    ensures r.Some? ==> r.value in schemes && Accepts(arch, r.value, arguments)
    ensures r.None? <==> forall i :: 0 <= i < |schemes| ==> !Accepts(arch, schemes[i], arguments)
  {
    if schemes == [] then None
    else if Accepts(arch, schemes[0], arguments) then Some(schemes[0])
    else
      var r := FindScheme(schemes[1..], arch, arguments);
      assert forall i :: 1 <= i < |schemes| ==> schemes[i] == schemes[1..][i - 1];
      r
  }

  /** Given the first fitting scheme, `find` returns that one and no later one. */
  lemma {:induction false} FindSchemeFirst(schemes: seq<X86.Scheme>, arch: Arch, arguments: seq<StatementArgument>, i: nat)
    requires i < |schemes| && Accepts(arch, schemes[i], arguments)
    requires forall j :: 0 <= j < i ==> !Accepts(arch, schemes[j], arguments)
    ensures FindScheme(schemes, arch, arguments) == Some(schemes[i])
  {
    if i > 0 {
      assert !Accepts(arch, schemes[0], arguments);
      assert forall j :: 0 <= j < i - 1 ==> schemes[1..][j] == schemes[j + 1];
      FindSchemeFirst(schemes[1..], arch, arguments, i - 1);
    }
  }

  /** `getScheme`: the first fitting scheme under the key; a missing key fits nothing. */
  function GetScheme(arch: Arch, mnemo: string, arguments: seq<StatementArgument>): (r: Option<X86.Scheme>)
    ensures mnemo !in arch.mnemo ==> r.None?
    ensures r.Some? ==> mnemo in arch.mnemo && r.value in arch.mnemo[mnemo] && Accepts(arch, r.value, arguments)
    ensures mnemo in arch.mnemo && r.None? ==>
      forall i :: 0 <= i < |arch.mnemo[mnemo]| ==> !Accepts(arch, arch.mnemo[mnemo][i], arguments)
  {
    if mnemo in arch.mnemo then FindScheme(arch.mnemo[mnemo], arch, arguments) else None
  }

  /** The `map` and `filter` of `toBuffer`: the schemes the keys yield, in key order. */
  function Found(keys: seq<string>, arch: Arch, arguments: seq<StatementArgument>): (found: seq<X86.Scheme>)
    ensures |found| <= |keys|
    ensures found == [] <==> forall i :: 0 <= i < |keys| ==> GetScheme(arch, keys[i], arguments).None?
  {
    if keys == [] then []
    else
      var rest := Found(keys[1..], arch, arguments);
      assert forall i :: 1 <= i < |keys| ==> keys[i] == keys[1..][i - 1];
      match GetScheme(arch, keys[0], arguments)
      case Some(scheme) => [scheme] + rest
      case None => rest
  }

  /** Exactly the key at index `i` yields a scheme. */
  predicate OnlyMatch(keys: seq<string>, arch: Arch, arguments: seq<StatementArgument>, i: int) {
    0 <= i < |keys| && GetScheme(arch, keys[i], arguments).Some? &&
    forall j :: 0 <= j < |keys| && j != i ==> GetScheme(arch, keys[j], arguments).None?
  }

  /** When exactly one key yields a scheme, the filtered list is that scheme alone. */
  lemma {:induction false} FoundOnly(keys: seq<string>, arch: Arch, arguments: seq<StatementArgument>, i: int)
    requires OnlyMatch(keys, arch, arguments, i)
    ensures Found(keys, arch, arguments) == [GetScheme(arch, keys[i], arguments).value]
  {
    assert forall j :: 1 <= j < |keys| ==> keys[j] == keys[1..][j - 1];
    if i == 0 {
      assert Found(keys[1..], arch, arguments) == [];
    } else {
      assert GetScheme(arch, keys[0], arguments).None?;
      assert keys[i] == keys[1..][i - 1];
      FoundOnly(keys[1..], arch, arguments, i - 1);
    }
  }

  /** A filtered list of one scheme comes from exactly one key. */
  lemma {:induction false} FoundSingle(keys: seq<string>, arch: Arch, arguments: seq<StatementArgument>)
    requires |Found(keys, arch, arguments)| == 1
    ensures exists i :: (OnlyMatch(keys, arch, arguments, i) &&
      GetScheme(arch, keys[i], arguments) == Some(Found(keys, arch, arguments)[0]))
  {
    assert forall j :: 1 <= j < |keys| ==> keys[j] == keys[1..][j - 1];
    var rest := Found(keys[1..], arch, arguments);
    if GetScheme(arch, keys[0], arguments).Some? {
      assert rest == [];
      assert OnlyMatch(keys, arch, arguments, 0);
    } else {
      FoundSingle(keys[1..], arch, arguments);
      var k :| OnlyMatch(keys[1..], arch, arguments, k) &&
        GetScheme(arch, keys[1..][k], arguments) == Some(rest[0]);
      assert OnlyMatch(keys, arch, arguments, k + 1);
    }
  }

  /**
   * The scheme `toBuffer` encodes with: it exists exactly when one candidate
   * key yields a scheme, and it is that key's first fitting scheme; no key or
   * several keys are an error.
   */
  function SelectScheme(mnemo: string, arguments: seq<StatementArgument>, arch: Arch): (r: Result<X86.Scheme, SyntaxError>)
    ensures r.Success? <==> exists i :: OnlyMatch(CandidateKeys(mnemo, arch.opsizes), arch, arguments, i)
    ensures r.Success? ==> forall i :: OnlyMatch(CandidateKeys(mnemo, arch.opsizes), arch, arguments, i) ==>
      GetScheme(arch, CandidateKeys(mnemo, arch.opsizes)[i], arguments) == Some(r.value)
    ensures r.Failure? ==> r.error == Untyped
  {
    var keys := CandidateKeys(mnemo, arch.opsizes);
    var found := Found(keys, arch, arguments);
    assert forall i :: OnlyMatch(keys, arch, arguments, i) ==>
      found == [GetScheme(arch, keys[i], arguments).value] by {
      forall i | OnlyMatch(keys, arch, arguments, i) {
        FoundOnly(keys, arch, arguments, i);
      }
    }
    if |found| != 1 then Failure(Untyped)
    else
      FoundSingle(keys, arch, arguments);
      Success(found[0])
  }

  /**
   * What a patch callback receives: where its chunk starts in the block's
   * output, the chunk's length and the block's complete label table.
   */
  datatype PatchContext = PatchContext(offset: nat, length: nat, labels: map<string, nat>)

  /**
   * What the encoder or a patch callback throws: a label missing from the
   * table, a label whose offset does not fit the operand, or another error
   * of the encoder, which is not part of this model.
   */
  datatype EncodeError = InvalidLabelName(name: string) | InvalidLabelOffset(name: string, offset: int) | EncoderError

  /**
   * A patch callback, as the bytes it leaves in its chunk or the error it
   * throws. It rewrites its own chunk in place, so the length stays.
   */
  type Patch = f: (PatchContext, seq<LittleEndian.Byte>) -> Result<seq<LittleEndian.Byte>, EncodeError> |
    forall context, bytes :: f(context, bytes).Success? ==> |f(context, bytes).value| == |bytes|
    witness (context: PatchContext, bytes: seq<LittleEndian.Byte>) => Success(bytes)

  /** One piece of encoded output, with the callback that completes it later, if any. */
  datatype Chunk = Chunk(bytes: seq<LittleEndian.Byte>, patch: Option<Patch>)

  /** The instruction encoder `arch.toBuffer`, which is not part of this model: chunks, or the error it throws. */
  type Encoder = (X86.Scheme, seq<StatementArgument>) -> Result<seq<Chunk>, EncodeError>

  /** Why `toBuffer` gives no chunks: no scheme was selected, or the encoder threw. */
  datatype BufferError = NoScheme | Unencodable(error: EncodeError)

  /** `toBuffer`: the encoder's chunks for the selected scheme, or the selection's or the encoder's error. */
  function ToBuffer(statement: Statement, arch: Arch, encode: Encoder): Result<seq<Chunk>, BufferError> {
    match SelectScheme(statement.mnemo, statement.arguments, arch)
    case Failure(_) => Failure(NoScheme)
    case Success(scheme) =>
      match encode(scheme, statement.arguments)
      case Success(chunks) => Success(chunks)
      case Failure(error) => Failure(Unencodable(error))
  }

  /**
   * `toBuffer` selects a scheme exactly when one candidate key yields one;
   * then its outcome is the encoder's, chunks or error, for a scheme that
   * accepts the operands.
   */
  lemma ToBufferSelects(statement: Statement, arch: Arch, encode: Encoder)
    ensures ToBuffer(statement, arch, encode) == Failure(NoScheme) <==>
      !exists i :: OnlyMatch(CandidateKeys(statement.mnemo, arch.opsizes), arch, statement.arguments, i)
    ensures ToBuffer(statement, arch, encode) != Failure(NoScheme) ==>
      exists scheme :: Accepts(arch, scheme, statement.arguments) &&
        match encode(scheme, statement.arguments)
        case Success(chunks) => ToBuffer(statement, arch, encode) == Success(chunks)
        case Failure(error) => ToBuffer(statement, arch, encode) == Failure(Unencodable(error))
  {
  }

  /** A dot at `k`, before `end`, is followed by a letter before `end`. */
  predicate DotFollowed(t: string, k: int, end: int)
    requires 0 <= k < end <= |t|
  {
    t[k] == '.' ==> k + 1 < end && IsLetter(t[k + 1])
  }

  /** Every dot inside `.word` groups is followed by a letter. */
  lemma {:induction false} SegmentDots(s: string)
    ensures forall k :: 0 <= k < SegmentsLength(s) ==> DotFollowed(s, k, SegmentsLength(s))
    decreases |s|
  {
    if s != [] && s[0] == '.' && WordLength(s[1..]) > 0 {
      var w := WordLength(s[1..]);
      var tail := s[1 + w..];
      SegmentDots(tail);
      assert SegmentsLength(s) == 1 + w + SegmentsLength(tail);
      forall k | 0 <= k < SegmentsLength(s) ensures DotFollowed(s, k, SegmentsLength(s)) {
        if k == 0 {
          assert s[1] == s[1..][0];
        } else if k <= w {
          assert s[k] == s[1..][k - 1];
        } else {
          assert DotFollowed(tail, k - 1 - w, SegmentsLength(tail));
          assert s[k] == tail[k - 1 - w];
          if k + 1 < |s| {
            assert s[k + 1] == tail[k - w];
          }
        }
      }
    }
  }

  /**
   * On a mnemonic as `eatMnemo` reads it, the `/\.\d+$/` test of `toBuffer`
   * holds exactly when the optional `.digits` group was matched.
   */
  lemma MnemoSizeSuffix(s: string, w: nat, g: nat, n: nat)
    requires w == WordLength(s) && g == SegmentsLength(s[w..])
    requires n == MnemoLength(s) > 0
    ensures HasSizeSuffix(s[..n]) <==> SizeGroupLength(s[w + g..]) > 0
  {
    MnemoParts(s, w, g);
    if SizeGroupLength(s[w + g..]) > 0 {
      GroupAt(s, w + g, n);
    } else {
      SegmentDotsAt(s, w, n);
      DotsAfter(s, w, g, n);
      NoSizeSuffix(s[..n]);
    }
  }

  /** A mnemonic is a word, its dotted segments and its optional size group, in that order. */
  lemma MnemoParts(s: string, w: nat, g: nat)
    requires w == WordLength(s) > 0 && g == SegmentsLength(s[w..])
    ensures MnemoLength(s) == w + g + SizeGroupLength(s[w + g..])
  {}

  /** Text cut right after a `.digits` group passes the `/\.\d+$/` test. */
  lemma GroupAt(s: string, p: nat, n: nat)
    requires p <= |s| && SizeGroupLength(s[p..]) > 0
    requires n == p + SizeGroupLength(s[p..])
    ensures HasSizeSuffix(s[..n])
  {
    var rest := s[p..];
    var m := s[..n];
    assert m[p] == rest[0];
    forall i | p < i < |m| ensures IsDigit(m[i]) {
      assert m[i] == rest[i - p];
    }
    SuffixAt(m, p);
  }

  /** A run of digits after a non-digit is exactly the trailing digit run. */
  lemma {:induction false} DigitsTrail(t: string, digits: string)
    requires t != [] && !IsDigit(t[|t| - 1])
    requires forall i :: 0 <= i < |digits| ==> IsDigit(digits[i])
    ensures TrailingDigits(t + digits) == |digits|
    decreases |digits|
  {
    if digits == [] {
      assert t + digits == t;
    } else {
      var shorter := digits[..|digits| - 1];
      assert (t + digits)[..|t + digits| - 1] == t + shorter;
      assert (t + digits)[|t + digits| - 1] == digits[|digits| - 1];
      DigitsTrail(t, shorter);
    }
  }

  /** Text ending in a dot and digits passes the `/\.\d+$/` test. */
  lemma SuffixAt(m: string, k: nat)
    requires k + 1 < |m| && m[k] == '.'
    requires forall i :: k < i < |m| ==> IsDigit(m[i])
    ensures HasSizeSuffix(m)
  {
    var digits := m[k + 1..];
    assert m == m[..k + 1] + digits;
    DigitsTrail(m[..k + 1], digits);
  }

  /** `SegmentDots`, stated at an offset into the text. */
  lemma SegmentDotsAt(s: string, w: nat, end: nat)
    requires w <= |s| && end == w + SegmentsLength(s[w..])
    ensures forall k :: w <= k < end ==> DotFollowed(s, k, end)
  {
    var g := SegmentsLength(s[w..]);
    SegmentDots(s[w..]);
    forall k | w <= k < end ensures DotFollowed(s, k, end) {
      assert DotFollowed(s[w..], k - w, g);
      assert s[k] == s[w..][k - w];
      if k + 1 < |s| {
        assert s[k + 1] == s[w..][k + 1 - w];
      }
    }
  }

  /** A dot-free word followed by dotted segments has every dot followed by a letter. */
  lemma DotsAfter(s: string, w: nat, g: nat, n: nat)
    requires n == w + g <= |s|
    requires forall k :: 0 <= k < w ==> IsLetter(s[k]) || IsDigit(s[k])
    requires forall k :: w <= k < n ==> DotFollowed(s, k, n)
    ensures DotsBeforeLetters(s[..n])
  {
    var m := s[..n];
    forall k | 0 <= k < |m| ensures DotFollowed(m, k, |m|) {
      assert m[k] == s[k];
      if k >= w {
        assert DotFollowed(s, k, n);
        if k + 1 < |m| {
          assert m[k + 1] == s[k + 1];
        }
      }
    }
  }

  /** Every dot of the text is followed by a letter. */
  predicate DotsBeforeLetters(t: string) {
    forall k :: 0 <= k < |t| ==> DotFollowed(t, k, |t|)
  }

  /** Text whose every dot is followed by a letter fails the `/\.\d+$/` test. */
  lemma NoSizeSuffix(t: string)
    requires DotsBeforeLetters(t)
    ensures !HasSizeSuffix(t)
  {
    var d := TrailingDigits(t);
    if 0 < d < |t| {
      assert IsDigit(t[|t| - d]);
      assert DotFollowed(t, |t| - d - 1, |t|);
    }
  }

  /**
   * `int 3` selects the CC form whenever the literal-3 resolver accepts the
   * operand: `int` has no sized keys and lists that form before `imm8`.
   */
  lemma IntThreeSelectsBreakpoint(arch: Arch)
    requires arch.mnemo == X86.Mnemo
    requires forall i :: 0 <= i < |arch.opsizes| ==> arch.opsizes[i] in X86.OperandSizes
    requires "3" in arch.resolver && arch.resolver["3"](IntegerArg("3"))
    ensures SelectScheme("int", [IntegerArg("3")], arch) == Success(X86.Int[0])
  {
    var arguments := [IntegerArg("3")];
    IntOnlyUnsizedKey(arch, arguments);
    X86.IntEntry();
    assert Accepts(arch, X86.Int[0], arguments);
    FindSchemeFirst(X86.Int, arch, arguments, 0);
    FoundOnly(CandidateKeys("int", arch.opsizes), arch, arguments, 0);
  }

  /** An immediate the literal-3 resolver refuses selects the CD form when `imm8` accepts it. */
  lemma IntImmediateSelectsInterrupt(arch: Arch, argument: StatementArgument)
    requires arch.mnemo == X86.Mnemo
    requires forall i :: 0 <= i < |arch.opsizes| ==> arch.opsizes[i] in X86.OperandSizes
    requires "3" !in arch.resolver || !arch.resolver["3"](argument)
    requires "imm8" in arch.resolver && arch.resolver["imm8"](argument)
    ensures SelectScheme("int", [argument], arch) == Success(X86.Int[1])
  {
    var arguments := [argument];
    IntOnlyUnsizedKey(arch, arguments);
    X86.IntEntry();
    assert X86.Int[0].args == ["3"] && arguments[0] == argument;
    assert !Accepts(arch, X86.Int[0], arguments);
    assert Accepts(arch, X86.Int[1], arguments);
    FindSchemeFirst(X86.Int, arch, arguments, 1);
    FoundOnly(CandidateKeys("int", arch.opsizes), arch, arguments, 0);
  }

  /** Under the x86 table no sized `int` key yields a scheme, whatever the operand sizes. */
  lemma IntOnlyUnsizedKey(arch: Arch, arguments: seq<StatementArgument>)
    requires arch.mnemo == X86.Mnemo
    requires forall i :: 0 <= i < |arch.opsizes| ==> arch.opsizes[i] in X86.OperandSizes
    ensures forall j :: 1 <= j < |CandidateKeys("int", arch.opsizes)| ==>
      GetScheme(arch, CandidateKeys("int", arch.opsizes)[j], arguments).None?
  {
    var keys := CandidateKeys("int", arch.opsizes);
    assert !HasSizeSuffix("int");
    forall j | 1 <= j < |keys| ensures GetScheme(arch, keys[j], arguments).None? {
      assert keys[j] == "int." + arch.opsizes[j - 1];
      X86.NoSizedInt(arch.opsizes[j - 1]);
    }
  }
}

=== FILE: buffer_cursor.dfy ===
/**
 * src/utils/bufferCursor.js: a write cursor over a byte buffer. Each write
 * stores a value little-endian at `off` and moves `off` past it; `move` sets
 * `off` directly. Every method hands back the cursor itself for chaining.
 */
module BufferCursor {
  import opened Types
  import opened LittleEndian

  class Cursor {
    const buf: array<Byte>
    var off: int

    constructor (buf: array<Byte>)
      ensures this.buf == buf && off == 0
    {
      this.buf := buf;
      off := 0;
    }

    /** `u8(v)`: Node.js throws a RangeError for a value or a slot out of range. */
    method U8(v: int) returns (self: Cursor)
      requires Is(Types.U8, v)
      requires 0 <= off && off + 1 <= buf.Length
      modifies this`off, buf
      ensures self == this
      ensures off == old(off) + 1
      ensures buf[..] == Write(old(buf[..]), old(off), Encode(v, 1))
    {
      buf[off] := v;
      off := off + 1;
      self := this;
    }

    method U16(v: int) returns (self: Cursor)
      requires Is(Types.U16, v)
      requires 0 <= off && off + 2 <= buf.Length
      modifies this`off, buf
      ensures self == this
      ensures off == old(off) + 2
      ensures buf[..] == Write(old(buf[..]), old(off), Encode(v, 2))
    {
      Encode16Bytes(v);
      buf[off] := v % 0x100;
      buf[off + 1] := v / 0x100;
      off := off + 2;
      self := this;
    }

    method U32(v: int) returns (self: Cursor)
      requires Is(Types.U32, v)
      requires 0 <= off && off + 4 <= buf.Length
      modifies this`off, buf
      ensures self == this
      ensures off == old(off) + 4
      ensures buf[..] == Write(old(buf[..]), old(off), Encode(v, 4))
    {
      Encode32Bytes(v);
      buf[off] := v % 0x100;
      buf[off + 1] := (v / 0x100) % 0x100;
      buf[off + 2] := (v / 0x1_0000) % 0x100;
      buf[off + 3] := v / 0x100_0000;
      off := off + 4;
      self := this;
    }

    /** `move(v)`: an absolute seek; nothing is written. */
    method Move(v: int) returns (self: Cursor)
      modifies this`off
      ensures self == this
      ensures off == v
    {
      off := v;
      self := this;
    }
  }
}

=== FILE: comment.dfy ===
// src/tokens/Comment.js: a comment opened by two slashes and running to the newline, or a
// comment opened by slash-star and closed by star-slash.
module Comment {
  import opened Wrappers
  import opened Lexing
  import opened WhitespaceComments

  /**
   * A text a comment token can cover: two slashes and no newline after them,
   * or slash-star, then text, then the first star-slash after the opening.
   */
  predicate IsCommentText(t: string) {
    ("//" <= t && '\n' !in t[2..]) ||
    (|t| >= 4 && "/*" <= t && t[|t| - 2..] == "*/" &&
     forall j :: 2 <= j < |t| - 2 ==> !("*/" <= t[j..]))
  }

  /** The length of the text before its first newline; the whole text when it has none. */
  function LineLength(s: string): (n: nat)
    ensures n <= |s|
  {
    if s == [] || s[0] == '\n' then 0 else 1 + LineLength(s[1..])
  }

  /** The first index from `j` on where a star-slash starts, if there is one. */
  function CloseFrom(s: string, j: nat): (r: Option<nat>)
    ensures r.Some? ==> j <= r.value && r.value + 2 <= |s|
    decreases |s| - j
  {
    if |s| < j + 2 then None
    else if "*/" <= s[j..] then Some(j)
    else CloseFrom(s, j + 1)
  }

  /**
   * How much text a comment covers at the front of the text: two slashes and
   * the rest of the line, or slash-star up to and including the first
   * star-slash after it; 0 when neither starts there.
   */
  function CommentLength(s: string): (n: nat)
    ensures n <= |s|
    ensures n > 0 ==> "//" <= s || "/*" <= s
  {
    if "//" <= s then 2 + LineLength(s[2..])
    else if "/*" <= s then (var close := CloseFrom(s, 2); if close.Some? then close.value + 2 else 0)
    else 0
  }

  /** What `eatSingleline` consumes from position `p` of `b` is comment text. */
  lemma SinglelineText(b: string, p: nat, c: string)
    requires p <= |b| && "//" <= b[p..] && 2 + |c| <= |b[p..]| && b[p..][2..2 + |c|] == c && '\n' !in c
    ensures b[p..p + 2 + |c|] == "//" + c && IsCommentText(b[p..p + 2 + |c|])
  {
    var t := b[p..p + 2 + |c|];
    assert t == b[p..][..2 + |c|];
    assert t[2..] == c;
  }

  /**
   * What `eatMultiline` consumes from position `p` of `b` is comment text:
   * nothing closes it before its final star-slash.
   */
  lemma MultilineText(b: string, p: nat, c: string)
    requires p <= |b| && "/*" <= b[p..] && 4 + |c| <= |b[p..]| && b[p..][2..2 + |c|] == c
    requires "*/" <= b[p..][2 + |c|..]
    requires forall j :: 2 <= j < 2 + |c| ==> !("*/" <= b[p..][j..])
    ensures b[p..p + 4 + |c|] == "/*" + c + "*/" && IsCommentText(b[p..p + 4 + |c|])
  {
    var s := b[p..];
    var t := b[p..p + 4 + |c|];
    assert t == s[..4 + |c|];
    assert t[|t| - 2..] == s[2 + |c|..][..2];
    assert t == s[..2] + c + s[2 + |c|..][..2];
    forall j | 2 <= j < |t| - 2 ensures !("*/" <= t[j..]) {
      assert t[j..][..2] == s[j..][..2];
    }
  }

  // `eatSingleline`: after the two slashes, the text up to the next newline or, without one, to the end.
  method EatSingleline(lexer: Lexer) returns (r: Option<string>)
    requires lexer.Valid()
    modifies lexer
    ensures lexer.Valid()
    ensures r.None? <==> !("//" <= old(lexer.content))
    ensures r.None? ==> lexer.position == old(lexer.position)
    ensures r.Some? ==> (lexer.position == old(lexer.position) + 2 + |r.value| &&
      old(lexer.content)[2..2 + |r.value|] == r.value && '\n' !in r.value &&
      (2 + |r.value| == |old(lexer.content)| || old(lexer.content)[2 + |r.value|] == '\n'))
  {
    var ok := lexer.Eat("//");
    if !ok {
      return None;
    }
    ghost var after := lexer.content;
    r := lexer.EatTill("\n");
    if r.None? {
      var all := lexer.EatAll();
      r := Some(all);
      assert forall j :: 0 <= j < |all| ==> all[j] != '\n' by {
        forall j | 0 <= j < |all| ensures all[j] != '\n' {
          assert !("\n" <= after[j..]);
        }
      }
    } else {
      assert forall j :: 0 <= j < |r.value| ==> r.value[j] != '\n' by {
        forall j | 0 <= j < |r.value| ensures r.value[j] != '\n' {
          assert !("\n" <= after[j..]);
          assert r.value[j] == after[j];
        }
      }
    }
  }

  // `eatMultiline`, whose `try` callback is written out: after the opening
  // slash-star, the text before the first star-slash, which is consumed too.
  // Without a closing star-slash nothing is consumed.
  method EatMultiline(lexer: Lexer) returns (r: Option<string>)
    requires lexer.Valid()
    modifies lexer
    ensures lexer.Valid()
    ensures r.None? ==> lexer.position == old(lexer.position)
    ensures r.None? ==> (!("/*" <= old(lexer.content)) ||
      forall j :: 2 <= j <= |old(lexer.content)| ==> !("*/" <= old(lexer.content)[j..]))
    ensures r.Some? ==> ("/*" <= old(lexer.content) &&
      lexer.position == old(lexer.position) + 2 + |r.value| + 2 &&
      old(lexer.content)[2..2 + |r.value|] == r.value &&
      "*/" <= old(lexer.content)[2 + |r.value|..] &&
      forall j :: 2 <= j < 2 + |r.value| ==> !("*/" <= old(lexer.content)[j..]))
  {
    var state := lexer.GetState();
    var ok := lexer.Eat("/*");
    if ok {
      ghost var after := lexer.content;
      assert after == state.content[2..];
      r := lexer.EatTill("*/");
      if r.Some? {
        lexer.Move(2);
        forall j | 2 <= j < 2 + |r.value| ensures !("*/" <= state.content[j..]) {
          assert state.content[j..] == after[j - 2..];
        }
        return r;
      }
      forall j | 2 <= j <= |state.content| ensures !("*/" <= state.content[j..]) {
        assert state.content[j..] == after[j - 2..];
      }
    }
    lexer.Revert(state);
    return None;
  }

  /**
   * `slc ?? this.eatMultiline()`: the singleline form first, then the
   * multiline one. `single` tells which matched; the consumed text is
   * comment text.
   */
  method EatComment(lexer: Lexer) returns (single: bool, content: Option<string>)
    requires lexer.Valid()
    modifies lexer
    ensures lexer.Valid()
    ensures content.None? ==> lexer.position == old(lexer.position) && !("//" <= old(lexer.content))
    ensures content.None? ==> (!("/*" <= old(lexer.content)) ||
      forall j :: 2 <= j <= |old(lexer.content)| ==> !("*/" <= old(lexer.content)[j..]))
    ensures content.Some? ==> (
      (single <==> "//" <= old(lexer.content)) &&
      (!single ==> ("/*" <= old(lexer.content) && 2 + |content.value| <= |old(lexer.content)| &&
        "*/" <= old(lexer.content)[2 + |content.value|..])) &&
      lexer.position >= old(lexer.position) + 2 &&
      (single ==> lexer.backup[old(lexer.position)..lexer.position] == "//" + content.value) &&
      (!single ==> lexer.backup[old(lexer.position)..lexer.position] == "/*" + content.value + "*/") &&
      IsCommentText(lexer.backup[old(lexer.position)..lexer.position]))
    ensures content.None? <==> CommentLength(old(lexer.content)) == 0
    ensures lexer.position == old(lexer.position) + CommentLength(old(lexer.content))
  {
    var start := lexer.GetState();
    var slc := EatSingleline(lexer);
    if slc.Some? {
      single, content := true, slc;
      SinglelineText(lexer.backup, start.position, content.value);
      SinglelineLength(start.content, content.value);
      return;
    }
    single := false;
    content := EatMultiline(lexer);
    if content.Some? {
      MultilineText(lexer.backup, start.position, content.value);
      MultilineLength(start.content, content.value);
    } else {
      NoCommentLength(start.content);
    }
  }

  /** What `eatSingleline` reads is as long as `CommentLength` says. */
  lemma SinglelineLength(s: string, c: string)
    requires "//" <= s && 2 + |c| <= |s| && s[2..2 + |c|] == c && '\n' !in c
    requires 2 + |c| == |s| || s[2 + |c|] == '\n'
    ensures CommentLength(s) == 2 + |c|
  {
    LineLengthOf(s[2..], |c|);
  }

  /** What `eatMultiline` reads is as long as `CommentLength` says. */
  lemma MultilineLength(s: string, c: string)
    requires "/*" <= s && !("//" <= s) && 2 + |c| <= |s| && s[2..2 + |c|] == c && "*/" <= s[2 + |c|..]
    requires forall j :: 2 <= j < 2 + |c| ==> !("*/" <= s[j..])
    ensures CommentLength(s) == 4 + |c|
  {
    CloseFromOf(s, 2, 2 + |c|);
  }

  /** Where neither form of comment starts, `CommentLength` is 0. */
  lemma NoCommentLength(s: string)
    requires !("//" <= s)
    requires !("/*" <= s) || forall j :: 2 <= j <= |s| ==> !("*/" <= s[j..])
    ensures CommentLength(s) == 0
  {
    if "/*" <= s {
      CloseFromNone(s, 2);
    }
  }

  /** The newline, or the end, that ends the first line is the one `LineLength` finds. */
  lemma {:induction false} LineLengthOf(t: string, n: nat)
    requires n <= |t| && (n == |t| || t[n] == '\n')
    requires forall i :: 0 <= i < n ==> t[i] != '\n'
    ensures LineLength(t) == n
    decreases n
  {
    if n > 0 {
      LineLengthOf(t[1..], n - 1);
    }
  }

  /** A closing star-slash with none before it is the one `CloseFrom` finds. */
  lemma {:induction false} CloseFromOf(s: string, j: nat, m: nat)
    requires j <= m && m + 2 <= |s| && "*/" <= s[m..]
    requires forall k :: j <= k < m ==> !("*/" <= s[k..])
    ensures CloseFrom(s, j) == Some(m)
    decreases m - j
  {
    if j < m {
      CloseFromOf(s, j + 1, m);
    }
  }

  /** Without a star-slash from `j` on, `CloseFrom` finds none. */
  lemma {:induction false} CloseFromNone(s: string, j: nat)
    requires forall k :: j <= k <= |s| ==> !("*/" <= s[k..])
    ensures CloseFrom(s, j).None?
    decreases |s| - j
  {
    if j + 2 <= |s| {
      CloseFromNone(s, j + 1);
    }
  }

  /**
   * `tokenize`: a finalized comment token, singleline when the `//` form
   * matched; null with nothing consumed when neither form starts here.
   */
  method Tokenize(lexer: Lexer) returns (r: WhitespaceComment?)
    requires lexer.Valid()
    modifies lexer
    ensures lexer.Valid()
    ensures r == null ==> lexer.position == old(lexer.position) && !("//" <= old(lexer.content))
    ensures r == null ==> (!("/*" <= old(lexer.content)) ||
      forall j :: 2 <= j <= |old(lexer.content)| ==> !("*/" <= old(lexer.content)[j..]))
    ensures r != null ==> (fresh(r) && fresh(r.token) && r.Valid() &&
      r.token.lexer == lexer && r.token.start == old(lexer.position) && r.token.end == lexer.position &&
      (r.isSingleline <==> "//" <= old(lexer.content)) &&
      (!r.isSingleline ==> ("/*" <= old(lexer.content) && 2 + |r.content| <= |old(lexer.content)| &&
        "*/" <= old(lexer.content)[2 + |r.content|..])) &&
      lexer.position >= old(lexer.position) + 2 &&
      (r.isSingleline ==> lexer.backup[old(lexer.position)..lexer.position] == "//" + r.content) &&
      (!r.isSingleline ==> lexer.backup[old(lexer.position)..lexer.position] == "/*" + r.content + "*/") &&
      IsCommentText(lexer.backup[old(lexer.position)..lexer.position]))
    ensures r == null <==> CommentLength(old(lexer.content)) == 0
    ensures lexer.position == old(lexer.position) + CommentLength(old(lexer.content))
  {
    var token := new WhitespaceComment(lexer);
    var single, content := EatComment(lexer);
    if content.None? {
      return null;
    }
    token.SetContent(content.value);
    token.isSingleline := single;
    var finalized := token.token.Finalize();
    return token;
  }
}

=== FILE: elf.dfy ===
/**
 * src/Elf.js: wraps machine code in a 32-bit ELF executable. The image is a
 * 0x60-byte header (the 52-byte ELF header, padding, one program header at
 * 0x40) followed by the pushed code buffers. Field values follow the System V
 * ABI / TIS ELF 1.2 layout: ELFCLASS32, ELFDATA2LSB, ET_EXEC, EM_386, PT_LOAD.
 */
module Elf {
  import opened Wrappers
  import opened Types
  import opened LittleEndian
  import opened BufferCursor

  const Entry: nat := 0x8000_0000
  const PhNum: nat := 1
  const PhEntSize: nat := 0x20
  const PhOff: nat := 0x40
  /** `size` in getHeader: e_phoff + e_phnum * e_phentsize. */
  const HeaderSize: nat := PhOff + PhNum * PhEntSize

  /** `writeUInt32LE` refuses a p_filesz that does not fit in 32 bits. */
  datatype ElfError = FileTooLarge(fileSize: nat)

  /** `buffers.reduce((acc, buf) => acc + buf.length, 0)`. */
  function TotalLength(bufs: seq<seq<Byte>>): (n: nat)
    ensures bufs == [] ==> n == 0
  {
    if bufs == [] then 0 else TotalLength(bufs[..|bufs| - 1]) + |bufs[|bufs| - 1]|
  }

  /** `Buffer.concat(bufs)`. */
  function Concat(bufs: seq<seq<Byte>>): (r: seq<Byte>)
    ensures |r| == TotalLength(bufs)
  {
    if bufs == [] then [] else Concat(bufs[..|bufs| - 1]) + bufs[|bufs| - 1]
  }

  /** Pushing one more buffer appends it to the concatenation. */
  lemma ConcatPush(bufs: seq<seq<Byte>>, b: seq<Byte>)
    ensures Concat(bufs + [b]) == Concat(bufs) + b
    ensures TotalLength(bufs + [b]) == TotalLength(bufs) + |b|
  {
    assert (bufs + [b])[..|bufs|] == bufs;
  }

  /** e_ident up to EI_PAD: ELFMAG, then ELFCLASS32, ELFDATA2LSB and EV_CURRENT. */
  const Ident: seq<Byte> := [0x7f, 'E' as int, 'L' as int, 'F' as int, 1, 1, 1]

  /** EI_PAD and the three fields before e_entry. */
  function FileHeaderFront(): (r: seq<Byte>)
    ensures |r| == 0x18 - |Ident|
  {
    Zeros(0x10 - |Ident|)                        // EI_PAD
    + Encode(2, 2)                               // e_type = ET_EXEC
    + Encode(3, 2)                               // e_machine = EM_386
    + Encode(1, 4)                               // e_version
  }

  /** The fields after e_entry, up to e_shstrndx. */
  function FileHeaderBack(): (r: seq<Byte>)
    ensures |r| == 0x34 - 0x1c
  {
    Encode(PhOff, 4)                             // e_phoff
    + Encode(0, 4)                               // e_shoff
    + Encode(0, 4)                               // e_flags
    + Encode(52, 2)                              // e_ehsize
    + Encode(PhEntSize, 2)                       // e_phentsize
    + Encode(PhNum, 2)                           // e_phnum
    + Encode(40, 2)                              // e_shentsize
    + Encode(0, 2)                               // e_shnum
    + Encode(0, 2)                               // e_shstrndx
  }

  /** A middle piece of a three-part concatenation is found at its offset. */
  lemma MiddleSlice(a: seq<Byte>, b: seq<Byte>, c: seq<Byte>)
    ensures (a + b + c)[|a|..|a| + |b|] == b
  {
  }

  /** A slice inside the left operand of a concatenation. */
  lemma PrefixSlice(a: seq<Byte>, b: seq<Byte>, i: nat, j: nat)
    requires i <= j <= |a|
    ensures (a + b)[i..j] == a[i..j]
  {
  }

  /** A slice inside the right operand of a concatenation, at its offset. */
  lemma SuffixSlice(a: seq<Byte>, b: seq<Byte>, i: nat, j: nat)
    requires i <= j <= |b|
    ensures (a + b)[|a| + i..|a| + j] == b[i..j]
  {
  }

  /** The 52-byte ELF header with `entry` as e_entry. */
  function FileHeader(entry: nat): (r: seq<Byte>)
    ensures |r| == 0x34 && r[..|Ident|] == Ident
    ensures r[0x18..0x1c] == Encode(entry, 4)
  {
    var r := Ident + FileHeaderFront() + Encode(entry, 4) + FileHeaderBack();
    assert r[..|Ident|] == Ident;
    MiddleSlice(Ident + FileHeaderFront(), Encode(entry, 4), FileHeaderBack());
    r
  }

  /** The single PT_LOAD program header mapping a file of `fileSize` bytes at `entry`. */
  function ProgramHeader(entry: nat, fileSize: nat): (r: seq<Byte>)
    ensures |r| == PhEntSize
    ensures r[4..8] == Encode(0, 4) && r[0x14..0x18] == Encode(fileSize, 4)
  {
    var front, back := ProgramHeaderFront(entry), ProgramHeaderBack(fileSize);
    PrefixSlice(front, back, 4, 8);
    SuffixSlice(front, back, 4, 8);
    front + back
  }

  /** p_type, p_offset, p_vaddr and p_paddr. */
  function ProgramHeaderFront(entry: nat): (r: seq<Byte>)
    ensures |r| == 0x10 && r[4..8] == Encode(0, 4)
  {
    var r := Encode(1, 4)                         // p_type = PT_LOAD
      + Encode(0, 4)                               // p_offset
      + Encode(entry, 4)                           // p_vaddr
      + Encode(entry, 4);                          // p_paddr
    assert r[4..8] == (Encode(1, 4) + Encode(0, 4))[4..8];
    r
  }

  /** p_filesz, p_memsz, p_flags and p_align. */
  function ProgramHeaderBack(fileSize: nat): (r: seq<Byte>)
    ensures |r| == 0x10 && r[4..8] == Encode(fileSize, 4)
  {
    var r := Encode(fileSize, 4)                  // p_filesz
      + Encode(fileSize, 4)                        // p_memsz
      + Encode(0x1 + 0x4, 4)                       // p_flags = PF_X | PF_R
      + Encode(0x1000, 4);                         // p_align
    assert r[4..8] == (Encode(fileSize, 4) + Encode(fileSize, 4))[4..8];
    r
  }


  /**
   * The header for `codeSize` bytes of code, field by field in file order.
   * Every field is little-endian; bytes getHeader never writes are zero.
   */
  function Header(codeSize: nat): (h: seq<Byte>)
    requires HeaderSize + codeSize <= U32.max
    ensures |h| == HeaderSize
    ensures h[..4] == [0x7f, 0x45, 0x4c, 0x46]
  {
    var h := FileHeader(Entry + HeaderSize) + Zeros(PhOff - 0x34) + ProgramHeader(Entry, HeaderSize + codeSize);
    assert h[..4] == FileHeader(Entry + HeaderSize)[..|Ident|][..4];
    h
  }

  /**
   * The fields a loader reads: e_entry (offset 0x18) points just past the
   * header in the loaded image, the segment starts at file offset 0
   * (p_offset, 0x44), and p_filesz (0x54) is the whole file: header plus code.
   */
  lemma HeaderFields(codeSize: nat)
    requires HeaderSize + codeSize <= U32.max
    ensures Decode(Header(codeSize)[0x18..0x1c]) == Entry + HeaderSize
    ensures Decode(Header(codeSize)[0x44..0x48]) == 0
    ensures Decode(Header(codeSize)[0x54..0x58]) == HeaderSize + codeSize
  {
    var f := FileHeader(Entry + HeaderSize);
    var front := f + Zeros(PhOff - 0x34);
    var ph := ProgramHeader(Entry, HeaderSize + codeSize);
    assert Header(codeSize) == front + ph;
    PrefixSlice(f, Zeros(PhOff - 0x34), 0x18, 0x1c);
    PrefixSlice(front, ph, 0x18, 0x1c);
    SuffixSlice(front, ph, 4, 8);
    SuffixSlice(front, ph, 0x14, 0x18);
    Pow2Values();
    DecodeEncode(Entry + HeaderSize, 4);
    DecodeEncode(0, 4);
    DecodeEncode(HeaderSize + codeSize, 4);
  }

  /**
   * The image toBuffer returns: the 0x60-byte header, whose p_filesz is the
   * image's own length, then every pushed byte in push order.
   */
  lemma ImageLayout(bufs: seq<seq<Byte>>)
    requires HeaderSize + TotalLength(bufs) <= U32.max
    ensures var v := Header(TotalLength(bufs)) + Concat(bufs);
      |v| == HeaderSize + TotalLength(bufs) && v[..4] == [0x7f, 0x45, 0x4c, 0x46] &&
      v[HeaderSize..] == Concat(bufs) && Decode(v[0x54..0x58]) == |v|
  {
    var h := Header(TotalLength(bufs));
    var v := h + Concat(bufs);
    HeaderFields(TotalLength(bufs));
    PrefixSlice(h, Concat(bufs), 0, 4);
    PrefixSlice(h, Concat(bufs), 0x54, 0x58);
    assert v[HeaderSize..] == Concat(bufs);
  }

  /** Writing the next field right after an already laid-out prefix extends the prefix. */
  lemma AppendWrite(p: seq<Byte>, bs: seq<Byte>, len: nat)
    requires |p| + |bs| <= len
    ensures Write(p + Zeros(len - |p|), |p|, bs) == p + bs + Zeros(len - |p| - |bs|)
  {
    var lhs := Write(p + Zeros(len - |p|), |p|, bs);
    var rhs := p + bs + Zeros(len - |p| - |bs|);
    forall i | 0 <= i < len ensures lhs[i] == rhs[i] {
      if |p| <= i < |p| + |bs| {
        assert lhs[i] == lhs[|p|..|p| + |bs|][i - |p|];
      }
    }
  }

  lemma AppendAssoc(a: seq<Byte>, b: seq<Byte>, c: seq<Byte>)
    ensures a + b + c == a + (b + c)
  {
  }

  /** Skipping zero bytes with `move` keeps the layout: the skipped bytes are part of it. */
  lemma SkipZeros(p: seq<Byte>, n: nat, len: nat)
    requires |p| + n <= len
    ensures p + Zeros(len - |p|) == p + Zeros(n) + Zeros(len - |p| - n)
  {
  }

  /** The cursor stands right after the laid-out prefix `p`; the rest of the buffer is still zero. */
  ghost predicate Laid(buffer: array<Byte>, cursor: Cursor, p: seq<Byte>)
    reads buffer, cursor
  {
    cursor.buf == buffer && cursor.off == |p| && |p| <= buffer.Length &&
    buffer[..] == p + Zeros(buffer.Length - |p|)
  }

  /** One `u8` call on a laid-out buffer appends the byte to the layout. */
  method LayU8(buffer: array<Byte>, cursor: Cursor, ghost p: seq<Byte>, v: int) returns (c: Cursor)
    requires Laid(buffer, cursor, p) && Is(Types.U8, v) && |p| + 1 <= buffer.Length
    modifies buffer, cursor
    ensures c == cursor && Laid(buffer, c, p + Encode(v, 1))
  {
    c := cursor.U8(v);
    AppendWrite(p, Encode(v, 1), buffer.Length);
  }

  /** One `u16` call on a laid-out buffer appends the two little-endian bytes to the layout. */
  method LayU16(buffer: array<Byte>, cursor: Cursor, ghost p: seq<Byte>, v: int) returns (c: Cursor)
    requires Laid(buffer, cursor, p) && Is(Types.U16, v) && |p| + 2 <= buffer.Length
    modifies buffer, cursor
    ensures c == cursor && Laid(buffer, c, p + Encode(v, 2))
  {
    c := cursor.U16(v);
    AppendWrite(p, Encode(v, 2), buffer.Length);
  }

  /** One `u32` call on a laid-out buffer appends the four little-endian bytes to the layout. */
  method LayU32(buffer: array<Byte>, cursor: Cursor, ghost p: seq<Byte>, v: int) returns (c: Cursor)
    requires Laid(buffer, cursor, p) && Is(Types.U32, v) && |p| + 4 <= buffer.Length
    modifies buffer, cursor
    ensures c == cursor && Laid(buffer, c, p + Encode(v, 4))
  {
    c := cursor.U32(v);
    AppendWrite(p, Encode(v, 4), buffer.Length);
  }

  /** A `move` forward over still-zero bytes makes them part of the layout. */
  method Skip(buffer: array<Byte>, cursor: Cursor, ghost p: seq<Byte>, to: nat) returns (c: Cursor)
    requires Laid(buffer, cursor, p) && |p| <= to <= buffer.Length
    modifies cursor
    ensures c == cursor && Laid(buffer, c, p + Zeros(to - |p|))
  {
    c := cursor.Move(to);
    SkipZeros(p, to - |p|, buffer.Length);
  }

  /** The `// ident` lines of getHeader: ELFMAG, class, data encoding and version bytes. */
  method WriteIdent(buffer: array<Byte>, cursor: Cursor) returns (c: Cursor)
    requires buffer.Length == HeaderSize && Laid(buffer, cursor, [])
    modifies buffer, cursor
    ensures c == cursor && Laid(buffer, c, Ident)
  {
    ghost var p: seq<Byte> := [];
    c := LayU8(buffer, cursor, p, 0x7f);
    p := p + Encode(0x7f, 1);
    c := LayU8(buffer, c, p, 'E' as int);
    p := p + Encode('E' as int, 1);
    c := LayU8(buffer, c, p, 'L' as int);
    p := p + Encode('L' as int, 1);
    c := LayU8(buffer, c, p, 'F' as int);
    p := p + Encode('F' as int, 1);
    c := LayU8(buffer, c, p, 0x1);  // 32-bit
    p := p + Encode(0x1, 1);
    c := LayU8(buffer, c, p, 0x1);  // little-endian
    p := p + Encode(0x1, 1);
    c := LayU8(buffer, c, p, 0x1);  // version 1
    p := p + Encode(0x1, 1);
    assert p == Ident;
  }

  /** The ELF header fields from offset 0x10 up to e_shstrndx; `entry` is e_entry. */
  method WriteFileHeader(buffer: array<Byte>, cursor: Cursor, entry: int) returns (c: Cursor)
    requires buffer.Length == HeaderSize && Laid(buffer, cursor, Ident) && Is(Types.U32, entry)
    modifies buffer, cursor
    ensures c == cursor && Laid(buffer, c, FileHeader(entry))
  {
    c := Skip(buffer, cursor, Ident, 0x10);
    ghost var q := Zeros(0x10 - |Ident|);
    c := LayU16(buffer, c, Ident + q, 0x2);  // e_type
    AppendAssoc(Ident, q, Encode(2, 2));
    q := q + Encode(2, 2);
    c := LayU16(buffer, c, Ident + q, 0x3);  // e_machine
    AppendAssoc(Ident, q, Encode(3, 2));
    q := q + Encode(3, 2);
    c := LayU32(buffer, c, Ident + q, 1);  // e_version
    AppendAssoc(Ident, q, Encode(1, 4));
    q := q + Encode(1, 4);
    assert q == FileHeaderFront();
    c := LayU32(buffer, c, Ident + q, entry);  // e_entry
    ghost var base := Ident + q + Encode(entry, 4);
    c := LayU32(buffer, c, base, PhOff);  // e_phoff
    q := Encode(PhOff, 4);
    c := LayU32(buffer, c, base + q, 0);  // e_shoff
    AppendAssoc(base, q, Encode(0, 4));
    q := q + Encode(0, 4);
    c := LayU32(buffer, c, base + q, 0);  // e_flags
    AppendAssoc(base, q, Encode(0, 4));
    q := q + Encode(0, 4);
    c := LayU16(buffer, c, base + q, 52);  // e_ehsize
    AppendAssoc(base, q, Encode(52, 2));
    q := q + Encode(52, 2);
    c := LayU16(buffer, c, base + q, PhEntSize);  // e_phentsize
    AppendAssoc(base, q, Encode(PhEntSize, 2));
    q := q + Encode(PhEntSize, 2);
    c := LayU16(buffer, c, base + q, PhNum);  // e_phnum
    AppendAssoc(base, q, Encode(PhNum, 2));
    q := q + Encode(PhNum, 2);
    c := LayU16(buffer, c, base + q, 40);  // e_shentsize
    AppendAssoc(base, q, Encode(40, 2));
    q := q + Encode(40, 2);
    c := LayU16(buffer, c, base + q, 0);  // e_shnum
    AppendAssoc(base, q, Encode(0, 2));
    q := q + Encode(0, 2);
    c := LayU16(buffer, c, base + q, 0);  // e_shstrndx
    AppendAssoc(base, q, Encode(0, 2));
    q := q + Encode(0, 2);
    assert q == FileHeaderBack();
  }

  /** The single PT_LOAD program header at e_phoff, mapping `fileSize` bytes at `entry`. */
  method WriteProgramHeader(buffer: array<Byte>, cursor: Cursor, ghost p: seq<Byte>, entry: int, fileSize: int)
    returns (c: Cursor)
    requires buffer.Length == HeaderSize && |p| == 0x34 && Laid(buffer, cursor, p)
    requires Is(Types.U32, entry) && Is(Types.U32, fileSize)
    modifies buffer, cursor
    ensures c == cursor && Laid(buffer, c, p + Zeros(PhOff - 0x34) + ProgramHeader(entry, fileSize))
  {
    c := Skip(buffer, cursor, p, PhOff);
    ghost var base := p + Zeros(PhOff - 0x34);
    c := LayU32(buffer, c, base, 1);  // p_type
    ghost var q := Encode(1, 4);
    c := LayU32(buffer, c, base + q, 0);  // p_offset
    AppendAssoc(base, q, Encode(0, 4));
    q := q + Encode(0, 4);
    c := LayU32(buffer, c, base + q, entry);  // p_vaddr
    AppendAssoc(base, q, Encode(entry, 4));
    q := q + Encode(entry, 4);
    c := LayU32(buffer, c, base + q, entry);  // p_paddr
    AppendAssoc(base, q, Encode(entry, 4));
    q := q + Encode(entry, 4);
    assert q == ProgramHeaderFront(entry);
    ghost var middle := base + q;
    c := LayU32(buffer, c, middle, fileSize);  // p_filesz
    q := Encode(fileSize, 4);
    c := LayU32(buffer, c, middle + q, fileSize);  // p_memsz
    AppendAssoc(middle, q, Encode(fileSize, 4));
    q := q + Encode(fileSize, 4);
    c := LayU32(buffer, c, middle + q, 0x1 + 0x4);  // p_flags
    AppendAssoc(middle, q, Encode(0x1 + 0x4, 4));
    q := q + Encode(0x1 + 0x4, 4);
    c := LayU32(buffer, c, middle + q, 0x1000);  // p_align
    AppendAssoc(middle, q, Encode(0x1000, 4));
    q := q + Encode(0x1000, 4);
    assert q == ProgramHeaderBack(fileSize);
    AppendAssoc(base, ProgramHeaderFront(entry), ProgramHeaderBack(fileSize));
  }

  class ElfFile {
    var buffers: seq<seq<Byte>>

    /** `new Elf(arch)`: no code yet; the architecture argument is not used by the writer. */
    constructor ()
      ensures buffers == []
    {
      buffers := [];
    }

    method Push(buffer: seq<Byte>)
      modifies this
      ensures buffers == old(buffers) + [buffer]
    {
      buffers := buffers + [buffer];
    }

    /** The header followed by the pushed buffers in push order. */
    method ToBuffer() returns (r: Result<seq<Byte>, ElfError>)
      ensures HeaderSize + TotalLength(buffers) <= U32.max ==>
        r == Success(Header(TotalLength(buffers)) + Concat(buffers))
      ensures HeaderSize + TotalLength(buffers) > U32.max ==>
        r == Failure(FileTooLarge(HeaderSize + TotalLength(buffers)))
    {
      var size := 0;
      var i := 0;
      while i < |buffers|
        invariant 0 <= i <= |buffers|
        invariant size == TotalLength(buffers[..i])
      {
        assert buffers[..i + 1][..i] == buffers[..i];
        size := size + |buffers[i]|;
        i := i + 1;
      }
      assert buffers[..|buffers|] == buffers;
      var header := GetHeader(size);
      match header {
        case Failure(e) =>
          return Failure(e);
        case Success(h) =>
          return Success(h + Concat(buffers));
      }
    }

    /** Lays the header out in a zeroed 0x60-byte buffer through a cursor. */
    method GetHeader(codeSize: nat) returns (r: Result<seq<Byte>, ElfError>)
      ensures HeaderSize + codeSize <= U32.max ==> r == Success(Header(codeSize))
      ensures HeaderSize + codeSize > U32.max ==> r == Failure(FileTooLarge(HeaderSize + codeSize))
    {
      var entry := Entry;
      var size := PhOff + PhNum * PhEntSize;
      if size + codeSize > U32.max {
        // the p_filesz write throws before anything is returned
        return Failure(FileTooLarge(size + codeSize));
      }
      var buffer := new Byte[size](_ => 0);
      var cursor := new Cursor(buffer);
      assert buffer[..] == [] + Zeros(size);
      cursor := WriteIdent(buffer, cursor);
      cursor := WriteFileHeader(buffer, cursor, entry + size);
      cursor := WriteProgramHeader(buffer, cursor, FileHeader(entry + size), entry, size + codeSize);
      var h := buffer[..];
      assert h == Header(codeSize);
      return Success(h);
    }

  }
}

=== FILE: empty_statement.dfy ===
/**
 * src/tokens/EmptyStatement.js: the statement `;`.
 */
module EmptyStatements {
  import opened Wrappers
  import opened Lexing
  import opened Tokens

  datatype EmptyStatement = EmptyStatement(span: Span)

  /**
   * `tokenize`: consumes `;` and covers exactly that character; without a
   * `;` nothing is consumed and there is no statement.
   */
  method Tokenize(lexer: Lexer) returns (r: Option<EmptyStatement>)
    requires lexer.Valid()
    modifies lexer
    ensures lexer.Valid()
    ensures r.Some? <==> ";" <= old(lexer.content)
    ensures r.None? ==> lexer.position == old(lexer.position)
    ensures r.Some? ==> (
      lexer.position == old(lexer.position) + 1 &&
      r.value.span == Span(old(lexer.position), lexer.position) &&
      lexer.backup[old(lexer.position)] == ';')
  {
    var token := new Token(lexer);
    var ok := lexer.Eat(";");
    if !ok {
      return None;
    }
    assert lexer.backup[token.start] == lexer.backup[token.start..][0];
    var finalized := token.Finalize();
    return Some(EmptyStatement(Span(finalized.start, finalized.end)));
  }

  /** `stringify`: the single line `;`, whatever the statement's position. */
  function Stringify(statement: EmptyStatement): (lines: seq<string>)
    ensures lines == [";"]
  {
    [";"]
  }
}

=== FILE: lexer.dfy ===
/**
 * src/Lexer.js: the lexer keeps the not-yet-consumed suffix `content` of the
 * normalised source text `backup` and the absolute `position` of that suffix.
 * Parsers move it forward; `try` and `look` save and restore it.
 *
 * The lexer's consuming primitives live outside src/Lexer.js. The literal ones
 * (`eat`, `eatOneOf`, `eatTill`, `eatAll`, `eatRegex` for the regular
 * expressions the grammar spells out) are modelled by their evident meaning.
 * The recognisers whose rules are not given (`eatNum`, `eatDecNum`, the
 * `eatIdentifier` variants, the spacing that `eatSpecialCharacter` allows and
 * `eatEnd`) are abstract `Matcher`s collected in `Syntax`.
 */
module Lexing {
  import opened Wrappers
  import opened LittleEndian

  /** `LexerValidationError`: the first byte above 0x7f and where it is. */
  datatype ValidationError = NonAscii(byte: Byte, index: nat)

  /**
   * Parse errors. `InvalidToken` stands for `InvalidTokenError`, `Token.throw`
   * and `lexer.error`, all raised at the current position (the `{expected: '}'}`
   * argument of a regular block's error names nothing in its message);
   * `Expected` for `lexer.expect`; `Untyped` for a bare `throw new Error`.
   */
  datatype SyntaxError = InvalidToken(position: nat) | Expected(position: nat, expected: string) | Untyped

  /** The three outcomes of a tokenizer: absent (lexer restored), a token, or a thrown error. */
  datatype Parsed<+T> = NoMatch | Match(value: T) | Fail(error: SyntaxError)

  /** No literal of the list starts the text. */
  predicate NoneListed(literals: seq<string>, s: string) {
    forall k :: 0 <= k < |literals| ==> !(literals[k] <= s)
  }

  /** `x` is the first literal of the list, in the list's order, that starts the text. */
  predicate FirstListed(literals: seq<string>, s: string, x: string) {
    x <= s && exists k :: 0 <= k < |literals| && literals[k] == x && NoneListed(literals[..k], s)
  }

  /** The first literal of the list, in the list's order, that starts the text, if there is one. */
  function FirstOf(literals: seq<string>, s: string): Option<string>
  {
    if literals == [] then None
    else if literals[0] <= s then Some(literals[0])
    else FirstOf(literals[1..], s)
  }

  /** `FirstOf` finds nothing exactly when no literal starts the text, and otherwise the first that does. */
  lemma {:induction false} FirstOfMeaning(literals: seq<string>, s: string)
    ensures FirstOf(literals, s).None? <==> NoneListed(literals, s)
    ensures FirstOf(literals, s).Some? ==> FirstListed(literals, s, FirstOf(literals, s).value)
  {
    if literals == [] {
    } else if literals[0] <= s {
      assert literals[..0] == [];
    } else {
      FirstOfMeaning(literals[1..], s);
      var r := FirstOf(literals[1..], s);
      if r.Some? {
        var k :| 0 <= k < |literals[1..]| && literals[1..][k] == r.value && NoneListed(literals[1..][..k], s);
        assert literals[..k + 1] == [literals[0]] + literals[1..][..k];
        assert literals[k + 1] == r.value;
      } else {
        assert forall k :: 1 <= k < |literals| ==> literals[k] == literals[1..][k - 1];
      }
    }
  }

  /** The literal `eatOneOf` picks is the one `FirstOf` names. */
  lemma FirstOfListed(literals: seq<string>, s: string, x: string)
    requires FirstListed(literals, s, x)
    ensures FirstOf(literals, s) == Some(x)
  {
    FirstOfMeaning(literals, s);
    var k :| 0 <= k < |literals| && literals[k] == x && NoneListed(literals[..k], s);
  }

  /** `validate`: scans the bytes in order and stops at the first one above 0x7f. */
  method Validate(buffer: seq<Byte>) returns (r: Result<(), ValidationError>)
    ensures r.Success? <==> forall i :: 0 <= i < |buffer| ==> buffer[i] <= 0x7f
    ensures r.Failure? ==>
      r.error.index < |buffer| && r.error.byte == buffer[r.error.index] && r.error.byte > 0x7f &&
      forall j :: 0 <= j < r.error.index ==> buffer[j] <= 0x7f
  {
    for i := 0 to |buffer|
      invariant forall j :: 0 <= j < i ==> buffer[j] <= 0x7f
    {
      var byte := buffer[i];
      if byte > 0x7f {
        return Failure(NonAscii(byte, i));
      }
    }
    return Success(());
  }

  /** `buffer.toString()` on ASCII bytes: one character per byte. */
  function AsciiText(buffer: seq<Byte>): (s: string)
    ensures |s| == |buffer|
    ensures forall i :: 0 <= i < |buffer| ==> s[i] as int == buffer[i]
  {
    seq(|buffer|, i requires 0 <= i < |buffer| => buffer[i] as char)
  }

  /** `content.split('\r')`: the pieces between carriage returns; there is always one more piece than CRs. */
  function SplitCr(s: string): (parts: seq<string>)
    ensures |parts| >= 1
    ensures s != [] && s[0] != '\r' ==> parts[0] != [] && parts[0][0] == s[0]
    ensures s == [] || s[0] == '\r' ==> parts[0] == []
  {
    if s == [] then [[]]
    else if s[0] == '\r' then [[]] + SplitCr(s[1..])
    else
      var rest := SplitCr(s[1..]);
      [[s[0]] + rest[0]] + rest[1..]
  }

  /** `parts.join('\r')`, the inverse of `SplitCr`. */
  function JoinCr(parts: seq<string>): string
    requires |parts| >= 1
  {
    if |parts| == 1 then parts[0] else parts[0] + "\r" + JoinCr(parts[1..])
  }

  /** Splitting at CRs loses nothing and leaves no CR inside a piece. */
  lemma {:induction false} SplitCrJoins(s: string)
    ensures JoinCr(SplitCr(s)) == s
    ensures forall k :: 0 <= k < |SplitCr(s)| ==> '\r' !in SplitCr(s)[k]
  {
    if s != [] {
      SplitCrJoins(s[1..]);
      var rest := SplitCr(s[1..]);
      if s[0] == '\r' {
        assert SplitCr(s)[1..] == rest;
      } else {
        assert SplitCr(s)[1..] == rest[1..];
        if |rest| == 1 {
          assert JoinCr(SplitCr(s)) == [s[0]] + rest[0];
        } else {
          assert JoinCr(SplitCr(s)) == [s[0]] + rest[0] + "\r" + JoinCr(rest[1..]);
        }
        assert s == [s[0]] + s[1..];
        forall k | 0 <= k < |SplitCr(s)| ensures '\r' !in SplitCr(s)[k] {
          if k > 0 {
            assert SplitCr(s)[k] == rest[k];
          }
        }
      }
    }
  }

  /** The `map` callback: a piece that followed a CR starts with a newline, added unless already there. */
  function FixTail(tail: string): string {
    if |tail| > 0 && tail[0] == '\n' then tail else "\n" + tail
  }

  /** `tails.map(FixTail).join('')`. */
  function JoinTails(tails: seq<string>): string {
    if tails == [] then [] else FixTail(tails[0]) + JoinTails(tails[1..])
  }

  /** `replaceCrLf`: the first piece, then every later piece with its CR turned into a newline. */
  function ReplaceCrLf(content: string): string {
    var parts := SplitCr(content);
    parts[0] + JoinTails(parts[1..])
  }

  /**
   * An independent character-by-character statement of newline normalisation:
   * CR LF becomes LF, a lone CR becomes LF, every other character stays.
   */
  function NormalizeNewlines(s: string): string {
    if s == [] then []
    else if s[0] == '\r' then
      if |s| > 1 && s[1] == '\n' then NormalizeNewlines(s[1..]) else "\n" + NormalizeNewlines(s[1..])
    else [s[0]] + NormalizeNewlines(s[1..])
  }

  /** The split/map/join implementation is exactly the character-level normalisation. */
  lemma {:induction false} ReplaceCrLfNormalizes(s: string)
    ensures ReplaceCrLf(s) == NormalizeNewlines(s)
  {
    if s != [] {
      ReplaceCrLfNormalizes(s[1..]);
      if s[0] == '\r' {
        ReplaceCrStep(s);
      } else {
        ReplaceCharStep(s);
      }
    }
  }

  /** A leading CR: its piece is empty, and the next piece gets a newline unless it has one. */
  lemma ReplaceCrStep(s: string)
    requires s != [] && s[0] == '\r'
    requires ReplaceCrLf(s[1..]) == NormalizeNewlines(s[1..])
    ensures ReplaceCrLf(s) == NormalizeNewlines(s)
  {
    var rest := SplitCr(s[1..]);
    var tail := JoinTails(rest[1..]);
    assert SplitCr(s)[1..] == rest;
    assert ReplaceCrLf(s) == FixTail(rest[0]) + tail;
    if |s| > 1 && s[1] == '\n' {
      assert FixTail(rest[0]) == rest[0];
    } else {
      assert FixTail(rest[0]) == "\n" + rest[0];
      ConcatAssociates("\n", rest[0], tail);
    }
  }

  lemma ConcatAssociates(a: string, b: string, c: string)
    ensures (a + b) + c == a + (b + c)
  {}

  /** Any other leading character joins the first piece unchanged. */
  lemma ReplaceCharStep(s: string)
    requires s != [] && s[0] != '\r'
    requires ReplaceCrLf(s[1..]) == NormalizeNewlines(s[1..])
    ensures ReplaceCrLf(s) == NormalizeNewlines(s)
  {
    var rest := SplitCr(s[1..]);
    var tail := JoinTails(rest[1..]);
    assert SplitCr(s)[0] == [s[0]] + rest[0];
    assert SplitCr(s)[1..] == rest[1..];
    ConcatAssociates([s[0]], rest[0], tail);
  }

  /** No carriage return survives normalisation. */
  lemma {:induction false} NormalizedHasNoCr(s: string)
    ensures '\r' !in NormalizeNewlines(s)
  {
    if s != [] {
      NormalizedHasNoCr(s[1..]);
    }
  }

  /** Text without carriage returns is left as it is. */
  lemma {:induction false} NormalizeWithoutCr(s: string)
    requires '\r' !in s
    ensures NormalizeNewlines(s) == s
  {
    if s != [] {
      assert s[0] in s;
      assert forall c :: c in s[1..] ==> c in s;
      NormalizeWithoutCr(s[1..]);
      assert s == [s[0]] + s[1..];
    }
  }

  /** `replaceCrLf` removes every CR, is the identity on CR-free text, and is therefore idempotent. */
  lemma ReplaceCrLfProperties(s: string)
    ensures '\r' !in ReplaceCrLf(s)
    ensures '\r' !in s ==> ReplaceCrLf(s) == s
    ensures ReplaceCrLf(ReplaceCrLf(s)) == ReplaceCrLf(s)
  {
    ReplaceCrLfNormalizes(s);
    NormalizedHasNoCr(s);
    if '\r' !in s {
      NormalizeWithoutCr(s);
    }
    ReplaceCrLfNormalizes(ReplaceCrLf(s));
    NormalizeWithoutCr(ReplaceCrLf(s));
  }

  /** Test mirror (tests/Lexer.test.js): mixed line endings become plain newlines. */
  lemma ReplaceCrLfExample()
    ensures ReplaceCrLf("1\n2\r\n3\r4") == "1\n2\n3\n4"
  {
    ReplaceCrLfNormalizes("1\n2\r\n3\r4");
    NormalizeSpelled('1', '\n', '2', '\r', '\n', '3', '\r', '4');
    SpelledInput();
    SpelledOutput();
  }

  lemma SpelledInput()
    ensures "1\n2\r\n3\r4" == ['1'] + (['\n'] + (['2'] + (['\r'] + (['\n'] + (['3'] + (['\r'] + ['4']))))))
  {}

  lemma SpelledOutput()
    ensures "1\n2\n3\n4" == ['1'] + (['\n'] + (['2'] + (['\n'] + (['3'] + (['\n'] + ['4'])))))
  {}

  /** The test's input, character by character. */
  lemma NormalizeSpelled(c0: char, c1: char, c2: char, c3: char, c4: char, c5: char, c6: char, c7: char)
    requires c0 == '1' && c1 == '\n' && c2 == '2' && c3 == '\r' && c4 == '\n' && c5 == '3' && c6 == '\r' && c7 == '4'
    ensures NormalizeNewlines([c0] + ([c1] + ([c2] + ([c3] + ([c4] + ([c5] + ([c6] + [c7])))))))
      == [c0] + ([c1] + ([c2] + ([c4] + ([c5] + (['\n'] + [c7])))))
  {
    var t6 := [c7];
    var t5 := [c6] + t6;
    var t4 := [c5] + t5;
    var t3 := [c4] + t4;
    var t2 := [c3] + t3;
    var t1 := [c2] + t2;
    var t0 := [c1] + t1;
    NormalizeCons(c7, []);
    assert t6 == [c7] + [];
    NormalizeCons(c6, t6);
    NormalizeCons(c5, t5);
    NormalizeCons(c4, t4);
    NormalizeCons(c3, t3);
    NormalizeCons(c2, t2);
    NormalizeCons(c1, t1);
    NormalizeCons(c0, t0);
  }

  /** One step of `NormalizeNewlines` on a character put in front of a text. */
  lemma NormalizeCons(c: char, rest: string)
    ensures NormalizeNewlines([c] + rest) == if c == '\r' then
      (if rest != [] && rest[0] == '\n' then NormalizeNewlines(rest) else "\n" + NormalizeNewlines(rest))
      else [c] + NormalizeNewlines(rest)
  {
    assert ([c] + rest)[1..] == rest;
  }

  /**
   * A prefix recogniser: the number of leading characters it accepts, 0 when
   * it does not match (every recogniser the grammar uses matches something
   * non-empty or nothing).
   */
  type Matcher = m: string -> nat | forall s :: m(s) <= |s| witness (s: string) => 0

  /** A recogniser that may match the empty string: how many characters it accepts, or no match. */
  type EndMatcher = f: string -> Option<nat> | forall s :: f(s).Some? ==> f(s).value <= |s|
    witness (s: string) => None

  /**
   * The recognisers the grammar uses whose rules are not part of this model:
   * `eatNum`, `eatDecNum`, `eatIdentifier()`, `eatIdentifier({upperCase,
   * underscore})`, `eatIdentifier({upperCase, multiple: '.'})`, the optional
   * spacing written as a blank in an `eatSpecialCharacter` pattern, the
   * statement terminator recognised by `eatEnd` (which may match the empty
   * string at a lookahead), and the operator list of `arch/operations.js`.
   */
  datatype Syntax = Syntax(
    number: Matcher,
    decNumber: Matcher,
    identifier: Matcher,
    labelName: Matcher,
    dottedName: Matcher,
    blank: Matcher,
    statementEnd: EndMatcher,
    operators: seq<string>)

  /** A saved lexer state, as returned by `getState`. */
  datatype State = State(content: string, position: nat)

  /** What a `try` callback does to the lexer: whether it succeeded and how far it moved. */
  type Attempt = f: string -> (bool, nat) | forall s :: f(s).1 <= |s| witness (s: string) => (false, 0)

  function Min(a: nat, b: nat): nat {
    if a <= b then a else b
  }

  class Lexer {
    var content: string
    var position: nat
    const backup: string
    const syntax: Syntax

    /** `content` is always the part of `backup` from `position` on. */
    ghost predicate Valid()
      reads this
    {
      position <= |backup| && content == backup[position..]
    }

    /** The constructor after validation: decoded, normalised text, position 0, `backup` a copy. */
    constructor (text: string, syntax: Syntax)
      ensures content == ReplaceCrLf(text) && position == 0 && backup == content
      ensures this.syntax == syntax
      ensures Valid()
    {
      content := ReplaceCrLf(text);
      position := 0;
      backup := ReplaceCrLf(text);
      this.syntax := syntax;
    }

    /** `getState`: a snapshot of `content` and `position`; from a valid lexer it is a valid checkpoint. */
    function GetState(): (s: State)
      reads this
      ensures Valid() ==> s.position <= |backup| && s.content == backup[s.position..]
      ensures s.content == content && s.position == position
    {
      State(content, position)
    }

    /** `revert` of a saved state: both fields come back, nothing else changes. */
    method Revert(s: State)
      modifies this
      ensures content == s.content && position == s.position
    {
      content := s.content;
      position := s.position;
    }

    /** `isEndOfFile`: nothing is left; for a valid lexer, the position is at the end of the text. */
    function IsEndOfFile(): (r: bool)
      reads this
      ensures r <==> |content| == 0
      ensures Valid() ==> (r <==> position == |backup|)
    {
      |content| == 0
    }

    /**
     * `move(n)`: drops n characters (all of them when fewer are left, as
     * `slice` does) and adds n to the position.
     */
    method Move(n: nat)
      modifies this
      ensures content == old(content)[Min(n, |old(content)|)..]
      ensures position == old(position) + n
      ensures old(Valid()) && n <= |old(content)| ==> Valid()
    {
      content := content[Min(n, |content|)..];
      position := position + n;
    }

    /** `try`: keeps what a successful attempt consumed and restores the state exactly otherwise. */
    method Try(attempt: Attempt) returns (ok: bool)
      requires Valid()
      modifies this
      ensures Valid()
      ensures ok == attempt(old(content)).0
      ensures ok ==> position == old(position) + attempt(old(content)).1
      ensures !ok ==> content == old(content) && position == old(position)
    {
      var state := GetState();
      var (success, consumed) := attempt(content);
      Move(consumed);
      if success {
        return true;
      }
      Revert(state);
      return false;
    }

    /** `look`: runs a peek for its result and always restores the state. */
    method Look<T>(peek: string -> (T, nat)) returns (r: T)
      modifies this
      ensures r == peek(old(content)).0
      ensures content == old(content) && position == old(position)
    {
      var state := GetState();
      var (result, consumed) := peek(content);
      Move(consumed);
      Revert(state);
      return result;
    }

    /** `eat(literal)`: consumes the literal exactly when the remaining text starts with it. */
    method Eat(literal: string) returns (ok: bool)
      requires Valid()
      modifies this
      ensures Valid()
      ensures ok <==> literal <= old(content)
      ensures position == old(position) + (if ok then |literal| else 0)
    {
      ok := literal <= content;
      if ok {
        Move(|literal|);
      }
    }

    /** `eatOneOf(...literals)`: the first literal, in the given order, that the text starts with. */
    method EatOneOf(literals: seq<string>) returns (r: Option<string>)
      requires Valid()
      modifies this
      ensures Valid()
      ensures r.None? ==> position == old(position) && NoneListed(literals, old(content))
      ensures r.Some? ==> FirstListed(literals, old(content), r.value)
      ensures r.Some? ==> r.value <= old(content) && position == old(position) + |r.value|
    {
      for k := 0 to |literals|
        invariant position == old(position) && content == old(content)
        invariant forall j :: 0 <= j < k ==> !(literals[j] <= content)
      {
        if literals[k] <= content {
          Move(|literals[k]|);
          return Some(literals[k]);
        }
      }
      return None;
    }

    /** `eatTill(delim)`: the text before the first occurrence of `delim`, which stays unconsumed. */
    method EatTill(delim: string) returns (r: Option<string>)
      requires Valid()
      modifies this
      ensures Valid()
      ensures r.None? ==> (position == old(position) &&
        forall j :: 0 <= j <= |old(content)| ==> !(delim <= old(content)[j..]))
      ensures r.Some? ==> (position == old(position) + |r.value| && r.value <= old(content) &&
        delim <= old(content)[|r.value|..] &&
        forall j :: 0 <= j < |r.value| ==> !(delim <= old(content)[j..]))
    {
      var i := 0;
      while i + |delim| <= |content|
        invariant 0 <= i <= |content| + 1 && content == old(content) && position == old(position)
        invariant forall j :: 0 <= j < i ==> !(delim <= content[j..])
      {
        if delim <= content[i..] {
          var before := content[..i];
          Move(i);
          return Some(before);
        }
        i := i + 1;
      }
      return None;
    }

    /** `eatAll`: the whole rest of the text. */
    method EatAll() returns (r: string)
      requires Valid()
      modifies this
      ensures Valid() && r == old(content) && content == [] && position == |backup|
    {
      r := content;
      Move(|content|);
    }

    /** `eatRegex` and the abstract `eat*` recognisers: the matched prefix, or nothing. */
    method EatMatch(m: Matcher) returns (r: Option<string>)
      requires Valid()
      modifies this
      ensures Valid()
      ensures r.None? <==> m(old(content)) == 0
      ensures r.None? ==> position == old(position)
      ensures r.Some? ==> r.value == old(content)[..m(old(content))] && position == old(position) + |r.value|
    {
      var n := m(content);
      if n == 0 {
        return None;
      }
      r := Some(content[..n]);
      Move(n);
    }
  }

  /** Validates the bytes, then builds the lexer over their normalised text (`new Lexer(buffer)`). */
  method Open(buffer: seq<Byte>, syntax: Syntax) returns (r: Result<Lexer, ValidationError>)
    ensures r.Failure? <==> exists i :: 0 <= i < |buffer| && buffer[i] > 0x7f
    ensures r.Failure? ==>
      r.error.index < |buffer| && r.error.byte == buffer[r.error.index] && r.error.byte > 0x7f &&
      forall j :: 0 <= j < r.error.index ==> buffer[j] <= 0x7f
    ensures r.Success? ==> (fresh(r.value) && r.value.Valid() && r.value.position == 0 &&
      r.value.content == ReplaceCrLf(AsciiText(buffer)) && r.value.syntax == syntax)
  {
    var checked := Validate(buffer);
    if checked.Failure? {
      return Failure(checked.error);
    }
    var lexer := new Lexer(AsciiText(buffer), syntax);
    return Success(lexer);
  }
}

=== FILE: lexer_rules.dfy ===
/**
 * The composite lexer rules the grammar calls: skipping whitespace and
 * comments (`wcc`, `whitespaceCommentCollection`), punctuation with optional
 * spacing (`eatSpecialCharacter`), the statement terminator (`eatEnd`), a
 * required literal (`expect`) and the indentation of rendered lines
 * (`Lexer.indent`). The skipping rule is built from the whitespace and comment
 * tokenizers; the others rest on the abstract recognisers of `Syntax`.
 */
module LexerRules {
  import opened Wrappers
  import opened Lexing
  import opened WhitespaceComments
  import opened WhitespaceCommentCollections
  import Whitespace
  import Comment

  /** No whitespace and no complete comment starts at the front of the text. */
  predicate AtToken(s: string) {
    (s == [] || !Whitespace.IsBlank(s[0])) &&
    !("//" <= s) &&
    (!("/*" <= s) || forall j :: 2 <= j <= |s| ==> !("*/" <= s[j..]))
  }

  /** The text of one whitespace or comment token. */
  predicate IsPiece(t: string) {
    Whitespace.IsBlankText(t) || Comment.IsCommentText(t)
  }

  /** How much text one step of `wcc` consumes: a blank run, else a comment; 0 at a token. */
  function PieceLength(s: string): (n: nat)
    ensures n <= |s|
  {
    if s != [] && Whitespace.IsBlank(s[0]) then Whitespace.BlankRun(s) else Comment.CommentLength(s)
  }

  /**
   * Where `wcc` stops when it starts at position `i` of the text, read one
   * character at a time: blanks are passed over, two slashes open a comment
   * that runs to the newline, slash-star opens one that runs to the first
   * star-slash; an unclosed slash-star, or anything else, is where it stops.
   * `SkipEndPieces` shows this is where one piece after another ends.
   */
  function SkipEnd(text: string, i: nat): (e: nat)
    requires i <= |text|
    ensures i <= e <= |text|
    decreases |text| - i, 0
  {
    if i < |text| && Whitespace.IsBlank(text[i]) then SkipEnd(text, i + 1)
    else if i + 1 < |text| && text[i] == '/' && text[i + 1] == '/' then LineCommentEnd(text, i + 2)
    else if i + 1 < |text| && text[i] == '/' && text[i + 1] == '*' then BlockCommentEnd(text, i, i + 2)
    else i
  }

  /** Inside a two-slash comment at `j`: `wcc` goes on from the newline, or the end, that closes it. */
  function LineCommentEnd(text: string, j: nat): (e: nat)
    requires j <= |text|
    ensures j <= e <= |text|
    decreases |text| - j, 1
  {
    if j == |text| || text[j] == '\n' then SkipEnd(text, j) else LineCommentEnd(text, j + 1)
  }

  /**
   * Inside a slash-star comment opened at `open`, at `j`: `wcc` goes on after
   * the first star-slash, or stops at `open` when none follows.
   */
  function BlockCommentEnd(text: string, open: nat, j: nat): (e: nat)
    requires open <= j <= |text|
    ensures open <= e <= |text|
    decreases |text| - j, 1
  {
    if j + 2 > |text| then open
    else if text[j] == '*' && text[j + 1] == '/' then SkipEnd(text, j + 2)
    else BlockCommentEnd(text, open, j + 1)
  }

  /**
   * The character-by-character reading agrees with `wcc`'s own: where no
   * piece starts it stops at once, and after a piece it goes on as from the
   * piece's end.
   */
  lemma SkipEndPieces(text: string, i: nat)
    requires i <= |text|
    ensures PieceLength(text[i..]) == 0 ==> SkipEnd(text, i) == i
    ensures PieceLength(text[i..]) > 0 ==> SkipEnd(text, i) == SkipEnd(text, i + PieceLength(text[i..]))
  {
    var s := text[i..];
    if s != [] && Whitespace.IsBlank(s[0]) {
      BlankSkip(text, i);
    } else if "//" <= s {
      assert text[i] == s[0] && text[i + 1] == s[1];
      LineSkip(text, i + 2);
      assert s[2..] == text[i + 2..];
    } else if "/*" <= s {
      assert text[i] == s[0] && text[i + 1] == s[1];
      BlockSkip(text, i, i + 2);
    }
  }

  /** A blank run is passed over as a whole. */
  lemma {:induction false} BlankSkip(text: string, i: nat)
    requires i <= |text|
    ensures SkipEnd(text, i) == SkipEnd(text, i + Whitespace.BlankRun(text[i..]))
    decreases |text| - i
  {
    if i < |text| && Whitespace.IsBlank(text[i]) {
      assert text[i..][1..] == text[i + 1..];
      BlankSkip(text, i + 1);
    }
  }

  /** A two-slash comment is passed over up to its newline, or the end. */
  lemma {:induction false} LineSkip(text: string, j: nat)
    requires j <= |text|
    ensures LineCommentEnd(text, j) == SkipEnd(text, j + Comment.LineLength(text[j..]))
    decreases |text| - j
  {
    if j < |text| && text[j] != '\n' {
      assert text[j..][1..] == text[j + 1..];
      LineSkip(text, j + 1);
    }
  }

  /** A slash-star comment is passed over up to its star-slash, and not at all without one. */
  lemma {:induction false} BlockSkip(text: string, open: nat, j: nat)
    requires open + 2 <= j <= |text|
    ensures var close := Comment.CloseFrom(text[open..], j - open);
      BlockCommentEnd(text, open, j) == if close.Some? then SkipEnd(text, open + close.value + 2) else open
    decreases |text| - j
  {
    var s := text[open..];
    if j + 2 <= |text| {
      assert s[j - open..][..2] == text[j..j + 2];
      if !(text[j] == '*' && text[j + 1] == '/') {
        BlockSkip(text, open, j + 1);
      }
    }
  }

  /**
   * Text made of whitespace and comment tokens only, read from its end: empty,
   * or skipped text followed by one more piece.
   */
  ghost predicate Skipped(t: string)
    decreases |t|, 1
  {
    t == [] || exists k :: SkippedThen(t, k)
  }

  /** `t[..k]` is skipped text and `t[k..]` is one more piece. */
  ghost predicate SkippedThen(t: string, k: int)
    decreases |t|, 0
  {
    0 <= k < |t| && Skipped(t[..k]) && IsPiece(t[k..])
  }

  /** One more whitespace or comment token keeps the text skipped. */
  lemma SkippedAppend(a: string, p: string)
    requires Skipped(a) && IsPiece(p)
    ensures Skipped(a + p)
  {
    assert |p| > 0;
    assert (a + p)[..|a|] == a && (a + p)[|a|..] == p;
    assert SkippedThen(a + p, |a|);
  }

  /** Non-empty skipped text opens with a blank or a slash, never with a token's first character. */
  lemma {:induction false} SkippedStart(t: string)
    requires Skipped(t) && t != []
    ensures Whitespace.IsBlank(t[0]) || t[0] == '/'
    decreases |t|
  {
    var k :| SkippedThen(t, k);
    if k == 0 {
      assert t[k..] == t;
    } else {
      SkippedStart(t[..k]);
    }
  }

  /**
   * `wcc` / `whitespaceCommentCollection`: consumes whitespace and comments
   * until neither starts, collecting their tokens. The collection is empty
   * exactly when nothing was consumed, and reports a newline exactly when the
   * consumed text holds one.
   */
  method Wcc(lexer: Lexer) returns (wcc: WhitespaceCommentCollection)
    requires lexer.Valid()
    modifies lexer
    ensures lexer.Valid() && fresh(wcc)
    ensures old(lexer.position) <= lexer.position
    ensures wcc.IsEmpty() <==> lexer.position == old(lexer.position)
    ensures wcc.GotNewline() <==> '\n' in lexer.backup[old(lexer.position)..lexer.position]
    ensures AtToken(lexer.content)
    ensures AtToken(old(lexer.content)) ==> lexer.position == old(lexer.position)
    ensures Skipped(lexer.backup[old(lexer.position)..lexer.position])
    ensures lexer.position == SkipEnd(lexer.backup, old(lexer.position))
  {
    wcc := new WhitespaceCommentCollection();
    ghost var start, text := lexer.position, lexer.content;
    var done := false;
    while !done
      invariant lexer.Valid() && start <= lexer.position && text == lexer.backup[start..]
      invariant Collected(lexer, wcc, start)
      invariant AtToken(text) ==> lexer.position == start
      invariant SkipEnd(lexer.backup, start) == SkipEnd(lexer.backup, lexer.position)
      invariant done ==> AtToken(lexer.content) && SkipEnd(lexer.backup, lexer.position) == lexer.position
      decreases |lexer.backup| - lexer.position, !done
    {
      done := SkipPiece(lexer, wcc, start);
    }
  }

  /** `wcc` where only where it stops matters, not the tokens it collects. */
  method SkipWcc(lexer: Lexer)
    requires lexer.Valid()
    modifies lexer
    ensures lexer.Valid()
    ensures lexer.position == SkipEnd(lexer.backup, old(lexer.position))
  {
    var skipped := Wcc(lexer);
  }

  /** What `wcc` has skipped since `start`: the collection holds its pieces. */
  ghost predicate Collected(lexer: Lexer, wcc: WhitespaceCommentCollection, start: nat)
    reads lexer, wcc, wcc.collection
  {
    start <= lexer.position <= |lexer.backup| &&
    Skipped(lexer.backup[start..lexer.position]) &&
    (wcc.IsEmpty() <==> lexer.position == start) &&
    (wcc.GotNewline() <==> '\n' in lexer.backup[start..lexer.position])
  }

  /** One round of `wcc`'s loop: the next piece, pushed onto the collection, or `done` at a token. */
  method SkipPiece(lexer: Lexer, wcc: WhitespaceCommentCollection, ghost start: nat) returns (done: bool)
    requires lexer.Valid() && Collected(lexer, wcc, start)
    modifies lexer, wcc
    ensures lexer.Valid() && Collected(lexer, wcc, start)
    ensures done ==> (lexer.position == old(lexer.position) && AtToken(lexer.content) &&
      SkipEnd(lexer.backup, lexer.position) == lexer.position)
    ensures !done ==> (old(lexer.position) < lexer.position && !AtToken(old(lexer.content)) &&
      SkipEnd(lexer.backup, old(lexer.position)) == SkipEnd(lexer.backup, lexer.position))
  {
    ghost var before := lexer.position;
    var token := NextPiece(lexer);
    if token == null {
      return true;
    }
    assert lexer.backup[start..lexer.position] ==
      lexer.backup[start..before] + lexer.backup[before..lexer.position];
    SkippedAppend(lexer.backup[start..before], lexer.backup[before..lexer.position]);
    wcc.Push(token);
    return false;
  }

  /**
   * One step of `wcc`: a whitespace token, else a comment token, else null
   * with nothing consumed and the lexer at a token.
   */
  method NextPiece(lexer: Lexer) returns (token: WhitespaceComment?)
    requires lexer.Valid()
    modifies lexer
    ensures lexer.Valid()
    ensures token == null ==> lexer.position == old(lexer.position) && AtToken(lexer.content)
    ensures token != null ==> (old(lexer.position) < lexer.position && !AtToken(old(lexer.content)) &&
      IsPiece(lexer.backup[old(lexer.position)..lexer.position]) &&
      (token.gotNewline <==> '\n' in lexer.backup[old(lexer.position)..lexer.position]))
    ensures token == null <==> PieceLength(old(lexer.content)) == 0
    ensures lexer.position == old(lexer.position) + PieceLength(old(lexer.content))
    ensures token == null ==> SkipEnd(lexer.backup, lexer.position) == lexer.position
    ensures token != null ==> SkipEnd(lexer.backup, old(lexer.position)) == SkipEnd(lexer.backup, lexer.position)
  {
    ghost var before, text := lexer.position, lexer.content;
    SkipEndPieces(lexer.backup, before);
    token := Whitespace.Tokenize(lexer);
    if token != null {
      return;
    }
    token := Comment.Tokenize(lexer);
    if token == null {
      return;
    }
    assert !AtToken(lexer.backup[before..]) by {
      if !token.isSingleline {
        assert "*/" <= lexer.backup[before..][2 + |token.content|..];
      }
    }
    CommentNewline(lexer.backup[before..lexer.position], token.content, token.isSingleline);
  }

  /** A comment holds a newline exactly when the text between its delimiters does. */
  lemma CommentNewline(t: string, c: string, single: bool)
    requires single ==> t == "//" + c
    requires !single ==> t == "/*" + c + "*/"
    ensures '\n' in t <==> '\n' in c
  {
    if single {
      assert t[2..] == c;
    } else {
      assert t[2..2 + |c|] == c;
    }
  }

  /**
   * How much of `s` the `eatSpecialCharacter` pattern covers: a space in the
   * pattern accepts whatever the `blank` recogniser matches there (possibly
   * nothing), any other character must appear literally.
   */
  function SpecialLength(pattern: string, s: string, blank: Matcher): (r: Option<nat>)
    ensures r.Some? ==> r.value <= |s|
    decreases |pattern|
  {
    if pattern == [] then Some(0)
    else if pattern[0] == ' ' then
      var n := blank(s);
      match SpecialLength(pattern[1..], s[n..], blank)
      case None => None
      case Some(m) => Some(n + m)
    else if s != [] && s[0] == pattern[0] then
      match SpecialLength(pattern[1..], s[1..], blank)
      case None => None
      case Some(m) => Some(1 + m)
    else None
  }

  /** A pattern without spaces is an ordinary literal: it matches exactly when the text starts with it. */
  lemma {:induction false} SpecialLengthLiteral(pattern: string, s: string, blank: Matcher)
    requires ' ' !in pattern
    ensures SpecialLength(pattern, s, blank) == if pattern <= s then Some(|pattern|) else None
    decreases |pattern|
  {
    if pattern != [] {
      assert pattern[0] in pattern;
      assert ' ' !in pattern[1..] by {
        forall c | c in pattern[1..] ensures c != ' ' {
          var k :| 0 <= k < |pattern[1..]| && pattern[1..][k] == c;
          assert pattern[k + 1] == c;
        }
      }
      if s != [] && s[0] == pattern[0] {
        SpecialLengthLiteral(pattern[1..], s[1..], blank);
        assert pattern <= s <==> pattern[1..] <= s[1..];
      }
    }
  }

  /** When the spacing recogniser matches nothing, the spaces of a pattern are simply skipped. */
  lemma {:induction false} SpecialLengthNoBlank(pattern: string, s: string, blank: Matcher)
    requires forall t :: blank(t) == 0
    ensures SpecialLength(pattern, s, blank) == SpecialLength(Unspaced(pattern), s, blank)
    decreases |pattern|
  {
    if pattern != [] {
      if pattern[0] == ' ' {
        assert s[blank(s)..] == s;
        SpecialLengthNoBlank(pattern[1..], s, blank);
      } else if s != [] && s[0] == pattern[0] {
        SpecialLengthNoBlank(pattern[1..], s[1..], blank);
      }
    }
  }

  /** The pattern with its spaces removed. */
  function Unspaced(pattern: string): (r: string)
    ensures ' ' !in r
    ensures |r| <= |pattern|
  {
    if pattern == [] then []
    else if pattern[0] == ' ' then Unspaced(pattern[1..])
    else [pattern[0]] + Unspaced(pattern[1..])
  }

  /** `eatSpecialCharacter(pattern)`: consumes what the pattern covers, or nothing when it does not match. */
  method EatSpecialCharacter(lexer: Lexer, pattern: string) returns (ok: bool)
    requires lexer.Valid()
    modifies lexer
    ensures lexer.Valid()
    ensures ok <==> SpecialLength(pattern, old(lexer.content), lexer.syntax.blank).Some?
    ensures lexer.position == old(lexer.position) +
      (if ok then SpecialLength(pattern, old(lexer.content), lexer.syntax.blank).value else 0)
  {
    var covered := SpecialLength(pattern, lexer.content, lexer.syntax.blank);
    if covered.None? {
      return false;
    }
    lexer.Move(covered.value);
    return true;
  }

  /**
   * `eatEnd`: consumes the statement terminator when the `statementEnd`
   * recogniser accepts here (an empty acceptance is a lookahead).
   */
  method EatEnd(lexer: Lexer) returns (ok: bool)
    requires lexer.Valid()
    modifies lexer
    ensures lexer.Valid()
    ensures ok <==> lexer.syntax.statementEnd(old(lexer.content)).Some?
    ensures lexer.position == old(lexer.position) +
      (if ok then lexer.syntax.statementEnd(old(lexer.content)).value else 0)
  {
    var end := lexer.syntax.statementEnd(lexer.content);
    if end.None? {
      return false;
    }
    lexer.Move(end.value);
    return true;
  }

  /** `expect(literal)`: consumes the literal, or fails naming it at the current position. */
  method Expect(lexer: Lexer, literal: string) returns (r: Result<(), SyntaxError>)
    requires lexer.Valid()
    modifies lexer
    ensures lexer.Valid()
    ensures r.Success? <==> literal <= old(lexer.content)
    ensures r.Success? ==> lexer.position == old(lexer.position) + |literal|
    ensures r.Failure? ==> (lexer.position == old(lexer.position) &&
      r.error == Expected(old(lexer.position), literal))
  {
    var ok := lexer.Eat(literal);
    if !ok {
      return Failure(Expected(lexer.position, literal));
    }
    return Success(());
  }

  /** `Lexer.indent`: every line, in order, with four spaces in front. */
  function Indent(lines: seq<string>): (r: seq<string>)
    ensures |r| == |lines|
    ensures forall k :: 0 <= k < |lines| ==> r[k] == "    " + lines[k]
  {
    seq(|lines|, k requires 0 <= k < |lines| => "    " + lines[k])
  }

  /** Indenting distributes over the concatenation of line lists. */
  lemma IndentAppend(a: seq<string>, b: seq<string>)
    ensures Indent(a + b) == Indent(a) + Indent(b)
  {
  }

  /**
   * The length of an optionally signed number at the front of the text: an
   * optional `+` or `-`, then what the `number` recogniser accepts. No number
   * means no match, whatever the sign.
   */
  function SignedNumber(s: string, number: Matcher): (r: Option<nat>)
    ensures r.Some? ==> 0 < r.value <= |s|
  {
    var sign := if s != [] && (s[0] == '+' || s[0] == '-') then 1 else 0;
    var n := number(s[sign..]);
    if n == 0 then None else Some(sign + n)
  }
}

=== FILE: little_endian.dfy ===
/**
 * Bytes and the little-endian layout every multi-byte value of the output
 * uses (Node.js `writeUInt16LE` / `writeUInt32LE`).
 */
module LittleEndian {
  import opened Types

  type Byte = b: int | 0 <= b < 0x100

  /** `n` zero bytes, the content of a fresh `Buffer.alloc(n, 0)`. */
  function Zeros(n: nat): (r: seq<Byte>)
    ensures |r| == n
    ensures forall i :: 0 <= i < n ==> r[i] == 0
  {
    seq(n, _ => 0)
  }

  /**
   * The low `width` bytes of `v`, least significant first. Callers only ever
   * pass values below 2^(8*width), where nothing is cut off (DecodeEncode).
   */
  function Encode(v: nat, width: nat): (r: seq<Byte>)
    ensures |r| == width
    ensures width > 0 ==> r[0] == v % 0x100
  {
    if width == 0 then [] else [v % 0x100] + Encode(v / 0x100, width - 1)
  }

  /** The value little-endian bytes stand for. */
  function Decode(bs: seq<Byte>): (v: nat)
  {
    if bs == [] then 0 else bs[0] + 0x100 * Decode(bs[1..])
  }

  /** `width` bytes hold values below 2^(8*width) and no more. */
  lemma {:induction false} DecodeBound(bs: seq<Byte>)
    ensures Decode(bs) < Pow2(8 * |bs|)
  {
    if bs != [] {
      Pow2Add(8 * (|bs| - 1), 8);
      Pow2Values();
      DecodeBound(bs[1..]);
    }
  }

  lemma {:induction false} DecodeEncode(v: nat, width: nat)
    requires v < Pow2(8 * width)
    ensures Decode(Encode(v, width)) == v
  {
    if width > 0 {
      Pow2Add(8 * (width - 1), 8);
      Pow2Values();
      DecodeEncode(v / 0x100, width - 1);
      assert Encode(v, width)[1..] == Encode(v / 0x100, width - 1);
    }
  }

  lemma {:induction false} EncodeDecode(bs: seq<Byte>)
    ensures Encode(Decode(bs), |bs|) == bs
  {
    if bs != [] {
      EncodeDecode(bs[1..]);
    }
  }

  /** The two bytes of a 16-bit value, spelled out. */
  lemma Encode16Bytes(v: nat)
    requires v < 0x1_0000
    ensures Encode(v, 2) == [v % 0x100, v / 0x100]
  {
  }

  /** The four bytes of a 32-bit value, spelled out. */
  lemma Encode32Bytes(v: nat)
    requires v < 0x1_0000_0000
    ensures Encode(v, 4) == [v % 0x100, (v / 0x100) % 0x100, (v / 0x1_0000) % 0x100, v / 0x100_0000]
  {
    assert (v / 0x100) / 0x100 == v / 0x1_0000;
    assert (v / 0x1_0000) / 0x100 == v / 0x100_0000;
    assert Encode(v / 0x100_0000, 1) == [v / 0x100_0000];
    assert Encode(v / 0x1_0000, 2) == [(v / 0x1_0000) % 0x100, v / 0x100_0000];
    assert Encode(v / 0x100, 3) == [(v / 0x100) % 0x100, (v / 0x1_0000) % 0x100, v / 0x100_0000];
  }

  /** `s` with the bytes `bs` stored from offset `off` on. */
  function Write(s: seq<Byte>, off: nat, bs: seq<Byte>): (r: seq<Byte>)
    requires off + |bs| <= |s|
    ensures |r| == |s|
    ensures r[off..off + |bs|] == bs
    ensures forall i :: 0 <= i < |s| && !(off <= i < off + |bs|) ==> r[i] == s[i]
  {
    s[..off] + bs + s[off + |bs|..]
  }

  /** Two writes into adjacent slots are one write of both byte strings. */
  lemma AdjacentWrites(s: seq<Byte>, off: nat, a: seq<Byte>, b: seq<Byte>)
    requires off + |a| + |b| <= |s|
    ensures Write(Write(s, off, a), off + |a|, b) == Write(s, off, a + b)
  {
    var lhs := Write(Write(s, off, a), off + |a|, b);
    var rhs := Write(s, off, a + b);
    forall i | 0 <= i < |s| ensures lhs[i] == rhs[i] {
      if off <= i < off + |a| {
        assert lhs[i] == Write(s, off, a)[off..off + |a|][i - off];
        assert rhs[i] == rhs[off..off + |a| + |b|][i - off];
      } else if off + |a| <= i < off + |a| + |b| {
        assert lhs[i] == lhs[off + |a|..off + |a| + |b|][i - off - |a|];
        assert rhs[i] == rhs[off..off + |a| + |b|][i - off];
      }
    }
  }
}

=== FILE: logger.dfy ===
/**
 * src/Logger.js: level filtering and `%`-directive substitution. A message
 * line is rendered from a format (one `%prefix` per prefix, then
 * `%message`) whose directives take their arguments in order: `%s` a value
 * as text, `%r`/`%prefix`/`%message` a nested argument list rendered the
 * same way, `%llt` the level's name, `%%` a percent sign. A `_` before or
 * after a directive's name adds a space on that side when the
 * substitution is not empty.
 */
module Logging {
  import opened Wrappers

  /** `LogLevel`: Debug 0, Log 1, Warn 2, Error 3. */
  datatype LogLevel = Debug | Log | Warn | Error

  function Rank(level: LogLevel): nat {
    match level
    case Debug => 0
    case Log => 1
    case Warn => 2
    case Error => 3
  }

  /** `logLevelText`. */
  function LevelText(level: LogLevel): string {
    match level
    case Debug => "debug"
    case Log => "log"
    case Warn => "warn"
    case Error => "error"
  }

  /** A logged value: a string, an array of values, or `undefined`. */
  datatype Value = Str(text: string) | List(items: seq<Value>) | Undefined

  datatype LogError =
    | UnknownDirective(name: string)
    | MissingArgument(index: nat)
    | FormatNotText
    | NotModelled(name: string)

  /** `toString` of a value held in an array: arrays join their items with `,`, `undefined` is empty. */
  function Text(v: Value): string
    decreases v, 1
  {
    match v
    case Str(text) => text
    case Undefined => ""
    case List(items) => JoinComma(items)
  }

  function JoinComma(items: seq<Value>): string
    decreases items, 0
  {
    if items == [] then ""
    else if |items| == 1 then Text(items[0])
    else Text(items[0]) + "," + JoinComma(items[1..])
  }

  /** The size of a value, which nested rendering decreases. */
  function Size(v: Value): nat
    decreases v, 1
  {
    match v
    case List(items) => 1 + SizeAll(items)
    case _ => 1
  }

  function SizeAll(values: seq<Value>): nat
    decreases values, 0
  {
    if values == [] then 0 else Size(values[0]) + SizeAll(values[1..])
  }

  lemma {:induction false} SizeBelow(values: seq<Value>, k: nat)
    requires k < |values|
    ensures Size(values[k]) <= SizeAll(values)
    decreases |values|
  {
    if k > 0 {
      SizeBelow(values[1..], k - 1);
    }
  }

  // Directives

  predicate IsLetter(c: char) {
    'a' <= c <= 'z' || 'A' <= c <= 'Z'
  }

  /** The length of the run of letters at the front of `s`. */
  function LetterRun(s: string): (n: nat)
    ensures n <= |s|
  {
    if s == [] || !IsLetter(s[0]) then 0 else 1 + LetterRun(s[1..])
  }

  /** The run is all letters, and no letter follows it. */
  lemma {:induction false} LetterRunMaximal(s: string)
    ensures forall k :: 0 <= k < LetterRun(s) ==> IsLetter(s[k])
    ensures LetterRun(s) == |s| || !IsLetter(s[LetterRun(s)])
    decreases |s|
  {
    if s != [] && IsLetter(s[0]) {
      LetterRunMaximal(s[1..]);
      forall k | 1 <= k < LetterRun(s)
        ensures IsLetter(s[k])
      {
        assert s[k] == s[1..][k - 1];
      }
    }
  }

  /** `%%`, or a name with an optional `_` on either side. */
  datatype Directive = Percent | Named(name: string, before: bool, after: bool)

  /**
   * The directive that follows a `%` at the front of `s` and how many
   * characters of `s` it covers, as the pattern `%(%|_?[a-zA-Z]+_?)`
   * matches it; `None` when the `%` starts no directive and stays as it is.
   */
  function DirectiveAt(s: string): (r: Option<(Directive, nat)>)
    ensures r.Some? ==> 0 < r.value.1 <= |s|
  {
    if s != [] && s[0] == '%' then Some((Percent, 1))
    else
      var lead := if s != [] && s[0] == '_' then 1 else 0;
      var letters := LetterRun(s[lead..]);
      if letters == 0 then None
      else
        var trail := if lead + letters < |s| && s[lead + letters] == '_' then 1 else 0;
        Some((Named(s[lead..lead + letters], lead == 1, trail == 1), lead + letters + trail))
  }

  /**
   * The directive's shape: `%%` exactly when the next character is `%`;
   * otherwise a name is the whole run of letters after an optional `_`,
   * with `before` telling whether that `_` is there and `after` whether a
   * `_` follows the run.
   */
  lemma DirectiveShape(s: string)
    ensures DirectiveAt(s) == Some((Percent, 1)) <==> s != [] && s[0] == '%'
    ensures (s == [] || s[0] != '%') ==> (
      var lead := if s != [] && s[0] == '_' then 1 else 0;
      (DirectiveAt(s).None? <==> !(lead < |s| && IsLetter(s[lead]))) &&
      (DirectiveAt(s).Some? ==> (
        var (directive, n) := DirectiveAt(s).value;
        var end := lead + |directive.name|;
        directive.Named? && directive.before == (lead == 1) &&
        end <= |s| && directive.name == s[lead..end] && |directive.name| > 0 &&
        (forall k :: lead <= k < end ==> IsLetter(s[k])) &&
        (end == |s| || !IsLetter(s[end])) &&
        directive.after == (end < |s| && s[end] == '_') &&
        n == end + (if directive.after then 1 else 0))))
  {
    if s == [] || s[0] != '%' {
      var lead := if s != [] && s[0] == '_' then 1 else 0;
      var letters := LetterRun(s[lead..]);
      LetterRunMaximal(s[lead..]);
      if letters > 0 {
        forall k | lead <= k < lead + letters
          ensures IsLetter(s[k])
        {
          assert s[lead..][k - lead] == s[k];
        }
        assert lead + letters == |s| || s[lead..][letters] == s[lead + letters];
      } else {
        assert lead < |s| ==> s[lead..][0] == s[lead];
      }
    }
  }

  /** A substitution with the spaces its `_` marks ask for; an empty one stays empty. */
  function Pad(line: string, before: bool, after: bool): (r: string)
    ensures line == "" ==> r == ""
    ensures line != "" ==> r == (if before then " " else "") + line + (if after then " " else "")
  {
    if line == "" then ""
    else if before && after then " " + line + " "
    else if before then " " + line
    else if after then line + " "
    else line
  }

  /** Text in front of a result; failures pass through. */
  function Prepend(text: string, r: Result<string, LogError>): Result<string, LogError> {
    match r
    case Success(rest) => Success(text + rest)
    case Failure(error) => Failure(error)
  }

  lemma PrependPrepend(a: string, b: string, r: Result<string, LogError>)
    ensures Prepend(a, Prepend(b, r)) == Prepend(a + b, r)
  {
    if r.Success? {
      assert a + (b + r.value) == (a + b) + r.value;
    }
  }

  /** The colour and number formatters, which this model does not render. */
  const Unrendered: set<string> := {
    "i", "j", "llc", "color", "bold", "dim", "italic", "underline", "overline", "inverse", "hidden", "strike",
    "black", "red", "green", "yellow", "blue", "magenta", "cyan", "white",
    "bgBlack", "bgRed", "bgGreen", "bgYellow", "bgBlue", "bgMagenta", "bgCyan", "bgWhite"}

  /**
   * The substitution of directive `name` for argument `ptr`: the `formatter`
   * table. `s` is the argument's text; `r`, `prefix` and `message` render
   * the argument as an argument list (a string yields its first character,
   * which is its whole format); `llt` is the level's name. A missing or
   * undefined argument and an unknown name are errors.
   */
  function Substitute(name: string, args: seq<Value>, ptr: nat, level: LogLevel): Result<string, LogError>
    decreases SizeAll(args), 0
  {
    if name == "s" then
      if ptr < |args| && !args[ptr].Undefined? then Success(Text(args[ptr])) else Failure(MissingArgument(ptr))
    else if name == "r" || name == "prefix" || name == "message" then
      if ptr >= |args| then Failure(MissingArgument(ptr))
      else match args[ptr]
        case Undefined => Failure(MissingArgument(ptr))
        case Str(text) => Success(text[..if |text| > 0 then 1 else 0])
        case List(items) =>
          SizeBelow(args, ptr);
          FormatLog(level, items)
    else if name == "llt" then Success(LevelText(level))
    else if name in Unrendered then Failure(NotModelled(name))
    else Failure(UnknownDirective(name))
  }

  /**
   * The rendering of `format` with the argument pointer at `ptr`: the
   * reference definition of the replacement.
   */
  function Render(format: string, args: seq<Value>, ptr: nat, level: LogLevel): Result<string, LogError>
    decreases SizeAll(args), 1, |format|
  {
    if format == [] then Success("")
    else if format[0] != '%' then Prepend(format[..1], Render(format[1..], args, ptr, level))
    else
      var directive := DirectiveAt(format[1..]);
      if directive.None? then Prepend("%", Render(format[1..], args, ptr, level))
      else
        var (kind, n) := directive.value;
        if kind.Percent? then Prepend("%", Render(format[1 + n..], args, ptr, level))
        else
          var line := Substitute(kind.name, args, ptr, level);
          if line.Failure? then Failure(line.error)
          else Prepend(Pad(line.value, kind.before, kind.after), Render(format[1 + n..], args, ptr + 1, level))
  }

  /** The format of an argument list: its first element, `''` when that is absent or undefined. */
  function FormatOf(args: seq<Value>): Option<string> {
    if args == [] then Some("")
    else match args[0]
      case Str(format) => Some(format)
      case Undefined => Some("")
      case List(_) => None
  }

  /** `formatLog(logLevel, args)`: the first element is the format, the rest its arguments. */
  function FormatLog(level: LogLevel, args: seq<Value>): Result<string, LogError>
    decreases SizeAll(args), 2
  {
    match FormatOf(args)
    case None => Failure(FormatNotText)
    case Some(format) => Render(format, args, 1, level)
  }

  lemma PrependEmpty(r: Result<string, LogError>)
    ensures Prepend("", r) == r
  {
    if r.Success? {
      assert "" + r.value == r.value;
    }
  }

  /** A literal character's step of the rendering of `format[i..]`. */
  lemma RenderText(format: string, i: nat, args: seq<Value>, ptr: nat, level: LogLevel)
    requires i < |format| && format[i] != '%'
    ensures Render(format[i..], args, ptr, level) == Prepend([format[i]], Render(format[i + 1..], args, ptr, level))
  {
    var rest := format[i..];
    assert rest[0] == format[i] && rest[..1] == [format[i]] && rest[1..] == format[i + 1..];
  }

  /** The step at a `%` that starts no directive: the `%` stays as it is. */
  lemma RenderUnmatched(format: string, i: nat, args: seq<Value>, ptr: nat, level: LogLevel)
    requires i < |format| && format[i] == '%' && DirectiveAt(format[i + 1..]).None?
    ensures Render(format[i..], args, ptr, level) == Prepend("%", Render(format[i + 1..], args, ptr, level))
  {
    var rest := format[i..];
    assert rest[0] == format[i] && rest[1..] == format[i + 1..];
  }

  /** The step at `%%`: one `%`, and the argument pointer stays. */
  lemma RenderPercent(format: string, i: nat, args: seq<Value>, ptr: nat, level: LogLevel, n: nat)
    requires i < |format| && format[i] == '%' && DirectiveAt(format[i + 1..]) == Some((Percent, n))
    ensures i + 1 + n <= |format|
    ensures Render(format[i..], args, ptr, level) == Prepend("%", Render(format[i + 1 + n..], args, ptr, level))
  {
    var rest := format[i..];
    assert rest[0] == format[i] && rest[1..] == format[i + 1..] && rest[1 + n..] == format[i + 1 + n..];
  }

  /** A directive's step of the rendering of `format[i..]`. */
  lemma RenderNamed(format: string, i: nat, args: seq<Value>, ptr: nat, level: LogLevel, name: string, before: bool, after: bool, n: nat)
    requires i < |format| && format[i] == '%'
    requires DirectiveAt(format[i + 1..]) == Some((Named(name, before, after), n))
    ensures i + 1 + n <= |format|
    ensures Substitute(name, args, ptr, level).Failure? ==>
      Render(format[i..], args, ptr, level) == Failure(Substitute(name, args, ptr, level).error)
    ensures Substitute(name, args, ptr, level).Success? ==>
      Render(format[i..], args, ptr, level) ==
      Prepend(Pad(Substitute(name, args, ptr, level).value, before, after), Render(format[i + 1 + n..], args, ptr + 1, level))
  {
    var rest := format[i..];
    assert rest[0] == format[i] && rest[1..] == format[i + 1..];
    RenderNamedHere(rest, args, ptr, level, name, before, after, n);
    assert rest[1 + n..] == format[i + 1 + n..];
  }

  /** `RenderNamed` at the front of the format. */
  lemma RenderNamedHere(format: string, args: seq<Value>, ptr: nat, level: LogLevel, name: string, before: bool, after: bool, n: nat)
    requires format != [] && format[0] == '%'
    requires DirectiveAt(format[1..]) == Some((Named(name, before, after), n))
    ensures 1 + n <= |format|
    ensures Substitute(name, args, ptr, level).Failure? ==>
      Render(format, args, ptr, level) == Failure(Substitute(name, args, ptr, level).error)
    ensures Substitute(name, args, ptr, level).Success? ==>
      Render(format, args, ptr, level) ==
      Prepend(Pad(Substitute(name, args, ptr, level).value, before, after), Render(format[1 + n..], args, ptr + 1, level))
  {
  }

  /** `formatLog` as the source runs it: the format, then one pass over it. */
  method FormatLogPass(level: LogLevel, args: seq<Value>) returns (r: Result<string, LogError>)
    ensures r == FormatLog(level, args)
    decreases SizeAll(args), 3
  {
    var format := FormatOf(args);
    if format.None? {
      return Failure(FormatNotText);
    }
    r := RenderPass(format.value, args, level);
  }

  /**
   * The replacement as the source runs it: one left-to-right pass over the
   * format with the argument pointer `ptr` advanced by every directive
   * except `%%`.
   */
  method RenderPass(text: string, args: seq<Value>, level: LogLevel) returns (r: Result<string, LogError>)
    ensures r == Render(text, args, 1, level)
    decreases SizeAll(args), 2
  {
    var ptr := 1;
    var out := "";
    var i := 0;
    assert text[0..] == text;
    PrependEmpty(Render(text, args, 1, level));
    while i < |text|
      invariant i <= |text|
      invariant Render(text, args, 1, level) == Prepend(out, Render(text[i..], args, ptr, level))
      decreases |text| - i
    {
      var piece, next, nextPtr := Advance(text, i, args, ptr, level);
      if piece.Failure? {
        return Failure(piece.error);
      }
      PrependPrepend(out, piece.value, Render(text[next..], args, nextPtr, level));
      out := out + piece.value;
      i, ptr := next, nextPtr;
    }
    assert text[i..] == [];
    assert out + "" == out;
    return Success(out);
  }

  /**
   * One match of the pass at `text[i]`: a literal character, a `%` that
   * starts no directive, `%%`, or a directive replaced by its substitution.
   */
  method Advance(text: string, i: nat, args: seq<Value>, ptr: nat, level: LogLevel)
      returns (piece: Result<string, LogError>, next: nat, nextPtr: nat)
    requires i < |text|
    ensures i < next <= |text| && ptr <= nextPtr
    ensures piece.Failure? ==> Render(text[i..], args, ptr, level) == Failure(piece.error)
    ensures piece.Success? ==> Render(text[i..], args, ptr, level) == Prepend(piece.value, Render(text[next..], args, nextPtr, level))
    decreases SizeAll(args), 1
  {
    if text[i] != '%' {
      piece, next, nextPtr := Success([text[i]]), i + 1, ptr;
      RenderText(text, i, args, ptr, level);
      assert Render(text[i..], args, ptr, level) == Prepend(piece.value, Render(text[next..], args, nextPtr, level));
      return;
    }
    var directive := DirectiveAt(text[i + 1..]);
    if directive.Some? && directive.value.0.Named? {
      var (kind, n) := directive.value;
      piece := Replace(text, i, args, ptr, level, kind, n);
      next, nextPtr := i + 1 + n, ptr + 1;
      assert piece.Success? ==> Render(text[i..], args, ptr, level) == Prepend(piece.value, Render(text[next..], args, nextPtr, level));
      return;
    }
    piece, nextPtr := Success("%"), ptr;
    next := KeepPercent(text, i, args, ptr, level);
    assert Render(text[i..], args, ptr, level) == Prepend(piece.value, Render(text[next..], args, nextPtr, level));
  }

  /** The match at a `%` that starts no named directive: a lone `%` or `%%`, kept as one `%`. */
  method KeepPercent(text: string, i: nat, args: seq<Value>, ptr: nat, level: LogLevel) returns (next: nat)
    requires i < |text| && text[i] == '%'
    requires DirectiveAt(text[i + 1..]).None? || DirectiveAt(text[i + 1..]).value.0.Percent?
    ensures i < next <= |text|
    ensures Render(text[i..], args, ptr, level) == Prepend("%", Render(text[next..], args, ptr, level))
  {
    var directive := DirectiveAt(text[i + 1..]);
    if directive.None? {
      RenderUnmatched(text, i, args, ptr, level);
      return i + 1;
    }
    var n := directive.value.1;
    RenderPercent(text, i, args, ptr, level, n);
    return i + 1 + n;
  }

  /** The replacement of the directive at `text[i]`: its substitution, padded as its `_` marks ask. */
  method Replace(text: string, i: nat, args: seq<Value>, ptr: nat, level: LogLevel, kind: Directive, n: nat)
      returns (piece: Result<string, LogError>)
    requires i < |text| && text[i] == '%' && kind.Named?
    requires DirectiveAt(text[i + 1..]) == Some((kind, n))
    ensures i + 1 + n <= |text|
    ensures piece.Failure? ==> Render(text[i..], args, ptr, level) == Failure(piece.error)
    ensures piece.Success? ==> Render(text[i..], args, ptr, level) == Prepend(piece.value, Render(text[i + 1 + n..], args, ptr + 1, level))
    decreases SizeAll(args), 0, 1
  {
    RenderNamed(text, i, args, ptr, level, kind.name, kind.before, kind.after, n);
    var line := SubstitutePass(kind.name, args, ptr, level);
    if line.Failure? {
      return Failure(line.error);
    }
    return Success(Pad(line.value, kind.before, kind.after));
  }

  /** One substitution, rendering a nested argument list by a nested pass. */
  method SubstitutePass(name: string, args: seq<Value>, ptr: nat, level: LogLevel) returns (r: Result<string, LogError>)
    ensures r == Substitute(name, args, ptr, level)
    decreases SizeAll(args), 0, 0
  {
    if (name == "r" || name == "prefix" || name == "message") && ptr < |args| && args[ptr].List? {
      SizeBelow(args, ptr);
      r := FormatLogPass(level, args[ptr].items);
      return;
    }
    return Substitute(name, args, ptr, level);
  }

  // The message line of a logger

  /** `format`: one `%prefix` per prefix, joined by spaces, then the message. */
  function FormatFor(prefixCount: nat): (format: string)
    ensures prefixCount == 0 ==> format == "%message"
    ensures prefixCount > 0 ==> |format| == 8 * prefixCount + 8
  {
    if prefixCount == 0 then "%message" else "%prefix" + MorePrefixes(prefixCount - 1) + "%_message"
  }

  /** `count` times ` %prefix`. */
  function MorePrefixes(count: nat): (text: string)
    ensures |text| == 8 * count
  {
    if count == 0 then "" else " " + ("%prefix" + MorePrefixes(count - 1))
  }

  /** The arguments of a message line: the format, each prefix's list, the message's list. */
  function Line(prefixes: seq<seq<Value>>, args: seq<Value>): (line: seq<Value>)
    ensures |line| == |prefixes| + 2
  {
    [Str(FormatFor(|prefixes|))] + seq(|prefixes|, k requires 0 <= k < |prefixes| => List(prefixes[k])) + [List(args)]
  }

  /** Rendered prefixes, each after a space. */
  function Spaced(texts: seq<string>): string {
    if texts == [] then "" else " " + texts[0] + Spaced(texts[1..])
  }

  /** Rendered prefixes joined by single spaces. */
  function Joined(texts: seq<string>): string {
    if texts == [] then "" else texts[0] + Spaced(texts[1..])
  }

  lemma SpacedJoined(texts: seq<string>)
    requires texts != []
    ensures Spaced(texts) == " " + Joined(texts)
  {
    assert " " + texts[0] + Spaced(texts[1..]) == " " + (texts[0] + Spaced(texts[1..]));
  }

  /** The rendered message, after a space when there are prefixes and it is not empty. */
  function MessagePart(message: Result<string, LogError>, afterPrefixes: bool): Result<string, LogError> {
    match message
    case Failure(error) => Failure(error)
    case Success(text) => Success(Pad(text, afterPrefixes, false))
  }

  lemma {:induction false} LetterRunOf(word: string, rest: string)
    requires forall k :: 0 <= k < |word| ==> IsLetter(word[k])
    requires rest == [] || !IsLetter(rest[0])
    ensures LetterRun(word + rest) == |word|
    decreases |word|
  {
    if word != [] {
      assert (word + rest)[0] == word[0] && (word + rest)[1..] == word[1..] + rest;
      LetterRunOf(word[1..], rest);
    } else {
      assert word + rest == rest;
    }
  }

  /** `%prefix` followed by a space, a `%` or nothing renders its argument as it is. */
  lemma PrefixStep(rest: string, args: seq<Value>, ptr: nat, level: LogLevel)
    requires rest == [] || rest[0] == ' ' || rest[0] == '%'
    requires Substitute("prefix", args, ptr, level).Success?
    ensures Render("%prefix" + rest, args, ptr, level) ==
      Prepend(Substitute("prefix", args, ptr, level).value, Render(rest, args, ptr + 1, level))
  {
    assert "%prefix" + rest == "%" + "" + "prefix" + "" + rest;
    DirectiveStep("", "prefix", "", rest, args, ptr, level);
  }

  lemma SpaceStep(rest: string, args: seq<Value>, ptr: nat, level: LogLevel)
    ensures Render(" " + rest, args, ptr, level) == Prepend(" ", Render(rest, args, ptr, level))
  {
    var format := " " + rest;
    assert format[..1] == " " && format[1..] == rest;
  }

  function MessageFormat(afterPrefixes: bool): string {
    if afterPrefixes then "%_message" else "%message"
  }

  /**
   * A run of letters after an optional `_` and before an optional `_`,
   * followed by no letter (and by no `_` when the run has none of its own),
   * is a name directive.
   */
  lemma NamedDirective(lead: string, word: string, trail: string, rest: string)
    requires lead == "" || lead == "_"
    requires trail == "" || trail == "_"
    requires |word| > 0 && forall k :: 0 <= k < |word| ==> IsLetter(word[k])
    requires rest == [] || (!IsLetter(rest[0]) && (trail == "_" || rest[0] != '_'))
    ensures DirectiveAt(lead + word + trail + rest) == Some((Named(word, lead == "_", trail == "_"), |lead| + |word| + |trail|))
  {
    NamedLayout(lead, word, trail, rest, lead + word + trail + rest);
    LetterRunOf(word, trail + rest);
    DirectiveAtNamed(lead + word + trail + rest, |lead|, |word|, |trail|, word, lead == "_", trail == "_");
  }

  /** Where the lead, the word and the trail sit in the text after the `%`. */
  lemma NamedLayout(lead: string, word: string, trail: string, rest: string, s: string)
    requires lead == "" || lead == "_"
    requires trail == "" || trail == "_"
    requires |word| > 0 && forall k :: 0 <= k < |word| ==> IsLetter(word[k])
    requires rest == [] || (!IsLetter(rest[0]) && (trail == "_" || rest[0] != '_'))
    requires s == lead + word + trail + rest
    ensures s != [] && s[0] != '%' && |lead| == (if s[0] == '_' then 1 else 0)
    ensures s[|lead|..] == word + (trail + rest)
    ensures |lead| + |word| <= |s| && s[|lead|..|lead| + |word|] == word
    ensures |trail| == (if |lead| + |word| < |s| && s[|lead| + |word|] == '_' then 1 else 0)
  {
    var tail := trail + rest;
    assert s == lead + (word + tail);
    NamedHead(lead, word, tail, s);
    NamedTrail(word + tail, |word|, trail, rest);
  }

  /** The lead and the word at the front of the text after the `%`. */
  lemma NamedHead(lead: string, word: string, tail: string, s: string)
    requires lead == "" || lead == "_"
    requires |word| > 0 && IsLetter(word[0])
    requires s == lead + (word + tail)
    ensures s != [] && s[0] != '%' && |lead| == (if s[0] == '_' then 1 else 0)
    ensures s[|lead|..] == word + tail
    ensures |lead| + |word| <= |s| && s[|lead|..|lead| + |word|] == word
  {
    assert s[0] == (if lead == "_" then '_' else word[0]);
  }

  /** Whether a `_` follows the word is whether the trail is there. */
  lemma NamedTrail(t: string, m: nat, trail: string, rest: string)
    requires trail == "" || trail == "_"
    requires m <= |t| && t[m..] == trail + rest
    requires rest == [] || trail == "_" || rest[0] != '_'
    ensures |trail| == (if m < |t| && t[m] == '_' then 1 else 0)
  {
    if m < |t| {
      assert t[m] == t[m..][0];
    }
  }

  /** `DirectiveAt` on a text whose lead, letter run and trail are known. */
  lemma DirectiveAtNamed(s: string, lead: nat, letters: nat, trail: nat, word: string, before: bool, after: bool)
    requires s != [] && s[0] != '%'
    requires lead == (if s[0] == '_' then 1 else 0)
    requires lead <= |s| && letters == LetterRun(s[lead..]) > 0
    requires trail == (if lead + letters < |s| && s[lead + letters] == '_' then 1 else 0)
    requires word == s[lead..lead + letters] && before == (lead == 1) && after == (trail == 1)
    ensures DirectiveAt(s) == Some((Named(word, before, after), lead + letters + trail))
  {
  }

  /** The step of the rendering at a name directive with its optional `_` marks. */
  lemma DirectiveStep(lead: string, word: string, trail: string, rest: string, args: seq<Value>, ptr: nat, level: LogLevel)
    requires lead == "" || lead == "_"
    requires trail == "" || trail == "_"
    requires |word| > 0 && forall k :: 0 <= k < |word| ==> IsLetter(word[k])
    requires rest == [] || (!IsLetter(rest[0]) && (trail == "_" || rest[0] != '_'))
    ensures Substitute(word, args, ptr, level).Failure? ==>
      Render("%" + lead + word + trail + rest, args, ptr, level) == Failure(Substitute(word, args, ptr, level).error)
    ensures Substitute(word, args, ptr, level).Success? ==>
      Render("%" + lead + word + trail + rest, args, ptr, level) ==
      Prepend(Pad(Substitute(word, args, ptr, level).value, lead == "_", trail == "_"), Render(rest, args, ptr + 1, level))
  {
    var format := "%" + lead + word + trail + rest;
    var n := |lead| + |word| + |trail|;
    assert format[1..] == lead + word + trail + rest;
    NamedDirective(lead, word, trail, rest);
    RenderNamedHere(format, args, ptr, level, word, lead == "_", trail == "_", n);
    assert format[1 + n..] == rest;
  }

  /** Text without `%` in front of a format renders as itself. */
  lemma {:induction false} TextStep(text: string, rest: string, args: seq<Value>, ptr: nat, level: LogLevel)
    requires forall k :: 0 <= k < |text| ==> text[k] != '%'
    ensures Render(text + rest, args, ptr, level) == Prepend(text, Render(rest, args, ptr, level))
    decreases |text|
  {
    if text == [] {
      assert text + rest == rest;
      PrependEmpty(Render(rest, args, ptr, level));
    } else {
      var format := text + rest;
      assert format[..1] == [text[0]] && format[1..] == text[1..] + rest;
      TextStep(text[1..], rest, args, ptr, level);
      PrependPrepend([text[0]], text[1..], Render(rest, args, ptr, level));
      assert [text[0]] + text[1..] == text;
    }
  }

  /** A format without `%` renders as itself. */
  lemma TextOnly(text: string, args: seq<Value>, ptr: nat, level: LogLevel)
    requires forall k :: 0 <= k < |text| ==> text[k] != '%'
    ensures Render(text, args, ptr, level) == Success(text)
  {
    assert text + [] == text;
    TextStep(text, [], args, ptr, level);
    assert text + "" == text;
  }

  /**
   * A format of plain text, one name directive and plain text renders as
   * the first text, the directive's padded substitution and the second text.
   */
  lemma OneDirective(before: string, lead: string, word: string, trail: string, after: string,
                     args: seq<Value>, ptr: nat, level: LogLevel, value: string)
    requires forall k :: 0 <= k < |before| ==> before[k] != '%'
    requires forall k :: 0 <= k < |after| ==> after[k] != '%'
    requires lead == "" || lead == "_"
    requires trail == "" || trail == "_"
    requires |word| > 0 && forall k :: 0 <= k < |word| ==> IsLetter(word[k])
    requires after == [] || (!IsLetter(after[0]) && (trail == "_" || after[0] != '_'))
    requires Substitute(word, args, ptr, level) == Success(value)
    ensures Render(before + ("%" + lead + word + trail + after), args, ptr, level) ==
      Success(before + (Pad(value, lead == "_", trail == "_") + after))
  {
    TextStep(before, "%" + lead + word + trail + after, args, ptr, level);
    DirectiveStep(lead, word, trail, after, args, ptr, level);
    TextOnly(after, args, ptr + 1, level);
  }

  /** `%%` between plain texts renders as one `%` between them. */
  lemma PercentText(before: string, after: string, args: seq<Value>, ptr: nat, level: LogLevel)
    requires forall k :: 0 <= k < |before| ==> before[k] != '%'
    requires forall k :: 0 <= k < |after| ==> after[k] != '%'
    ensures Render(before + ("%%" + after), args, ptr, level) == Success(before + ("%" + after))
  {
    var format := "%%" + after;
    TextStep(before, format, args, ptr, level);
    assert format[1..] == "%" + after && format[0] == '%';
    assert DirectiveAt(format[1..]) == Some((Percent, 1));
    RenderPercent(format, 0, args, ptr, level, 1);
    assert format[0..] == format && format[2..] == after;
    TextOnly(after, args, ptr, level);
  }

  /** A format that is one name directive renders as that directive's substitution. */
  lemma FinalDirective(lead: string, word: string, args: seq<Value>, ptr: nat, level: LogLevel)
    requires lead == "" || lead == "_"
    requires |word| > 0 && forall k :: 0 <= k < |word| ==> IsLetter(word[k])
    ensures Render("%" + lead + word, args, ptr, level) == MessagePart(Substitute(word, args, ptr, level), lead == "_")
  {
    assert "%" + lead + word == "%" + lead + word + "" + [];
    DirectiveStep(lead, word, "", [], args, ptr, level);
    var sub := Substitute(word, args, ptr, level);
    if sub.Success? {
      var padded := Pad(sub.value, lead == "_", false);
      assert padded + "" == padded;
    }
  }

  /** `%message` and `%_message` render the whole message argument. */
  lemma MessageStep(afterPrefixes: bool, args: seq<Value>, ptr: nat, level: LogLevel)
    ensures Render(MessageFormat(afterPrefixes), args, ptr, level) ==
      MessagePart(Substitute("message", args, ptr, level), afterPrefixes)
  {
    var lead := if afterPrefixes then "_" else "";
    assert MessageFormat(afterPrefixes) == "%" + lead + "message";
    FinalDirective(lead, "message", args, ptr, level);
  }

  lemma MorePrefixesSplit(count: nat)
    requires count > 0
    ensures MorePrefixes(count) + "%_message" == " " + ("%prefix" + (MorePrefixes(count - 1) + "%_message"))
    ensures (MorePrefixes(count - 1) + "%_message")[0] in {' ', '%'}
  {
    var more := MorePrefixes(count - 1);
    assert MorePrefixes(count) == " " + ("%prefix" + more);
    RegroupRight(" ", "%prefix", more, "%_message");
    if count > 1 {
      assert (more + "%_message")[0] == more[0] == ' ';
    }
  }

  /** One ` %prefix` in front of the rest of the format: its rendering, after a space. */
  lemma MorePrefixesStep(count: nat, args: seq<Value>, ptr: nat, level: LogLevel, texts: seq<string>, message: Result<string, LogError>)
    requires count > 0 && |texts| == count
    requires Substitute("prefix", args, ptr, level) == Success(texts[0])
    requires Render(MorePrefixes(count - 1) + "%_message", args, ptr + 1, level) == Prepend(Spaced(texts[1..]), message)
    ensures Render(MorePrefixes(count) + "%_message", args, ptr, level) == Prepend(Spaced(texts), message)
  {
    var rest := MorePrefixes(count - 1) + "%_message";
    MorePrefixesSplit(count);
    SpaceStep("%prefix" + rest, args, ptr, level);
    PrefixStep(rest, args, ptr, level);
    PrependPrepend(texts[0], Spaced(texts[1..]), message);
    PrependPrepend(" ", Joined(texts), message);
    SpacedJoined(texts);
  }

  /** `texts[k]` is what the prefix directive at pointer `ptr + k` renders to. */
  predicate PrefixTexts(args: seq<Value>, ptr: nat, level: LogLevel, texts: seq<string>)
    decreases |texts|
  {
    texts == [] ||
    (Substitute("prefix", args, ptr, level) == Success(texts[0]) && PrefixTexts(args, ptr + 1, level, texts[1..]))
  }

  lemma {:induction false} PrefixTextsOf(args: seq<Value>, ptr: nat, level: LogLevel, texts: seq<string>)
    requires forall k :: 0 <= k < |texts| ==> Substitute("prefix", args, ptr + k, level) == Success(texts[k])
    ensures PrefixTexts(args, ptr, level, texts)
    decreases |texts|
  {
    if texts != [] {
      PrefixTextsTail(args, ptr, ptr + 1, level, texts);
      PrefixTextsOf(args, ptr + 1, level, texts[1..]);
    }
  }

  lemma {:induction false} MorePrefixesRender(count: nat, args: seq<Value>, ptr: nat, level: LogLevel, texts: seq<string>, message: Result<string, LogError>)
    requires |texts| == count && PrefixTexts(args, ptr, level, texts)
    requires message == MessagePart(Substitute("message", args, ptr + count, level), true)
    ensures Render(MorePrefixes(count) + "%_message", args, ptr, level) == Prepend(Spaced(texts), message)
    decreases count
  {
    if count == 0 {
      MessageAfterPrefixes(args, ptr, level, texts, message);
    } else {
      var next := ptr + 1;
      assert next + (count - 1) == ptr + count;
      MorePrefixesRender(count - 1, args, next, level, texts[1..], message);
      MorePrefixesStep(count, args, ptr, level, texts, message);
      assert Render(MorePrefixes(count) + "%_message", args, ptr, level) == Prepend(Spaced(texts), message);
    }
  }

  /** With no prefixes left, the rest of the format is `%_message` alone. */
  lemma MessageAfterPrefixes(args: seq<Value>, ptr: nat, level: LogLevel, texts: seq<string>, message: Result<string, LogError>)
    requires texts == [] && message == MessagePart(Substitute("message", args, ptr, level), true)
    ensures Render(MorePrefixes(0) + "%_message", args, ptr, level) == Prepend(Spaced(texts), message)
  {
    assert MorePrefixes(0) + "%_message" == MessageFormat(true);
    MessageStep(true, args, ptr, level);
    PrependEmpty(message);
  }

  /** The prefixes after the first take their arguments from the next pointer on. */
  lemma PrefixTextsTail(args: seq<Value>, ptr: nat, next: nat, level: LogLevel, texts: seq<string>)
    requires texts != [] && next == ptr + 1
    requires forall k :: 0 <= k < |texts| ==> Substitute("prefix", args, ptr + k, level) == Success(texts[k])
    ensures Substitute("prefix", args, ptr, level) == Success(texts[0])
    ensures forall k :: 0 <= k < |texts| - 1 ==> Substitute("prefix", args, next + k, level) == Success(texts[1..][k])
  {
    assert Substitute("prefix", args, ptr + 0, level) == Success(texts[0]);
    forall k | 0 <= k < |texts| - 1
      ensures Substitute("prefix", args, next + k, level) == Success(texts[1..][k])
    {
      assert Substitute("prefix", args, ptr + (k + 1), level) == Success(texts[k + 1]);
    }
  }

  /** Prefix `k`'s list sits at index `k + 1` of the line, the message's list last. */
  lemma LineArguments(prefixes: seq<seq<Value>>, args: seq<Value>, level: LogLevel)
    ensures forall k :: 0 <= k < |prefixes| ==>
      Substitute("prefix", Line(prefixes, args), k + 1, level) == FormatLog(level, prefixes[k])
    ensures Substitute("message", Line(prefixes, args), |prefixes| + 1, level) == FormatLog(level, args)
  {
    var line := Line(prefixes, args);
    forall k | 0 <= k < |prefixes|
      ensures Substitute("prefix", line, k + 1, level) == FormatLog(level, prefixes[k])
    {
      assert line[k + 1] == List(prefixes[k]);
    }
    assert line[|prefixes| + 1] == List(args);
  }

  lemma LineFormat(prefixes: seq<seq<Value>>, args: seq<Value>, level: LogLevel)
    ensures FormatLog(level, Line(prefixes, args)) == Render(FormatFor(|prefixes|), Line(prefixes, args), 1, level)
  {
    assert Line(prefixes, args)[0] == Str(FormatFor(|prefixes|));
  }

  lemma Regroup(a: string, b: string, c: string, d: string)
    ensures a + ((b + c) + d) == (a + (b + c)) + d
  {
    assert a + ((b + c) + d) == a + (b + c) + d;
  }

  lemma RegroupRight(a: string, b: string, c: string, d: string)
    ensures (a + (b + c)) + d == a + (b + (c + d))
  {
    assert (b + c) + d == b + (c + d);
  }

  /** With prefixes, the format is the repeated ` %prefix` and `%_message` without the leading space. */
  lemma FormatForSpaced(count: nat)
    requires count > 0
    ensures " " + FormatFor(count) == MorePrefixes(count) + "%_message"
  {
    var more := MorePrefixes(count - 1);
    assert FormatFor(count) == ("%prefix" + more) + "%_message";
    assert MorePrefixes(count) == " " + ("%prefix" + more);
    Regroup(" ", "%prefix", more, "%_message");
  }

  lemma PrependCancel(a: string, x: Result<string, LogError>, y: Result<string, LogError>)
    requires Prepend(a, x) == Prepend(a, y)
    ensures x == y
  {
    if x.Success? && y.Success? {
      assert x.value == (a + x.value)[|a|..];
      assert y.value == (a + y.value)[|a|..];
    }
  }

  lemma SpaceCancel(format: string, args: seq<Value>, level: LogLevel, text: string, message: Result<string, LogError>)
    requires Render(" " + format, args, 1, level) == Prepend(" " + text, message)
    ensures Render(format, args, 1, level) == Prepend(text, message)
  {
    SpaceStep(format, args, 1, level);
    PrependPrepend(" ", text, message);
    PrependCancel(" ", Render(format, args, 1, level), Prepend(text, message));
  }

  /** A format with prefixes renders as the prefixes joined by spaces, then the message. */
  lemma PrefixedFormat(count: nat, args: seq<Value>, level: LogLevel, texts: seq<string>)
    requires |texts| == count > 0
    requires forall k :: 0 <= k < count ==> Substitute("prefix", args, 1 + k, level) == Success(texts[k])
    ensures Render(FormatFor(count), args, 1, level) ==
      Prepend(Joined(texts), MessagePart(Substitute("message", args, count + 1, level), true))
  {
    SpacedFormat(count, args, level, texts);
    SpaceCancel(FormatFor(count), args, level, Joined(texts), MessagePart(Substitute("message", args, count + 1, level), true));
  }

  lemma SpacedFormat(count: nat, args: seq<Value>, level: LogLevel, texts: seq<string>)
    requires |texts| == count > 0
    requires forall k :: 0 <= k < count ==> Substitute("prefix", args, 1 + k, level) == Success(texts[k])
    ensures Render(" " + FormatFor(count), args, 1, level) ==
      Prepend(" " + Joined(texts), MessagePart(Substitute("message", args, count + 1, level), true))
  {
    FormatForSpaced(count);
    assert 1 + count == count + 1;
    PrefixTextsOf(args, 1, level, texts);
    MorePrefixesRender(count, args, 1, level, texts, MessagePart(Substitute("message", args, count + 1, level), true));
    SpacedJoined(texts);
  }

  /**
   * A logger's message line: its prefixes rendered and joined by spaces,
   * then the message, after a space when there are prefixes and it is not
   * empty; the message's failure is the line's.
   */
  lemma LineLayout(prefixes: seq<seq<Value>>, args: seq<Value>, level: LogLevel, texts: seq<string>)
    requires |texts| == |prefixes|
    requires forall k :: 0 <= k < |prefixes| ==> FormatLog(level, prefixes[k]) == Success(texts[k])
    ensures FormatLog(level, Line(prefixes, args)) == Prepend(Joined(texts), MessagePart(FormatLog(level, args), prefixes != []))
  {
    LineFormat(prefixes, args, level);
    var message := MessagePart(FormatLog(level, args), prefixes != []);
    if prefixes == [] {
      LineArguments(prefixes, args, level);
      assert FormatFor(0) == MessageFormat(false);
      MessageStep(false, Line(prefixes, args), 1, level);
      PrependEmpty(message);
    } else {
      LineArguments(prefixes, args, level);
      var line := Line(prefixes, args);
      forall k | 0 <= k < |texts|
        ensures Substitute("prefix", line, 1 + k, level) == Success(texts[k])
      {
        assert Substitute("prefix", line, k + 1, level) == FormatLog(level, prefixes[k]);
      }
      PrefixedFormat(|prefixes|, line, level, texts);
    }
  }

  // The logger

  /** Whether a logger whose level is `threshold` passes a message of `level` on. */
  predicate Emits(threshold: LogLevel, level: LogLevel) {
    Rank(threshold) <= Rank(level)
  }

  /** The destination `logTo` writes to: the lines it has received, in order. */
  class Sink {
    var lines: seq<string>

    constructor ()
      ensures lines == []
    {
      lines := [];
    }
  }

  /** `Logger`: a level threshold, the colour switch and the prefix lists; `logTo` is the sink it shares. */
  class Logger {
    const sink: Sink
    var logLevel: LogLevel
    var enableColor: bool
    var prefixes: seq<seq<Value>>

    constructor (sink: Sink)
      ensures this.sink == sink && logLevel == Debug && !enableColor && prefixes == []
    {
      this.sink := sink;
      logLevel := Debug;
      enableColor := false;
      prefixes := [];
    }

    /** The `format` getter. */
    function Format(): string
      reads this
    {
      FormatFor(|prefixes|)
    }

    /**
     * `prefix(...args)`: this logger when the format is absent or empty;
     * otherwise a new logger on the same sink with the same settings and
     * `args` added to a copy of the prefixes. This logger is unchanged.
     */
    method Prefix(args: seq<Value>) returns (logger: Logger)
      ensures FormatOf(args) == Some("") ==> logger == this
      ensures FormatOf(args) != Some("") ==>
        fresh(logger) && logger.sink == sink && logger.logLevel == logLevel &&
        logger.enableColor == enableColor && logger.prefixes == prefixes + [args]
    {
      if FormatOf(args) == Some("") {
        return this;
      }
      logger := new Logger(sink);
      logger.logLevel := logLevel;
      logger.enableColor := enableColor;
      logger.prefixes := prefixes + [args];
    }

    /**
     * `logBackend(logLevel, args)`: a message below the threshold is
     * dropped; otherwise the line of the format, the prefixes and `args` is
     * rendered and sent to the sink, and a rendering error is raised
     * before anything is sent.
     */
    method LogBackend(level: LogLevel, args: seq<Value>) returns (r: Result<(), LogError>)
      modifies sink
      ensures !Emits(logLevel, level) ==> r.Success? && sink.lines == old(sink.lines)
      ensures Emits(logLevel, level) ==> (
        var line := FormatLog(level, Line(prefixes, args));
        (line.Success? ==> r.Success? && sink.lines == old(sink.lines) + [line.value]) &&
        (line.Failure? ==> r == Failure(line.error) && sink.lines == old(sink.lines)))
    {
      if Rank(logLevel) > Rank(level) {
        return Success(());
      }
      assert Line(prefixes, args)[0] == Str(Format());
      var line := FormatLogPass(level, Line(prefixes, args));
      if line.Failure? {
        return Failure(line.error);
      }
      sink.lines := sink.lines + [line.value];
      return Success(());
    }
  }

  /** Test mirror (tests/Logger.test.js): at `Warn`, `debug` and `log` are dropped. */
  lemma Thresholds()
    ensures Emits(Debug, Debug) && Emits(Debug, Error)
    ensures !Emits(Warn, Debug) && !Emits(Warn, Log) && Emits(Warn, Warn) && Emits(Warn, Error)
    ensures forall threshold, level, higher :: Emits(threshold, level) && Rank(level) <= Rank(higher) ==> Emits(threshold, higher)
  {
  }

  /** An unprefixed logger's line is its message, failures included. */
  lemma UnprefixedLine(args: seq<Value>, level: LogLevel)
    ensures FormatLog(level, Line([], args)) == FormatLog(level, args)
  {
    LineLayout([], args, level, []);
    PrependEmpty(MessagePart(FormatLog(level, args), false));
  }

  // Test mirrors: the cases of tests/Logger.test.js, on the arguments of `log`

  lemma NoArguments()
    ensures FormatLog(Log, []) == Success("")
  {
  }

  lemma PlainText()
    ensures FormatLog(Log, [Str("hi")]) == Success("hi")
  {
    assert "hi" == "hi" + [];
    TextStep("hi", [], [Str("hi")], 1, Log);
  }

  lemma PercentSign()
    ensures FormatLog(Log, [Str("hi %%")]) == Success("hi %")
  {
    PercentSignText();
    PercentText("hi ", "", [Str("hi %%")], 1, Log);
  }

  lemma PercentSignText()
    ensures "hi %%" == "hi " + ("%%" + "") && "hi " + ("%" + "") == "hi %"
  {
  }

  lemma StringArgument()
    ensures FormatLog(Log, [Str("hi %s"), Str("bob")]) == Success("hi bob")
  {
    StringArgumentText();
    OneDirective("hi ", "", "s", "", "", [Str("hi %s"), Str("bob")], 1, Log, "bob");
  }

  lemma StringArgumentText()
    ensures "hi %s" == "hi " + ("%" + "" + "s" + "" + "")
    ensures "hi " + (Pad("bob", false, false) + "") == "hi bob"
  {
  }

  lemma AaaIsNotAFormatter()
    ensures "aaa" !in Unrendered
  {
  }

  lemma UnknownName()
    ensures FormatLog(Log, [Str("%aaa")]) == Failure(UnknownDirective("aaa"))
  {
    var args := [Str("%aaa")];
    assert "%aaa" == "%" + "" + "aaa";
    FinalDirective("", "aaa", args, 1, Log);
    AaaIsNotAFormatter();
  }

  lemma MissingString()
    ensures FormatLog(Log, [Str("%s")]) == Failure(MissingArgument(1))
    ensures FormatLog(Log, [Str("%s"), Undefined]) == Failure(MissingArgument(1))
  {
    assert "%s" == "%" + "" + "s";
    FinalDirective("", "s", [Str("%s")], 1, Log);
    FinalDirective("", "s", [Str("%s"), Undefined], 1, Log);
  }

  lemma SpaceBefore()
    ensures FormatLog(Log, [Str("1%_s"), Str("a")]) == Success("1 a")
  {
    SpaceBeforeText();
    OneDirective("1", "_", "s", "", "", [Str("1%_s"), Str("a")], 1, Log, "a");
  }

  lemma SpaceBeforeText()
    ensures "1%_s" == "1" + ("%" + "_" + "s" + "" + "")
    ensures "1" + (Pad("a", true, false) + "") == "1 a"
  {
  }

  lemma NoSpaceBeforeEmpty()
    ensures FormatLog(Log, [Str("2%_s"), Str("")]) == Success("2")
  {
    NoSpaceBeforeEmptyText();
    OneDirective("2", "_", "s", "", "", [Str("2%_s"), Str("")], 1, Log, "");
  }

  lemma NoSpaceBeforeEmptyText()
    ensures "2%_s" == "2" + ("%" + "_" + "s" + "" + "")
    ensures "2" + (Pad("", true, false) + "") == "2"
  {
  }

  lemma SpaceAfter()
    ensures FormatLog(Log, [Str("%s_3"), Str("b")]) == Success("b 3")
  {
    SpaceAfterText();
    OneDirective("", "", "s", "_", "3", [Str("%s_3"), Str("b")], 1, Log, "b");
  }

  lemma SpaceAfterText()
    ensures "%s_3" == "" + ("%" + "" + "s" + "_" + "3")
    ensures "" + (Pad("b", false, true) + "3") == "b 3"
  {
  }

  lemma NoSpaceAfterEmpty()
    ensures FormatLog(Log, [Str("%s_4"), Str("")]) == Success("4")
  {
    NoSpaceAfterEmptyText();
    OneDirective("", "", "s", "_", "4", [Str("%s_4"), Str("")], 1, Log, "");
  }

  lemma NoSpaceAfterEmptyText()
    ensures "%s_4" == "" + ("%" + "" + "s" + "_" + "4")
    ensures "" + (Pad("", false, true) + "4") == "4"
  {
  }
}

=== FILE: parse_argv.dfy ===
/**
 * src/utils/parseArgv.js: skips the leading options of an argument list
 * and returns the rest. An argument starting with `-` is an option; the
 * callback says how many of the following arguments it takes (none when it
 * answers nothing). `--` ends the options and is dropped; the first
 * argument that is not an option ends them and is kept.
 */
module ParseArgv {
  import opened Wrappers

  /** The argument after index `i`, if there is one (`argv[i + 1]`). */
  function Next(argv: seq<string>, i: nat): Option<string> {
    if i + 1 < |argv| then Some(argv[i + 1]) else None
  }

  /** An option callback: how many arguments the option takes; `None` stands for `null`/`undefined`. */
  type Callback = (string, Option<string>) -> Option<nat>

  /** `cb(arg, next) ?? 0`. */
  function Skip(cb: Callback, arg: string, next: Option<string>): nat {
    match cb(arg, next)
    case Some(n) => n
    case None => 0
  }

  predicate IsOption(arg: string) {
    "-" <= arg
  }

  /** What is left when the scan reaches index `i`: the reference definition of the loop. */
  function Rest(argv: seq<string>, cb: Callback, i: nat): (rest: seq<string>)
    decreases |argv| - i
  {
    if i >= |argv| then []
    else if argv[i] == "--" then argv[i + 1..]
    else if IsOption(argv[i]) then Rest(argv, cb, i + Skip(cb, argv[i], Next(argv, i)) + 1)
    else argv[i..]
  }

  /** The callback calls the scan makes from index `i`, in order: each option with its successor. */
  function Calls(argv: seq<string>, cb: Callback, i: nat): seq<(string, Option<string>)>
    decreases |argv| - i
  {
    if i >= |argv| || argv[i] == "--" || !IsOption(argv[i]) then []
    else [(argv[i], Next(argv, i))] + Calls(argv, cb, i + Skip(cb, argv[i], Next(argv, i)) + 1)
  }

  /**
   * `parseArgv`: the `for` loop over `i`, which jumps over the arguments an
   * option takes, then `argv.slice(i)`. The calls made to the callback are
   * returned alongside.
   */
  method Parse(argv: seq<string>, cb: Callback) returns (rest: seq<string>, calls: seq<(string, Option<string>)>)
    ensures rest == Rest(argv, cb, 0)
    ensures calls == Calls(argv, cb, 0)
  {
    var i := 0;
    calls := [];
    while i < |argv|
      invariant Rest(argv, cb, i) == Rest(argv, cb, 0)
      invariant calls + Calls(argv, cb, i) == Calls(argv, cb, 0)
      decreases |argv| - i
    {
      var arg := argv[i];
      var next := Next(argv, i);
      if arg == "--" {
        i := i + 1;
        return argv[i..], calls;
      }
      if "-" <= arg {
        calls := calls + [(arg, next)];
        i := i + Skip(cb, arg, next);
        i := i + 1;
        continue;
      }
      return argv[i..], calls;
    }
    return argv[if i < |argv| then i else |argv|..], calls;
  }

  /** The result is always a suffix of the arguments. */
  lemma {:induction false} RestIsSuffix(argv: seq<string>, cb: Callback, i: nat)
    ensures |Rest(argv, cb, i)| <= |argv|
    ensures Rest(argv, cb, i) == argv[|argv| - |Rest(argv, cb, i)|..]
    decreases |argv| - i
  {
    if i < |argv| && argv[i] != "--" && IsOption(argv[i]) {
      RestIsSuffix(argv, cb, i + Skip(cb, argv[i], Next(argv, i)) + 1);
    }
  }

  /**
   * The scan ends at `--` or at the first argument that is not an option,
   * and nothing before that point is returned: if every argument before `k`
   * is an option other than `--` and none of them takes arguments, the
   * result is the rest from `k`.
   */
  lemma {:induction false} OptionsWithoutValues(argv: seq<string>, cb: Callback, i: nat, k: nat)
    requires i <= k <= |argv|
    requires forall j :: i <= j < k ==> argv[j] != "--" && IsOption(argv[j]) && Skip(cb, argv[j], Next(argv, j)) == 0
    ensures Rest(argv, cb, i) == Rest(argv, cb, k)
    decreases k - i
  {
    if i < k {
      OptionsWithoutValues(argv, cb, i + 1, k);
    }
  }

  /** `--` is dropped and everything after it comes back verbatim, options included. */
  lemma DoubleDash(argv: seq<string>, cb: Callback, i: nat)
    requires i < |argv| && argv[i] == "--"
    ensures Rest(argv, cb, i) == argv[i + 1..]
    ensures Calls(argv, cb, i) == []
  {
  }

  /** The first argument that is not an option is returned with everything after it. */
  lemma FirstPlain(argv: seq<string>, cb: Callback, i: nat)
    requires i < |argv| && !IsOption(argv[i])
    ensures Rest(argv, cb, i) == argv[i..]
    ensures Calls(argv, cb, i) == []
  {
  }

  /** Each call names an option of the list, with the argument after it, in increasing position. */
  lemma {:induction false} CallsAreOptions(argv: seq<string>, cb: Callback, i: nat)
    ensures forall c :: c in Calls(argv, cb, i) ==>
      exists j :: i <= j < |argv| && c == (argv[j], Next(argv, j)) && IsOption(argv[j]) && argv[j] != "--"
    decreases |argv| - i
  {
    if i < |argv| && argv[i] != "--" && IsOption(argv[i]) {
      var next := i + Skip(cb, argv[i], Next(argv, i)) + 1;
      CallsAreOptions(argv, cb, next);
      forall c | c in Calls(argv, cb, i)
        ensures exists j :: i <= j < |argv| && c == (argv[j], Next(argv, j)) && IsOption(argv[j]) && argv[j] != "--"
      {
        if c != (argv[i], Next(argv, i)) {
          assert c in Calls(argv, cb, next);
        }
      }
    }
  }

  /** The callback of the tests: `-a` takes one argument, everything else none. */
  function TakesA(arg: string, next: Option<string>): Option<nat> {
    if arg == "-a" then Some(1) else Some(0)
  }

  /** Test mirror: the cases of tests/utils/parseArgv.test.js. */
  lemma Examples()
    ensures Rest([], TakesA, 0) == []
    ensures Rest(["arg"], TakesA, 0) == ["arg"]
    ensures Rest(["arg", "foo"], TakesA, 0) == ["arg", "foo"]
    ensures Rest(["-b", "foo"], TakesA, 0) == ["foo"]
    ensures Rest(["--", "foo"], TakesA, 0) == ["foo"]
    ensures Rest(["--", "-a"], TakesA, 0) == ["-a"]
    ensures Rest(["-a", "val", "-b", "1"], TakesA, 0) == ["1"]
  {
    assert ["arg", "foo"][0..] == ["arg", "foo"];
    assert !IsOption("foo") && !IsOption("1") && !IsOption("arg") by {
      assert "foo"[0] == 'f' && "1"[0] == '1' && "arg"[0] == 'a';
    }
    assert IsOption("-b") && IsOption("-a") && "-b" != "--" && "-a" != "--";
    assert ["-b", "foo"][1..] == ["foo"];
    assert Rest(["-b", "foo"], TakesA, 1) == ["foo"];
    assert Rest(["-a", "val", "-b", "1"], TakesA, 3) == ["1"];
    assert Rest(["-a", "val", "-b", "1"], TakesA, 2) == ["1"];
  }
}

=== FILE: program.dfy ===
/**
 * src/tokens/Program.js: a whole source text, a sequence of statements
 * (the alternatives of a regular block) separated by whitespace and
 * comments, and its rendering as text.
 */
module Programs {
  import opened Wrappers
  import opened Lexing
  import opened Tokens
  import opened LexerRules
  import R = RegularBlocks
  import E = EmptyStatements

  datatype Program = Program(statements: seq<R.Statement>, span: Span)

  /**
   * `tokenize`: skips whitespace and comments, then reads statements until
   * the end of the input, skipping whitespace and comments after each. On
   * success the whole input is consumed and is nothing but the statements
   * and the whitespace and comments around them. On failure, `read` are the
   * statements read before the failing position `at`, where a token starts
   * and either no statement starts (the invalid-token error at `at`) or an
   * `asm` block or a `{` block starts but does not parse.
   */
  method Tokenize(lexer: Lexer) returns (r: Result<Program, SyntaxError>, ghost read: seq<R.Statement>, ghost at: nat)
    requires lexer.Valid()
    modifies lexer
    ensures lexer.Valid() && old(lexer.position) <= lexer.position
    ensures r.Success? ==> (
      lexer.IsEndOfFile() &&
      r.value.span == Span(old(lexer.position), |lexer.backup|) &&
      R.Separated(lexer.backup, lexer.syntax.blank, r.value.statements, old(lexer.position), |lexer.backup|))
    ensures r.Failure? ==> (
      old(lexer.position) <= at < |lexer.backup| &&
      R.Separated(lexer.backup, lexer.syntax.blank, read, old(lexer.position), at) &&
      AtToken(lexer.backup[at..]) &&
      ((r.error == InvalidToken(at) && at == lexer.position &&
        R.Alternative(lexer.backup[at..], lexer.syntax.blank).None?) ||
       R.Alternative(lexer.backup[at..], lexer.syntax.blank) in {Some(R.AsmKind), Some(R.BlockKind)}))
  {
    var token := new Token(lexer);
    ghost var start := lexer.position;
    var statements: seq<R.Statement> := [];
    var wcc := Wcc(lexer);
    while !lexer.IsEndOfFile()
      invariant lexer.Valid() && start <= lexer.position
      invariant R.Separated(lexer.backup, lexer.syntax.blank, statements, start, lexer.position)
      invariant AtToken(lexer.content)
      invariant token.start == start
      decreases |lexer.content|
    {
      ghost var before := lexer.position;
      var statement := R.TokenizeStatement(lexer);
      if statement.NoMatch? {
        return Failure(InvalidToken(lexer.position)), statements, before;
      }
      if statement.Fail? {
        return Failure(statement.error), statements, before;
      }
      wcc := Wcc(lexer);
      R.SeparatedAppend(lexer.backup, lexer.syntax.blank, statements, start, before, statement.value, lexer.position);
      statements := statements + [statement.value];
    }
    var finalized := token.Finalize();
    return Success(Program(statements, Span(finalized.start, finalized.end))), statements, lexer.position;
  }

  // Rendering

  /** `Array.prototype.join("\n")`: the lines with one newline between neighbours. */
  function Join(lines: seq<string>): (text: string)
    ensures lines == [] ==> text == ""
  {
    if lines == [] then ""
    else if |lines| == 1 then lines[0]
    else lines[0] + "\n" + Join(lines[1..])
  }

  /** Every line followed by a newline. */
  function Terminated(lines: seq<string>): string {
    if lines == [] then "" else lines[0] + "\n" + Terminated(lines[1..])
  }

  /** `stringify`: the statements' lines, then an empty line, joined with newlines. */
  function Stringify(program: Program): (text: string) {
    Join(R.Lines(program.statements) + [""])
  }

  /** Joining with an empty last line is the same as ending every line with a newline. */
  lemma {:induction false} JoinTerminated(lines: seq<string>)
    ensures Join(lines + [""]) == Terminated(lines)
    decreases |lines|
  {
    if lines != [] {
      assert (lines + [""])[1..] == lines[1..] + [""];
      JoinTerminated(lines[1..]);
    }
  }

  /**
   * The rendering ends every statement line with a newline, so an empty
   * program renders as the empty text and any other ends with a newline.
   */
  lemma StringifyTerminated(program: Program)
    ensures Stringify(program) == Terminated(R.Lines(program.statements))
    ensures program.statements == [] ==> Stringify(program) == ""
    ensures R.Lines(program.statements) != [] ==> |Stringify(program)| > 0 && Stringify(program)[|Stringify(program)| - 1] == '\n'
  {
    JoinTerminated(R.Lines(program.statements));
    TerminatedEnds(R.Lines(program.statements));
  }

  lemma {:induction false} TerminatedEnds(lines: seq<string>)
    ensures lines != [] ==> |Terminated(lines)| > 0 && Terminated(lines)[|Terminated(lines)| - 1] == '\n'
    decreases |lines|
  {
    if lines != [] {
      TerminatedEnds(lines[1..]);
    }
  }

  /** Test mirror (tests/tokens/Program.test.js): an empty statement renders as `;`, a block holding one as `{`, `    ;`, `}`. */
  lemma ExampleLines(empty: R.Statement, inner: R.RegularBlock)
    requires empty.Empty? && inner.statements == [empty]
    ensures R.Lines([empty]) == [";"]
    ensures R.Stringify(inner) == ["{", "    ;", "}"]
  {
    assert R.Lines([empty]) == R.StringifyStatement(empty) + R.Lines([]);
    var lines := R.Stringify(inner);
    assert lines[1] == "    " + R.Lines(inner.statements)[0];
    assert "    " + ";" == "    ;";
  }

  /** Line lists of neighbouring statements are concatenated. */
  lemma LinesCons(statement: R.Statement, rest: seq<R.Statement>)
    ensures R.Lines([statement] + rest) == R.StringifyStatement(statement) + R.Lines(rest)
  {
    assert ([statement] + rest)[1..] == rest;
  }

  /** Terminating the lines of two lists one after the other. */
  lemma {:induction false} TerminatedAppend(a: seq<string>, b: seq<string>)
    ensures Terminated(a + b) == Terminated(a) + Terminated(b)
    decreases |a|
  {
    if a != [] {
      assert (a + b)[1..] == a[1..] + b;
      TerminatedAppend(a[1..], b);
    } else {
      assert a + b == b;
    }
  }

  lemma BlockText()
    ensures Terminated(["{", "    ;", "}"]) == "{\n    ;\n}\n"
  {
    assert Terminated(["}"]) == "}\n";
    assert ["{", "    ;", "}"][1..] == ["    ;", "}"];
    assert ["    ;", "}"][1..] == ["}"];
  }

  lemma ExampleProgramLines(empty: R.Statement, block: R.Statement)
    requires empty == R.Empty(E.EmptyStatement(Span(0, 1)))
    requires block == R.Block(R.RegularBlock([empty], Span(0, 3)))
    ensures R.Lines([empty, empty, block, block]) == [";"] + [";"] + ["{", "    ;", "}"] + ["{", "    ;", "}"]
  {
    ExampleLines(empty, block.block);
    LinesCons(block, []);
    LinesCons(block, [block]);
    assert [block] + [block] == [block, block];
    LinesCons(empty, [block, block]);
    assert [empty] + [block, block] == [empty, block, block];
    LinesCons(empty, [empty, block, block]);
    assert [empty] + [empty, block, block] == [empty, empty, block, block];
  }

  /**
   * Test mirror (tests/tokens/Program.test.js): two empty statements and
   * two blocks holding one empty statement each
   * (the comments of their source are not part of the tree) render one
   * line per statement line, blocks indented.
   */
  lemma RenderingExample()
    ensures var empty := R.Empty(E.EmptyStatement(Span(0, 1)));
      var block := R.Block(R.RegularBlock([empty], Span(0, 3)));
      Stringify(Program([empty, empty, block, block], Span(0, 0))) == ";\n;\n{\n    ;\n}\n{\n    ;\n}\n"
  {
    var empty := R.Empty(E.EmptyStatement(Span(0, 1)));
    var block := R.Block(R.RegularBlock([empty], Span(0, 3)));
    ExampleProgramLines(empty, block);
    StringifyTerminated(Program([empty, empty, block, block], Span(0, 0)));
    ExampleText();
  }

  lemma ExampleText()
    ensures Terminated([";"] + [";"] + ["{", "    ;", "}"] + ["{", "    ;", "}"]) == ";\n;\n{\n    ;\n}\n{\n    ;\n}\n"
  {
    var blockLines: seq<string> := ["{", "    ;", "}"];
    TerminatedAppend([";"] + [";"] + blockLines, blockLines);
    TerminatedAppend([";"] + [";"], blockLines);
    TerminatedAppend([";"], [";"]);
    BlockText();
    assert Terminated([";"]) == ";\n";
    assert ";\n" + ";\n" + "{\n    ;\n}\n" + "{\n    ;\n}\n" == ";\n;\n{\n    ;\n}\n{\n    ;\n}\n";
  }
}

=== FILE: regular_block.dfy ===
/**
 * src/tokens/RegularBlock.js: a `{ ... }` block of statements. Its
 * `tokenizeStatement` is also the statement rule of the whole program: an
 * assembler block, else an empty statement, else a nested regular block.
 */
module RegularBlocks {
  import opened Wrappers
  import opened Lexing
  import opened Tokens
  import opened LexerRules
  import Whitespace
  import A = AssemblerBlocks
  import E = EmptyStatements

  /** A statement of a regular block or of the program. */
  datatype Statement =
    | AsmBlock(asm: A.AssemblerBlock)
    | Empty(empty: E.EmptyStatement)
    | Block(block: RegularBlock)

  datatype RegularBlock = RegularBlock(statements: seq<Statement>, span: Span)

  /** The alternatives of `tokenizeStatement`. */
  datatype Kind = AsmKind | EmptyKind | BlockKind

  function KindOf(statement: Statement): Kind {
    match statement
    case AsmBlock(_) => AsmKind
    case Empty(_) => EmptyKind
    case Block(_) => BlockKind
  }

  function SpanOf(statement: Statement): Span {
    match statement
    case AsmBlock(asm) => asm.span
    case Empty(empty) => empty.span
    case Block(block) => block.span
  }

  /**
   * The alternative that starts the text, tried in the order of
   * `tokenizeStatement`: `asm {`, then `;`, then `{`.
   */
  function Alternative(s: string, blank: Matcher): Option<Kind> {
    if A.HeadLength(s, blank).Some? then Some(AsmKind)
    else if ";" <= s then Some(EmptyKind)
    else if "{" <= s then Some(BlockKind)
    else None
  }

  /** The first character decides: `;` is always an empty statement, `{` always a block, `a` never either. */
  lemma AlternativeByFirst(s: string, blank: Matcher)
    ensures ";" <= s ==> Alternative(s, blank) == Some(EmptyKind)
    ensures "{" <= s ==> Alternative(s, blank) == Some(BlockKind)
    ensures Alternative(s, blank) == Some(AsmKind) ==> |s| > 0 && s[0] == 'a'
  {
    if A.HeadLength(s, blank).Some? {
      assert s[..|A.Asm|] == A.Asm;
      assert s[0] == s[..|A.Asm|][0] == 'a';
    }
    if "{" <= s {
      assert s[0] == '{';
    }
  }

  /** Statements lie in source order, each non-empty and inside `[start, end]`. */
  predicate InOrder(statements: seq<Statement>, start: nat, end: nat) {
    (forall i :: 0 <= i < |statements| ==>
      start <= SpanOf(statements[i]).start < SpanOf(statements[i]).end <= end) &&
    (forall i :: 0 <= i < |statements| - 1 ==> SpanOf(statements[i]).end <= SpanOf(statements[i + 1]).start)
  }

  /** Appending a statement that starts after the last one keeps the order. */
  lemma InOrderAppend(statements: seq<Statement>, start: nat, middle: nat, statement: Statement)
    requires InOrder(statements, start, middle) && start <= middle
    requires middle <= SpanOf(statement).start < SpanOf(statement).end
    ensures InOrder(statements + [statement], start, SpanOf(statement).end)
  {
  }

  /**
   * The statements lie in order in `text[start..end]`, each of the kind
   * whose alternative applies where it starts, and the text before, between
   * and after them is whitespace and comments only. Read from the
   * end: the last statement is followed by skipped text, and the others are
   * separated in the text before it.
   */
  ghost predicate Separated(text: string, blank: Matcher, statements: seq<Statement>, start: nat, end: nat)
    decreases |statements|
  {
    start <= end <= |text| &&
    if statements == [] then Skipped(text[start..end])
    else
      var last := SpanOf(statements[|statements| - 1]);
      start <= last.start < last.end <= end &&
      Alternative(text[last.start..], blank) == Some(KindOf(statements[|statements| - 1])) &&
      Separated(text, blank, statements[..|statements| - 1], start, last.start) &&
      Skipped(text[last.end..end])
  }

  /** Separated statements are in source order. */
  lemma {:induction false} SeparatedInOrder(text: string, blank: Matcher, statements: seq<Statement>, start: nat, end: nat)
    requires Separated(text, blank, statements, start, end)
    ensures InOrder(statements, start, end)
    decreases |statements|
  {
    if statements != [] {
      var n := |statements| - 1;
      SeparatedInOrder(text, blank, statements[..n], start, SpanOf(statements[n]).start);
      assert statements == statements[..n] + [statements[n]];
      InOrderAppend(statements[..n], start, SpanOf(statements[n]).start, statements[n]);
    }
  }

  /**
   * What starts a separated run of text is a gap (a blank or a slash) or the
   * first statement: text opening with anything else holds no statements
   * separated by whitespace and comments alone.
   */
  lemma {:induction false} SeparatedStart(text: string, blank: Matcher, statements: seq<Statement>, start: nat, end: nat)
    requires Separated(text, blank, statements, start, end) && start < end
    ensures Whitespace.IsBlank(text[start]) || text[start] == '/' ||
      (statements != [] && SpanOf(statements[0]).start == start)
    decreases |statements|
  {
    if statements == [] {
      SkippedStart(text[start..end]);
      return;
    }
    var n := |statements| - 1;
    var front := statements[..n];
    var last := SpanOf(statements[n]);
    if start < last.start {
      SeparatedStart(text, blank, front, start, last.start);
      if front != [] {
        assert front[0] == statements[0];
      } else {
        assert text[start..last.start][0] == text[start];
      }
    }
  }

  /**
   * A statement read where the trailing gap ends, followed by more skipped
   * text, extends the separated statements.
   */
  lemma SeparatedAppend(text: string, blank: Matcher, statements: seq<Statement>, start: nat, middle: nat,
                        statement: Statement, end: nat)
    requires Separated(text, blank, statements, start, middle)
    requires middle == SpanOf(statement).start < SpanOf(statement).end <= end <= |text|
    requires Skipped(text[SpanOf(statement).end..end])
    requires Alternative(text[SpanOf(statement).start..], blank) == Some(KindOf(statement))
    ensures Separated(text, blank, statements + [statement], start, end)
  {
    assert (statements + [statement])[..|statements|] == statements;
  }

  /**
   * `tokenizeStatement`: the first alternative that starts the text is
   * tokenized; if none starts, nothing is consumed and there is no
   * statement. An alternative that starts but then fails is an error.
   */
  method TokenizeStatement(lexer: Lexer) returns (r: Parsed<Statement>)
    requires lexer.Valid()
    modifies lexer
    ensures lexer.Valid() && old(lexer.position) <= lexer.position
    ensures r.NoMatch? <==> Alternative(old(lexer.content), lexer.syntax.blank).None?
    ensures r.NoMatch? ==> lexer.position == old(lexer.position)
    ensures r.Match? ==> (
      Alternative(old(lexer.content), lexer.syntax.blank) == Some(KindOf(r.value)) &&
      SpanOf(r.value) == Span(old(lexer.position), lexer.position) &&
      old(lexer.position) < lexer.position)
    ensures r.Fail? ==> Alternative(old(lexer.content), lexer.syntax.blank) in {Some(AsmKind), Some(BlockKind)}
    decreases |lexer.content|, 2
  {
    var asm;
    ghost var body, close;
    asm, body, close := A.Tokenize(lexer);
    if asm.Match? {
      return Match(AsmBlock(asm.value));
    }
    if asm.Fail? {
      return Fail(asm.error);
    }
    var empty := E.Tokenize(lexer);
    if empty.Some? {
      return Match(Empty(empty.value));
    }
    var block;
    ghost var blockBody, blockClose;
    block, blockBody, blockClose := Tokenize(lexer);
    if block.Match? {
      return Match(Block(block.value));
    }
    if block.Fail? {
      return Fail(block.error);
    }
    return NoMatch;
  }

  /**
   * `tokenize`: `{`, or nothing consumed and no block; then statements
   * separated by whitespace and comments for as long as one starts, in
   * source order; then `}`, whose absence is an error at that position.
   */
  method Tokenize(lexer: Lexer) returns (r: Parsed<RegularBlock>, ghost body: nat, ghost close: nat)
    requires lexer.Valid()
    modifies lexer
    ensures lexer.Valid() && old(lexer.position) <= lexer.position
    ensures r.NoMatch? <==> !("{" <= old(lexer.content))
    ensures r.NoMatch? ==> lexer.position == old(lexer.position)
    ensures r.Match? ==> (
      r.value.span == Span(old(lexer.position), lexer.position) &&
      body == old(lexer.position) + 1 && body <= close && close + 1 == lexer.position &&
      lexer.backup[old(lexer.position)] == '{' && lexer.backup[close] == '}' &&
      Separated(lexer.backup, lexer.syntax.blank, r.value.statements, body, close))
    ensures r.Fail? ==> "{" <= old(lexer.content)
    decreases |lexer.content|, 1
  {
    var token := new Token(lexer);
    var open := lexer.Eat("{");
    if !open {
      return NoMatch, lexer.position, lexer.position;
    }
    assert lexer.backup[token.start] == lexer.backup[token.start..][0];
    body := lexer.position;
    var statements;
    statements, close := TokenizeBody(lexer);
    if statements.Failure? {
      return Fail(statements.error), body, close;
    }
    assert body == token.start + 1;
    var finalized := token.Finalize();
    return Match(RegularBlock(statements.value, Span(finalized.start, finalized.end))), body, close;
  }

  /** The statements of a block after its `{`, and the closing `}`, at `close`. */
  method TokenizeBody(lexer: Lexer) returns (r: Result<seq<Statement>, SyntaxError>, ghost close: nat)
    requires lexer.Valid()
    modifies lexer
    ensures lexer.Valid() && old(lexer.position) <= lexer.position
    ensures r.Success? ==> (
      old(lexer.position) <= close && close + 1 == lexer.position && lexer.backup[close] == '}' &&
      Separated(lexer.backup, lexer.syntax.blank, r.value, old(lexer.position), close))
    decreases |lexer.content|, 4
  {
    r := TokenizeChildren(lexer);
    close := lexer.position;
    if r.Failure? {
      return;
    }
    var closing := lexer.Eat("}");
    if !closing {
      return Failure(InvalidToken(lexer.position)), close;
    }
    assert lexer.backup[close] == lexer.backup[close..][0];
  }

  /**
   * Statements separated by whitespace and comments, for as long as one
   * starts; on success the text left starts with no statement.
   */
  method TokenizeChildren(lexer: Lexer) returns (r: Result<seq<Statement>, SyntaxError>)
    requires lexer.Valid()
    modifies lexer
    ensures lexer.Valid() && old(lexer.position) <= lexer.position
    ensures r.Success? ==> (
      Separated(lexer.backup, lexer.syntax.blank, r.value, old(lexer.position), lexer.position) &&
      AtToken(lexer.content) && Alternative(lexer.content, lexer.syntax.blank).None?)
    decreases |lexer.content|, 3
  {
    ghost var start := lexer.position;
    var statements: seq<Statement> := [];
    var wcc := Wcc(lexer);
    while true
      invariant lexer.Valid() && start <= lexer.position
      invariant Separated(lexer.backup, lexer.syntax.blank, statements, start, lexer.position)
      invariant AtToken(lexer.content)
      decreases |lexer.content|
    {
      ghost var before := lexer.position;
      var statement := TokenizeStatement(lexer);
      if statement.NoMatch? {
        return Success(statements);
      }
      if statement.Fail? {
        return Failure(statement.error);
      }
      wcc := Wcc(lexer);
      SeparatedAppend(lexer.backup, lexer.syntax.blank, statements, start, before, statement.value, lexer.position);
      statements := statements + [statement.value];
    }
  }

  // Rendering

  /** The lines of the statements, each statement's lines in order. */
  function Lines(statements: seq<Statement>): (lines: seq<string>)
    decreases statements
  {
    if statements == [] then [] else StringifyStatement(statements[0]) + Lines(statements[1..])
  }

  function StringifyStatement(statement: Statement): (lines: seq<string>)
    decreases statement
  {
    match statement
    case AsmBlock(asm) => A.Stringify(asm)
    case Empty(empty) => E.Stringify(empty)
    case Block(block) => Stringify(block)
  }

  /**
   * `stringify`: `{`, the statements' lines indented, then `}`; two lines
   * more than the statements have.
   */
  function Stringify(block: RegularBlock): (lines: seq<string>)
    ensures |lines| == |Lines(block.statements)| + 2
    ensures lines[0] == "{" && lines[|lines| - 1] == "}"
    ensures forall k :: 0 <= k < |Lines(block.statements)| ==> lines[k + 1] == "    " + Lines(block.statements)[k]
    decreases block
  {
    ["{"] + Indent(Lines(block.statements)) + ["}"]
  }
}

=== FILE: sib.dfy ===
/**
 * The bracket operand shared by both assembler grammars
 * (src/tokens/AssemblerArgument.js and src/tokens/AssemblerStatement.js carry
 * identical copies of `compileSib` and of the bracket rendering): the parts
 * read between `[` and `]`, the roles `compileSib` gives them and the
 * canonical text `stringifySib` renders.
 */
module Sibs {
  import opened Wrappers

  /**
   * One bracket part: a signed integer with the sign of the separator before
   * it (`minus` is true after ` - `), or a register with an optional scale.
   */
  datatype Part = IntegerPart(integer: string, minus: bool) | RegisterPart(register: string, scale: Option<string>)

  /** The `{scale, base, index, disp, minus}` record. */
  datatype Sib = Sib(scale: Option<string>, base: Option<string>, index: Option<string>, disp: Option<string>, minus: bool)

  /** Why `compileSib` throws: more than three parts, a second integer, or a register with no free role. */
  datatype SibError = TooManyParts | SecondInteger | NoFreeRole

  const EmptySib: Sib := Sib(None, None, None, None, false)

  /** One pass of the `compileSib` loop body: the role the part takes in the record built so far. */
  function Assign(sib: Sib, part: Part): Result<Sib, SibError> {
    match part
    case IntegerPart(integer, minus) =>
      if sib.disp.None? then Success(sib.(disp := Some(integer), minus := minus))
      else Failure(SecondInteger)
    case RegisterPart(register, scale) =>
      if scale.Some? && sib.scale.None? && sib.index.None? then
        Success(sib.(scale := scale, index := Some(register)))
      else if sib.base.None? then Success(sib.(base := Some(register)))
      else if sib.index.None? then Success(sib.(index := Some(register)))
      else Failure(NoFreeRole)
  }

  /** The parts assigned from left to right, stopping at the first error. */
  function AssignAll(sib: Sib, parts: seq<Part>): Result<Sib, SibError>
    decreases |parts|
  {
    if parts == [] then Success(sib)
    else match Assign(sib, parts[0])
      case Failure(e) => Failure(e)
      case Success(next) => AssignAll(next, parts[1..])
  }

  /** What `compileSib` computes. */
  function Compile(parts: seq<Part>): Result<Sib, SibError> {
    if |parts| > 3 then Failure(TooManyParts) else AssignAll(EmptySib, parts)
  }

  lemma AssignAllAppend(sib: Sib, parts: seq<Part>, part: Part)
    requires AssignAll(sib, parts).Success?
    ensures AssignAll(sib, parts + [part]) == Assign(AssignAll(sib, parts).value, part)
    decreases |parts|
  {
    if parts != [] {
      assert (parts + [part])[1..] == parts[1..] + [part];
    }
  }

  /** A part that throws ends the loop: the outcome of the whole list is the failure at that part. */
  lemma StopsAt(parts: seq<Part>, k: nat)
    requires k < |parts| <= 3
    requires AssignAll(EmptySib, parts[..k + 1]).Failure?
    ensures Compile(parts) == AssignAll(EmptySib, parts[..k + 1])
  {
    FailureSticks(EmptySib, parts[..k + 1], parts[k + 1..]);
    assert parts[..k + 1] + parts[k + 1..] == parts;
  }

  /** `compileSib`: the loop over the parts, proved to compute `Compile`. */
  method CompileSib(parts: seq<Part>) returns (r: Result<Sib, SibError>)
    ensures r == Compile(parts)
  {
    if |parts| > 3 {
      return Failure(TooManyParts);
    }
    var sib := EmptySib;
    for k := 0 to |parts|
      invariant AssignAll(EmptySib, parts[..k]) == Success(sib)
    {
      AssignAllAppend(EmptySib, parts[..k], parts[k]);
      assert parts[..k + 1] == parts[..k] + [parts[k]];
      match parts[k]
      case IntegerPart(integer, minus) =>
        if sib.disp.None? {
          sib := sib.(disp := Some(integer), minus := minus);
          continue;
        }
        StopsAt(parts, k);
        return Failure(SecondInteger);
      case RegisterPart(register, scale) =>
        if scale.Some? && sib.scale.None? && sib.index.None? {
          sib := sib.(scale := scale, index := Some(register));
          continue;
        }
        if sib.base.None? {
          sib := sib.(base := Some(register));
          continue;
        }
        if sib.index.None? {
          sib := sib.(index := Some(register));
          continue;
        }
        StopsAt(parts, k);
        return Failure(NoFreeRole);
    }
    assert parts[..|parts|] == parts;
    return Success(sib);
  }

  // An independent description of the roles: registers and integers counted
  // and placed by their order among their own kind.

  /** The register parts, in order. */
  function Registers(parts: seq<Part>): (r: seq<Part>)
    ensures |r| <= |parts|
    ensures forall k :: 0 <= k < |r| ==> r[k].RegisterPart?
  {
    if parts == [] then []
    else (if parts[0].RegisterPart? then [parts[0]] else []) + Registers(parts[1..])
  }

  /** The integer parts, in order. */
  function Integers(parts: seq<Part>): (r: seq<Part>)
    ensures |r| <= |parts|
    ensures forall k :: 0 <= k < |r| ==> r[k].IntegerPart?
  {
    if parts == [] then []
    else (if parts[0].IntegerPart? then [parts[0]] else []) + Integers(parts[1..])
  }

  /**
   * The record for at most one integer and at most two registers: the integer
   * is the displacement with its sign; a lone register is the base, or the
   * index when scaled; of two registers a scaled first one is the index and
   * the second the base (whose own scale is dropped), otherwise the first is
   * the base and the second the index with its scale.
   */
  function Roles(integers: seq<Part>, registers: seq<Part>): Sib
    requires |integers| <= 1 && |registers| <= 2
    requires forall k :: 0 <= k < |integers| ==> integers[k].IntegerPart?
    requires forall k :: 0 <= k < |registers| ==> registers[k].RegisterPart?
  {
    var disp := if |integers| == 1 then Some(integers[0].integer) else None;
    var minus := |integers| == 1 && integers[0].minus;
    if |registers| == 0 then Sib(None, None, None, disp, minus)
    else if |registers| == 1 then
      var a := registers[0];
      if a.scale.Some? then Sib(a.scale, None, Some(a.register), disp, minus)
      else Sib(None, Some(a.register), None, disp, minus)
    else
      var a := registers[0];
      var b := registers[1];
      if a.scale.Some? then Sib(a.scale, Some(b.register), Some(a.register), disp, minus)
      else Sib(b.scale, Some(a.register), Some(b.register), disp, minus)
  }

  /** One more part moves the record from the roles of the parts so far to the roles of all of them. */
  lemma AssignStep(integers: seq<Part>, registers: seq<Part>, part: Part)
    requires |integers| <= 1 && |registers| <= 2
    requires forall k :: 0 <= k < |integers| ==> integers[k].IntegerPart?
    requires forall k :: 0 <= k < |registers| ==> registers[k].RegisterPart?
    ensures Assign(Roles(integers, registers), part).Success? <==>
      (if part.IntegerPart? then |integers| == 0 else |registers| < 2)
    ensures part.IntegerPart? && |integers| == 0 ==>
      Assign(Roles(integers, registers), part) == Success(Roles([part], registers))
    ensures part.RegisterPart? && |registers| < 2 ==>
      Assign(Roles(integers, registers), part) == Success(Roles(integers, registers + [part]))
  {
  }

  /** The `compileSib` state after a prefix: `Roles` of the parts seen so far. */
  lemma {:induction false} AssignAllRoles(parts: seq<Part>)
    ensures AssignAll(EmptySib, parts).Success? <==> |Integers(parts)| <= 1 && |Registers(parts)| <= 2
    ensures AssignAll(EmptySib, parts).Success? ==>
      AssignAll(EmptySib, parts).value == Roles(Integers(parts), Registers(parts))
    decreases |parts|
  {
    if parts != [] {
      var front := parts[..|parts| - 1];
      var last := parts[|parts| - 1];
      AssignAllRoles(front);
      AssignRolesLast(front, last);
      assert parts == front + [last];
    }
  }

  /** The step of `AssignAllRoles`: one more part after a prefix whose state is known. */
  lemma AssignRolesLast(front: seq<Part>, last: Part)
    requires AssignAll(EmptySib, front).Success? <==> |Integers(front)| <= 1 && |Registers(front)| <= 2
    requires AssignAll(EmptySib, front).Success? ==>
      AssignAll(EmptySib, front).value == Roles(Integers(front), Registers(front))
    ensures AssignAll(EmptySib, front + [last]).Success? <==>
      |Integers(front + [last])| <= 1 && |Registers(front + [last])| <= 2
    ensures AssignAll(EmptySib, front + [last]).Success? ==>
      AssignAll(EmptySib, front + [last]).value == Roles(Integers(front + [last]), Registers(front + [last]))
  {
    SplitLast(front, last);
    if AssignAll(EmptySib, front).Success? {
      AssignAllAppend(EmptySib, front, last);
      AssignStep(Integers(front), Registers(front), last);
    } else {
      FailureSticks(EmptySib, front, [last]);
    }
  }

  lemma {:induction false} SplitLast(front: seq<Part>, last: Part)
    ensures Registers(front + [last]) == Registers(front) + (if last.RegisterPart? then [last] else [])
    ensures Integers(front + [last]) == Integers(front) + (if last.IntegerPart? then [last] else [])
    decreases |front|
  {
    if front != [] {
      assert (front + [last])[1..] == front[1..] + [last];
      SplitLast(front[1..], last);
    }
  }

  lemma {:induction false} FailureSticks(sib: Sib, parts: seq<Part>, more: seq<Part>)
    requires AssignAll(sib, parts).Failure?
    ensures AssignAll(sib, parts + more) == AssignAll(sib, parts)
    decreases |parts|
  {
    assert parts != [];
    assert (parts + more)[0] == parts[0];
    assert (parts + more)[1..] == parts[1..] + more;
    if Assign(sib, parts[0]).Success? {
      FailureSticks(Assign(sib, parts[0]).value, parts[1..], more);
    }
  }

  /**
   * `compileSib` in full: it fails exactly on more than three parts, a second
   * integer or a third register, and otherwise yields `Roles`.
   */
  lemma CompileMeaning(parts: seq<Part>)
    ensures Compile(parts).Failure? <==>
      |parts| > 3 || |Integers(parts)| > 1 || |Registers(parts)| > 2
    ensures Compile(parts).Success? ==>
      Compile(parts).value == Roles(Integers(parts), Registers(parts))
  {
    AssignAllRoles(parts);
  }

  // The canonical rendering.

  /** `stringifySib`: base, then `index * scale`, then the signed displacement, separated only between non-empty pieces. */
  function StringifySib(sib: Sib): string {
    "[" + WithDisp(sib) + "]"
  }

  /** The text after the base: the base register or nothing. */
  function WithBase(sib: Sib): string {
    if sib.base.Some? then sib.base.value else ""
  }

  /** The text after the index: ` + ` only after a non-empty base, the scale only when set. */
  function WithIndex(sib: Sib): string {
    var base := WithBase(sib);
    if sib.index.None? then base
    else
      (if base != "" then base + " + " else base) + sib.index.value +
      (if sib.scale.Some? then " * " + sib.scale.value else "")
  }

  /** The text after the displacement: its separator only after a non-empty text. */
  function WithDisp(sib: Sib): string {
    var index := WithIndex(sib);
    if sib.disp.None? then index
    else
      (if index != "" then index + (if sib.minus then " - " else " + ") else index) + sib.disp.value
  }

  /** The parts a reader meets in the canonical rendering, in their order there. */
  function CanonicalParts(sib: Sib): seq<Part> {
    BasePart(sib) + IndexPart(sib) + DispPart(sib)
  }

  function RenderPart(part: Part): string {
    match part
    case IntegerPart(integer, _) => integer
    case RegisterPart(register, scale) => register + (if scale.Some? then " * " + scale.value else "")
  }

  /** The parts between brackets, each after the first preceded by ` + ` or, for a negated integer, ` - `. */
  function RenderParts(parts: seq<Part>): string {
    "[" + JoinParts(parts) + "]"
  }

  function JoinParts(parts: seq<Part>): string
    decreases |parts|
  {
    if parts == [] then ""
    else if |parts| == 1 then RenderPart(parts[0])
    else
      var last := parts[|parts| - 1];
      JoinParts(parts[..|parts| - 1]) + Separator(last) + RenderPart(last)
  }

  function Separator(part: Part): string {
    if part.IntegerPart? && part.minus then " - " else " + "
  }

  lemma JoinPartsSnoc(parts: seq<Part>, part: Part)
    ensures JoinParts(parts + [part]) ==
      if parts == [] then RenderPart(part) else JoinParts(parts) + Separator(part) + RenderPart(part)
  {
    assert (parts + [part])[..|parts|] == parts;
  }

  /**
   * The shape the parser produces and the rendering keeps: a scale only with
   * an index, an unscaled index only beside a base, and a negated
   * displacement only after a register.
   */
  predicate WellFormed(sib: Sib) {
    (sib.scale.Some? ==> sib.index.Some?) &&
    (sib.index.Some? && sib.scale.None? ==> sib.base.Some?) &&
    (sib.minus ==> sib.disp.Some? && (sib.base.Some? || sib.index.Some?))
  }

  function BasePart(sib: Sib): seq<Part> {
    if sib.base.Some? then [RegisterPart(sib.base.value, None)] else []
  }

  function IndexPart(sib: Sib): seq<Part> {
    if sib.index.Some? then [RegisterPart(sib.index.value, sib.scale)] else []
  }

  function DispPart(sib: Sib): seq<Part> {
    if sib.disp.Some? then [IntegerPart(sib.disp.value, sib.minus)] else []
  }

  lemma JoinIndex(sib: Sib)
    requires sib.base.Some? ==> sib.base.value != ""
    ensures JoinParts(BasePart(sib) + IndexPart(sib)) == WithIndex(sib)
  {
    if sib.index.Some? {
      JoinPartsSnoc(BasePart(sib), IndexPart(sib)[0]);
    } else {
      assert BasePart(sib) + IndexPart(sib) == BasePart(sib);
    }
  }

  lemma JoinDisp(sib: Sib)
    requires sib.base.Some? ==> sib.base.value != ""
    requires sib.index.Some? ==> sib.index.value != ""
    ensures JoinParts(BasePart(sib) + IndexPart(sib) + DispPart(sib)) == WithDisp(sib)
  {
    JoinIndex(sib);
    var front := BasePart(sib) + IndexPart(sib);
    assert WithIndex(sib) == "" <==> front == [];
    if sib.disp.Some? {
      JoinPartsSnoc(front, DispPart(sib)[0]);
    } else {
      assert front + DispPart(sib) == front;
    }
  }

  /** The canonical text is the rendering of the canonical parts (register names are never empty). */
  lemma StringifyRendersParts(sib: Sib)
    requires sib.base.Some? ==> sib.base.value != ""
    requires sib.index.Some? ==> sib.index.value != ""
    ensures StringifySib(sib) == RenderParts(CanonicalParts(sib))
  {
    JoinDisp(sib);
  }

  /**
   * Re-reading the canonical rendering gives back the record: compiling the
   * canonical parts of a well-formed record yields that record.
   */
  lemma CompileCanonical(sib: Sib)
    requires WellFormed(sib)
    ensures Compile(CanonicalParts(sib)) == Success(sib)
  {
    CanonicalKinds(sib);
    CompileMeaning(CanonicalParts(sib));
  }

  lemma CanonicalKinds(sib: Sib)
    ensures Registers(CanonicalParts(sib)) == BasePart(sib) + IndexPart(sib)
    ensures Integers(CanonicalParts(sib)) == DispPart(sib)
  {
    var b, i, d := BasePart(sib), IndexPart(sib), DispPart(sib);
    KindsAppend(b, i);
    KindsAppend(b + i, d);
    if sib.base.Some? {
      KindsSingle(b[0]);
    }
    if sib.index.Some? {
      KindsSingle(i[0]);
    }
    if sib.disp.Some? {
      KindsSingle(d[0]);
    }
  }

  lemma KindsSingle(part: Part)
    ensures Registers([part]) == if part.RegisterPart? then [part] else []
    ensures Integers([part]) == if part.IntegerPart? then [part] else []
  {
    assert [part][1..] == [];
  }

  lemma {:induction false} KindsAppend(a: seq<Part>, b: seq<Part>)
    ensures Registers(a + b) == Registers(a) + Registers(b)
    ensures Integers(a + b) == Integers(a) + Integers(b)
    decreases |a|
  {
    if a == [] {
      assert a + b == b;
    } else {
      assert (a + b)[0] == a[0];
      assert (a + b)[1..] == a[1..] + b;
      KindsAppend(a[1..], b);
    }
  }

  /** Every record compiled from parser-shaped parts (a leading integer is never negated) is well formed. */
  lemma CompiledIsWellFormed(parts: seq<Part>)
    requires Compile(parts).Success?
    requires parts != [] && parts[0].IntegerPart? ==> !parts[0].minus
    ensures WellFormed(Compile(parts).value)
  {
    CompileMeaning(parts);
    if Compile(parts).value.minus {
      IntegerAfterRegister(parts);
    }
  }

  /**
   * The rendering of a record compiled from parser-shaped parts is stable:
   * reading its canonical parts back compiles to the same record.
   */
  lemma CompiledRoundTrip(parts: seq<Part>)
    requires Compile(parts).Success?
    requires parts != [] && parts[0].IntegerPart? ==> !parts[0].minus
    ensures Compile(CanonicalParts(Compile(parts).value)) == Compile(parts)
  {
    CompiledIsWellFormed(parts);
    CompileCanonical(Compile(parts).value);
  }

  /** A negated integer that is not the first part has a register before it when at most one integer occurs. */
  lemma {:induction false} IntegerAfterRegister(parts: seq<Part>)
    requires |Integers(parts)| == 1 && Integers(parts)[0].minus
    requires parts != [] && parts[0].IntegerPart? ==> !parts[0].minus
    ensures |Registers(parts)| >= 1
  {
    assert parts != [];
    if parts[0].IntegerPart? {
      assert false;
    } else {
      assert Registers(parts) == [parts[0]] + Registers(parts[1..]);
    }
  }

  /** Test mirror (tests/tokens/AssemblerArgument.test.js): bracket parts as read, the record `compileSib` builds. */
  lemma CompileExamples()
    ensures Compile([IntegerPart("+1", false), RegisterPart("eax", Some("1"))]) ==
      Success(Sib(Some("1"), None, Some("eax"), Some("+1"), false))
    ensures Compile([IntegerPart("-1", false), RegisterPart("eax", None)]) ==
      Success(Sib(None, Some("eax"), None, Some("-1"), false))
    ensures Compile([RegisterPart("eax", None), IntegerPart("-1", true)]) ==
      Success(Sib(None, Some("eax"), None, Some("-1"), true))
    ensures Compile([IntegerPart("0xFF", false), RegisterPart("eax", Some("4"))]) ==
      Success(Sib(Some("4"), None, Some("eax"), Some("0xFF"), false))
    ensures Compile([IntegerPart("-0x10", false)]) == Success(Sib(None, None, None, Some("-0x10"), false))
  {
    CompileMeaning([IntegerPart("+1", false), RegisterPart("eax", Some("1"))]);
    CompileMeaning([IntegerPart("-1", false), RegisterPart("eax", None)]);
    CompileMeaning([RegisterPart("eax", None), IntegerPart("-1", true)]);
    CompileMeaning([IntegerPart("0xFF", false), RegisterPart("eax", Some("4"))]);
    CompileMeaning([IntegerPart("-0x10", false)]);
  }

  /** Test mirror (tests/tokens/AssemblerArgument.test.js): the text each compiled bracket record renders as. */
  lemma StringifyExamples()
    ensures StringifySib(Sib(Some("1"), None, Some("eax"), Some("+1"), false)) == "[eax * 1 + +1]"
    ensures StringifySib(Sib(None, Some("eax"), None, Some("-1"), false)) == "[eax + -1]"
    ensures StringifySib(Sib(None, Some("eax"), None, Some("-1"), true)) == "[eax - -1]"
    ensures StringifySib(Sib(Some("4"), None, Some("eax"), Some("0xFF"), false)) == "[eax * 4 + 0xFF]"
    ensures StringifySib(Sib(None, None, None, Some("-0x10"), false)) == "[-0x10]"
  {
    ScaledOneText();
    BaseAddedText();
    BaseSubtractedText();
    ScaledFourText();
    DispOnlyText();
  }

  lemma ScaledOneText()
    ensures StringifySib(Sib(Some("1"), None, Some("eax"), Some("+1"), false)) == "[eax * 1 + +1]"
  {
    var sib := Sib(Some("1"), None, Some("eax"), Some("+1"), false);
    assert WithIndex(sib) == "eax * 1";
    assert WithDisp(sib) == "eax * 1 + +1";
  }

  lemma BaseAddedText()
    ensures StringifySib(Sib(None, Some("eax"), None, Some("-1"), false)) == "[eax + -1]"
  {
    var sib := Sib(None, Some("eax"), None, Some("-1"), false);
    assert WithIndex(sib) == "eax";
    assert WithDisp(sib) == "eax + -1";
  }

  lemma BaseSubtractedText()
    ensures StringifySib(Sib(None, Some("eax"), None, Some("-1"), true)) == "[eax - -1]"
  {
    var sib := Sib(None, Some("eax"), None, Some("-1"), true);
    assert WithIndex(sib) == "eax";
    assert WithDisp(sib) == "eax - -1";
  }

  lemma ScaledFourText()
    ensures StringifySib(Sib(Some("4"), None, Some("eax"), Some("0xFF"), false)) == "[eax * 4 + 0xFF]"
  {
    var sib := Sib(Some("4"), None, Some("eax"), Some("0xFF"), false);
    assert WithIndex(sib) == "eax * 4";
    assert WithDisp(sib) == "eax * 4 + 0xFF";
  }

  lemma DispOnlyText()
    ensures StringifySib(Sib(None, None, None, Some("-0x10"), false)) == "[-0x10]"
  {
    var sib := Sib(None, None, None, Some("-0x10"), false);
    assert WithIndex(sib) == "";
    assert WithDisp(sib) == "-0x10";
  }

  /** A second scaled register lands in the base and its scale is dropped. */
  lemma SecondScaleDropped()
    ensures Compile([RegisterPart("eax", Some("2")), RegisterPart("ebx", Some("4"))]) ==
      Success(Sib(Some("2"), Some("ebx"), Some("eax"), None, false))
    ensures StringifySib(Sib(Some("2"), Some("ebx"), Some("eax"), None, false)) == "[ebx + eax * 2]"
  {
    var parts := [RegisterPart("eax", Some("2")), RegisterPart("ebx", Some("4"))];
    assert parts[1..] == [parts[1]] && [parts[1]][1..] == [];
    assert AssignAll(EmptySib, parts) == AssignAll(Sib(Some("2"), None, Some("eax"), None, false), [parts[1]]);
    assert WithIndex(Sib(Some("2"), Some("ebx"), Some("eax"), None, false)) == "ebx + eax * 2";
  }
}

=== FILE: token.dfy ===
/**
 * src/tokens/Token.js: the base of every grammar node, a pair of source
 * positions tied to the lexer that produced it. The grammar tokens of this
 * model are values; each records the `Span` its `Token` had when finalized.
 */
module Tokens {
  import opened Lexing

  /** The positions a finalized token covers. */
  datatype Span = Span(start: nat, end: nat)

  /**
   * What a reader finds at a position of the text: nothing (and it consumes
   * nothing), a value whose text ends at `end`, or an error it throws.
   */
  datatype Reading<+T> = Absent | Got(value: T, end: nat) | Throws

  /** Where the last of the spans `cuts`, read one after another, ends; `start` when there is none. */
  function LastEnd(cuts: seq<(nat, nat)>, start: nat): nat {
    if cuts == [] then start else cuts[|cuts| - 1].1
  }

  class Token {
    const lexer: Lexer
    var start: nat
    var end: nat

    /** A new token starts and ends at the lexer's current position. */
    constructor (lexer: Lexer)
      ensures this.lexer == lexer && start == lexer.position && end == lexer.position
    {
      this.lexer := lexer;
      start := lexer.position;
      end := lexer.position;
    }

    /** The `position` getter: the lexer's position, read without changing anything. */
    function Position(): (p: nat)
      reads this, lexer
      ensures p == lexer.position
    {
      lexer.position
    }

    /** `finalize`: the end moves to the current position; the token itself is returned. */
    method Finalize() returns (self: Token)
      modifies this
      ensures self == this && end == lexer.position && start == old(start)
    {
      end := Position();
      return this;
    }

    /** `fixStart`: takes over another token's start; the end stays. */
    method FixStart(token: Token)
      modifies this
      ensures start == old(token.start) && end == old(end)
    {
      start := token.start;
    }
  }
}

=== FILE: types.dfy ===
/**
 * The six integer-width descriptors of src/types.js: the inclusive range of
 * values a width can hold, its size in bytes and the Node.js buffer writer
 * that stores it.
 */
module Types {

  /** 2 to the power n. */
  function Pow2(n: nat): (r: nat)
    ensures r >= 1
  {
    if n == 0 then 1 else 2 * Pow2(n - 1)
  }

  lemma {:induction false} Pow2Add(a: nat, b: nat)
    ensures Pow2(a + b) == Pow2(a) * Pow2(b)
  {
    if a > 0 {
      Pow2Add(a - 1, b);
    }
  }

  lemma Pow2Values()
    ensures Pow2(8) == 0x100 && Pow2(16) == 0x1_0000 && Pow2(32) == 0x1_0000_0000
    ensures Pow2(7) == 0x80 && Pow2(15) == 0x8000 && Pow2(31) == 0x8000_0000
  {
    Pow2Add(7, 1);
    Pow2Add(8, 7);
    Pow2Add(15, 1);
    Pow2Add(16, 15);
    Pow2Add(31, 1);
  }

  /** One width descriptor; `writer` names the Node.js Buffer method. */
  datatype IntType = IntType(min: int, max: int, size: nat, writer: string)

  const U8: IntType := IntType(0x0, 0xff, 1, "writeUInt8")
  const I8: IntType := IntType(-0x80, 0x7f, 1, "writeInt8")
  const U16: IntType := IntType(0x0, 0xffff, 2, "writeUInt16LE")
  const I16: IntType := IntType(-0x8000, 0x7fff, 2, "writeInt16LE")
  const U32: IntType := IntType(0x0, 0xffff_ffff, 4, "writeUInt32LE")
  const I32: IntType := IntType(-0x8000_0000, 0x7fff_ffff, 4, "writeInt32LE")

  const Unsigned: seq<IntType> := [U8, U16, U32]
  const Signed: seq<IntType> := [I8, I16, I32]

  /** `is(v)`: v lies in the descriptor's inclusive range. */
  predicate Is(t: IntType, v: int) {
    t.min <= v && v <= t.max
  }

  /** Every unsigned width covers exactly [0, 2^(8*size) - 1]. */
  lemma UnsignedRanges()
    ensures forall k :: 0 <= k < |Unsigned| ==>
      Unsigned[k].min == 0 && Unsigned[k].max == Pow2(8 * Unsigned[k].size) - 1
    ensures U8.size == 1 && U16.size == 2 && U32.size == 4
  {
    Pow2Values();
  }

  /** Every signed width covers exactly [-2^(8*size-1), 2^(8*size-1) - 1]. */
  lemma SignedRanges()
    ensures forall k :: 0 <= k < |Signed| ==>
      Signed[k].size >= 1 &&
      Signed[k].min == -(Pow2(8 * Signed[k].size - 1) as int) &&
      Signed[k].max == Pow2(8 * Signed[k].size - 1) - 1
    ensures I8.size == 1 && I16.size == 2 && I32.size == 4
  {
    Pow2Values();
  }

  /** The signed and the unsigned width of one size each hold 2^(8*size) values. */
  lemma SameSizeSameSpan()
    ensures forall k :: 0 <= k < 3 ==>
      Signed[k].size == Unsigned[k].size &&
      Signed[k].max - Signed[k].min + 1 == Pow2(8 * Signed[k].size) &&
      Unsigned[k].max - Unsigned[k].min + 1 == Pow2(8 * Unsigned[k].size)
  {
    Pow2Values();
  }

  /** Narrower ranges sit inside wider ones of the same signedness. */
  lemma Nested(v: int)
    ensures Is(U8, v) ==> Is(U16, v)
    ensures Is(U16, v) ==> Is(U32, v)
    ensures Is(I8, v) ==> Is(I16, v)
    ensures Is(I16, v) ==> Is(I32, v)
  {
  }

  /** `is` holds exactly on the values a width of `size` bytes can hold, for both signednesses. */
  lemma {:induction false} IsMatchesBitWidth(k: nat, v: int)
    requires k < 3
    ensures Signed[k].size >= 1
    ensures Is(Unsigned[k], v) <==> 0 <= v < Pow2(8 * Unsigned[k].size)
    ensures Is(Signed[k], v) <==> -(Pow2(8 * Signed[k].size - 1) as int) <= v < Pow2(8 * Signed[k].size - 1)
  {
    Pow2Values();
  }
}

=== FILE: u16b.dfy ===
/**
 * src/utils/u16b.js: `u16b(buf, off)` returns a writer bound to `buf` and to
 * the offset box `off` (a one-element array shared with the caller). Each call
 * stores a value as 2 little-endian bytes at `off[0]` and moves `off[0]` past them.
 * The closure is modelled as an object holding the two bindings.
 */
module U16b {
  import opened Types
  import opened LittleEndian

  class U16Writer {
    const buf: array<Byte>
    const off: array<int>

    /** `u16b(buf, off)`: bind the writer. */
    constructor (buf: array<Byte>, off: array<int>)
      ensures this.buf == buf && this.off == off
    {
      this.buf := buf;
      this.off := off;
    }

    /** One call of the returned closure: write `val`, then splice the new offset into the box. */
    method Call(val: int)
      requires off.Length >= 1
      requires Is(Types.U16, val)
      requires 0 <= off[0] && off[0] + 2 <= buf.Length
      modifies buf, off
      ensures buf[..] == Write(old(buf[..]), old(off[0]), Encode(val, 2))
      ensures off[0] == old(off[0]) + 2
      ensures off[1..] == old(off[1..])
    {
      var o := off[0];
      Encode16Bytes(val);
      buf[o] := val % 0x100;
      buf[o + 1] := val / 0x100;
      off[0] := o + 2;
    }
  }
}

=== FILE: u32b.dfy ===
/**
 * src/utils/u32b.js: `u32b(buf, off)` returns a writer bound to `buf` and to
 * the offset box `off` (a one-element array shared with the caller). Each call
 * stores a value as 4 little-endian bytes at `off[0]` and moves `off[0]` past them.
 * The closure is modelled as an object holding the two bindings.
 */
module U32b {
  import opened Types
  import opened LittleEndian

  class U32Writer {
    const buf: array<Byte>
    const off: array<int>

    /** `u32b(buf, off)`: bind the writer. */
    constructor (buf: array<Byte>, off: array<int>)
      ensures this.buf == buf && this.off == off
    {
      this.buf := buf;
      this.off := off;
    }

    /** One call of the returned closure: write `val`, then splice the new offset into the box. */
    method Call(val: int)
      requires off.Length >= 1
      requires Is(Types.U32, val)
      requires 0 <= off[0] && off[0] + 4 <= buf.Length
      modifies buf, off
      ensures buf[..] == Write(old(buf[..]), old(off[0]), Encode(val, 4))
      ensures off[0] == old(off[0]) + 4
      ensures off[1..] == old(off[1..])
    {
      var o := off[0];
      Encode32Bytes(val);
      buf[o] := val % 0x100;
      buf[o + 1] := (val / 0x100) % 0x100;
      buf[o + 2] := (val / 0x1_0000) % 0x100;
      buf[o + 3] := val / 0x100_0000;
      off[0] := o + 4;
    }
  }
}

=== FILE: whitespace.dfy ===
/** src/tokens/Whitespace.js: a run of spaces, tabs and newlines. */
module Whitespace {
  import opened Wrappers
  import opened Lexing
  import opened WhitespaceComments

  predicate IsBlank(c: char) {
    c == ' ' || c == '\t' || c == '\n'
  }

  /** A text a whitespace token can cover: one or more blank characters. */
  predicate IsBlankText(t: string) {
    |t| > 0 && forall i :: 0 <= i < |t| ==> IsBlank(t[i])
  }

  /** The length of the `/^[ \t\n]+/` match: every blank character at the start of the text. */
  function BlankRun(s: string): (n: nat)
    ensures n <= |s|
  {
    if s != [] && IsBlank(s[0]) then 1 + BlankRun(s[1..]) else 0
  }

  /** The run is all blank, and no blank follows it. */
  lemma {:induction false} BlankRunMaximal(s: string)
    ensures forall i :: 0 <= i < BlankRun(s) ==> IsBlank(s[i])
    ensures BlankRun(s) < |s| ==> !IsBlank(s[BlankRun(s)])
  {
    if s != [] && IsBlank(s[0]) {
      BlankRunMaximal(s[1..]);
    }
  }

  /** `eat`: the maximal non-empty blank run, or nothing when the text does not start with a blank. */
  method Eat(lexer: Lexer) returns (r: Option<string>)
    requires lexer.Valid()
    modifies lexer
    ensures lexer.Valid()
    ensures r.None? <==> old(lexer.content) == [] || !IsBlank(old(lexer.content)[0])
    ensures r.None? ==> lexer.position == old(lexer.position)
    ensures r.Some? ==> (r.value == old(lexer.content)[..BlankRun(old(lexer.content))] &&
      lexer.position == old(lexer.position) + |r.value|)
  {
    r := lexer.EatMatch(BlankRun);
  }

  /**
   * `tokenize`: a finalized token holding the run, or null with nothing consumed.
   * The token covers exactly the run, and it has a newline iff the run does.
   */
  method Tokenize(lexer: Lexer) returns (r: WhitespaceComment?)
    requires lexer.Valid()
    modifies lexer
    ensures lexer.Valid()
    ensures r == null <==> old(lexer.content) == [] || !IsBlank(old(lexer.content)[0])
    ensures r == null ==> lexer.position == old(lexer.position)
    ensures r != null ==> (fresh(r) && fresh(r.token) && r.Valid() && !r.isSingleline &&
      r.token.lexer == lexer && r.token.start == old(lexer.position) && r.token.end == lexer.position &&
      lexer.position > old(lexer.position) &&
      r.content == lexer.backup[old(lexer.position)..lexer.position] &&
      IsBlankText(r.content) &&
      (lexer.content == [] || !IsBlank(lexer.content[0])))
    ensures lexer.position == old(lexer.position) + BlankRun(old(lexer.content))
  {
    var token := new WhitespaceComment(lexer);
    var content := Eat(lexer);
    if content.None? {
      return null;
    }
    BlankRunMaximal(old(lexer.content));
    token.SetContent(content.value);
    var finalized := token.token.Finalize();
    return token;
  }
}

=== FILE: whitespace_comment.dfy ===
/**
 * src/tokens/WhitespaceComment.js: the common base of whitespace and comment
 * tokens. Setting `content` also records whether it holds a newline.
 */
module WhitespaceComments {
  import opened Lexing
  import opened Tokens

  class WhitespaceComment {
    const token: Token
    /** `_content`, read through the `content` getter. */
    var content: string
    var gotNewline: bool
    /** Set by Comment only: the `//` form matched. */
    var isSingleline: bool

    /** `gotNewline` always agrees with the content. */
    ghost predicate Valid()
      reads this
    {
      gotNewline == ('\n' in content)
    }

    /** Starts with empty content and no newline, its token at the lexer's position. */
    constructor (lexer: Lexer)
      ensures fresh(token) && token.lexer == lexer
      ensures token.start == lexer.position && token.end == lexer.position
      ensures content == "" && !gotNewline && !isSingleline
      ensures Valid()
    {
      token := new Token(lexer);
      content := "";
      gotNewline := false;
      isSingleline := false;
    }

    /** The `content` getter: the value last set, whose newlines `gotNewline` reports. */
    function Content(): (c: string)
      reads this
      requires Valid()
      ensures gotNewline <==> '\n' in c
    {
      content
    }

    /** The `content` setter: changes `_content` and `gotNewline` and nothing else. */
    method SetContent(c: string)
      modifies this`content, this`gotNewline
      ensures content == c && gotNewline == ('\n' in c)
      ensures Valid()
    {
      content := c;
      gotNewline := '\n' in content;
    }
  }
}

=== FILE: whitespace_comment_collection.dfy ===
/** src/WhitespaceCommentCollection.js: the whitespace and comment tokens skipped in one go. */
module WhitespaceCommentCollections {
  import opened WhitespaceComments

  class WhitespaceCommentCollection {
    var collection: seq<WhitespaceComment>

    constructor ()
      ensures collection == []
    {
      collection := [];
    }

    /** `isEmpty`: nothing has been pushed; an empty collection reports no newline. */
    function IsEmpty(): (r: bool)
      reads this
      ensures r <==> |collection| == 0
      ensures r ==> !GotNewline()
    {
      |collection| == 0
    }

    /** `gotNewline`: some collected token has a newline. */
    function GotNewline(): (r: bool)
      reads this, collection
    {
      exists k :: 0 <= k < |collection| && collection[k].gotNewline
    }

    /** `push` appends at the end; `gotNewline` can only become true. */
    method Push(token: WhitespaceComment)
      modifies this
      ensures collection == old(collection) + [token]
      ensures !IsEmpty()
      ensures GotNewline() <==> old(GotNewline()) || token.gotNewline
    {
      collection := collection + [token];
      assert collection[|collection| - 1] == token;
      if old(GotNewline()) {
        var k :| 0 <= k < |old(collection)| && old(collection)[k].gotNewline;
        assert collection[k] == old(collection)[k];
      }
    }
  }
}

=== FILE: wrappers.dfy ===
/** Failure-carrying results shared by every module of the model. */
module Wrappers {

  datatype Option<+T> = None | Some(value: T)

  datatype Result<+T, +E> = Success(value: T) | Failure(error: E)
}

=== FILE: x86.dfy ===
/**
 * src/arch/x86.js: the register classes in encoding order, the architecture
 * details and the mnemonic table. Each table key is a mnemonic with its
 * operand size (`add.32`); each scheme is an opcode and its operand kinds. The
 * opcode text of the source (`66 81 /0`) is held parsed: its bytes and the
 * ModRM extension digit written after a slash.
 */
module X86 {
  import opened Wrappers
  import opened LittleEndian

  const R32: seq<string> := ["eax", "ecx", "edx", "ebx", "esp", "ebp", "esi", "edi"]
  const R16: seq<string> := ["ax", "cx", "dx", "bx", "sp", "bp", "si", "di"]
  const R8: seq<string> := ["al", "cl", "dl", "bl", "ah", "ch", "dh", "bh"]
  const Sreg: seq<string> := ["es", "cs", "ss", "ds", "fs", "gs"]

  /** `details`: the name and word size; the table has no list of operand sizes. */
  datatype Details = Details(name: string, bits: nat)

  const X86Details: Details := Details("x86", 32)

  /** One encoding: opcode bytes, the optional `/digit` and the operand kinds in order. */
  datatype Scheme = Scheme(opcode: seq<Byte>, digit: Option<nat>, args: seq<string>)

  const Add8: seq<Scheme> := [
    Scheme([0x00], None, ["r/m8", "r8"]),
    Scheme([0x02], None, ["r8", "r/m8"]),
    Scheme([0x04], None, ["al", "imm8"]),
    Scheme([0x80], Some(0), ["r/m8", "imm8"])
  ]
  const Add16: seq<Scheme> := [
    Scheme([0x66, 0x01], None, ["r/m16", "r16"]),
    Scheme([0x66, 0x03], None, ["r16", "r/m16"]),
    Scheme([0x66, 0x05], None, ["ax", "imm16"]),
    Scheme([0x66, 0x81], Some(0), ["r/m16", "imm16"]),
    Scheme([0x66, 0x83], Some(0), ["r/m16", "imm8"])
  ]
  const Add32: seq<Scheme> := [
    Scheme([0x01], None, ["r/m32", "r32"]),
    Scheme([0x03], None, ["r32", "r/m32"]),
    Scheme([0x05], None, ["eax", "imm32"]),
    Scheme([0x81], Some(0), ["r/m32", "imm32"]),
    Scheme([0x83], Some(0), ["r/m32", "imm8"])
  ]
  const And8: seq<Scheme> := [
    Scheme([0x20], None, ["r/m8", "r8"]),
    Scheme([0x22], None, ["r8", "r/m8"]),
    Scheme([0x24], None, ["al", "imm8"]),
    Scheme([0x80], Some(4), ["r/m8", "imm8"])
  ]
  const And16: seq<Scheme> := [
    Scheme([0x66, 0x21], None, ["r/m16", "r16"]),
    Scheme([0x66, 0x23], None, ["r16", "r/m16"]),
    Scheme([0x66, 0x25], None, ["ax", "imm16"]),
    Scheme([0x66, 0x81], Some(4), ["r/m16", "imm16"]),
    Scheme([0x66, 0x83], Some(4), ["r/m16", "imm8"])
  ]
  const And32: seq<Scheme> := [
    Scheme([0x21], None, ["r/m32", "r32"]),
    Scheme([0x23], None, ["r32", "r/m32"]),
    Scheme([0x25], None, ["eax", "imm32"]),
    Scheme([0x81], Some(4), ["r/m32", "imm32"]),
    Scheme([0x83], Some(4), ["r/m32", "imm8"])
  ]
  const Cmp8: seq<Scheme> := [
    Scheme([0x38], None, ["r/m8", "r8"]),
    Scheme([0x3a], None, ["r8", "r/m8"]),
    Scheme([0x3c], None, ["al", "imm8"]),
    Scheme([0x80], Some(7), ["r/m8", "imm8"])
  ]
  const Cmp16: seq<Scheme> := [
    Scheme([0x66, 0x39], None, ["r/m16", "r16"]),
    Scheme([0x66, 0x3b], None, ["r16", "r/m16"]),
    Scheme([0x66, 0x3d], None, ["ax", "imm16"]),
    Scheme([0x66, 0x81], Some(7), ["r/m16", "imm16"]),
    Scheme([0x66, 0x83], Some(7), ["r/m16", "imm8"])
  ]
  const Cmp32: seq<Scheme> := [
    Scheme([0x39], None, ["r/m32", "r32"]),
    Scheme([0x3b], None, ["r32", "r/m32"]),
    Scheme([0x3d], None, ["eax", "imm32"]),
    Scheme([0x81], Some(7), ["r/m32", "imm32"]),
    Scheme([0x83], Some(7), ["r/m32", "imm8"])
  ]
  const Neg8: seq<Scheme> := [
    Scheme([0xf6], Some(3), ["r/m8"])
  ]
  const Neg16: seq<Scheme> := [
    Scheme([0x66, 0xf7], Some(3), ["r/m16"])
  ]
  const Neg32: seq<Scheme> := [
    Scheme([0xf7], Some(3), ["r/m32"])
  ]
  const Not8: seq<Scheme> := [
    Scheme([0xf6], Some(2), ["r/m8"])
  ]
  const Not16: seq<Scheme> := [
    Scheme([0x66, 0xf7], Some(2), ["r/m16"])
  ]
  const Not32: seq<Scheme> := [
    Scheme([0xf7], Some(2), ["r/m32"])
  ]
  const Or8: seq<Scheme> := [
    Scheme([0x08], None, ["r/m8", "r8"]),
    Scheme([0x0a], None, ["r8", "r/m8"]),
    Scheme([0x0c], None, ["al", "imm8"]),
    Scheme([0x80], Some(1), ["r/m8", "imm8"])
  ]
  const Or16: seq<Scheme> := [
    Scheme([0x66, 0x09], None, ["r/m16", "r16"]),
    Scheme([0x66, 0x0b], None, ["r16", "r/m16"]),
    Scheme([0x66, 0x0d], None, ["ax", "imm16"]),
    Scheme([0x66, 0x81], Some(1), ["r/m16", "imm16"]),
    Scheme([0x66, 0x83], Some(1), ["r/m16", "imm8"])
  ]
  const Or32: seq<Scheme> := [
    Scheme([0x09], None, ["r/m32", "r32"]),
    Scheme([0x0b], None, ["r32", "r/m32"]),
    Scheme([0x0d], None, ["eax", "imm32"]),
    Scheme([0x81], Some(1), ["r/m32", "imm32"]),
    Scheme([0x83], Some(1), ["r/m32", "imm8"])
  ]
  const Int: seq<Scheme> := [
    Scheme([0xcc], None, ["3"]),
    Scheme([0xcd], None, ["imm8"])
  ]
  const Iret: seq<Scheme> := [
    Scheme([0xcf], None, [])
  ]
  const Sub8: seq<Scheme> := [
    Scheme([0x28], None, ["r/m8", "r8"]),
    Scheme([0x2a], None, ["r8", "r/m8"]),
    Scheme([0x2c], None, ["al", "imm8"]),
    Scheme([0x80], Some(5), ["r/m8", "imm8"])
  ]
  const Sub16: seq<Scheme> := [
    Scheme([0x66, 0x29], None, ["r/m16", "r16"]),
    Scheme([0x66, 0x2b], None, ["r16", "r/m16"]),
    Scheme([0x66, 0x2d], None, ["ax", "imm16"]),
    Scheme([0x66, 0x81], Some(5), ["r/m16", "imm16"]),
    Scheme([0x66, 0x83], Some(5), ["r/m16", "imm8"])
  ]
  const Sub32: seq<Scheme> := [
    Scheme([0x29], None, ["r/m32", "r32"]),
    Scheme([0x2b], None, ["r32", "r/m32"]),
    Scheme([0x2d], None, ["eax", "imm32"]),
    Scheme([0x81], Some(5), ["r/m32", "imm32"]),
    Scheme([0x83], Some(5), ["r/m32", "imm8"])
  ]
  const Xor8: seq<Scheme> := [
    Scheme([0x30], None, ["r/m8", "r8"]),
    Scheme([0x32], None, ["r8", "r/m8"]),
    Scheme([0x34], None, ["al", "imm8"]),
    Scheme([0x80], Some(6), ["r/m8", "imm8"])
  ]
  const Xor16: seq<Scheme> := [
    Scheme([0x66, 0x31], None, ["r/m16", "r16"]),
    Scheme([0x66, 0x33], None, ["r16", "r/m16"]),
    Scheme([0x66, 0x35], None, ["ax", "imm16"]),
    Scheme([0x66, 0x81], Some(6), ["r/m16", "imm16"]),
    Scheme([0x66, 0x83], Some(6), ["r/m16", "imm8"])
  ]
  const Xor32: seq<Scheme> := [
    Scheme([0x31], None, ["r/m32", "r32"]),
    Scheme([0x33], None, ["r32", "r/m32"]),
    Scheme([0x35], None, ["eax", "imm32"]),
    Scheme([0x81], Some(6), ["r/m32", "imm32"]),
    Scheme([0x83], Some(6), ["r/m32", "imm8"])
  ]
  const Call16: seq<Scheme> := [
    Scheme([0x66, 0xe8], None, ["rel16"]),
    Scheme([0x67, 0xff], Some(2), ["r/m16"])
  ]
  const Call32: seq<Scheme> := [
    Scheme([0xe8], None, ["rel32"]),
    Scheme([0xff], Some(2), ["r/m32"])
  ]
  const Callf16: seq<Scheme> := [
    Scheme([0x66, 0x9a], None, ["ptr16:16"]),
    Scheme([0x67, 0xff], Some(3), ["m16:16"])
  ]
  const Callf32: seq<Scheme> := [
    Scheme([0x9a], None, ["ptr16:32"]),
    Scheme([0xff], Some(3), ["m16:32"])
  ]
  const Jmp8: seq<Scheme> := [
    Scheme([0xeb], None, ["rel8"])
  ]
  const Jmp16: seq<Scheme> := [
    Scheme([0x66, 0xe9], None, ["rel16"]),
    Scheme([0x67, 0xff], Some(4), ["r/m16"])
  ]
  const Jmp32: seq<Scheme> := [
    Scheme([0xe9], None, ["rel32"]),
    Scheme([0xff], Some(4), ["r/m32"])
  ]
  const Jmpf16: seq<Scheme> := [
    Scheme([0x66, 0xea], None, ["ptr16:16"]),
    Scheme([0x67, 0xff], Some(5), ["m16:16"])
  ]
  const Jmpf32: seq<Scheme> := [
    Scheme([0xea], None, ["ptr16:32"]),
    Scheme([0xff], Some(5), ["m16:32"])
  ]
  const Pushf16: seq<Scheme> := [
    Scheme([0x66, 0x9c], None, [])
  ]
  const Pushf32: seq<Scheme> := [
    Scheme([0x9c], None, [])
  ]
  const Popf16: seq<Scheme> := [
    Scheme([0x66, 0x9d], None, [])
  ]
  const Popf32: seq<Scheme> := [
    Scheme([0x9d], None, [])
  ]
  const Push8: seq<Scheme> := [
    Scheme([0x6a], None, ["imm8"])
  ]
  const Push16: seq<Scheme> := [
    Scheme([0x06], None, ["es"]),
    Scheme([0x0e], None, ["cs"]),
    Scheme([0x0f, 0xa0], None, ["fs"]),
    Scheme([0x0f, 0xa8], None, ["gs"]),
    Scheme([0x16], None, ["ss"]),
    Scheme([0x1e], None, ["ds"]),
    Scheme([0x66, 0x50], None, ["ax"]),
    Scheme([0x66, 0x51], None, ["cx"]),
    Scheme([0x66, 0x52], None, ["dx"]),
    Scheme([0x66, 0x53], None, ["bx"]),
    Scheme([0x66, 0x54], None, ["sp"]),
    Scheme([0x66, 0x55], None, ["bp"]),
    Scheme([0x66, 0x56], None, ["si"]),
    Scheme([0x66, 0x57], None, ["di"]),
    Scheme([0x66, 0x68], None, ["imm16"]),
    Scheme([0x66, 0xff], Some(6), ["r/m16"])
  ]
  const Push32: seq<Scheme> := [
    Scheme([0x50], None, ["eax"]),
    Scheme([0x51], None, ["ecx"]),
    Scheme([0x52], None, ["edx"]),
    Scheme([0x53], None, ["ebx"]),
    Scheme([0x54], None, ["esp"]),
    Scheme([0x55], None, ["ebp"]),
    Scheme([0x56], None, ["esi"]),
    Scheme([0x57], None, ["edi"]),
    Scheme([0x68], None, ["imm32"]),
    Scheme([0xff], Some(6), ["r/m32"])
  ]

  /** The mnemonic table: each key, a mnemonic with its operand size, and its schemes in order. */
  const Mnemo: map<string, seq<Scheme>> := map[
    "add.8" := Add8,
    "add.16" := Add16,
    "add.32" := Add32,
    "and.8" := And8,
    "and.16" := And16,
    "and.32" := And32,
    "cmp.8" := Cmp8,
    "cmp.16" := Cmp16,
    "cmp.32" := Cmp32,
    "neg.8" := Neg8,
    "neg.16" := Neg16,
    "neg.32" := Neg32,
    "not.8" := Not8,
    "not.16" := Not16,
    "not.32" := Not32,
    "or.8" := Or8,
    "or.16" := Or16,
    "or.32" := Or32,
    "int" := Int,
    "iret" := Iret,
    "sub.8" := Sub8,
    "sub.16" := Sub16,
    "sub.32" := Sub32,
    "xor.8" := Xor8,
    "xor.16" := Xor16,
    "xor.32" := Xor32,
    "call.16" := Call16,
    "call.32" := Call32,
    "callf.16" := Callf16,
    "callf.32" := Callf32,
    "jmp.8" := Jmp8,
    "jmp.16" := Jmp16,
    "jmp.32" := Jmp32,
    "jmpf.16" := Jmpf16,
    "jmpf.32" := Jmpf32,
    "pushf.16" := Pushf16,
    "pushf.32" := Pushf32,
    "popf.16" := Popf16,
    "popf.32" := Popf32,
    "push.8" := Push8,
    "push.16" := Push16,
    "push.32" := Push32
  ]

  predicate Distinct(names: seq<string>) {
    forall i, j :: 0 <= i < j < |names| ==> names[i] != names[j]
  }

  /** Each general register class lists 8 distinct names, the segment registers 6. */
  lemma RegisterClasses()
    ensures |R32| == 8 && |R16| == 8 && |R8| == 8 && |Sreg| == 6
    ensures Distinct(R32) && Distinct(R16) && Distinct(R8) && Distinct(Sreg)
  {
  }

  /** `push.32` of the i-th 32-bit register is 50+i; `push.16` of the i-th 16-bit register is 66 then 50+i. */
  lemma PushRegisterOpcodes()
    ensures |Push32| == 10 && |Push16| == 16
    ensures forall i :: 0 <= i < 8 ==> Push32[i] == Scheme([0x50 + i], None, [R32[i]])
    ensures forall i :: 0 <= i < 8 ==> Push16[6 + i] == Scheme([0x66, 0x50 + i], None, [R16[i]])
  {
  }

  /** The group-1 immediate forms: the opcode, after an optional 66 prefix, is 80, 81 or 83. */
  predicate GroupOne(s: Scheme) {
    s.opcode != [] && (s.opcode == [s.opcode[0]] || s.opcode[..1] == [0x66]) &&
    s.opcode[|s.opcode| - 1] in {0x80, 0x81, 0x83}
  }

  /**
   * In the list exactly the group-1 forms carry an extension digit, that digit
   * is d, and the last scheme is one of them.
   */
  predicate GroupDigit(schemes: seq<Scheme>, d: nat) {
    schemes != [] && GroupOne(schemes[|schemes| - 1]) &&
    forall k :: 0 <= k < |schemes| ==>
      (schemes[k].digit.Some? <==> GroupOne(schemes[k])) &&
      (schemes[k].digit.Some? ==> schemes[k].digit.value == d)
  }

  /** A group-3 list: one scheme, the opcode ending in `op`, with extension digit d. */
  predicate GroupThree(schemes: seq<Scheme>, op: Byte, d: nat) {
    |schemes| == 1 && schemes[0].opcode != [] &&
    schemes[0].opcode[|schemes[0].opcode| - 1] == op && schemes[0].digit == Some(d)
  }

  // The group-1 immediate forms (one in each 8-bit list, the 81 and 83 forms in
  // the 16- and 32-bit lists) carry add=/0, or=/1, and=/4, sub=/5, xor=/6, cmp=/7.

  /** The group-1 forms of `add` carry /0. */
  lemma AddExtension()
    ensures GroupDigit(Add8, 0)
    ensures GroupDigit(Add16, 0)
    ensures GroupDigit(Add32, 0)
  {
  }

  /** The group-1 forms of `or` carry /1. */
  lemma OrExtension()
    ensures GroupDigit(Or8, 1)
    ensures GroupDigit(Or16, 1)
    ensures GroupDigit(Or32, 1)
  {
  }

  /** The group-1 forms of `and` carry /4. */
  lemma AndExtension()
    ensures GroupDigit(And8, 4)
    ensures GroupDigit(And16, 4)
    ensures GroupDigit(And32, 4)
  {
  }

  /** The group-1 forms of `sub` carry /5. */
  lemma SubExtension()
    ensures GroupDigit(Sub8, 5)
    ensures GroupDigit(Sub16, 5)
    ensures GroupDigit(Sub32, 5)
  {
  }

  /** The group-1 forms of `xor` carry /6. */
  lemma XorExtension()
    ensures GroupDigit(Xor8, 6)
    ensures GroupDigit(Xor16, 6)
    ensures GroupDigit(Xor32, 6)
  {
  }

  /** The group-1 forms of `cmp` carry /7. */
  lemma CmpExtension()
    ensures GroupDigit(Cmp8, 7)
    ensures GroupDigit(Cmp16, 7)
    ensures GroupDigit(Cmp32, 7)
  {
  }

  /** The group-3 forms F6/F7 carry not=/2 and neg=/3. */
  lemma GroupThreeExtensions()
    ensures GroupThree(Not8, 0xf6, 2) && GroupThree(Not16, 0xf7, 2) && GroupThree(Not32, 0xf7, 2)
    ensures GroupThree(Neg8, 0xf6, 3) && GroupThree(Neg16, 0xf7, 3) && GroupThree(Neg32, 0xf7, 3)
  {
  }

  /** The 16-bit list is the 32-bit one with a 66 prefix on every opcode, digits and arities unchanged. */
  predicate Prefixed(l16: seq<Scheme>, l32: seq<Scheme>) {
    |l16| == |l32| &&
    forall k :: 0 <= k < |l32| ==>
      l16[k].opcode == [0x66] + l32[k].opcode && l16[k].digit == l32[k].digit &&
      |l16[k].args| == |l32[k].args|
  }

  // Every `.16` ALU, neg and not scheme is its `.32` counterpart behind the operand-size prefix 66.

  lemma AddOperandSize()
    ensures Prefixed(Add16, Add32)
  {
  }

  lemma AndOperandSize()
    ensures Prefixed(And16, And32)
  {
  }

  lemma CmpOperandSize()
    ensures Prefixed(Cmp16, Cmp32)
  {
  }

  lemma OrOperandSize()
    ensures Prefixed(Or16, Or32)
  {
  }

  lemma SubOperandSize()
    ensures Prefixed(Sub16, Sub32)
  {
  }

  lemma XorOperandSize()
    ensures Prefixed(Xor16, Xor32)
  {
  }

  lemma NegOperandSize()
    ensures Prefixed(Neg16, Neg32)
  {
  }

  lemma NotOperandSize()
    ensures Prefixed(Not16, Not32)
  {
  }

  /** Every scheme of the list takes at most two operands, and none exactly when `none` holds. */
  predicate Arities(schemes: seq<Scheme>, none: bool) {
    forall k :: 0 <= k < |schemes| ==> |schemes[k].args| <= 2 && (|schemes[k].args| == 0 <==> none)
  }

  // Every scheme takes at most two operands, and none exactly under `iret`,
  // `pushf.*` and `popf.*`; stated list by list over the whole table.

  lemma OperandCounts1()
    ensures Arities(Add8, false)
    ensures Arities(Add16, false)
    ensures Arities(Add32, false)
    ensures Arities(And8, false)
    ensures Arities(And16, false)
    ensures Arities(And32, false)
    ensures Arities(Cmp8, false)
    ensures Arities(Cmp16, false)
    ensures Arities(Cmp32, false)
    ensures Arities(Neg8, false)
    ensures Arities(Neg16, false)
  {
  }

  lemma OperandCounts2()
    ensures Arities(Neg32, false)
    ensures Arities(Not8, false)
    ensures Arities(Not16, false)
    ensures Arities(Not32, false)
    ensures Arities(Or8, false)
    ensures Arities(Or16, false)
    ensures Arities(Or32, false)
    ensures Arities(Int, false)
    ensures Arities(Iret, true)
    ensures Arities(Sub8, false)
    ensures Arities(Sub16, false)
  {
  }

  lemma OperandCounts3()
    ensures Arities(Sub32, false)
    ensures Arities(Xor8, false)
    ensures Arities(Xor16, false)
    ensures Arities(Xor32, false)
    ensures Arities(Call16, false)
    ensures Arities(Call32, false)
    ensures Arities(Callf16, false)
    ensures Arities(Callf32, false)
    ensures Arities(Jmp8, false)
    ensures Arities(Jmp16, false)
    ensures Arities(Jmp32, false)
  {
  }

  lemma OperandCounts4()
    ensures Arities(Jmpf16, false)
    ensures Arities(Jmpf32, false)
    ensures Arities(Pushf16, true)
    ensures Arities(Pushf32, true)
    ensures Arities(Popf16, true)
    ensures Arities(Popf32, true)
    ensures Arities(Push8, false)
    ensures Arities(Push16, false)
    ensures Arities(Push32, false)
  {
  }

  /** `int` lists the literal-3 form (CC) before the imm8 form (CD). */
  lemma IntEntry()
    ensures "int" in Mnemo && Mnemo["int"] == Int
    ensures Int == [Scheme([0xcc], None, ["3"]), Scheme([0xcd], None, ["imm8"])]
  {
  }

  /** The operand sizes the table's keys use. */
  const OperandSizes: seq<string> := ["8", "16", "32"]

  /** There is no sized `int` key for any operand size of the table. */
  lemma NoSizedInt(size: string)
    requires size in OperandSizes
    ensures "int." + size !in Mnemo
  {
    if size == "8" {
      assert "int." + size == "int.8";
      NoInt8();
    } else if size == "16" {
      assert "int." + size == "int.16";
      NoInt16();
    } else {
      assert "int." + size == "int.32";
      NoInt32();
    }
  }

  lemma NoInt8()
    ensures "int.8" !in Mnemo
  {
  }

  lemma NoInt16()
    ensures "int.16" !in Mnemo
  {
  }

  lemma NoInt32()
    ensures "int.32" !in Mnemo
  {
  }
}
